=== FILE: README.md ===
# BgpCreator core, modelled in Dafny

BgpCreator builds a static game website from a settings module, a directory of HTML
content, a directory of game pages and a static directory. This project models its
deterministic core: the decisions, paths, URLs and text it produces. Each Python
module of `core/` is one Dafny module here:

- `BuildCache` (`core/build_cache.py`) is the incremental-build change tracker. It
  keeps fingerprints of paths, categories of tracked paths and a registry of
  processed images.
- `Orchestrator` (`core/generator_refactored.py`) covers the stages `generate_site`
  runs for the change flags, the file tracking it sets up and the content file
  each page reads.
- `AssetManager` (`core/asset_manager.py`) plans the static copy: batches, targets,
  the root allow-list, the "needs copy" rule, copy outcomes and counters.
- `UrlUtils` (`core/url_utils.py`) builds canonical, relative, Open Graph and asset
  URLs.
- `PageBuilder` (`core/page_builder.py`) covers output paths, image paths, the
  asset-link rewrite, atomic page writes and the games listing.
- `SiteCrawler` (`core/site_crawler.py`) maps files to URLs, validates links and
  assets, writes sitemap entries and gives the build verdict.
- `GameManager` (`core/game_manager.py`) scans game pages, extracts titles and
  metadata, derives ratings and chooses games for the widgets.
- `SeoManager` (`core/seo_manager.py`) builds sitemap entries, PWA icon and
  screenshot lists, breadcrumbs and the software-application rating.
- `LegacyGenerator` (`core/generator.py`) covers the original generator's page
  placement and URLs, ratings, widget, static-file mapping, stylesheet rewrite and
  sitemap.
- `SiteConfig` (`core/config.py`) covers site URL normalisation, breadcrumbs, the
  FAQ schema, page configuration and the game schema rating.
- `SiteLoader` (`core/site_loader.py`) validates site names, loads settings and
  selects source and output directories.
- `Optimizer` (`core/optimizer.py`) holds the naming and size arithmetic of the
  image optimiser.
- `ColorPalettes` (`core/color_palettes.py`) covers palette lookup and CSS-variable
  generation, with a parser that reads the generated block back.

Shared helpers: `Wrappers` (Option and Result), `Strings` (the Python `str` methods
used, lexicographic order and sorting) and `Paths` (`os.path` helpers, an abstract
file system and glob matching).

The file system is a map from path to node plus the walk order, which the source
leaves to the operating system. Content hashes, `urljoin`, `os.path.normpath`,
`Path.resolve`, JSON decoding, template rendering and `random.sample` enter as
parameters. Errors the source raises are `Result` values.

The model keeps the source's inconsistencies where they are part of its behaviour:

- `page_builder` writes flat `games/<slug>.html` files, while the sitemap and the
  widgets link `games/<slug>/`.
- The image optimiser never registers the images it processes, so only the asset
  manager reads the registry.
- The two configuration managers write the empty breadcrumb differently.

## Model

| member | source | states |
|---|---|---|
| `Strings.LStrip` | core/url_utils.py:22 | The result is a suffix of the input, does not start with the stripped character, and only that character was removed. |
| `Strings.RStrip` | core/url_utils.py:22 | The result is a prefix of the input, does not end with the stripped character, and only that character was removed. |
| `Strings.StripSpace` | core/game_manager.py:76-83 | The result neither starts nor ends with whitespace and is no longer than the input. |
| `Strings.StripSpaceIsInfix` | core/game_manager.py:76-83 | The result is a contiguous run of the input with only whitespace before and after it, so exactly the outer whitespace is removed. |
| `Strings.Lower` | core/site_loader.py:31 | Same length as the input, each character lower-cased on its own (ASCII only, see Left out). |
| `Strings.TitleIdempotent` | core/game_manager.py:83 | Title-casing a second time changes nothing. |
| `Strings.TitleKeepsLetters` | core/game_manager.py:83 | Title-casing only changes the case of letters. |
| `Strings.Find` | core/config.py:208 | The index found is an occurrence with none before it, and there is none exactly when the pattern does not occur. |
| `Strings.Sorted` | core/game_manager.py:40-44 | Python `sorted` of a set of names: strictly increasing, with exactly the same elements. |
| `Paths.Basename` | core/asset_manager.py:200-208 | The base name holds no slash, ends the path, and follows a slash when shorter than the path. |
| `Paths.Ext` | core/game_manager.py:40-44 | The extension is empty or starts with a dot, ends the path and holds no slash. |
| `Paths.ExtIsLastDot` | core/game_manager.py:40-44 | The extension is the base name from its last dot, and it is non-empty exactly when some dot of the base name follows a character other than a dot. |
| `Paths.Stem` | core/game_manager.py:44 | The stem followed by the extension gives the path back. |
| `Paths.ChildRel` | core/asset_manager.py:200-205 | A name joined below a directory lies below it, with that name as its relative path. |
| `Paths.Glob` | core/build_cache.py:130-133 | The results are exactly the walked paths the pattern matches below the directory. |
| `Paths.WalkFiles` | core/build_cache.py:124-128 | The results are exactly the regular files below the directory, in walk order. |
| `UrlUtils.SiteUrl` | core/url_utils.py:14-22 | The site URL ends in exactly one slash and extends the raw URL with its slashes stripped. |
| `UrlUtils.EndsWithAnyMeans` | core/url_utils.py:157-182 | A path is a file resource exactly when one of the listed extensions ends it. |
| `UrlUtils.FileResourceAfterSlash` | core/url_utils.py:157-182 | Whether a path is a file resource depends only on the text after its last slash. |
| `UrlUtils.CanonicalUrl` | core/url_utils.py:24-53 | The empty path, `/`, `index` and `index.html` give the site URL; any other path gives a URL that ends in a slash unless it names a file resource. |
| `UrlUtils.CanonicalUrlJoins` | core/url_utils.py:39-53 | Any other path gives the site URL joined with the path (one `.html` and the leading slashes dropped), with at most a slash added. |
| `UrlUtils.CanonicalIgnoresSuffix` | core/url_utils.py:39-44 | A trailing `.html` does not change the canonical URL. |
| `UrlUtils.CanonicalIgnoresRoot` | core/url_utils.py:39-44 | A leading slash does not change the canonical URL. |
| `UrlUtils.RelativeUrl` | core/url_utils.py:55-81 | The result is rooted; the home paths give `/`; any other result ends in a slash unless it names a file resource. |
| `UrlUtils.RelativeUrlRoots` | core/url_utils.py:69-81 | Any path but the home ones gives the path with one `.html` dropped, rooted, with at most a slash added. |
| `UrlUtils.PlainNameUrls` | core/url_utils.py:24-81 | A page name such as `games/golf`, and its `.html` form, has the relative URL `/games/golf/` and the canonical URL `<site>games/golf/`. |
| `UrlUtils.CanonicalMatchesRelative` | core/url_utils.py:24-81 | With `urljoin` concatenating, a page's canonical URL is the site URL followed by its relative URL without the leading slash. |
| `UrlUtils.OgImageUrl` | core/url_utils.py:83-105 | Absolute and protocol-relative image URLs are returned unchanged. |
| `UrlUtils.OgImageUnderSite` | core/url_utils.py:83-105 | A site-relative image ends up under the site URL and adds no characters. |
| `UrlUtils.NormalizeAssetPath` | core/url_utils.py:129-155 | `img/`, `/img/`, `css/` and `js/` move under `/assets/`; other paths are rooted unless rooted or external already. |
| `UrlUtils.NormalizeIdempotent` | core/url_utils.py:129-155 | Normalising an asset path twice is normalising it once. |
| `UrlUtils.CleanDoubleSlashes` | core/url_utils.py:183-201 | The result is never longer, keeps everything up to the first `://`, and leaves a URL without `//` unchanged. |
| `UrlUtils.CleanKeepsWellFormedUrl` | core/url_utils.py:183-201 | A URL whose only `//` is the scheme separator is left unchanged. |
| `UrlUtils.SitemapEntry` | core/url_utils.py:107-127 | An entry's location is the page's canonical URL, with the priority and change frequency given. |
| `SiteCrawler.NewCrawler` | core/site_crawler.py:18-31 | A new crawler has found nothing yet and has a site URL with one trailing slash. |
| `SiteCrawler.FileToUrl` | core/site_crawler.py:85-114 | A file has a URL exactly when its normalised path ends in `.html` and is not `404.html` or `offline.html`; every URL is rooted. |
| `SiteCrawler.PlainHtmlUrl` | core/site_crawler.py:95-112 | A `.html` file other than an index, `404.html` or `offline.html` is discovered at `/` followed by its path. |
| `SiteCrawler.DirectoryIndexUrl` | core/site_crawler.py:103-108 | `d/index.html` gets the clean URL `/d/`. |
| `SiteCrawler.DiscoverPages` | core/site_crawler.py:69-83 | The pages discovered are exactly the URLs of the discoverable files. |
| `SiteCrawler.DirectoryIndexDiscovered` | core/site_crawler.py:69-114 | Every directory index in a visible directory is discovered under its clean URL. |
| `SiteCrawler.PageFile` | core/site_crawler.py:128-141 | The file found for a page is present and is its directory index or `<url stripped>.html`. |
| `SiteCrawler.LegacyPageNotFound` | core/site_crawler.py:128-141 | A legacy page discovered as `/about.html` is not found by the lookup when only `about.html` exists. |
| `SiteCrawler.LegacyPageFound` | core/site_crawler.py:128-141 | With the corrected lookup, every legacy page's file is found under its own name. |
| `SiteCrawler.StripQuery` | core/site_crawler.py:264 | The stripped URL holds no `?` or `#`, starts the URL, and is the URL itself when it had neither. |
| `SiteCrawler.StripQueryOf` | core/site_crawler.py:264 | A query or fragment after a plain URL is dropped. |
| `SiteCrawler.UrlExists` | core/site_crawler.py:253-288 | A URL exists when it, or it with a slash added, is a discovered page. |
| `SiteCrawler.FileFallbackMeans` | core/site_crawler.py:275-288 | The file checks succeed exactly when one of the candidate files exists. |
| `SiteCrawler.QueryDoesNotBreakLink` | core/site_crawler.py:253-288 | A link to a discovered page exists whatever query or fragment it carries. |
| `SiteCrawler.ValidateLink` | core/site_crawler.py:184-217 | A link raises `ValueError` exactly when `urlparse` or `urljoin` would reject it; otherwise it adds one broken-link report exactly when it is broken, and an external link whose host is off the site is recorded. |
| `SiteCrawler.ValidateLinksReports` | core/site_crawler.py:116-161 | Checking a page's links appends exactly one report per broken link, in order, and nothing else. |
| `SiteCrawler.ValidateLinks` | core/site_crawler.py:144-161 | The loop over a page's links stops with an error exactly when one of the links raises; the pages found so far are untouched. |
| `SiteCrawler.RaisingLinkStops` | core/site_crawler.py:153-161 | A raising link ends the loop: the state stays as it was before that link and the links after it are not checked. |
| `SiteCrawler.BracketLinkStopsPage` | core/site_crawler.py:196-198 | `https://[x` raises in `urlparse`, so the rest of the page is skipped. |
| `SiteCrawler.ExternalNetloc` | core/site_crawler.py:196-199 | The host `urlparse` finds in an `http://`, `https://` or `//` link is the text up to the next `/`, `?` or `#`. |
| `SiteCrawler.BrokenOfDependsOnPages` | core/site_crawler.py:184-217 | Whether a link is broken depends only on the discovered pages and the output tree. |
| `SiteCrawler.ValidateAsset` | core/site_crawler.py:219-251 | External and `data:` references are never reported; any other is reported exactly when its normalised path is missing. |
| `SiteCrawler.ValidateAssets` | core/site_crawler.py:219-251 | Checking assets only adds missing-asset reports, at most one per reference. |
| `SiteCrawler.ValidatePage` | core/site_crawler.py:121-161 | A page whose file the lookup does not find changes nothing; otherwise its broken links are appended in order, and a raising link ends the page. |
| `SiteCrawler.LegacyPageSkipped` | core/site_crawler.py:121-161 | A legacy page whose only file is its own is skipped, whatever links it holds. |
| `SiteCrawler.PageRank` | core/site_crawler.py:300-327 | Priorities stay at most 1.0; only `/` reaches 1.0; 0.8 and above is exactly `/` and the `/games/` pages; 0.3 is exactly the legal pages. |
| `SiteCrawler.PageRankTable` | core/site_crawler.py:300-327 | The whole table: `/` is 1.0 daily, `/games/` 0.9 daily, other `/games/` pages 0.8 weekly, about-us and contact 0.6 monthly, the four legal pages 0.3 yearly, everything else 0.5 monthly. |
| `SiteCrawler.PriorityText` | core/site_crawler.py:300-327 | The priority text has the form `d.d` and reads back as the given number of tenths. |
| `SiteCrawler.EntryFor` | core/site_crawler.py:322-327 | An entry's location is the site URL plus the page URL without its leading slash, with the page's priority and change frequency. |
| `SiteCrawler.SitemapEntries` | core/site_crawler.py:290-329 | One entry per discovered page, in strictly sorted order, located at the site URL plus the page URL without leading slashes. |
| `SiteCrawler.SitemapLocsDistinct` | core/site_crawler.py:300-327 | Two different page URLs never share a sitemap location. |
| `SiteCrawler.ValidateBuild` | core/site_crawler.py:331-370 | The build is valid exactly when nothing is broken or missing and a page was found; `ValueError` exactly when invalid and failing on errors. |
| `SiteCrawler.GoodLinksKeepVerdict` | core/site_crawler.py:184-217 | A page whose links all lead to discovered pages leaves the verdict as it was. |
| `GameManager.MetaText` | core/game_manager.py:61-68 | A meta key is read exactly when it holds a non-empty string. |
| `GameManager.H1Body` | core/game_manager.py:76-83 | Without `<h1` there is no heading; a heading body holds no `</h1>`. |
| `GameManager.StripTagsTagFree` | core/game_manager.py:80 | Stripping tags leaves no tag behind. |
| `GameManager.StripTagsIdempotent` | core/game_manager.py:80 | Stripping tags twice is stripping them once. |
| `GameManager.ExtractTitle` | core/game_manager.py:76-83 | A non-empty stripped heading wins, else the title-cased slug; a non-empty slug always gives a title. |
| `GameManager.SlugTitleNonEmpty` | core/game_manager.py:83 | A non-empty slug has a non-empty title. |
| `GameManager.ExtractMetadata` | core/game_manager.py:95-103 | No meta block, or one that does not decode, gives `{}`; otherwise the decoded block. |
| `GameManager.GameOf` | core/game_manager.py:44-74 | The slug is the file stem; title, embed and hero follow the meta, then the page, then the default. |
| `GameManager.GameOfNamed` | core/game_manager.py:44-74 | Every scanned game has a non-empty slug and title. |
| `GameManager.ScanGamesContent` | core/game_manager.py:22-74 | One game per readable `*.html` file (any case of the extension), in strictly sorted name order; nothing without a directory. |
| `GameManager.RoundTenths` | core/game_manager.py:125-127 | The tenths found are within half a tenth of the value. |
| `GameManager.GameRating` | core/game_manager.py:105-135 | A non-empty custom rating is kept; otherwise the value lies in [3.0, 5.0] and the count in [250, 5250], both derived from the hash. |
| `GameManager.AnyRoundingInBounds` | core/game_manager.py:125-127 | Whichever way a tie rounds, the derived value lies in [3.0, 5.0]. |
| `GameManager.RatingReachesFive` | core/game_manager.py:125-129 | The 5.0 cap never fires and 5.0 is reached, so the commented 4.9 bound does not hold. |
| `GameManager.Available` | core/game_manager.py:206-216 | Exactly the offered games (a slug and a title, not the excluded one) are kept. |
| `GameManager.AvailableConcat` | core/game_manager.py:210-216 | The filter keeps order: filtering two joined lists joins their filtered lists. |
| `GameManager.AvailableKeepsOffered` | core/game_manager.py:210-216 | A list of offered games is kept whole and in order. |
| `GameManager.SliceTo` | core/game_manager.py:220 | Python `s[:n]`: a prefix, of the length Python gives for negative and large `n`. |
| `GameManager.WidgetUrlInjective` | core/game_manager.py:234 | A widget link names its game. |
| `GameManager.AllEntries` | core/game_manager.py:219-236 | One entry per game in order, or `AttributeError` exactly when some game has no image. |
| `GameManager.AllGamesForWidget` | core/game_manager.py:193-238 | Entry `i` is the `i`-th of the first `maxGames` offered games, linked as `/games/<slug>/`; the excluded game is never linked. |
| `GameManager.ExcludedNeverLinked` | core/game_manager.py:215-236 | No entry built from offered games links the excluded game. |
| `GameManager.RandomGamesForWidget` | core/game_manager.py:137-191 | `min(maxGames, offered)` entries, each an offered game, entry `i` being the sampled offered game `sel[i]`. |
| `PageBuilder.PageSubdir` | core/page_builder.py:208-223 | Game pages go under `games`, section pages under `pages`, legal pages under `legal`, the rest to the root. |
| `PageBuilder.PageOutputPath` | core/page_builder.py:197-223 | The file is `<key>.html` in the chosen sub-directory. |
| `PageBuilder.GeneratedPath` | core/page_builder.py:41-46 | The file is inside the sub-directory when it is truthy, otherwise directly in the output directory. |
| `PageBuilder.GeneratedPathIsPlacement` | core/page_builder.py:41-46 | Given its placement, `generate_page` writes exactly the placement's file. |
| `PageBuilder.FormatImagePath` | core/page_builder.py:225-246 | Always under `/assets/`: missing gives the default logo, `img/` and `/img/` move under `/assets/images/`. |
| `PageBuilder.FormatImageIdempotent` | core/page_builder.py:225-246 | Formatting a formatted path changes nothing. |
| `PageBuilder.FormatAgreesWithNormalize` | core/page_builder.py:235-240 | For the `img/` prefixes the formatter agrees with `normalize_asset_path`. |
| `PageBuilder.FirstMatchLeftmost` | core/page_builder.py:259-271 | The match found is the leftmost one, and none is found only when there is none. |
| `PageBuilder.SubUnchanged` | core/page_builder.py:259-271 | A pattern that matches nowhere leaves the text unchanged. |
| `PageBuilder.SubClears` | core/page_builder.py:259-271 | One substitution leaves no match of its own pattern and creates none of another. |
| `PageBuilder.ApplyAllClears` | core/page_builder.py:259-271 | After all rules have run none matches, and a pattern absent at the start stays absent. |
| `PageBuilder.SubKeepsCount` | core/page_builder.py:259-271 | A rule keeps the count of a character its dropped text and replacement lack. |
| `PageBuilder.ApplyAllKeepsCount` | core/page_builder.py:259-271 | All rules in turn keep such a character's count. |
| `PageBuilder.ResolveAssetLinks` | core/page_builder.py:248-273 | Corrected rewrite: no rule matches afterwards, double quotes are neither added nor removed, and clean text is unchanged. |
| `PageBuilder.ResolveAssetLinksAsWritten` | core/page_builder.py:248-273 | Rewrite as written: no rule matches afterwards (a second pass has nothing to do), and clean text is unchanged. |
| `PageBuilder.ResolveAsWrittenIdempotent` | core/page_builder.py:248-273 | Resolving twice as written is resolving once. |
| `PageBuilder.AsWrittenClean` | core/page_builder.py:259-271 | After the as-written rules have run in turn, none of them matches anywhere. |
| `PageBuilder.UrlAsWrittenAddsQuote` | core/page_builder.py:264 | As written, a bare `url(img/` becomes `url("/assets/images/`: one quote opened and never closed. |
| `PageBuilder.UrlRuleKeepsBare` | core/page_builder.py:264 | The corrected rule writes a bare `url(` back without a quote. |
| `PageBuilder.WriteAtomically` | core/page_builder.py:52-55 | The write succeeds exactly when neither file fails; then the target holds the content and no temporary file remains, otherwise the target is unchanged. |
| `PageBuilder.WriteAtomicallyIdempotent` | core/page_builder.py:52-55 | Writing the same content twice leaves the tree as one write does. |
| `PageBuilder.GeneratePage` | core/page_builder.py:24-68 | A rendering error is re-raised with nothing written. A rendered page is written exactly when neither its file nor its temporary file is blocked, and the file then holds the resolved page; after a write error the file keeps its old contents. No other path changes. |
| `PageBuilder.GeneratedPageResolved` | core/page_builder.py:24-68 | A page written successfully has no asset link left to resolve. |
| `PageBuilder.GameCanonicalNamesFile` | core/page_builder.py:84-124 | A game page's canonical URL is the site URL followed by its file's path below the output directory. |
| `PageBuilder.GamePageContext` | core/page_builder.py:85-106 | The page context carries the game's title, slug, embed, description, hero, content and canonical URL. |
| `PageBuilder.GenerateGamePage` | core/page_builder.py:70-134 | When rendering succeeds and neither the file nor its temporary file is blocked, the game's file holds the resolved page; otherwise the file keeps its contents. Errors are swallowed, and no other path changes. |
| `PageBuilder.ListingEntryOf` | core/page_builder.py:170-174 | A card links `/games/<slug>.html` and shows the formatted logo, else the formatted hero. |
| `PageBuilder.ListingEntries` | core/page_builder.py:170-174 | One card per game, in order. |
| `PageBuilder.ListingUrlInjective` | core/page_builder.py:172 | Distinct slugs give distinct listing URLs. |
| `PageBuilder.ListingTemplate` | core/page_builder.py:144-156 | `games_list.html` when it loads, else `page.html`, else nothing. |
| `PageBuilder.GenerateGamesListing` | core/page_builder.py:136-195 | With a loadable template, a successful rendering and an unblocked file, `games.html` holds the listing, without the asset rewrite. Nothing is written without a template, and no other path changes. |
| `PageBuilder.ListingUrlIsCrawlerUrl` | core/page_builder.py:172 | Every listing link is the crawler's URL for the game's file. |
| `SeoManager.SiteUrlStable` | core/seo_manager.py:19-23 | The manager's site URL and its URL builder's agree. |
| `SeoManager.PageLoc` | core/seo_manager.py:65-71 | An `http` URL is used as given; any other goes through the canonical URL. |
| `SeoManager.PageEntry` | core/seo_manager.py:61-72 | A page entry defaults to `monthly` and `0.5`. |
| `SeoManager.SitemapEntries` | core/seo_manager.py:47-92 | Pages first in input order, then one weekly 0.8 entry per game slug; the count reported is the number of entries. |
| `SeoManager.SitemapLocsOnSite` | core/seo_manager.py:61-82 | Every location is on the site, unless a page gave its own `http` URL. |
| `SeoManager.GameLocIsWidgetUrl` | core/seo_manager.py:76-81 | A game's location is the site URL followed by its widget link. |
| `SeoManager.GameLocIsNotPageCanonical` | core/seo_manager.py:76-81 | A game's sitemap location differs from the canonical URL of the file the page builder writes. |
| `SeoManager.IconList` | core/seo_manager.py:125-148 | Eight `any` icons then two maskable ones, with their sizes in order, each a PNG naming its file under `/assets/pwa/`. |
| `SeoManager.MaskableHaveAnyTwin` | core/seo_manager.py:125-148 | Every maskable icon has an `any` icon of the same size before it. |
| `SeoManager.PwaPathKept` | core/seo_manager.py:125-148 | Normalising a PWA asset path leaves it unchanged. |
| `SeoManager.ScreenshotList` | core/seo_manager.py:150-174 | Three PNG screenshots: the narrow mobile one (`390x844`, `Mobile view`), then the wide tablet (`768x1024`, `Tablet view`) and desktop (`1280x720`, `Desktop view`) ones, each naming its file. |
| `SeoManager.CrumbItem` | core/seo_manager.py:187-201 | An item exists exactly when a URL does; `""` and `/` give the site root. |
| `SeoManager.BreadcrumbItems` | core/seo_manager.py:176-207 | Positions 1 to n in input order, with the crumb names. |
| `SeoManager.BreadcrumbPositionsIncrease` | core/seo_manager.py:187-201 | The positions are distinct and increase. |
| `SeoManager.BreadcrumbMatchesRelative` | core/seo_manager.py:187-201 | An item names the same place as the page's relative URL. |
| `SeoManager.SoftwareRating` | core/seo_manager.py:276-289 | Without a rating the value lies in [3.5, 4.9] and the count in [150, 3500]; a given rating's missing keys default to 4.5 and 1000. |
| `SeoManager.AnyRoundingCapped` | core/seo_manager.py:282-284 | Whichever way a tie rounds, the capped value lies in [3.5, 4.9]. |
| `SeoManager.CapFires` | core/seo_manager.py:282-284 | The 4.9 cap is needed: rounding alone reaches 5.0. |
| `SeoManager.SoftwareApplication` | core/seo_manager.py:258-317 | The schema id is its URL with `#software`, and the URL is the canonical `games/<slug>`. |
| `SeoManager.SchemaUrlIsSitemapLoc` | core/seo_manager.py:258-317 | A game's schema URL is its sitemap location. |
| `LegacyGenerator.Subdir` | core/generator.py:741-786 | The root keys stay at the root; otherwise games, legal or pages, by flag and key. |
| `LegacyGenerator.OutputPath` | core/generator.py:741-786 | The file is `<key>.html` in the chosen sub-directory. |
| `LegacyGenerator.PageUrl` | core/generator.py:788-816 | A page URL is rooted and ends in `<key>.html`. |
| `LegacyGenerator.UrlMatchesOutputPath` | core/generator.py:741-816 | Every page URL is `/`, the output sub-directory and a slash when there is one, and `<key>.html`. |
| `LegacyGenerator.RootKeysIgnoreGameFlag` | core/generator.py:759-762 | `index` and `games` stay at the root even as game pages. |
| `LegacyGenerator.GameUrlInjective` | core/generator.py:788-816 | Two games never share a link. |
| `LegacyGenerator.GamePageRating` | core/generator.py:333-344 | Meta `ratingValue` and `ratingCount` override; the derived value lies in [3.0, 5.0] and the count in [250, 5250]. |
| `LegacyGenerator.PageRatingMatchesGameManager` | core/generator.py:333-344 | Without overrides the page shows the game manager's rating for the same hash. |
| `LegacyGenerator.GameSchemaRating` | core/generator.py:343-356 | Building the rating raises `ValueError` exactly when a meta `ratingValue` is not float-convertible or a meta `ratingCount` is not int-convertible; otherwise it is the page's rating. |
| `LegacyGenerator.BadMetaRatingsDropPage` | core/generator.py:343-356 | `true` or `null` as the value and `n/a` as the count raise; the padded count ` 1_200 ` is read. |
| `LegacyGenerator.WrittenGamePages` | core/generator.py:310-405 | The loop writes a page for every game whose rating converts, and every page it writes belongs to such a game; a failure on one game does not stop the games after it. |
| `LegacyGenerator.BadRatingLeavesNoPage` | core/generator.py:353-354 | A game whose meta rating raises gets no page when no other game shares its slug. |
| `LegacyGenerator.WidgetImage` | core/generator.py:221-265 | The logo, else the hero, with `img/` dropped and put under `/assets/images/`; the default logo otherwise. |
| `LegacyGenerator.AllGamesForWidget` | core/generator.py:221-265 | The first 60 offered games in order, each linked by its game-page URL. |
| `LegacyGenerator.WidgetSkipsExcluded` | core/generator.py:221-265 | No widget entry links the excluded game. |
| `LegacyGenerator.AssetType` | core/generator.py:564-579 | Known extensions map to `css`, `js`, `images`, `fonts` or `media`; `.css` to `css` alone. |
| `LegacyGenerator.StaticTarget` | core/generator.py:585-608 | Known types go to `assets/<type>/<basename>`; other files keep their relative path. |
| `LegacyGenerator.SameNameSameTarget` | core/generator.py:589-608 | Two files of a type with the same name land on the same output file. |
| `LegacyGenerator.AssetMappings` | core/generator.py:589-608 | Each visited path maps to its output path. |
| `LegacyGenerator.ResolveCssWithoutMappings` | core/generator.py:623-635 | With no mappings every stylesheet reference is put back as found. |
| `LegacyGenerator.CssRefRewritten` | core/generator.py:623-635 | A mapped stylesheet is replaced by its root-absolute path; an unmapped one is kept. |
| `LegacyGenerator.StaticCssLinked` | core/generator.py:589-635 | A copied stylesheet is linked at its root-absolute organised location. |
| `LegacyGenerator.PagesInOrder` | core/generator.py:1063-1106 | Entry `i` is the page of the `i`-th item that is not skipped. |
| `LegacyGenerator.KeyPages` | core/generator.py:1063-1072 | One page per configured key other than `index`. |
| `LegacyGenerator.GamePages` | core/generator.py:1081-1094 | One page per game with a non-empty slug. |
| `LegacyGenerator.ForceHttps` | core/generator.py:1105-1106 | The result never starts with `http://`; other URLs are unchanged. |
| `LegacyGenerator.Sitemap` | core/generator.py:1045-1137 | The daily 1.0 homepage first, one entry per non-index key and per game slug, and no `http://` location. |
| `LegacyGenerator.SitemapInOrder` | core/generator.py:1055-1106 | Entry by entry: the homepage, then the `i`-th non-index key, then the `i`-th non-empty slug. |
| `LegacyGenerator.SitemapFollowsPages` | core/generator.py:1096-1106 | Entry `i` is written for page `i` of the page list. |
| `LegacyGenerator.PageLocIsPageUrl` | core/generator.py:1096-1106 | A configured page's location is the stripped site URL followed by the page's URL. |
| `SiteConfig.WithScheme` | core/config.py:205-206 | `https://` is added exactly when there is no scheme. |
| `SiteConfig.Host` | core/config.py:208 | The host holds no slash and starts the text. |
| `SiteConfig.UpdateSiteUrl` | core/config.py:203-209 | The call raises `IndexError` exactly when nothing but slashes follows the scheme; otherwise the URL gains a scheme and one trailing slash, the domain is its host and the support e-mail `support@<domain>`. |
| `SiteConfig.HostlessIffNoSeparator` | core/config.py:203-213 | The normalised URL keeps its `://` exactly when something other than a slash follows the scheme. |
| `SiteConfig.UpdateSiteUrlIdempotent` | core/config.py:203-213 | Normalising the result again changes nothing. |
| `SiteConfig.BareSchemeRaises` | core/config.py:207-208 | `https://` and `http:///` raise `IndexError`; `https://a` does not. |
| `SiteConfig.CrumbItem` | core/config.py:252-270 | An item exists exactly when a URL does; `""` gives the stripped site URL, anything else joins them with one slash. |
| `SiteConfig.BreadcrumbSchema` | core/config.py:252-270 | Positions 1 to n in input order, each with its item. |
| `SiteConfig.RootCrumbIsSiteUrl` | core/config.py:252-270 | The root crumb `/` names the site URL itself. |
| `SiteConfig.EmptyCrumbDropsSlash` | core/config.py:252-270 | The empty crumb is where the two managers differ. |
| `SiteConfig.CrumbItemIsLegacyLoc` | core/config.py:252-270 | The legacy sitemap builds locations with the same join. |
| `SiteConfig.TagFaq` | core/config.py:294-297 | The FAQ gets `@id` and `inLanguage`; every other key is kept. |
| `SiteConfig.FaqSchemaAsWritten` | core/config.py:272-320 | As written: a missing file or invalid JSON gives no schema; other failures give the fallback. |
| `SiteConfig.FaqSchema` | core/config.py:272-320 | Corrected: there is always a schema, the fallback exactly when no FAQ object loads. |
| `SiteConfig.FaqFixOnlyTouchesMissingAndInvalid` | core/config.py:299-320 | The two versions differ exactly where the file is missing or not JSON. |
| `SiteConfig.MissingFaqGivesNoSchema` | core/config.py:299-320 | Without `faq.json` there is no FAQ schema as written, and the fallback once corrected. |
| `SiteConfig.HomeTitle` | core/config.py:55-62 | `Accueil` exactly for French, `Home` otherwise. |
| `SiteConfig.GetPageConfig` | core/config.py:52-101 | Only `index` gets the software and (as-written) FAQ schemas; every page gets its breadcrumbs, the description `Learn more about <site>`, `content_html/<key>.html` and, except `index`, the canonical `<site URL><key>.html` and its title. |
| `SiteConfig.PageBreadcrumbSchema` | core/config.py:64-99 | Every page's breadcrumbs are the site root at 1 and the page at 2. |
| `SiteConfig.TwoCrumbSchema` | core/config.py:64-99 | The two crumbs become list items 1 and 2: the home crumb links the site URL, the page crumb links nothing. |
| `SiteConfig.IndexCanonicalIsRoot` | core/config.py:73-78 | The index page's canonical URL is the site URL without its slash. |
| `SiteConfig.GameRating` | core/config.py:387-436 | Given keys override; the derived value is at most 4.9 and the count in [150, 3500]. |
| `SiteConfig.GameRatingMatchesSeo` | core/config.py:392-408 | Against the search-engine manager: the same derived rating, the same overrides. |
| `SiteConfig.GameSoftwareSchema` | core/config.py:387-436 | The URL is `<site_url><slug>.html` and the id that URL with `#software`. |
| `SiteConfig.GameSchemaIdsDistinct` | core/config.py:387-436 | Two games never share a schema id. |
| `SiteConfig.DynamicHeroImage` | core/config.py:177-185 | The SEO image named by the settings, or `space-waves-pro`. |
| `SiteLoader.ValidateSiteNameAsWritten` | core/site_loader.py:24-63 | A name is accepted exactly when it is non-empty, every character but the last is safe once lower-cased, the last is safe or a newline after at least one character, the label rules hold and its directory stays in `sites`. |
| `SiteLoader.ValidateSiteName` | core/site_loader.py:24-63 | Corrected: a name is accepted exactly when it is non-empty, every character is safe once lower-cased, the label rules hold and its directory stays in `sites`; an accepted name has no slash or newline and no leading or trailing dot. |
| `SiteLoader.LabelRulesByChar` | core/site_loader.py:34-40 | The substring tests (`..`, `--`, a leading or trailing `.` or `-`) pass exactly when neither end is a separator and no separator is immediately repeated. |
| `SiteLoader.CharsMatchPattern` | core/site_loader.py:29-32 | A non-empty name whose characters are safe once lower-cased, the last possibly a newline, matches `^[a-z0-9.-]+$`. |
| `SiteLoader.LabelBreaksRefused` | core/site_loader.py:34-40 | `a..b`, `a--b`, `-a` and `a.` are refused by both checks, whatever the directories resolve to. |
| `SiteLoader.DottedNameAccepted` | core/site_loader.py:24-63 | `a-b.c` is accepted by both checks whenever its directory stays in `sites`. |
| `SiteLoader.ValidationDiffersOnlyOnNewline` | core/site_loader.py:30-32 | The corrected check accepts a subset of the written one; the extra names end in a newline. |
| `SiteLoader.TrailingNewlineAccepted` | core/site_loader.py:30-32 | `"a\n"` passes the written check and fails the corrected one. |
| `SiteLoader.SiteDirIsChild` | core/site_loader.py:24-63 | An accepted name is the last component of its site directory. |
| `SiteLoader.AcceptedHasNoSlash` | core/site_loader.py:30-32 | Even the written check accepts no slash. |
| `SiteLoader.LoadSiteSettings` | core/site_loader.py:66-112 | `ValueError` exactly for a given name that fails the written check; otherwise the site's settings when they load, else the core settings. |
| `SiteLoader.NewlineNameLoaded` | core/site_loader.py:77-78 | A name ending in a newline is loaded, though the corrected check refuses it. |
| `SiteLoader.GetSitePaths` | core/site_loader.py:115-152 | A site's own `content_html` and `static` are used when present, else the project's. |
| `SiteLoader.BareSiteUsesLegacySources` | core/site_loader.py:133-140 | A site without directories of its own uses the same sources as no site. |
| `SiteLoader.GetSiteOutputDir` | core/site_loader.py:155-172 | A custom directory wins, else `output/<site>`, else `output`. |
| `SiteLoader.OutputDirsDistinct` | core/site_loader.py:155-172 | Two accepted names share an output directory only when equal. |
| `SiteLoader.ListAvailableSites` | core/site_loader.py:175-192 | Exactly the directories the written check accepts, strictly sorted; nothing without `sites`. |
| `BuildCache.CategoryPaths` | core/build_cache.py:180 | The paths of the first category of that name, or none. |
| `BuildCache.Load` | core/build_cache.py:42-54 | A stored document is loaded; a missing or unreadable one starts empty. |
| `BuildCache.FileInfoOf` | core/build_cache.py:84-102 | A missing path gives the unknown fingerprint. An existing path gives its time and size, and a readable file gives its digest as the hash (the empty hash otherwise). |
| `BuildCache.GetChangedFiles` | core/build_cache.py:200-229 | Exactly the listed paths that changed. |
| `BuildCache.HasChanges` | core/build_cache.py:154-198 | True when forced or on a first build; otherwise exactly when a path in scope changed. |
| `BuildCache.UpdateFileCache` | core/build_cache.py:231-243 | The existing listed paths are fingerprinted; every other entry is kept. |
| `BuildCache.UpdateSettlesChanges` | core/build_cache.py:213-243 | After fingerprinting, a listed path is changed exactly when deleted yet cached before. |
| `BuildCache.UpdateKeepsOthers` | core/build_cache.py:231-243 | Fingerprinting leaves every other path's status unchanged. |
| `BuildCache.UpdateThenNoChanges` | core/build_cache.py:231-243 | When every listed path exists, checking them again finds nothing. |
| `BuildCache.CategoryUpdatedThenUnchanged` | core/build_cache.py:154-243 | Fingerprinting a category's paths makes an unforced check of it report no change. |
| `BuildCache.ScanDirectory` | core/build_cache.py:104-139 | The files found are exactly the regular files below the directory that one of the patterns (or `*`) finds, and they are appended to the category. An unknown category raises. |
| `BuildCache.TrackFiles` | core/build_cache.py:141-152 | The category gets the paths appended; every other category is unchanged. |
| `BuildCache.SaveCache` | core/build_cache.py:56-66 | The document is stamped and not empty; what is written is it, or nothing. |
| `BuildCache.SaveLoadRoundTrip` | core/build_cache.py:42-66 | A saved and reloaded document reports the same change status. |
| `BuildCache.ClearCache` | core/build_cache.py:245-253 | The document is emptied, so every check reports a change. |
| `BuildCache.RegisterProcessedImage` | core/build_cache.py:294-309 | The normalised path is recorded once; nothing else changes. |
| `BuildCache.RegisterKeepsRegistryDistinct` | core/build_cache.py:294-326 | Registration keeps the registry distinct, is idempotent, and then the image counts as processed. |
| `BuildCache.IsImageProcessed` | core/build_cache.py:311-326 | True exactly when the normalised path is registered. |
| `BuildCache.ClearProcessedImages` | core/build_cache.py:337-341 | Nothing counts as processed afterwards. |
| `AssetManager.DefaultWorkers` | core/asset_manager.py:27-29 | The given count, else `min(32, cpu + 4)` with an unknown count read as 4. |
| `AssetManager.NeedsCopy` | core/asset_manager.py:353-374 | A missing destination needs a copy; otherwise exactly a strictly newer source. |
| `AssetManager.CssIsNotNestedTwice` | core/asset_manager.py:191-199 | A stylesheet under `css/` lands directly below `assets/css`. |
| `AssetManager.CssTargetsCanCollide` | core/asset_manager.py:191-199 | Dropping `css/` makes two sources share a target. |
| `AssetManager.PlainTarget` | core/asset_manager.py:200-208 | A file directly in the static directory keeps its name. |
| `AssetManager.CollectFileTasks` | core/asset_manager.py:157-214 | Exactly the queued matches, each with its batch's target. |
| `AssetManager.CollectAll` | core/asset_manager.py:62-105 | Every task comes from some batch with that batch's target. |
| `AssetManager.TypeBatchDirs` | core/asset_manager.py:62-71 | Each type batch keeps structure and targets its type's directory. |
| `AssetManager.RootTargetsAllowListed` | core/asset_manager.py:73-105 | Only allow-listed files reach the output root, at `<out>/<basename>`. |
| `AssetManager.CopySingleFile` | core/asset_manager.py:255-285 | Skipped exactly when unforced and not needed; copied files are copied; failures change nothing. |
| `AssetManager.ExecuteParallelCopy` | core/asset_manager.py:216-253 | The counters tally the outcomes and add up to the number of tasks. |
| `AssetManager.UnforcedRunSettles` | core/asset_manager.py:216-285 | After an unforced run without failures no task is still needed. |
| `AssetManager.CopyFile` | core/asset_manager.py:322-351 | True exactly when no copy is needed, or the source is a regular file other than the destination and the destination can be written. A copy makes the destination the source's copy and up to date; false changes nothing. |
| `AssetManager.ReplaceTree` | core/asset_manager.py:305-320 | As written, everything outside the destination is kept and the source tree is copied in. |
| `AssetManager.ReplaceTreeLosesBatchImages` | core/asset_manager.py:130-137 | As written, the `img/` copy deletes `assets/images/hero-image.webp`, which the images batch has just copied there. |
| `AssetManager.MergeTree` | core/asset_manager.py:305-320 | Corrected: the source is laid over the destination and nothing is removed. |
| `AssetManager.MergeTreeKeepsOtherImages` | core/asset_manager.py:130-137 | A merge keeps every other file below `assets/images`. |
| `AssetManager.BlockedFiles` | core/asset_manager.py:530-564 | A path is reported exactly when it is the relative path of a file below the static directory that `**/*.xml`, `**/*.txt` or `**/*.json` finds and whose name is not on the allow-list. |
| `AssetManager.BlockedFrom` | core/asset_manager.py:544-555 | From one glob's results, a path is kept exactly when it is a reported file's relative path; none is on the allow-list. |
| `AssetManager.BlockedFilesMembers` | core/asset_manager.py:538-555 | The three patterns' reports together hold exactly the blocked paths. |
| `AssetManager.AssetOgImage` | core/asset_manager.py:376-397 | Rooted and `http` images are kept; others move under `/assets/images/`. |
| `AssetManager.AssetOgImageIdempotent` | core/asset_manager.py:376-397 | Rewriting twice changes nothing more. |
| `Orchestrator.Plan` | core/generator_refactored.py:168-336 | The planned stages end with the save. |
| `Orchestrator.PlanShape` | core/generator_refactored.py:168-336 | The plan holds the planned stages, once each, in code order. |
| `Orchestrator.PlanOrder` | core/generator_refactored.py:168-336 | One stage precedes another exactly when both are planned and the first comes first. |
| `Orchestrator.Perform` | core/generator_refactored.py:331-336 | A stage runs unless an exception escaped; it raises exactly when fatal. |
| `Orchestrator.GenerateSite` | core/generator_refactored.py:168-336 | A build keeps the category lists. |
| `Orchestrator.GenerateSiteFollowsPlan` | core/generator_refactored.py:168-336 | A build runs a prefix of the plan and raises exactly when its last stage was fatal. |
| `Orchestrator.BuildDecisions` | core/generator_refactored.py:210-240 | Without failure the static phase runs exactly when `static` changed, pages exactly on a rebuild. |
| `Orchestrator.SwallowedFailuresChangeNothing` | core/generator_refactored.py:338-347 | Swallowed failures leave the stages as they were. |
| `Orchestrator.ImageFailureSwallowed` | core/generator_refactored.py:338-347 | The image stage, which as written always fails, leaves the stages of the build as they were. |
| `Orchestrator.UpdateSettles` | core/generator_refactored.py:226-227 | Fingerprinting a category settles it and keeps the others settled. |
| `Orchestrator.BuildSettles` | core/generator_refactored.py:168-336 | After a completed build all four categories are settled. |
| `Orchestrator.SecondBuildIsIncremental` | core/generator_refactored.py:210-291 | An unchanged second build skips the static phase and the pages. |
| `Orchestrator.FirstBuildWithoutPageSourcesRendersNothing` | core/generator_refactored.py:236-291 | A first build without page sources renders no page. |
| `Orchestrator.SetupFileTracking` | core/generator_refactored.py:156-161 | The settings file is tracked as `config`; the data is kept. |
| `Orchestrator.SetupTracksStatic` | core/generator_refactored.py:136-144 | Every path added to `static` is a file below the static directory, and every visible file there with one of the eight asset extensions is added. |
| `Orchestrator.SetupTracksContent` | core/generator_refactored.py:126-134 | Every path added to `content` is a file below the content directory, and every visible `*.html` file there is added. |
| `Orchestrator.ScannedCovers` | core/build_cache.py:104-139 | One scan adds only files below the directory, and every visible match. |
| `Orchestrator.ContentFile` | core/generator_refactored.py:412-419 | `cookies-policy` reads `cookies.html`; every other key `<key>.html`. |
| `Orchestrator.ContentFilesDistinct` | core/generator_refactored.py:412-419 | Two keys read the same file exactly when their names collide. |
| `Orchestrator.ConfiguredPagesReadDistinctFiles` | core/generator_refactored.py:349-360 | The eight configured pages read eight different files. |
| `Optimizer.NatTextInjective` | core/optimizer.py:424-427 | Distinct numbers are written differently. |
| `Optimizer.DimTextInjective` | core/optimizer.py:424-427 | Dimensions are read back from their text. |
| `Optimizer.IconFileName` | core/optimizer.py:424-427 | `<seo>-icon-<s>x<s>`, then `-maskable` exactly for a maskable icon, then `.png`. |
| `Optimizer.IconFileNameInjective` | core/optimizer.py:386-427 | No icon overwrites another. |
| `Optimizer.PwaTableMatchesManifest` | core/optimizer.py:386-397 | Row `i` has the size and purpose the manifest declares for icon `i`. |
| `Optimizer.PwaFilesMatchManifest` | core/optimizer.py:386-427 | Row `i` is written to the file the manifest names for icon `i`. |
| `Optimizer.MaskablePadding` | core/optimizer.py:409 | The padding is a tenth of the size, rounded down. |
| `Optimizer.IconLayoutAsWritten` | core/optimizer.py:407-417 | An `any` icon is the plain resize; a maskable one is pasted at the padding on a larger canvas. |
| `Optimizer.MaskableIconsOversized` | core/optimizer.py:407-417 | Saved maskable icons are larger than declared: 230 for 192, 614 for 512. |
| `Optimizer.IconLayout` | core/optimizer.py:407-417 | Corrected: every icon at its declared size, a maskable one shrunk inside the margin. |
| `Optimizer.IconLayoutMatchesManifest` | core/optimizer.py:386-417 | With the corrected layout every icon has its declared size. |
| `Optimizer.ShotFileName` | core/optimizer.py:437-487 | `<seo>-screenshot-<name>.png`. |
| `Optimizer.ShotTableMatchesManifest` | core/optimizer.py:437-487 | Screenshot `i` has the size and form factor the manifest declares. |
| `Optimizer.ShotFilesMatchManifest` | core/optimizer.py:437-487 | Screenshot `i` is written to the file the manifest names. |
| `Optimizer.FramedAsWritten` | core/optimizer.py:489-527 | The screenshot keeps its size and the canvas grows by 40 each way. |
| `Optimizer.FramedShotsOversized` | core/optimizer.py:495-497 | As written, saved screenshots are 40 pixels larger than declared. |
| `Optimizer.Framed` | core/optimizer.py:489-527 | Corrected: the canvas keeps its size and the screenshot fits inside the margin. |
| `Optimizer.FramedShotsMatchManifest` | core/optimizer.py:437-527 | With the corrected frame every screenshot has its declared size. |
| `Optimizer.FaviconNameInjective` | core/optimizer.py:144-156 | Different sizes or formats give different names. |
| `Optimizer.FaviconFiles` | core/optimizer.py:123-164 | A PNG per size, and an ICO for the small sizes when the source exists. |
| `Optimizer.IcoOnlyForSmallSizes` | core/optimizer.py:144-156 | An ICO exactly for 16, 32 and 48; a PNG for each of the eight sizes. |
| `Optimizer.FaviconNamesDistinct` | core/optimizer.py:144-156 | No two favicon files share a name. |
| `Optimizer.LogoSlug` | core/optimizer.py:177-180 | The slug is no longer than the name and holds only lower-case slug characters. |
| `Optimizer.LogoSlugOne` | core/optimizer.py:177-180 | One character gives its mapped form when that is a letter, digit or `-`, and nothing otherwise. |
| `Optimizer.DefaultSlugIsSeoFilename` | core/optimizer.py:104-121 | The default site name slugs to the default SEO file name, so a site without `seo_config.json` gets `space-waves-pro-logo.webp`. |
| `Optimizer.LogoSlugKeepsClean` | core/optimizer.py:177-180 | A clean name is its own slug. |
| `Optimizer.LogoSlugIdempotent` | core/optimizer.py:177-180 | Slugging twice changes nothing more. |
| `Optimizer.LogoSlugSplit` | core/optimizer.py:177-180 | The slug of a concatenation is the concatenation of the slugs. |
| `Optimizer.SiteName` | core/optimizer.py:104-113 | An object with `site_name` gives that entry. A missing or invalid file, or an object without the entry, gives the default. A non-object document raises. |
| `Optimizer.LogoFileName` | core/optimizer.py:166-206 | `<slug>-logo.webp` exactly when the site name is a string. |
| `Optimizer.FirstPresent` | core/optimizer.py:369-377 | The first present candidate, or none exactly when none is present. |
| `Optimizer.PwaSource` | core/optimizer.py:369-377 | `favicon.ico`, else `gamelogo.webp`, else `hero-image.webp`, else none. |
| `Optimizer.FillIfFalsy` | core/optimizer.py:328-333 | The key ends truthy, kept when it was, and nothing else changes. |
| `Optimizer.SetDefault` | core/optimizer.py:336-337 | The key keeps its value or gets the default; nothing else changes. |
| `Optimizer.HeroSeoAttributes` | core/optimizer.py:325-340 | Alt text and title become truthy, defaulted from the site name; loading and decoding get values. |
| `Optimizer.HeroSeoIdempotent` | core/optimizer.py:325-340 | Filling in a second time changes nothing. |
| `Optimizer.OgSeoAttributes` | core/optimizer.py:342-353 | Alt text and title become truthy, defaulted from the site name. |
| `Optimizer.OgSeoIdempotent` | core/optimizer.py:342-353 | Filling in a second time changes nothing. |
| `Optimizer.FillNames` | core/optimizer.py:327-333 | A falsy or missing alt text or title gets the default; truthy ones and every other key are kept as they were. |
| `ColorPalettes.PalettesShareVariables` | core/color_palettes.py:8-153 | Every palette defines the standard variables, in order. |
| `ColorPalettes.GetPaletteInfo` | core/color_palettes.py:172-185 | `ValueError` exactly outside 1 to 4; otherwise a named palette with the standard variables. |
| `ColorPalettes.GetPaletteColors` | core/color_palettes.py:154-170 | `ValueError` exactly outside 1 to 4; otherwise the standard variables. |
| `ColorPalettes.ColorsAreInfoColors` | core/color_palettes.py:154-185 | The colours are the info's `colors`, refused for the same numbers. |
| `ColorPalettes.Lookup` | core/color_palettes.py:8-153 | The value of an entry with that name, or none exactly when there is none. |
| `ColorPalettes.LegacyAliases` | core/color_palettes.py:8-153 | Each legacy variable reads the same colour as its structured one. |
| `ColorPalettes.GenerateCssVariables` | core/color_palettes.py:196-212 | `ValueError` exactly outside 1 to 4; otherwise the palette's declaration block. |
| `ColorPalettes.ParseCssLine` | core/color_palettes.py:206-212 | A parsed line is written back as that line. |
| `ColorPalettes.CssVariablesRoundTrip` | core/color_palettes.py:206-212 | A written block reads back as its table: one line per entry, in order. |
| `ColorPalettes.GeneratedCssRoundTrip` | core/color_palettes.py:196-212 | A palette's block reads back as its twenty-entry colour table. |

## Left out

- File-system I/O is a map from path to node. Walk order is a given sequence. `shutil.copy2`, `copytree`, `rmtree` and the JSON cache file are functions on that map.
- `ThreadPoolExecutor` and its lock: the copy tasks run one after another. Only the outcome of each task and the counters are modelled.
- SHA-256 is given as the file node's digest or as the number `h`. The `sum(ord(c))` fallback of the legacy rating is not modelled.
- `urljoin`, `os.path.normpath` and `Path.resolve` are parameters. The lemmas that need `urljoin` assume concatenation.
- `abs_path` joins onto the project root without the final `.resolve()`. This changes nothing unless a symbolic link is involved.
- Jinja rendering is the parameter `render`. JSON decoding is the parameter `parse`. Comment extraction is the parameter `comments`.
- `random.sample` is the parameter `sel`, the positions drawn.
- The regular expressions are modelled one by one. `resolve_asset_links` is a leftmost, non-overlapping substitution engine over its own rule shapes. It is not a general regex engine.
- PIL resizing, encoding and drawing: only the sizes, offsets and file names are modelled.
- CSS and JS minification, `core/css_processor.py` and the service worker are not modelled.
- The legacy `_resolve_asset_links` rules other than the stylesheet rule are not modelled.
- XML serialisation, `datetime` stamps (the parameter `today`), logging, printing, timing and `core/performance_logger.py` are not modelled.
- The CLI entry points and the static settings modules are not modelled.
- `GameManager.RoundTenths` rounds exact half-tenths up, where Python's `round` on binary floats may go either way. For example, `round(3.05, 1)` is 3.0 in Python and 31 tenths here. `round(3.55, 1)` is 3.5 in Python and 36 tenths in `SeoManager.SoftwareRating` and `SiteConfig.GameRating`. The bounds hold either way (`AnyRoundingInBounds`, `AnyRoundingCapped`).
- `GameManager.MetaText` reads only non-empty strings. A truthy non-string meta value, such as `{"title": 5}`, is treated as absent.
- `Strings.Lower` is ASCII only. Python's `str.lower` also maps other letters, for example the KELVIN SIGN (U+212A) to `k`, so a site name such as `"\u212Aite.com"`, which the source accepts after lower-casing, is rejected here.
- `Strings.Title` and `Strings.IsAlnum` are ASCII only. Python's `str.title` and `str.isalnum` follow Unicode, so in a name such as "Café Games" the source treats `é` as a letter and this model does not.
- `SiteLoader.ValidateSiteNameAsWritten` and `SiteLoader.ValidateSiteName` inherit the ASCII lowering, so they reject the name `"\u212Aite.com"`, which the source accepts.
- `PageBuilder.ResolveAssetLinks` and `PageBuilder.ResolveAssetLinksAsWritten` fold case for ASCII letters only. Python's `re.IGNORECASE` also matches `ſ` (U+017F) with `s`, `İ` (U+0130) with `i` and the KELVIN SIGN (U+212A) with `k`, so the source rewrites `ſrc="img/a.png"` and the model leaves it unchanged.
- `Orchestrator.GenerateSite` models a build that runs. As written, `_initialize_managers` passes `build_cache=` to `ImageOptimizer`, whose constructor takes no such argument, so constructing the refactored generator raises `TypeError` before any stage. The image stage's `optimize_all_images(force=...)` likewise always raises and is swallowed; `Orchestrator.ImageFailureSwallowed` covers that case.
- `Optimizer.LogoSlug` keeps only ASCII letters and digits. The site name `"Café Games"` gives `café-games-logo.webp` in Python and `caf-games-logo.webp` here.
- `ColorPalettes.GetPaletteColors` and `ColorPalettes.GetPaletteInfo` return `ValueError` without its message text.
- `LegacyGenerator.WrittenGamePages`: only the rating conversion is modelled as a per-game failure; a missing `embed_url` or `hero_image`, a template error and a failed write, which the same handler catches, are not, because the model renders no templates and writes no files.
- `LegacyGenerator.GameSchemaRating`: the model's JSON numbers are integers, so a float meta value such as 4.7 is not represented. Whether a string converts with `float()` is the parameter `floatText`. `int()` is modelled for ASCII digits with an optional sign, underscores between digits and surrounding whitespace only.
- `SiteCrawler.LinkRaises`: of the checks `urlsplit` makes, only the unbalanced-bracket check of the host is modelled. The IPv6 address validation and the NFKC check on the host are not.
- `SiteCrawler.UrlExists` states the discovered-page part of `_url_exists` as one direction. The file fallback is stated separately by `SiteCrawler.FileFallbackMeans`.

## Findings

| source | as written | input that shows it | evidently intended | confidence | as-written member | corrected member |
|---|---|---|---|---|---|---|
| core/page_builder.py:264 | `url\("?img/` is replaced by `url("/assets/images/`, so a bare `url(` gains an opening quote | `url(img/a.png)` becomes `url("/assets/images/a.png)` | the quote is kept as found: `url(/assets/images/a.png)` | medium, not executed | `PageBuilder.UrlAsWrittenAddsQuote` | `PageBuilder.UrlRuleKeepsBare` |
| core/config.py:299-320 | the fallback `return` is indented inside the last `except`, so the first two handlers return None | a site without `faq.json` gets no FAQ schema | the fallback schema for every failure, as the comment says | high, not executed | `SiteConfig.FaqSchemaAsWritten` | `SiteConfig.FaqSchema` |
| core/site_loader.py:30-32 | `re.match(r'^[a-z0-9.-]+$', ...)`: `$` also matches before a final newline | `"a\n"` is accepted | the pattern covers the whole name | high, not executed | `SiteLoader.TrailingNewlineAccepted` | `SiteLoader.ValidateSiteName` |
| core/asset_manager.py:130-137 | `_copy_directory` removes `assets/images` before copying `img/` into it | with `static/img/` present, `assets/images/hero-image.webp`, which the images batch copied from `static/hero-image.webp`, is deleted | the `img/` tree is merged into the directory | medium, not executed | `AssetManager.ReplaceTreeLosesBatchImages` | `AssetManager.MergeTreeKeepsOtherImages` |
| core/site_crawler.py:128-141 | the lookup appends `/index.html` or `.html` to a URL that already ends in `.html` | the page `/about.html` is looked up as `about.html/index.html` and `about.html.html` and skipped | a `.html` URL is looked up as it is | high, not executed | `SiteCrawler.LegacyPageNotFound` | `SiteCrawler.LegacyPageFound` |
| core/optimizer.py:407-417 | a maskable icon is pasted at full size onto a canvas larger by twice the padding | the 192 icon is saved 230 pixels wide | the icon keeps its declared size, with the padding inside | medium, not executed | `Optimizer.MaskableIconsOversized` | `Optimizer.IconLayoutMatchesManifest` |
| core/optimizer.py:495-497 | the frame canvas is the screenshot plus 40 pixels each way | the mobile screenshot is saved at 430x884 against the declared `390x844` | the canvas keeps the declared size | medium, not executed | `Optimizer.FramedShotsOversized` | `Optimizer.FramedShotsMatchManifest` |

=== FILE: asset_manager.dfy ===
/**
 * Static-asset copying: which files are copied where, the incremental "is the copy
 * still needed" test, the copy statistics, and the backward-compatible copy of the
 * `img/` folder.
 *
 * The thread pool is modelled as one sequential interleaving (task order). Directory
 * creation is assumed to succeed; `failing` names the targets whose copy raises.
 */
module AssetManager {
  import opened Wrappers
  import opened Strings
  import opened Paths
  import BuildCache

  /** The asset types and the extensions globbed for each, in declaration order. */
  const AssetTypes: seq<(string, seq<string>)> := [
    ("css", [".css"]),
    ("js", [".js"]),
    ("images", [".png", ".jpg", ".jpeg", ".webp", ".svg", ".gif", ".ico"]),
    ("fonts", [".woff", ".woff2", ".ttf", ".otf", ".eot"])]

  /** The only files ever copied to the site root. */
  const RootAllowlist: seq<string> := [
    "favicon.ico", "site.webmanifest", "manifest.json", "app.webmanifest",
    "sw.js", "logo.png", "robots.txt", "sitemap.xml"]

  /** The allow-list the blocked-file report checks against (it omits `sw.js`). */
  const ReportAllowlist: seq<string> := [
    "favicon.ico", "site.webmanifest", "manifest.json", "app.webmanifest",
    "logo.png", "robots.txt", "sitemap.xml"]

  const ImageExtensions: set<string> := {".png", ".jpg", ".jpeg", ".webp", ".svg", ".gif", ".ico"}

  /** One glob of the copy pass: the pattern, where matches go, and whether the
      source's directory structure is kept. */
  datatype Batch = Batch(pattern: Pattern, targetDir: Path, preserve: bool)

  /** A queued copy, as `_collect_file_tasks` builds it. */
  datatype CopyTask = CopyTask(source: Path, target: Path, force: bool)

  datatype CopyOutcome = Copied | Skipped | Failed

  datatype CopyStats = CopyStats(copied: nat, skipped: nat, errors: nat)

  /**
   * The worker count of the copy pool: the given `max_workers`, else
   * `min(32, (os.cpu_count() or 4) + 4)`, where an unknown (or zero) processor count
   * counts as four.
   */
  function DefaultWorkers(maxWorkers: Option<int>, cpu: Option<nat>): (r: int)
    ensures maxWorkers.Some? ==> r == maxWorkers.value
    ensures maxWorkers.None? ==> 5 <= r <= 32
    ensures maxWorkers.None? && (cpu.None? || cpu == Some(0)) ==> r == 8
    ensures maxWorkers.None? && cpu.Some? && cpu.value >= 28 ==> r == 32
    ensures maxWorkers.None? && cpu.Some? && 0 < cpu.value <= 28 ==> r == cpu.value + 4
  {
    if maxWorkers.Some? then maxWorkers.value
    else
      var count := if cpu.None? || cpu.value == 0 then 4 else cpu.value;
      if count + 4 < 32 then count + 4 else 32
  }

  /** `_is_image_file`: the lower-cased extension is an image extension. */
  predicate IsImageFile(p: Path) {
    Ext(Lower(p)) in ImageExtensions
  }

  /** `_is_image_already_processed`: without a build cache nothing is processed. */
  predicate AlreadyProcessed(cache: Option<BuildCache.Cache>, norm: Path -> Path, p: Path) {
    cache.Some? && BuildCache.IsImageProcessed(cache.value, norm, p)
  }

  /**
   * `_needs_copy(src, dest)`: a missing destination, or a source that cannot be
   * examined, needs a copy; otherwise only a source strictly newer than the
   * destination does.
   */
  function NeedsCopy(fs: FileSystem, src: Path, dest: Path): (r: bool)
    ensures !Exists(fs, dest) ==> r
    ensures Exists(fs, dest) && Exists(fs, src) ==> (r <==> fs.nodes[src].mtime > fs.nodes[dest].mtime)
  {
    if !Exists(fs, dest) then true
    else if !Exists(fs, src) then true
    else fs.nodes[src].mtime > fs.nodes[dest].mtime
  }

  /** The asset type a `css/...` or `js/...` relative path belongs to. */
  function LeadingType(rel: Path): string {
    if StartsWith(rel, "css/") then "css" else "js"
  }

  /**
   * Where `_collect_file_tasks` copies `file`: with structure preserved, the path
   * relative to the static directory is kept below the target directory, except that
   * a leading `css/` or `js/` is dropped when the target already is `.../assets/css`
   * or `.../assets/js`; without structure, only the base name is kept.
   */
  function TargetPath(staticDir: Path, file: Path, targetDir: Path, preserve: bool): Path
    requires Under(file, staticDir)
  {
    var rel := RelPath(file, staticDir);
    if !preserve then JoinPath(targetDir, Basename(file))
    else if StartsWith(rel, "css/") || StartsWith(rel, "js/") then
      var kind := LeadingType(rel);
      if EndsWith(targetDir, "/assets/" + kind) then JoinPath(targetDir, rel[|kind| + 1..])
      else JoinPath(targetDir, rel)
    else JoinPath(targetDir, rel)
  }

  /** The leading type is the first path component, as the source computes it. */
  lemma LeadingTypeIsFirstComponent(rel: Path)
    requires StartsWith(rel, "css/") || StartsWith(rel, "js/")
    ensures LeadingType(rel) == Split(rel, '/')[0]
  {
    var k := LeadingType(rel);
    assert rel[|k|] == '/' && '/' !in k;
    assert rel[..|k|] == k;
    IndexOfPrefix(k, '/', rel[|k|..]);
    assert k + rel[|k|..] == rel;
  }

  /** A stylesheet under `css/` lands directly below `.../assets/css`, without a second
      `css` level. */
  lemma CssIsNotNestedTwice(staticDir: Path, outputDir: Path, sub: Path)
    requires staticDir != "" && !EndsWith(staticDir, "/") && sub != "" && !StartsWith(sub, "/")
    requires outputDir != "" && !EndsWith(outputDir, "/")
    ensures Under(staticDir + "/css/" + sub, staticDir)
    ensures TargetPath(staticDir, staticDir + "/css/" + sub, outputDir + "/assets/css", true)
            == outputDir + "/assets/css/" + sub
  {
    assert staticDir + "/css/" + sub == staticDir + "/" + ("css/" + sub);
    ChildRel(staticDir, "css/" + sub);
    var rel := "css/" + sub;
    assert StartsWith(rel, "css/") by { assert rel[..4] == "css/"; }
    assert rel[4..] == sub;
    CssTargetDir(outputDir, sub);
  }

  /** `<out>/assets/css` is a css target directory, and joining `sub` to it appends. */
  lemma CssTargetDir(outputDir: Path, sub: Path)
    requires outputDir != "" && !EndsWith(outputDir, "/") && sub != "" && !StartsWith(sub, "/")
    ensures EndsWith(outputDir + "/assets/css", "/assets/" + "css")
    ensures JoinPath(outputDir + "/assets/css", sub) == outputDir + "/assets/css/" + sub
  {
    var target := outputDir + "/assets/css";
    assert "/assets/" + "css" == "/assets/css";
    assert target[|target| - 11..] == "/assets/css";
    assert target[|target| - 1] == 's';
  }

  /** Dropping the `css/` level makes two different sources share one target: for
      instance `static/css/main.css` and `static/main.css` are both copied to
      `out/assets/css/main.css`. */
  lemma CssTargetsCanCollide(staticDir: Path, outputDir: Path, name: Path)
    requires staticDir != "" && !EndsWith(staticDir, "/") && '/' !in name && name != ""
    requires !StartsWith(name, "css/") && !StartsWith(name, "js/")
    requires outputDir != "" && !EndsWith(outputDir, "/")
    ensures Under(staticDir + "/css/" + name, staticDir) && Under(staticDir + "/" + name, staticDir)
    ensures staticDir + "/css/" + name != staticDir + "/" + name
    ensures TargetPath(staticDir, staticDir + "/css/" + name, outputDir + "/assets/css", true)
            == TargetPath(staticDir, staticDir + "/" + name, outputDir + "/assets/css", true)
  {
    assert !StartsWith(name, "/") by { assert name[0] != '/'; }
    CssIsNotNestedTwice(staticDir, outputDir, name);
    var target := outputDir + "/assets/css";
    assert !EndsWith(target, "/");
    PlainTarget(staticDir, name, target);
    assert target + "/" + name == outputDir + "/assets/css/" + name;
  }

  /** A file directly in the static directory keeps its name below the target. */
  lemma PlainTarget(staticDir: Path, name: Path, targetDir: Path)
    requires staticDir != "" && !EndsWith(staticDir, "/") && '/' !in name && name != ""
    requires !StartsWith(name, "css/") && !StartsWith(name, "js/")
    requires targetDir != "" && !EndsWith(targetDir, "/")
    ensures Under(staticDir + "/" + name, staticDir)
    ensures TargetPath(staticDir, staticDir + "/" + name, targetDir, true) == targetDir + "/" + name
  {
    var f := staticDir + "/" + name;
    assert DirPrefix(staticDir) == staticDir + "/";
    assert f[..|staticDir| + 1] == staticDir + "/";
    assert RelPath(f, staticDir) == name;
    assert !StartsWith(name, "/") by { assert name[0] != '/'; }
  }

  /** The source `p` is queued by batch `b` (the per-file test of `_collect_file_tasks`). */
  predicate Queued(fs: FileSystem, staticDir: Path, b: Batch, force: bool,
                   cache: Option<BuildCache.Cache>, norm: Path -> Path, p: Path) {
    GlobMatch(fs, staticDir, b.pattern, p) && IsFile(fs, p)
    && !(IsImageFile(p) && AlreadyProcessed(cache, norm, p))
    && (force || NeedsCopy(fs, p, TargetPath(staticDir, p, b.targetDir, b.preserve)))
  }

  /**
   * `_collect_file_tasks(pattern, target_dir, preserve, force)`: exactly the queued
   * glob matches, in glob order, each with the target path its batch prescribes.
   */
  function CollectFileTasks(fs: FileSystem, staticDir: Path, b: Batch, force: bool,
                            cache: Option<BuildCache.Cache>, norm: Path -> Path): (r: seq<CopyTask>)
    ensures forall t :: t in r ==> t.force == force && Queued(fs, staticDir, b, force, cache, norm, t.source)
                                   && t.target == TargetPath(staticDir, t.source, b.targetDir, b.preserve)
    ensures forall p :: p in fs.order && Queued(fs, staticDir, b, force, cache, norm, p) ==>
              exists t :: t in r && t.source == p
  {
    CollectFrom(fs, staticDir, b, force, cache, norm, Glob(fs, staticDir, b.pattern))
  }

  function CollectFrom(fs: FileSystem, staticDir: Path, b: Batch, force: bool,
                       cache: Option<BuildCache.Cache>, norm: Path -> Path, files: seq<Path>): (r: seq<CopyTask>)
    requires forall p :: p in files ==> GlobMatch(fs, staticDir, b.pattern, p)
    ensures forall t :: t in r ==> t.force == force && t.source in files
                                   && Queued(fs, staticDir, b, force, cache, norm, t.source)
                                   && t.target == TargetPath(staticDir, t.source, b.targetDir, b.preserve)
    ensures forall p :: p in files && Queued(fs, staticDir, b, force, cache, norm, p) ==>
              exists t :: t in r && t.source == p
  {
    if |files| == 0 then []
    else
      var p := files[0];
      var here := if Queued(fs, staticDir, b, force, cache, norm, p)
                  then [CopyTask(p, TargetPath(staticDir, p, b.targetDir, b.preserve), force)]
                  else [];
      assert forall q :: q in files[1..] ==> q in files;
      var rest := CollectFrom(fs, staticDir, b, force, cache, norm, files[1..]);
      CollectFromStep(fs, staticDir, b, force, cache, norm, files, here, rest);
      CollectedTasks(fs, staticDir, b, force, cache, norm, files, here, rest);
      here + rest
  }

  /** The tasks of the first file and of the others are tasks of the whole list. */
  lemma CollectedTasks(fs: FileSystem, staticDir: Path, b: Batch, force: bool,
                       cache: Option<BuildCache.Cache>, norm: Path -> Path, files: seq<Path>,
                       here: seq<CopyTask>, rest: seq<CopyTask>)
    requires |files| > 0
    requires here == if Queued(fs, staticDir, b, force, cache, norm, files[0])
                     then [CopyTask(files[0], TargetPath(staticDir, files[0], b.targetDir, b.preserve), force)]
                     else []
    requires forall t :: t in rest ==> t.force == force && t.source in files[1..]
                                       && Queued(fs, staticDir, b, force, cache, norm, t.source)
                                       && t.target == TargetPath(staticDir, t.source, b.targetDir, b.preserve)
    ensures forall t :: t in here + rest ==> t.force == force && t.source in files
                                             && Queued(fs, staticDir, b, force, cache, norm, t.source)
                                             && t.target == TargetPath(staticDir, t.source, b.targetDir, b.preserve)
  {
    assert forall q :: q in files[1..] ==> q in files;
  }

  lemma CollectFromStep(fs: FileSystem, staticDir: Path, b: Batch, force: bool,
                        cache: Option<BuildCache.Cache>, norm: Path -> Path, files: seq<Path>,
                        here: seq<CopyTask>, rest: seq<CopyTask>)
    requires |files| > 0
    requires here == if Queued(fs, staticDir, b, force, cache, norm, files[0])
                     then [CopyTask(files[0], TargetPath(staticDir, files[0], b.targetDir, b.preserve), force)]
                     else []
    requires forall p :: p in files[1..] && Queued(fs, staticDir, b, force, cache, norm, p) ==>
               exists t :: t in rest && t.source == p
    ensures forall p :: p in files && Queued(fs, staticDir, b, force, cache, norm, p) ==>
              exists t :: t in here + rest && t.source == p
  {
    forall q | q in files && Queued(fs, staticDir, b, force, cache, norm, q)
      ensures exists t :: t in here + rest && t.source == q
    {
      if q == files[0] {
        assert here[0] in here + rest;
      } else {
        InTail(files, q);
        var t :| t in rest && t.source == q;
        assert t in here + rest;
      }
    }
  }

  /** A member of a list other than its head is in the tail. */
  lemma InTail<T>(xs: seq<T>, x: T)
    requires x in xs && |xs| > 0 && x != xs[0]
    ensures x in xs[1..]
  {
    var i :| 0 <= i < |xs| && xs[i] == x;
    assert xs[1..][i - 1] == x;
  }

  /** The batches of `copy_static_files`: every asset type's extensions below
      `<output>/assets/<type>` with structure kept, then each allow-listed root file
      flattened into the output directory. */
  function CopyBatches(outputDir: Path): seq<Batch>
  {
    var assets := JoinPath(outputDir, "assets");
    TypeBatches(assets, AssetTypes) + RootBatches(outputDir, RootAllowlist)
  }

  function TypeBatches(assets: Path, types: seq<(string, seq<string>)>): (r: seq<Batch>)
    ensures |r| == SumLengths(types)
  {
    if |types| == 0 then []
    else ExtBatches(JoinPath(assets, types[0].0), types[0].1) + TypeBatches(assets, types[1..])
  }

  function SumLengths(types: seq<(string, seq<string>)>): nat {
    if |types| == 0 then 0 else |types[0].1| + SumLengths(types[1..])
  }

  function ExtBatches(targetDir: Path, exts: seq<string>): (r: seq<Batch>)
    ensures |r| == |exts|
    ensures forall i :: 0 <= i < |r| ==> r[i] == Batch(EndingWith(exts[i]), targetDir, true)
  {
    if |exts| == 0 then [] else [Batch(EndingWith(exts[0]), targetDir, true)] + ExtBatches(targetDir, exts[1..])
  }

  function RootBatches(outputDir: Path, names: seq<string>): (r: seq<Batch>)
    ensures |r| == |names|
    ensures forall i :: 0 <= i < |r| ==> r[i] == Batch(Named(names[i]), outputDir, false)
  {
    if |names| == 0 then [] else [Batch(Named(names[0]), outputDir, false)] + RootBatches(outputDir, names[1..])
  }

  /** Every task of every batch, batch by batch. */
  function CollectAll(fs: FileSystem, staticDir: Path, batches: seq<Batch>, force: bool,
                      cache: Option<BuildCache.Cache>, norm: Path -> Path): (r: seq<CopyTask>)
    ensures forall t :: t in r ==> t.force == force && exists k :: (0 <= k < |batches|
              && Queued(fs, staticDir, batches[k], force, cache, norm, t.source)
              && t.target == TargetPath(staticDir, t.source, batches[k].targetDir, batches[k].preserve))
  {
    if |batches| == 0 then []
    else
      var here := CollectFileTasks(fs, staticDir, batches[0], force, cache, norm);
      var rest := CollectAll(fs, staticDir, batches[1..], force, cache, norm);
      CollectShift(fs, staticDir, batches, force, cache, norm, rest);
      here + rest
  }

  lemma CollectShift(fs: FileSystem, staticDir: Path, batches: seq<Batch>, force: bool,
                     cache: Option<BuildCache.Cache>, norm: Path -> Path, rest: seq<CopyTask>)
    requires |batches| > 0
    requires forall t :: t in rest ==> exists k :: (0 <= k < |batches[1..]|
              && Queued(fs, staticDir, batches[1..][k], force, cache, norm, t.source)
              && t.target == TargetPath(staticDir, t.source, batches[1..][k].targetDir, batches[1..][k].preserve))
    ensures forall t :: t in rest ==> exists k :: (0 <= k < |batches|
              && Queued(fs, staticDir, batches[k], force, cache, norm, t.source)
              && t.target == TargetPath(staticDir, t.source, batches[k].targetDir, batches[k].preserve))
  {
    forall t | t in rest ensures exists k :: (0 <= k < |batches|
          && Queued(fs, staticDir, batches[k], force, cache, norm, t.source)
          && t.target == TargetPath(staticDir, t.source, batches[k].targetDir, batches[k].preserve)) {
      var k :| 0 <= k < |batches[1..]| && Queued(fs, staticDir, batches[1..][k], force, cache, norm, t.source)
          && t.target == TargetPath(staticDir, t.source, batches[1..][k].targetDir, batches[1..][k].preserve);
      assert batches[1..][k] == batches[k + 1];
    }
  }

  // ---------------------------------------------------------------------------
  // What reaches the output root

  /** `p` lies directly in `dir`: below it, with no further slash. */
  predicate DirectlyIn(p: Path, dir: Path) {
    Under(p, dir) && '/' !in RelPath(p, dir)
  }

  /** A relative path as `glob` yields it: non-empty, with no empty component. */
  predicate NormalRel(rel: Path) {
    |rel| > 0 && rel[0] != '/' && rel[|rel| - 1] != '/'
    && forall i :: 0 < i < |rel| && rel[i - 1] == '/' ==> rel[i] != '/'
  }

  /** Every path below the static directory has a normal relative path. */
  predicate NormalTree(fs: FileSystem, staticDir: Path) {
    forall p :: p in fs.nodes && Under(p, staticDir) ==> NormalRel(RelPath(p, staticDir))
  }

  /** The batch keeps structure and targets the directory of one of the types. */
  predicate TargetsTypeDir(b: Batch, assets: Path, types: seq<(string, seq<string>)>) {
    b.preserve && exists j :: 0 <= j < |types| && b.targetDir == JoinPath(assets, types[j].0)
  }

  /** Each batch of an asset type keeps structure and targets that type's directory. */
  lemma {:induction false} TypeBatchDirs(assets: Path, types: seq<(string, seq<string>)>)
    ensures forall b :: b in TypeBatches(assets, types) ==> TargetsTypeDir(b, assets, types)
    decreases |types|
  {
    if |types| > 0 {
      var td := JoinPath(assets, types[0].0);
      ExtBatchesInDir(td, types[0].1);
      TypeBatchDirs(assets, types[1..]);
      TypeBatchStep(assets, types, ExtBatches(td, types[0].1), TypeBatches(assets, types[1..]));
    }
  }

  lemma ExtBatchesInDir(targetDir: Path, exts: seq<string>)
    ensures forall b :: b in ExtBatches(targetDir, exts) ==> b.preserve && b.targetDir == targetDir
  {
    forall b | b in ExtBatches(targetDir, exts) ensures b.preserve && b.targetDir == targetDir {
      var i :| 0 <= i < |ExtBatches(targetDir, exts)| && ExtBatches(targetDir, exts)[i] == b;
    }
  }

  lemma TypeBatchStep(assets: Path, types: seq<(string, seq<string>)>, here: seq<Batch>, rest: seq<Batch>)
    requires |types| > 0
    requires forall b :: b in here ==> b.preserve && b.targetDir == JoinPath(assets, types[0].0)
    requires forall b :: b in rest ==> TargetsTypeDir(b, assets, types[1..])
    ensures forall b :: b in here + rest ==> TargetsTypeDir(b, assets, types)
  {
    forall b | b in here + rest ensures TargetsTypeDir(b, assets, types) {
      if b in here {
        assert b.targetDir == JoinPath(assets, types[0].0);
      } else {
        assert TargetsTypeDir(b, assets, types[1..]);
        var j :| 0 <= j < |types[1..]| && b.targetDir == JoinPath(assets, types[1..][j].0);
        assert types[1..][j] == types[j + 1];
      }
    }
  }

  /** The asset type names are single non-empty components. */
  lemma AssetTypeNames()
    ensures forall j :: 0 <= j < |AssetTypes| ==> AssetTypes[j].0 != "" && '/' !in AssetTypes[j].0
  {
  }

  /** The part of a structured copy's target below its target directory. */
  function TypeTail(staticDir: Path, file: Path, targetDir: Path): (x: Path)
    requires Under(file, staticDir)
  {
    var rel := RelPath(file, staticDir);
    if (StartsWith(rel, "css/") || StartsWith(rel, "js/")) && EndsWith(targetDir, "/assets/" + LeadingType(rel))
    then rel[|LeadingType(rel)| + 1..]
    else rel
  }

  /** A structured copy of a normal path lands below its target directory, under a
      non-empty relative tail. */
  lemma TypeTailShape(staticDir: Path, file: Path, targetDir: Path)
    requires Under(file, staticDir) && NormalRel(RelPath(file, staticDir))
    ensures TargetPath(staticDir, file, targetDir, true) == JoinPath(targetDir, TypeTail(staticDir, file, targetDir))
    ensures TypeTail(staticDir, file, targetDir) != "" && !StartsWith(TypeTail(staticDir, file, targetDir), "/")
  {
    var rel := RelPath(file, staticDir);
    if (StartsWith(rel, "css/") || StartsWith(rel, "js/")) && EndsWith(targetDir, "/assets/" + LeadingType(rel)) {
      StrippedTail(rel);
    } else {
      assert TypeTail(staticDir, file, targetDir) == rel;
    }
  }

  /** Dropping the leading `css/` or `js/` from a normal path leaves a non-empty path
      that does not start with a slash. */
  lemma StrippedTail(rel: Path)
    requires NormalRel(rel) && (StartsWith(rel, "css/") || StartsWith(rel, "js/"))
    ensures |rel| > |LeadingType(rel)| + 1 && rel[|LeadingType(rel)| + 1] != '/'
  {
    var n := |LeadingType(rel)|;
    assert rel[..n + 1] == LeadingType(rel) + "/";
    assert rel[n] == '/';
  }

  /** `<out>/assets/<d>`, for an output directory without a trailing slash. */
  lemma AssetsDir(out: Path, d: string)
    requires out != "" && !EndsWith(out, "/") && d != "" && '/' !in d
    ensures JoinPath(JoinPath(out, "assets"), d) == out + "/" + ("assets/" + d)
    ensures !EndsWith(JoinPath(JoinPath(out, "assets"), d), "/")
  {
    var a := JoinPath(out, "assets");
    assert a == out + "/assets";
    assert !StartsWith(d, "/") by { assert d[..1][0] == d[0]; }
    assert !EndsWith(a, "/") by { assert a[|a| - 1] == 's'; }
    var td := JoinPath(a, d);
    assert td == out + "/" + ("assets/" + d);
    assert td[|td| - 1] == d[|d| - 1];
  }

  /** A path `<dir>/<r>` whose `r` holds a slash does not lie directly in `dir`. */
  lemma NestedNotDirect(dir: Path, r: Path)
    requires dir != "" && !EndsWith(dir, "/") && '/' in r
    ensures !DirectlyIn(dir + "/" + r, dir)
  {
    assert DirPrefix(dir) == dir + "/";
    var p := dir + "/" + r;
    if Under(p, dir) {
      assert RelPath(p, dir) == r;
    }
  }

  /** A path below `<out>/assets/<d>` does not lie directly in `out`. */
  lemma BelowAssetsNotDirect(out: Path, d: string, x: Path)
    requires out != "" && !EndsWith(out, "/") && d != "" && '/' !in d && x != "" && !StartsWith(x, "/")
    ensures !DirectlyIn(JoinPath(JoinPath(JoinPath(out, "assets"), d), x), out)
  {
    AssetsDir(out, d);
    var td := JoinPath(JoinPath(out, "assets"), d);
    var r := ("assets/" + d) + "/" + x;
    assert JoinPath(td, x) == td + "/" + x;
    assert td + "/" + x == out + "/" + r;
    assert r[6] == '/';
    NestedNotDirect(out, r);
  }

  /**
   * Nothing but the allow-listed files reaches the output root: every task of
   * `copy_static_files` whose target lies directly in the output directory copies a
   * file named in the root allow-list to that name. Asset types land below
   * `<output>/assets/<type>`.
   */
  lemma RootTargetsAllowListed(fs: FileSystem, staticDir: Path, out: Path, force: bool,
                               cache: Option<BuildCache.Cache>, norm: Path -> Path)
    requires out != "" && !EndsWith(out, "/") && NormalTree(fs, staticDir)
    ensures forall t :: t in CollectAll(fs, staticDir, CopyBatches(out), force, cache, norm) && DirectlyIn(t.target, out)
              ==> Basename(t.source) in RootAllowlist && t.target == JoinPath(out, Basename(t.source))
  {
    AssetTypeNames();
    RootTargetsNamed(fs, staticDir, out, AssetTypes, RootAllowlist, force, cache, norm);
  }

  /** The same for any type table whose names are single components and any root
      name list. */
  lemma RootTargetsNamed(fs: FileSystem, staticDir: Path, out: Path, types: seq<(string, seq<string>)>,
                         names: seq<string>, force: bool, cache: Option<BuildCache.Cache>, norm: Path -> Path)
    requires out != "" && !EndsWith(out, "/") && NormalTree(fs, staticDir)
    requires forall j :: 0 <= j < |types| ==> types[j].0 != "" && '/' !in types[j].0
    ensures var batches := TypeBatches(JoinPath(out, "assets"), types) + RootBatches(out, names);
            forall t :: t in CollectAll(fs, staticDir, batches, force, cache, norm) && DirectlyIn(t.target, out)
              ==> Basename(t.source) in names && t.target == JoinPath(out, Basename(t.source))
  {
    var assets := JoinPath(out, "assets");
    var tb := TypeBatches(assets, types);
    var rb := RootBatches(out, names);
    var batches := tb + rb;
    TypeBatchDirs(assets, types);
    forall t | t in CollectAll(fs, staticDir, batches, force, cache, norm)
      ensures DirectlyIn(t.target, out) ==> Basename(t.source) in names && t.target == JoinPath(out, Basename(t.source))
    {
      var k :| 0 <= k < |batches| && Queued(fs, staticDir, batches[k], force, cache, norm, t.source)
               && t.target == TargetPath(staticDir, t.source, batches[k].targetDir, batches[k].preserve);
      BatchTaskNamed(fs, staticDir, out, types, names, tb, rb, batches[k], t.source);
    }
  }

  /** One queued source of a type batch or a root batch: if its target lies directly in
      the output directory, the batch was a root batch for its base name. */
  lemma BatchTaskNamed(fs: FileSystem, staticDir: Path, out: Path, types: seq<(string, seq<string>)>,
                       names: seq<string>, tb: seq<Batch>, rb: seq<Batch>, b: Batch, p: Path)
    requires out != "" && !EndsWith(out, "/") && NormalTree(fs, staticDir)
    requires forall j :: 0 <= j < |types| ==> types[j].0 != "" && '/' !in types[j].0
    requires forall b :: b in tb ==> TargetsTypeDir(b, JoinPath(out, "assets"), types)
    requires rb == RootBatches(out, names)
    requires b in tb + rb && GlobMatch(fs, staticDir, b.pattern, p) && IsFile(fs, p)
    ensures DirectlyIn(TargetPath(staticDir, p, b.targetDir, b.preserve), out)
            ==> Basename(p) in names && TargetPath(staticDir, p, b.targetDir, b.preserve) == JoinPath(out, Basename(p))
  {
    if b in tb {
      TypeTaskNotDirect(fs, staticDir, out, types, b, p);
    } else {
      var i :| 0 <= i < |rb| && rb[i] == b;
      assert b == Batch(Named(names[i]), out, false);
      assert Basename(p) == names[i];
    }
  }

  /** A structured copy into an asset type's directory does not land directly in the
      output directory. */
  lemma TypeTaskNotDirect(fs: FileSystem, staticDir: Path, out: Path, types: seq<(string, seq<string>)>,
                          b: Batch, p: Path)
    requires out != "" && !EndsWith(out, "/") && NormalTree(fs, staticDir)
    requires forall j :: 0 <= j < |types| ==> types[j].0 != "" && '/' !in types[j].0
    requires TargetsTypeDir(b, JoinPath(out, "assets"), types)
    requires p in fs.nodes && Under(p, staticDir)
    ensures !DirectlyIn(TargetPath(staticDir, p, b.targetDir, b.preserve), out)
  {
    var j :| 0 <= j < |types| && b.targetDir == JoinPath(JoinPath(out, "assets"), types[j].0);
    TypeTailShape(staticDir, p, b.targetDir);
    BelowAssetsNotDirect(out, types[j].0, TypeTail(staticDir, p, b.targetDir));
  }

  // ---------------------------------------------------------------------------
  // Executing copies

  /** `shutil.copy2(src, dst)`: the destination becomes a copy of the source, including
      its modification time. */
  function CopyNode(fs: FileSystem, src: Path, dst: Path): (r: FileSystem)
    requires IsFile(fs, src)
    ensures r.nodes == fs.nodes[dst := fs.nodes[src]]
  {
    FileSystem(fs.nodes[dst := fs.nodes[src]], if dst in fs.nodes then fs.order else fs.order + [dst])
  }

  /**
   * `_copy_single_file(task)`: skipped when not forced and no longer needed; an
   * error when the source is not a regular file, is the destination itself, or the
   * copy raises; copied otherwise.
   */
  function CopySingleFile(fs: FileSystem, t: CopyTask, failing: set<Path>): (r: (CopyOutcome, FileSystem))
    ensures r.0 == Skipped <==> !t.force && !NeedsCopy(fs, t.source, t.target)
    ensures r.0 == Copied ==> IsFile(fs, t.source) && r.1.nodes == fs.nodes[t.target := fs.nodes[t.source]]
    ensures r.0 != Copied ==> r.1 == fs
    ensures r.0 == Failed <==> (t.force || NeedsCopy(fs, t.source, t.target))
                               && (t.target in failing || !IsFile(fs, t.source) || t.source == t.target)
  {
    if !t.force && !NeedsCopy(fs, t.source, t.target) then (Skipped, fs)
    else if t.target in failing || !IsFile(fs, t.source) || t.source == t.target then (Failed, fs)
    else (Copied, CopyNode(fs, t.source, t.target))
  }

  /** The tasks run one after another; outcome `i` belongs to task `i`. */
  function RunCopies(fs: FileSystem, tasks: seq<CopyTask>, failing: set<Path>): (r: (seq<CopyOutcome>, FileSystem))
    ensures |r.0| == |tasks|
  {
    if |tasks| == 0 then ([], fs)
    else
      var (outs, mid) := RunCopies(fs, tasks[..|tasks| - 1], failing);
      var (o, fin) := CopySingleFile(mid, tasks[|tasks| - 1], failing);
      (outs + [o], fin)
  }

  function CountOf(outs: seq<CopyOutcome>, o: CopyOutcome): nat
    ensures CountOf(outs, o) <= |outs|
  {
    if |outs| == 0 then 0
    else CountOf(outs[..|outs| - 1], o) + (if outs[|outs| - 1] == o then 1 else 0)
  }

  lemma {:induction false} CountsPartition(outs: seq<CopyOutcome>)
    ensures CountOf(outs, Copied) + CountOf(outs, Skipped) + CountOf(outs, Failed) == |outs|
  {
    if |outs| > 0 {
      CountsPartition(outs[..|outs| - 1]);
    }
  }

  /**
   * `_execute_parallel_copy(tasks)`: runs every task and tallies the outcomes; the
   * three counters always add up to the number of tasks.
   */
  method ExecuteParallelCopy(fs: FileSystem, tasks: seq<CopyTask>, failing: set<Path>)
    returns (stats: CopyStats, outcomes: seq<CopyOutcome>, result: FileSystem)
    ensures (outcomes, result) == RunCopies(fs, tasks, failing)
    ensures stats.copied == CountOf(outcomes, Copied)
    ensures stats.skipped == CountOf(outcomes, Skipped)
    ensures stats.errors == CountOf(outcomes, Failed)
    ensures stats.copied + stats.skipped + stats.errors == |tasks|
  {
    stats := CopyStats(0, 0, 0);
    outcomes := [];
    result := fs;
    var i := 0;
    while i < |tasks|
      invariant 0 <= i <= |tasks|
      invariant (outcomes, result) == RunCopies(fs, tasks[..i], failing)
      invariant stats.copied == CountOf(outcomes, Copied)
      invariant stats.skipped == CountOf(outcomes, Skipped)
      invariant stats.errors == CountOf(outcomes, Failed)
    {
      var (o, next) := CopySingleFile(result, tasks[i], failing);
      RunCopiesExtend(fs, tasks, i, failing);
      CountOfExtend(outcomes, o);
      outcomes := outcomes + [o];
      result := next;
      match o {
        case Copied => stats := stats.(copied := stats.copied + 1);
        case Skipped => stats := stats.(skipped := stats.skipped + 1);
        case Failed => stats := stats.(errors := stats.errors + 1);
      }
      i := i + 1;
    }
    assert tasks[..|tasks|] == tasks;
    CountsPartition(outcomes);
  }

  /** Running one more task appends its outcome to the earlier ones. */
  lemma RunCopiesExtend(fs: FileSystem, tasks: seq<CopyTask>, i: nat, failing: set<Path>)
    requires i < |tasks|
    ensures var before := RunCopies(fs, tasks[..i], failing);
            var step := CopySingleFile(before.1, tasks[i], failing);
            RunCopies(fs, tasks[..i + 1], failing) == (before.0 + [step.0], step.1)
  {
    assert tasks[..i + 1][..i] == tasks[..i];
    assert tasks[..i + 1][i] == tasks[i];
  }

  /** Each counter grows by one exactly when the appended outcome is its own. */
  lemma CountOfExtend(outs: seq<CopyOutcome>, o: CopyOutcome)
    ensures forall x :: CountOf(outs + [o], x) == CountOf(outs, x) + (if o == x then 1 else 0)
  {
    assert (outs + [o])[..|outs|] == outs;
  }

  /** No task writes over a source of any task. */
  predicate TargetsAvoidSources(tasks: seq<CopyTask>) {
    forall i, j :: 0 <= i < |tasks| && 0 <= j < |tasks| ==> tasks[i].target != tasks[j].source
  }

  /** Running unforced tasks never makes an existing path older, never removes one, and
      leaves every source as it was. */
  predicate Settled(before: FileSystem, after: FileSystem, tasks: seq<CopyTask>) {
    (forall p :: p in before.nodes ==> p in after.nodes && after.nodes[p].mtime >= before.nodes[p].mtime)
    && (forall p :: p in before.nodes && IsNoTarget(tasks, p) ==> after.nodes[p] == before.nodes[p])
  }

  predicate IsNoTarget(tasks: seq<CopyTask>, p: Path) {
    forall t :: t in tasks ==> t.target != p
  }

  /**
   * After an unforced run without failing copies, every task whose source is a
   * regular file has become unnecessary: its target exists and is at least as new as
   * its source, even when several tasks share one target.
   */
  lemma {:induction false} UnforcedRunSettles(fs: FileSystem, tasks: seq<CopyTask>)
    requires forall t :: t in tasks ==> !t.force && IsFile(fs, t.source)
    requires TargetsAvoidSources(tasks)
    ensures Settled(fs, RunCopies(fs, tasks, {}).1, tasks)
    ensures forall t :: t in tasks ==> !NeedsCopy(RunCopies(fs, tasks, {}).1, t.source, t.target)
    decreases |tasks|
  {
    if |tasks| > 0 {
      var init := tasks[..|tasks| - 1];
      assert forall t :: t in init ==> t in tasks;
      assert TargetsAvoidSources(init);
      UnforcedRunSettles(fs, init);
      var (outs, mid) := RunCopies(fs, init, {});
      var last := tasks[|tasks| - 1];
      var (o, fin) := CopySingleFile(mid, last, {});
      assert RunCopies(fs, tasks, {}).1 == fin;
      assert tasks == init + [last];
      SettleStep(fs, mid, init, last);
    }
  }

  /** One more unforced task keeps the run settled. */
  lemma SettleStep(fs: FileSystem, mid: FileSystem, init: seq<CopyTask>, last: CopyTask)
    requires !last.force && IsFile(fs, last.source)
    requires TargetsAvoidSources(init + [last])
    requires Settled(fs, mid, init)
    requires forall t :: t in init ==> !NeedsCopy(mid, t.source, t.target)
    ensures Settled(fs, CopySingleFile(mid, last, {}).1, init + [last])
    ensures forall t :: t in init + [last] ==> !NeedsCopy(CopySingleFile(mid, last, {}).1, t.source, t.target)
  {
    var tasks := init + [last];
    var (o, fin) := CopySingleFile(mid, last, {});
    assert tasks[|tasks| - 1] == last;
    assert IsNoTarget(init, last.source) by {
      forall t | t in init ensures t.target != last.source {
        var k :| 0 <= k < |init| && init[k] == t;
        assert tasks[k] == t;
      }
    }
    assert mid.nodes[last.source] == fs.nodes[last.source];
    forall p | p in fs.nodes && IsNoTarget(tasks, p) ensures fin.nodes[p] == fs.nodes[p] {
      assert IsNoTarget(init, p);
    }
    forall p | p in fs.nodes ensures p in fin.nodes && fin.nodes[p].mtime >= fs.nodes[p].mtime {
      if o == Copied && p == last.target {
        assert NeedsCopy(mid, last.source, last.target);
      }
    }
    forall t | t in tasks ensures !NeedsCopy(fin, t.source, t.target) {
      assert IsNoTarget(tasks, t.source);
      if t in init {
        assert IsNoTarget(init, t.source);
        if o == Copied && t.target == last.target {
          assert NeedsCopy(mid, last.source, last.target);
        }
      }
    }
  }

  /** `copy_file(src, dest, force)`: true when the destination is up to date afterwards
      (copied or not needed), false when the copy raised. */
  function CopyFile(fs: FileSystem, src: Path, dest: Path, force: bool, failing: set<Path>): (r: (bool, FileSystem))
    ensures r.0 && r.1 != fs ==> IsFile(fs, src) && r.1.nodes == fs.nodes[dest := fs.nodes[src]]
    ensures !r.0 ==> r.1 == fs && (force || NeedsCopy(fs, src, dest))
    ensures !force && !NeedsCopy(fs, src, dest) ==> r == (true, fs)
    ensures r.0 <==> (!force && !NeedsCopy(fs, src, dest))
                     || (IsFile(fs, src) && dest !in failing && src != dest)
    ensures r.0 && (force || NeedsCopy(fs, src, dest)) ==> r.1.nodes == fs.nodes[dest := fs.nodes[src]]
    ensures r.0 ==> !NeedsCopy(r.1, src, dest)
  {
    var (o, next) := CopySingleFile(fs, CopyTask(src, dest, force), failing);
    (o != Failed, next)
  }

  // ---------------------------------------------------------------------------
  // The `img/` folder

  /** Paths of `ps` that lie below `dir`, re-rooted below `dest`. */
  function Rebase(p: Path, dir: Path, dest: Path): Path
    requires Under(p, dir)
  {
    DirPrefix(dest) + RelPath(p, dir)
  }

  /**
   * `_copy_directory(src, dest)` AS WRITTEN: the destination tree is removed, then the
   * source tree is copied in its place.
   */
  function ReplaceTree(fs: FileSystem, src: Path, dest: Path): (r: FileSystem)
    ensures forall p :: p in fs.nodes && p != dest && !Under(p, dest) ==> p in r.nodes && r.nodes[p] == fs.nodes[p]
    ensures forall p :: p in fs.nodes && Under(p, src) ==> Rebase(p, src, dest) in r.nodes
  {
    var kept := map p | p in fs.nodes && p != dest && !Under(p, dest) :: fs.nodes[p];
    var copied := map q | q in RebasedKeys(fs, src, dest) :: fs.nodes[SourceOf(fs, src, dest, q)];
    FileSystem(kept + copied, fs.order)
  }

  /** The destination paths a tree copy of `src` creates below `dest`. */
  function RebasedKeys(fs: FileSystem, src: Path, dest: Path): (r: set<Path>)
    ensures forall p :: p in fs.nodes && Under(p, src) ==> Rebase(p, src, dest) in r
    ensures forall q :: q in r ==> exists p :: p in fs.nodes && Under(p, src) && q == Rebase(p, src, dest)
  {
    set p | p in fs.nodes && Under(p, src) :: Rebase(p, src, dest)
  }

  /** The source path a rebased destination path was copied from. */
  function SourceOf(fs: FileSystem, src: Path, dest: Path, q: Path): (p: Path)
    requires q in RebasedKeys(fs, src, dest)
    ensures p in fs.nodes && Under(p, src) && q == Rebase(p, src, dest)
  {
    var w :| w in fs.nodes && Under(w, src) && q == Rebase(w, src, dest);
    assert q[|DirPrefix(dest)|..] == RelPath(w, src);
    assert w == DirPrefix(src) + RelPath(w, src);
    DirPrefix(src) + q[|DirPrefix(dest)|..]
  }

  /**
   * The copy of the `img/` folder AS WRITTEN deletes whatever else was below
   * `assets/images`: the images batch has just copied `static/hero-image.webp` to
   * `assets/images/hero-image.webp`, and that copy is gone once `static/img/a.png`
   * is copied.
   */
  lemma ReplaceTreeLosesBatchImages()
    ensures var fs := FileSystem(map["static/img/a.png" := File(1, 1, None),
                                     "out/assets/images/hero-image.webp" := File(2, 1, None)],
                                 ["static/img/a.png", "out/assets/images/hero-image.webp"]);
            "out/assets/images/hero-image.webp" !in ReplaceTree(fs, "static/img", "out/assets/images").nodes
  {
    var fs := FileSystem(map["static/img/a.png" := File(1, 1, None),
                             "out/assets/images/hero-image.webp" := File(2, 1, None)],
                         ["static/img/a.png", "out/assets/images/hero-image.webp"]);
    var lost := "out/assets/images/hero-image.webp";
    assert DirPrefix("out/assets/images") == "out/assets/images/";
    assert Under(lost, "out/assets/images") by { assert lost[..18] == "out/assets/images/"; }
    assert DirPrefix("static/img") == "static/img/";
    assert !Under(lost, "static/img") by { assert lost[..11][0] == 'o'; }
    forall p | p in fs.nodes && Under(p, "static/img") ensures Rebase(p, "static/img", "out/assets/images") != lost {
      assert p == "static/img/a.png";
      assert RelPath(p, "static/img") == "a.png";
    }
    ReplaceTreeDrops(fs, "static/img", "out/assets/images", lost);
  }

  /** A file below the destination that no source file is copied onto is gone after
      the tree copy. */
  lemma ReplaceTreeDrops(fs: FileSystem, src: Path, dest: Path, lost: Path)
    requires Under(lost, dest)
    requires forall p :: p in fs.nodes && Under(p, src) ==> Rebase(p, src, dest) != lost
    ensures lost !in ReplaceTree(fs, src, dest).nodes
  {
    assert lost !in RebasedKeys(fs, src, dest);
  }

  /**
   * The copy of the `img/` folder as evidently intended: the source tree is laid over
   * the destination, and nothing already below the destination is removed.
   */
  function MergeTree(fs: FileSystem, src: Path, dest: Path): (r: FileSystem)
    ensures forall p :: p in fs.nodes ==> p in r.nodes
    ensures forall p :: p in fs.nodes && p !in RebasedKeys(fs, src, dest) ==> r.nodes[p] == fs.nodes[p]
    ensures forall p :: p in fs.nodes && Under(p, src) ==> Rebase(p, src, dest) in r.nodes
  {
    var copied := map q | q in RebasedKeys(fs, src, dest) :: fs.nodes[SourceOf(fs, src, dest, q)];
    FileSystem(fs.nodes + copied, fs.order)
  }

  /** Laying the `img/` folder over `assets/images` keeps every other file there: the
      images batch's copies and the optimiser's output. */
  lemma MergeTreeKeepsOtherImages(fs: FileSystem, imgDir: Path, imagesDir: Path, derived: Path)
    requires derived in fs.nodes && Under(derived, imagesDir)
    requires forall p :: p in fs.nodes && Under(p, imgDir) ==> Rebase(p, imgDir, imagesDir) != derived
    ensures derived in MergeTree(fs, imgDir, imagesDir).nodes
    ensures MergeTree(fs, imgDir, imagesDir).nodes[derived] == fs.nodes[derived]
  {
  }

  // ---------------------------------------------------------------------------
  // Reporting and template helpers

  /** `_log_blocked_files`: the `.xml`, `.txt` and `.json` files whose name is not in
      the report's allow-list, relative to the static directory. */
  function BlockedFiles(fs: FileSystem, staticDir: Path): (r: seq<Path>)
    ensures forall q :: q in r ==> Basename(q) !in ReportAllowlist
    ensures forall q :: q in r <==> BlockedAs(fs, staticDir, q)
  {
    var xml := BlockedFrom(fs, staticDir, Glob(fs, staticDir, EndingWith(".xml")));
    var txt := BlockedFrom(fs, staticDir, Glob(fs, staticDir, EndingWith(".txt")));
    var json := BlockedFrom(fs, staticDir, Glob(fs, staticDir, EndingWith(".json")));
    BlockedFilesMembers(fs, staticDir, xml, txt, json);
    xml + txt + json
  }

  /** A file one of the old recursive wildcards for `.xml`, `.txt` and `.json` finds. */
  predicate OldWildcard(fs: FileSystem, staticDir: Path, p: Path) {
    GlobMatch(fs, staticDir, EndingWith(".xml"), p) || GlobMatch(fs, staticDir, EndingWith(".txt"), p)
    || GlobMatch(fs, staticDir, EndingWith(".json"), p)
  }

  /** `q` is the path, relative to the static directory, of a file the old wildcards
      find in walk order and the allow-list does not name. */
  predicate BlockedAs(fs: FileSystem, staticDir: Path, q: Path) {
    exists p :: p in fs.order && OldWildcard(fs, staticDir, p) && Reported(fs, staticDir, p)
                && RelPath(p, staticDir) == q
  }

  /** A found file `_log_blocked_files` reports: a file whose name is not allow-listed. */
  predicate Reported(fs: FileSystem, staticDir: Path, p: Path) {
    IsFile(fs, p) && Basename(p) !in ReportAllowlist && Under(p, staticDir)
  }

  /** `q` is the relative path of a reported file among `files`. */
  predicate ReportedIn(fs: FileSystem, staticDir: Path, files: seq<Path>, q: Path) {
    exists p :: p in files && Reported(fs, staticDir, p) && RelPath(p, staticDir) == q
  }

  lemma BlockedFilesMembers(fs: FileSystem, staticDir: Path, xml: seq<Path>, txt: seq<Path>, json: seq<Path>)
    requires xml == BlockedFrom(fs, staticDir, Glob(fs, staticDir, EndingWith(".xml")))
    requires txt == BlockedFrom(fs, staticDir, Glob(fs, staticDir, EndingWith(".txt")))
    requires json == BlockedFrom(fs, staticDir, Glob(fs, staticDir, EndingWith(".json")))
    ensures forall q :: q in xml + txt + json <==> BlockedAs(fs, staticDir, q)
  {
    var gx := Glob(fs, staticDir, EndingWith(".xml"));
    var gt := Glob(fs, staticDir, EndingWith(".txt"));
    var gj := Glob(fs, staticDir, EndingWith(".json"));
    forall q ensures q in xml + txt + json <==> BlockedAs(fs, staticDir, q) {
      if BlockedAs(fs, staticDir, q) {
        var p :| p in fs.order && OldWildcard(fs, staticDir, p) && Reported(fs, staticDir, p)
                 && RelPath(p, staticDir) == q;
        if GlobMatch(fs, staticDir, EndingWith(".xml"), p) {
          assert ReportedIn(fs, staticDir, gx, q);
        } else if GlobMatch(fs, staticDir, EndingWith(".txt"), p) {
          assert ReportedIn(fs, staticDir, gt, q);
        } else {
          assert ReportedIn(fs, staticDir, gj, q);
        }
      }
      if q in xml {
        var p :| p in gx && Reported(fs, staticDir, p) && RelPath(p, staticDir) == q;
        assert OldWildcard(fs, staticDir, p);
      } else if q in txt {
        var p :| p in gt && Reported(fs, staticDir, p) && RelPath(p, staticDir) == q;
        assert OldWildcard(fs, staticDir, p);
      } else if q in json {
        var p :| p in gj && Reported(fs, staticDir, p) && RelPath(p, staticDir) == q;
        assert OldWildcard(fs, staticDir, p);
      }
    }
  }

  function BlockedFrom(fs: FileSystem, staticDir: Path, files: seq<Path>): (r: seq<Path>)
    ensures forall q :: q in r ==> Basename(q) !in ReportAllowlist
    ensures forall q :: q in r <==> ReportedIn(fs, staticDir, files, q)
    ensures |r| <= |files|
  {
    if |files| == 0 then []
    else
      var here := if Reported(fs, staticDir, files[0]) then [RelPath(files[0], staticDir)] else [];
      var tail := BlockedFrom(fs, staticDir, files[1..]);
      BlockedCons(fs, staticDir, files, here, tail);
      here + tail
  }

  lemma BlockedCons(fs: FileSystem, staticDir: Path, files: seq<Path>, here: seq<Path>, tail: seq<Path>)
    requires |files| > 0
    requires here == if Reported(fs, staticDir, files[0]) then [RelPath(files[0], staticDir)] else []
    requires forall q :: q in tail ==> Basename(q) !in ReportAllowlist
    requires forall q :: q in tail <==> ReportedIn(fs, staticDir, files[1..], q)
    ensures forall q :: q in here + tail ==> Basename(q) !in ReportAllowlist
    ensures forall q :: q in here + tail <==> ReportedIn(fs, staticDir, files, q)
  {
    if here != [] {
      RelPathKeepsBasename(files[0], staticDir);
    }
    ReportedInStep(fs, staticDir, files);
  }

  /** A reported path comes from the first file or from the rest. */
  lemma ReportedInStep(fs: FileSystem, staticDir: Path, files: seq<Path>)
    requires |files| > 0
    ensures forall q :: ReportedIn(fs, staticDir, files, q)
                        <==> (Reported(fs, staticDir, files[0]) && q == RelPath(files[0], staticDir))
                             || ReportedIn(fs, staticDir, files[1..], q)
  {
    forall q | ReportedIn(fs, staticDir, files, q)
      ensures (Reported(fs, staticDir, files[0]) && q == RelPath(files[0], staticDir))
              || ReportedIn(fs, staticDir, files[1..], q)
    {
      var x :| x in files && Reported(fs, staticDir, x) && RelPath(x, staticDir) == q;
      if x != files[0] {
        assert x in files[1..];
      }
    }
    forall q | ReportedIn(fs, staticDir, files[1..], q) ensures ReportedIn(fs, staticDir, files, q) {
      var x :| x in files[1..] && Reported(fs, staticDir, x) && RelPath(x, staticDir) == q;
      assert x in files;
    }
    forall q | Reported(fs, staticDir, files[0]) && q == RelPath(files[0], staticDir)
      ensures ReportedIn(fs, staticDir, files, q)
    {
      assert files[0] in files;
    }
  }

  lemma RelPathKeepsBasename(p: Path, dir: Path)
    requires Under(p, dir)
    ensures Basename(RelPath(p, dir)) == Basename(p)
  {
    var k := |DirPrefix(dir)|;
    DirPrefixEnd(dir);
    assert k > 0 ==> p[k - 1] == DirPrefix(dir)[k - 1] by {
      assert p[..k] == DirPrefix(dir);
    }
    BasenameOfSuffix(p, k);
  }

  lemma BasenameOfSuffix(p: Path, k: nat)
    requires k <= |p| && |p[k..]| > 0 && (k == 0 || p[k - 1] == '/')
    ensures Basename(p[k..]) == Basename(p)
  {
    var s := p[k..];
    match LastIndexOf(s, '/')
    case Some(i) =>
      assert p[k + i] == '/';
      assert forall j :: k + i < j < |p| ==> p[j] == s[j - k];
      assert LastIndexOf(p, '/').Some? && LastIndexOf(p, '/').value == k + i;
      assert s[i + 1..] == p[k + i + 1..];
    case None =>
      if k > 0 {
        assert p[k - 1] == '/';
        assert forall j :: k <= j < |p| ==> p[j] == s[j - k];
        assert LastIndexOf(p, '/').Some?;
        assert LastIndexOf(p, '/').value == k - 1;
      }
  }

  /** `update_template_context_for_assets` for the `og_image` entry: a relative image
      name is moved below `/assets/images/`; absolute paths and URLs are kept. */
  function AssetOgImage(og: string): (r: string)
    ensures StartsWith(og, "http") || StartsWith(og, "/") ==> r == og
    ensures StartsWith(r, "http") || StartsWith(r, "/")
    ensures EndsWith(r, og)
  {
    if StartsWith(og, "http") then og
    else if StartsWith(og, "/") then og
    else "/assets/images/" + og
  }

  /** Rewriting the `og_image` entry twice changes nothing more. */
  lemma AssetOgImageIdempotent(og: string)
    ensures AssetOgImage(AssetOgImage(og)) == AssetOgImage(og)
  {
  }

  /** The path helpers the template context gains. */
  function AssetPath(kind: string, path: string): (r: string)
    ensures StartsWith(r, "/assets/") && EndsWith(r, path)
  {
    "/assets/" + (if kind == "" then "" else kind + "/") + path
  }
}

=== FILE: build_cache.dfy ===
/**
 * The incremental-build change tracker: per-file fingerprints, per-category file
 * lists, change detection, and the registry of images the image optimiser has
 * already handled.
 *
 * The cache is an immutable value; every operation that mutates the Python object
 * returns the new value instead. Modification times are integers (the model does
 * not depend on their unit).
 */
module BuildCache {
  import opened Wrappers
  import opened Strings
  import opened Paths

  /** The fingerprint `_get_file_info` records for one path. */
  datatype FileInfo = FileInfo(mtime: int, size: nat, hash: string)

  /** The fingerprint of a path that cannot be examined, and the default that a
      missing cache entry is compared against. */
  const Unknown := FileInfo(0, 0, "")

  /** The persisted cache document; a key the document lacks is None. */
  datatype CacheData = CacheData(
    files: Option<map<Path, FileInfo>>,
    processedImages: Option<seq<Path>>,
    lastBuild: Option<int>)

  const EmptyData := CacheData(None, None, None)

  /** One entry of the ordered category table (a Python dict keeps insertion order). */
  datatype Category = Category(name: string, paths: seq<Path>)

  datatype Cache = Cache(data: CacheData, categories: seq<Category>)

  /** What reading the cache file produced. */
  datatype CacheFile = Missing | Unreadable | Stored(data: CacheData)

  /** `not self.cache_data`: the document has no key at all. */
  predicate IsEmpty(d: CacheData) {
    d.files.None? && d.processedImages.None? && d.lastBuild.None?
  }

  /** The fingerprints recorded so far (`cache_data.get('files', {})`). */
  function CachedFiles(d: CacheData): map<Path, FileInfo> {
    d.files.UnwrapOr(map[])
  }

  /** The categories a fresh cache tracks, in their declared order. */
  const InitialCategories: seq<Category> := [
    Category("content", []), Category("static", []), Category("templates", []),
    Category("config", []), Category("processed_images", [])]

  predicate HasCategory(cats: seq<Category>, name: string) {
    exists i :: 0 <= i < |cats| && cats[i].name == name
  }

  /** The paths tracked under `name` (`file_categories.get(name, [])`). */
  function CategoryPaths(cats: seq<Category>, name: string): (r: seq<Path>)
    ensures !HasCategory(cats, name) ==> r == []
    ensures forall i :: (0 <= i < |cats| && cats[i].name == name
                         && (forall j :: 0 <= j < i ==> cats[j].name != name)) ==> r == cats[i].paths
  {
    if |cats| == 0 then []
    else if cats[0].name == name then cats[0].paths
    else CategoryPaths(cats[1..], name)
  }

  /** Every tracked path, category by category. */
  function AllTracked(cats: seq<Category>): (r: seq<Path>)
    ensures forall p :: p in r <==> exists i :: 0 <= i < |cats| && p in cats[i].paths
  {
    if |cats| == 0 then []
    else
      var rest := AllTracked(cats[1..]);
      assert forall p :: p in rest ==> exists i :: 0 <= i < |cats| && p in cats[i].paths by {
        forall p | p in rest ensures exists i :: 0 <= i < |cats| && p in cats[i].paths {
          var i :| 0 <= i < |cats[1..]| && p in cats[1..][i].paths;
          assert p in cats[i + 1].paths;
        }
      }
      assert forall p, i :: 1 <= i < |cats| && p in cats[i].paths ==> p in rest by {
        forall p, i | 1 <= i < |cats| && p in cats[i].paths ensures p in rest {
          assert p in cats[1..][i - 1].paths;
        }
      }
      cats[0].paths + rest
  }

  /** `_load_cache`: a missing or unreadable file starts from an empty document. */
  function Load(f: CacheFile): (c: Cache)
    ensures c.categories == InitialCategories
    ensures f.Stored? ==> c.data == f.data
    ensures !f.Stored? ==> IsEmpty(c.data)
  {
    Cache(if f.Stored? then f.data else EmptyData, InitialCategories)
  }

  /** `_get_file_info`: stat plus content hash; a path that cannot be examined yields
      `Unknown`, and a file that cannot be read has the empty hash. */
  function FileInfoOf(fs: FileSystem, p: Path): (r: FileInfo)
    ensures !Exists(fs, p) ==> r == Unknown
    ensures Exists(fs, p) ==> r.mtime == fs.nodes[p].mtime && r.size == fs.nodes[p].size
    ensures r.hash != "" ==> IsFile(fs, p) && fs.nodes[p].digest == Some(r.hash)
    ensures IsFile(fs, p) && fs.nodes[p].digest.Some? ==> r.hash == fs.nodes[p].digest.value
  {
    if p !in fs.nodes then Unknown
    else match fs.nodes[p]
      case File(m, s, d) => FileInfo(m, s, d.UnwrapOr(""))
      case Dir(m, s) => FileInfo(m, s, "")
  }

  /**
   * The change test of `get_changed_files` for one path: a path that no longer
   * exists has changed exactly when it was fingerprinted before; an existing path
   * has changed when its modification time, hash or size differs from the recorded
   * fingerprint (an unrecorded path is compared against zeros and the empty hash).
   */
  predicate Changed(d: CacheData, fs: FileSystem, p: Path) {
    var cached := CachedFiles(d);
    if !Exists(fs, p) then p in cached
    else
      var now := FileInfoOf(fs, p);
      var before := if p in cached then cached[p] else Unknown;
      now.mtime != before.mtime || now.hash != before.hash || now.size != before.size
  }

  /** `get_changed_files(paths)`. */
  function GetChangedFiles(d: CacheData, fs: FileSystem, paths: seq<Path>): (r: set<Path>)
    ensures forall p :: p in r <==> p in paths && Changed(d, fs, p)
  {
    if |paths| == 0 then {}
    else
      (if Changed(d, fs, paths[0]) then {paths[0]} else {})
      + GetChangedFiles(d, fs, paths[1..])
  }

  /** The paths `has_changes` examines: explicit paths win over a category, which wins
      over every tracked path. */
  function ScopeOf(c: Cache, filePaths: Option<seq<Path>>, category: Option<string>): seq<Path> {
    if filePaths.Some? && |filePaths.value| > 0 then filePaths.value
    else if category.Some? && category.value != "" then CategoryPaths(c.categories, category.value)
    else AllTracked(c.categories)
  }

  /**
   * `has_changes`: true when forced, when the cache document is empty (a first
   * build), or when some path in scope has changed.
   */
  function HasChanges(c: Cache, fs: FileSystem, filePaths: Option<seq<Path>>,
                      category: Option<string>, force: bool): (r: bool)
    ensures force ==> r
    ensures IsEmpty(c.data) ==> r
    ensures !force && !IsEmpty(c.data) ==>
              (r <==> exists p :: p in ScopeOf(c, filePaths, category) && Changed(c.data, fs, p))
  {
    force || IsEmpty(c.data) || GetChangedFiles(c.data, fs, ScopeOf(c, filePaths, category)) != {}
  }

  /**
   * `update_file_cache(paths)`: fingerprint every listed path that exists; every
   * other entry is kept. The document gains a `files` key even when nothing is
   * listed.
   */
  function UpdateFileCache(c: Cache, fs: FileSystem, paths: seq<Path>): (r: Cache)
    ensures r.categories == c.categories
    ensures r.data.processedImages == c.data.processedImages
    ensures r.data.lastBuild == c.data.lastBuild
    ensures r.data.files.Some?
    ensures forall p :: p in CachedFiles(r.data) <==>
              p in CachedFiles(c.data) || (p in paths && Exists(fs, p))
    ensures forall p :: p in paths && Exists(fs, p) ==> CachedFiles(r.data)[p] == FileInfoOf(fs, p)
    ensures forall p :: p in CachedFiles(c.data) && !(p in paths && Exists(fs, p)) ==>
              CachedFiles(r.data)[p] == CachedFiles(c.data)[p]
  {
    var files := RecordAll(CachedFiles(c.data), fs, paths);
    Cache(c.data.(files := Some(files)), c.categories)
  }

  function RecordAll(files: map<Path, FileInfo>, fs: FileSystem, paths: seq<Path>): (r: map<Path, FileInfo>)
    ensures forall p :: p in r <==> p in files || (p in paths && Exists(fs, p))
    ensures forall p :: p in paths && Exists(fs, p) ==> r[p] == FileInfoOf(fs, p)
    ensures forall p :: p in files && !(p in paths && Exists(fs, p)) ==> r[p] == files[p]
    decreases |paths|
  {
    if |paths| == 0 then files
    else
      var p := paths[0];
      var next := if Exists(fs, p) then files[p := FileInfoOf(fs, p)] else files;
      RecordAll(next, fs, paths[1..])
  }

  /**
   * After fingerprinting `paths`, a listed path still counts as changed exactly when
   * it has been deleted yet was fingerprinted before: an existing path is never
   * reported, and deleted paths are not forgotten.
   */
  lemma UpdateSettlesChanges(c: Cache, fs: FileSystem, paths: seq<Path>, p: Path)
    requires p in paths
    ensures Changed(UpdateFileCache(c, fs, paths).data, fs, p) <==>
              !Exists(fs, p) && p in CachedFiles(c.data)
  {
  }

  /** Hence when every listed path exists, checking them again finds nothing. */
  lemma UpdateThenNoChanges(c: Cache, fs: FileSystem, paths: seq<Path>)
    requires forall p :: p in paths ==> Exists(fs, p)
    ensures GetChangedFiles(UpdateFileCache(c, fs, paths).data, fs, paths) == {}
    ensures |paths| > 0 ==> !HasChanges(UpdateFileCache(c, fs, paths), fs, Some(paths), None, false)
  {
    var r := UpdateFileCache(c, fs, paths);
    forall p | p in paths ensures !Changed(r.data, fs, p) {
      UpdateSettlesChanges(c, fs, paths, p);
    }
  }

  /** Fingerprinting some paths leaves the change status of every other path as it was. */
  lemma UpdateKeepsOthers(c: Cache, fs: FileSystem, paths: seq<Path>, q: Path)
    requires q !in paths
    ensures Changed(UpdateFileCache(c, fs, paths).data, fs, q) <==> Changed(c.data, fs, q)
  {
  }

  /**
   * `has_changes(category=...)` after fingerprinting exactly that category's paths
   * reports no change, provided the paths still exist and the call is not forced.
   */
  lemma CategoryUpdatedThenUnchanged(c: Cache, fs: FileSystem, name: string)
    requires name != "" && forall p :: p in CategoryPaths(c.categories, name) ==> Exists(fs, p)
    ensures !HasChanges(UpdateFileCache(c, fs, CategoryPaths(c.categories, name)), fs, None, Some(name), false)
  {
    var paths := CategoryPaths(c.categories, name);
    UpdateThenNoChanges(c, fs, paths);
  }

  /** `scan_directory(directory, patterns, category)`: the files found and the cache
      with the category list extended by them; an unknown category raises KeyError
      (after a missing directory has already returned an empty list). */
  function ScanDirectory(c: Cache, fs: FileSystem, directory: Path,
                         patterns: seq<Pattern>, category: string): (r: Result<(Cache, seq<Path>)>)
    ensures !Exists(fs, directory) ==> r == Ok((c, []))
    ensures r.Err? <==> Exists(fs, directory) && !HasCategory(c.categories, category)
    ensures r.Ok? ==> r.value.0.data == c.data
    ensures r.Ok? ==> forall p :: p in r.value.1 ==>
              IsFile(fs, p) && Under(p, directory)
              && exists k :: 0 <= k < |EffectivePatterns(patterns)|
                             && FoundBy(fs, directory, EffectivePatterns(patterns)[k], p)
    ensures r.Ok? && Exists(fs, directory) ==> forall p ::
              p in fs.order && IsFile(fs, p) && Under(p, directory)
              && (exists k :: 0 <= k < |EffectivePatterns(patterns)|
                              && FoundBy(fs, directory, EffectivePatterns(patterns)[k], p))
              ==> p in r.value.1
    ensures r.Ok? ==> CategoryPaths(r.value.0.categories, category)
                      == CategoryPaths(c.categories, category) + r.value.1
    ensures r.Ok? ==> forall other :: other != category ==>
              CategoryPaths(r.value.0.categories, other) == CategoryPaths(c.categories, other)
    ensures r.Ok? ==> forall n :: HasCategory(r.value.0.categories, n) <==> HasCategory(c.categories, n)
  {
    if !Exists(fs, directory) then Ok((c, []))
    else
      var found := FilesOnly(fs, ScanAll(fs, directory, EffectivePatterns(patterns)));
      if !HasCategory(c.categories, category) then Err(KeyError(category))
      else Ok((Cache(c.data, Extend(c.categories, category, found)), found))
  }

  /** `patterns or ['*']`. */
  function EffectivePatterns(patterns: seq<Pattern>): (r: seq<Pattern>)
    ensures |r| > 0
  {
    if |patterns| == 0 then [Everything] else patterns
  }

  /** A path a single pattern of `scan_directory` yields: `'*'` walks everything,
      any other pattern globs recursively. */
  predicate FoundBy(fs: FileSystem, dir: Path, pat: Pattern, p: Path) {
    if pat == Everything then IsFile(fs, p) && Under(p, dir) else GlobMatch(fs, dir, pat, p)
  }

  /** The paths one pattern yields. */
  function ScanOne(fs: FileSystem, dir: Path, pat: Pattern): (r: seq<Path>)
    ensures forall p :: p in r ==> Under(p, dir) && FoundBy(fs, dir, pat, p)
    ensures forall p :: p in fs.order && FoundBy(fs, dir, pat, p) ==> p in r
  {
    if pat == Everything then WalkFiles(fs, fs.order, dir) else Glob(fs, dir, pat)
  }

  function ScanAll(fs: FileSystem, dir: Path, pats: seq<Pattern>): (r: seq<Path>)
    ensures forall p :: p in r ==> Under(p, dir)
    ensures forall p :: p in r ==> exists k :: 0 <= k < |pats| && FoundBy(fs, dir, pats[k], p)
    ensures forall p, k :: 0 <= k < |pats| && p in fs.order && FoundBy(fs, dir, pats[k], p) ==> p in r
  {
    if |pats| == 0 then []
    else
      var here := ScanOne(fs, dir, pats[0]);
      var rest := ScanAll(fs, dir, pats[1..]);
      ScanShift(fs, dir, pats, rest);
      ScanSoundShift(fs, dir, pats, here, rest);
      here + rest
  }

  lemma ScanSoundShift(fs: FileSystem, dir: Path, pats: seq<Pattern>, here: seq<Path>, rest: seq<Path>)
    requires |pats| > 0
    requires forall p :: p in here ==> FoundBy(fs, dir, pats[0], p)
    requires forall p :: p in rest ==> exists k :: 0 <= k < |pats[1..]| && FoundBy(fs, dir, pats[1..][k], p)
    ensures forall p :: p in here + rest ==> exists k :: 0 <= k < |pats| && FoundBy(fs, dir, pats[k], p)
  {
    forall p | p in here + rest ensures exists k :: 0 <= k < |pats| && FoundBy(fs, dir, pats[k], p) {
      if p in here {
        assert FoundBy(fs, dir, pats[0], p);
      } else {
        var k :| 0 <= k < |pats[1..]| && FoundBy(fs, dir, pats[1..][k], p);
        assert pats[1..][k] == pats[k + 1];
      }
    }
  }

  lemma ScanShift(fs: FileSystem, dir: Path, pats: seq<Pattern>, rest: seq<Path>)
    requires |pats| > 0
    requires forall p, k :: 0 <= k < |pats[1..]| && p in fs.order && FoundBy(fs, dir, pats[1..][k], p) ==> p in rest
    ensures forall p, k :: 1 <= k < |pats| && p in fs.order && FoundBy(fs, dir, pats[k], p) ==> p in rest
  {
    forall p, k | 1 <= k < |pats| && p in fs.order && FoundBy(fs, dir, pats[k], p) ensures p in rest {
      assert pats[1..][k - 1] == pats[k];
    }
  }

  /** `[f for f in files if os.path.isfile(f)]`. */
  function FilesOnly(fs: FileSystem, ps: seq<Path>): (r: seq<Path>)
    ensures forall p :: p in r <==> p in ps && IsFile(fs, p)
  {
    if |ps| == 0 then []
    else (if IsFile(fs, ps[0]) then [ps[0]] else []) + FilesOnly(fs, ps[1..])
  }

  /** Append `more` to the first category called `name`. */
  function Extend(cats: seq<Category>, name: string, more: seq<Path>): (r: seq<Category>)
    requires HasCategory(cats, name)
    ensures |r| == |cats|
    ensures forall i :: 0 <= i < |cats| ==> r[i].name == cats[i].name
    ensures CategoryPaths(r, name) == CategoryPaths(cats, name) + more
    ensures forall other :: other != name ==> CategoryPaths(r, other) == CategoryPaths(cats, other)
  {
    if cats[0].name == name then [Category(name, cats[0].paths + more)] + cats[1..]
    else
      assert HasCategory(cats[1..], name) by {
        var i :| 0 <= i < |cats| && cats[i].name == name;
        assert cats[1..][i - 1].name == name;
      }
      [cats[0]] + Extend(cats[1..], name, more)
  }

  /** `track_files(paths, category)`: creates the category when it is new. */
  function TrackFiles(c: Cache, paths: seq<Path>, category: string): (r: Cache)
    ensures r.data == c.data
    ensures HasCategory(r.categories, category)
    ensures CategoryPaths(r.categories, category) == CategoryPaths(c.categories, category) + paths
    ensures forall other :: other != category ==>
              CategoryPaths(r.categories, other) == CategoryPaths(c.categories, other)
  {
    if HasCategory(c.categories, category) then Cache(c.data, Extend(c.categories, category, paths))
    else
      var cats := c.categories + [Category(category, paths)];
      assert cats[|c.categories|].name == category;
      TrackedAppend(c.categories, Category(category, paths));
      Cache(c.data, cats)
  }

  lemma {:induction false} TrackedAppend(cats: seq<Category>, extra: Category)
    requires !HasCategory(cats, extra.name)
    ensures CategoryPaths(cats + [extra], extra.name) == extra.paths
    ensures forall other :: other != extra.name ==>
              CategoryPaths(cats + [extra], other) == CategoryPaths(cats, other)
    decreases |cats|
  {
    if |cats| > 0 {
      assert (cats + [extra])[1..] == cats[1..] + [extra];
      forall i | 0 <= i < |cats[1..]| ensures cats[1..][i].name != extra.name {
        assert cats[1..][i] == cats[i + 1];
      }
      TrackedAppend(cats[1..], extra);
    }
  }

  /** `save_cache(now)`: stamps the document with the build time and returns what is
      written, or None when the write fails (the stamp stays in memory either way). */
  function SaveCache(c: Cache, now: int, writable: bool): (r: (Cache, Option<CacheData>))
    ensures r.0.data == c.data.(lastBuild := Some(now))
    ensures r.0.categories == c.categories
    ensures !IsEmpty(r.0.data)
    ensures writable ==> r.1 == Some(r.0.data)
    ensures !writable ==> r.1 == None
  {
    var c' := Cache(c.data.(lastBuild := Some(now)), c.categories);
    (c', if writable then Some(c'.data) else None)
  }

  /** A saved document, loaded by the next build, reports the same change status for
      explicitly listed paths as the cache that wrote it. */
  lemma SaveLoadRoundTrip(c: Cache, now: int, fs: FileSystem, paths: seq<Path>)
    requires |paths| > 0
    ensures HasChanges(Load(Stored(SaveCache(c, now, true).1.value)), fs, Some(paths), None, false)
            == HasChanges(SaveCache(c, now, true).0, fs, Some(paths), None, false)
  {
  }

  /** `clear_cache`: the document is emptied (the category lists are kept), so the next
      change check reports a first build. */
  function ClearCache(c: Cache): (r: Cache)
    ensures IsEmpty(r.data) && r.categories == c.categories
    ensures forall fs, fp, cat :: HasChanges(r, fs, fp, cat, false)
  {
    Cache(EmptyData, c.categories)
  }

  // ---------------------------------------------------------------------------
  // The registry of source images the image optimiser has handled. `norm` is
  // `os.path.normpath`, which the model leaves abstract.

  /** `get_processed_images`. */
  function ProcessedImages(c: Cache): seq<Path> {
    c.data.processedImages.UnwrapOr([])
  }

  /** `register_processed_image(path)`: record the normalised path once. */
  function RegisterProcessedImage(c: Cache, norm: Path -> Path, path: Path): (r: Cache)
    ensures r.categories == c.categories
    ensures r.data.files == c.data.files && r.data.lastBuild == c.data.lastBuild
    ensures norm(path) in ProcessedImages(r)
    ensures forall q :: q in ProcessedImages(r) <==> q in ProcessedImages(c) || q == norm(path)
    ensures norm(path) in ProcessedImages(c) ==> ProcessedImages(r) == ProcessedImages(c)
    ensures norm(path) !in ProcessedImages(c) ==> ProcessedImages(r) == ProcessedImages(c) + [norm(path)]
  {
    var list := ProcessedImages(c);
    var n := norm(path);
    Cache(c.data.(processedImages := Some(if n in list then list else list + [n])), c.categories)
  }

  /** `is_image_processed(path)`. */
  function IsImageProcessed(c: Cache, norm: Path -> Path, path: Path): (r: bool)
    ensures r <==> c.data.processedImages.Some? && norm(path) in c.data.processedImages.value
  {
    norm(path) in ProcessedImages(c)
  }

  /** `clear_processed_images`: the key is removed, so nothing counts as processed. */
  function ClearProcessedImages(c: Cache): (r: Cache)
    ensures r.data.processedImages.None?
    ensures r.data.files == c.data.files && r.categories == c.categories
    ensures forall norm, p :: !IsImageProcessed(r, norm, p)
  {
    Cache(c.data.(processedImages := None), c.categories)
  }

  predicate NoDuplicates(s: seq<Path>) {
    forall i, j :: 0 <= i < j < |s| ==> s[i] != s[j]
  }

  /** Registration keeps the registry free of duplicates, is idempotent, and the
      registered image then counts as processed. */
  lemma RegisterKeepsRegistryDistinct(c: Cache, norm: Path -> Path, path: Path)
    requires NoDuplicates(ProcessedImages(c))
    ensures NoDuplicates(ProcessedImages(RegisterProcessedImage(c, norm, path)))
    ensures RegisterProcessedImage(RegisterProcessedImage(c, norm, path), norm, path)
            == RegisterProcessedImage(c, norm, path)
    ensures IsImageProcessed(RegisterProcessedImage(c, norm, path), norm, path)
  {
  }
}

=== FILE: color_palettes.dfy ===
/**
 * The colour palettes of the generated sites (core/color_palettes.py): four named
 * palettes, each an ordered table of CSS custom properties, the lookups that refuse
 * any other palette number, and the `:root` variable block written from a palette.
 */
module ColorPalettes {
  import opened Wrappers
  import opened Strings

  /** One palette: its name, its description and its colours as `(variable, value)`
      pairs in the order the table lists them. */
  datatype Palette = Palette(name: string, description: string, colors: seq<(string, string)>)

  /** The variables every palette defines, in order: backgrounds, text, brand and
      accent colours, then the short legacy names. */
  const VarNames: seq<string> := [
    "--bg-primary",
    "--bg-secondary",
    "--bg-surface",
    "--bg-overlay",
    "--text-primary",
    "--text-secondary",
    "--text-muted",
    "--brand-primary",
    "--brand-hover",
    "--brand-active",
    "--accent-green",
    "--accent-pink",
    "--accent-purple",
    "--accent-yellow",
    "--bg",
    "--fg",
    "--muted",
    "--brand",
    "--brand-2",
    "--surface"
  ]

  const Palette1: Palette := Palette(
    "Dark Ocean",
    "Deep blue gaming theme with cyan accents",
    [
      ("--bg-primary", "#0a0f1c"),
      ("--bg-secondary", "#1a2332"),
      ("--bg-surface", "#2d3748"),
      ("--bg-overlay", "rgba(10, 15, 28, 0.85)"),
      ("--text-primary", "#ffffff"),
      ("--text-secondary", "#cbd5e0"),
      ("--text-muted", "#9ca3af"),
      ("--brand-primary", "#00d9ff"),
      ("--brand-hover", "#00b8e6"),
      ("--brand-active", "#0891b2"),
      ("--accent-green", "#34d399"),
      ("--accent-pink", "#f472b6"),
      ("--accent-purple", "#a78bfa"),
      ("--accent-yellow", "#fbbf24"),
      ("--bg", "#0a0f1c"),
      ("--fg", "#ffffff"),
      ("--muted", "#9ca3af"),
      ("--brand", "#00d9ff"),
      ("--brand-2", "#00b8e6"),
      ("--surface", "#2d3748")
    ])

  const Palette2: Palette := Palette(
    "Neon Purple",
    "Cyberpunk purple theme with electric accents",
    [
      ("--bg-primary", "#0f0a1a"),
      ("--bg-secondary", "#1a0f2e"),
      ("--bg-surface", "#2d1b3d"),
      ("--bg-overlay", "rgba(15, 10, 26, 0.85)"),
      ("--text-primary", "#ffffff"),
      ("--text-secondary", "#e2d1f3"),
      ("--text-muted", "#a78bfa"),
      ("--brand-primary", "#a855f7"),
      ("--brand-hover", "#9333ea"),
      ("--brand-active", "#7c3aed"),
      ("--accent-green", "#10b981"),
      ("--accent-pink", "#ec4899"),
      ("--accent-purple", "#d946ef"),
      ("--accent-yellow", "#f59e0b"),
      ("--bg", "#0f0a1a"),
      ("--fg", "#ffffff"),
      ("--muted", "#a78bfa"),
      ("--brand", "#a855f7"),
      ("--brand-2", "#9333ea"),
      ("--surface", "#2d1b3d")
    ])

  const Palette3: Palette := Palette(
    "Forest Green",
    "Natural green gaming theme with earth tones",
    [
      ("--bg-primary", "#0f1a0a"),
      ("--bg-secondary", "#1a2e14"),
      ("--bg-surface", "#2d4a22"),
      ("--bg-overlay", "rgba(15, 26, 10, 0.85)"),
      ("--text-primary", "#ffffff"),
      ("--text-secondary", "#d1f2d1"),
      ("--text-muted", "#86bc86"),
      ("--brand-primary", "#10b981"),
      ("--brand-hover", "#059669"),
      ("--brand-active", "#047857"),
      ("--accent-green", "#34d399"),
      ("--accent-pink", "#f87171"),
      ("--accent-purple", "#a78bfa"),
      ("--accent-yellow", "#fbbf24"),
      ("--bg", "#0f1a0a"),
      ("--fg", "#ffffff"),
      ("--muted", "#86bc86"),
      ("--brand", "#10b981"),
      ("--brand-2", "#059669"),
      ("--surface", "#2d4a22")
    ])

  const Palette4: Palette := Palette(
    "Fire Orange",
    "Warm orange gaming theme with energy accents",
    [
      ("--bg-primary", "#1a0f0a"),
      ("--bg-secondary", "#2e1a14"),
      ("--bg-surface", "#4a2d22"),
      ("--bg-overlay", "rgba(26, 15, 10, 0.85)"),
      ("--text-primary", "#ffffff"),
      ("--text-secondary", "#f2d1d1"),
      ("--text-muted", "#bc8686"),
      ("--brand-primary", "#f97316"),
      ("--brand-hover", "#ea580c"),
      ("--brand-active", "#c2410c"),
      ("--accent-green", "#22c55e"),
      ("--accent-pink", "#f472b6"),
      ("--accent-purple", "#a78bfa"),
      ("--accent-yellow", "#eab308"),
      ("--bg", "#1a0f0a"),
      ("--fg", "#ffffff"),
      ("--muted", "#bc8686"),
      ("--brand", "#f97316"),
      ("--brand-2", "#ea580c"),
      ("--surface", "#4a2d22")
    ])

  /** `COLOR_PALETTES`, keyed by palette number. */
  const Palettes: map<int, Palette> := map[1 := Palette1, 2 := Palette2, 3 := Palette3, 4 := Palette4]

  /** The variable names of a colour table, in order. */
  function Keys(colors: seq<(string, string)>): (r: seq<string>)
    ensures |r| == |colors| && forall i :: 0 <= i < |r| ==> r[i] == colors[i].0
  {
    seq(|colors|, i requires 0 <= i < |colors| => colors[i].0)
  }

  /** The colour table of palette 1 defines the standard variables. */
  lemma Palette1Keys() ensures Keys(Palette1.colors) == VarNames { }
  lemma Palette2Keys() ensures Keys(Palette2.colors) == VarNames { }
  lemma Palette3Keys() ensures Keys(Palette3.colors) == VarNames { }
  lemma Palette4Keys() ensures Keys(Palette4.colors) == VarNames { }

  /** Every palette defines the standard variables, in the standard order. */
  lemma PalettesShareVariables(n: int)
    requires n in Palettes
    ensures Keys(Palettes[n].colors) == VarNames
  {
    if n == 1 { Palette1Keys(); }
    else if n == 2 { Palette2Keys(); }
    else if n == 3 { Palette3Keys(); }
    else { Palette4Keys(); }
  }

  /** The palette numbers are exactly 1 to 4. */
  lemma PaletteNumbers(n: int)
    ensures n in Palettes <==> 1 <= n <= 4
  {
  }

  // ---------------------------------------------------------------------------
  // Lookups

  /** `get_palette_info`: the whole palette, or `ValueError` for a number that is
      not one of the four. */
  function GetPaletteInfo(n: int): (r: Result<Palette>)
    ensures r.Err? <==> !(1 <= n <= 4)
    ensures r.Err? ==> r.error.ValueError?
    ensures r.Ok? ==> Keys(r.value.colors) == VarNames && r.value.name != ""
  {
    if n in Palettes then
      PalettesShareVariables(n);
      Ok(Palettes[n])
    else
      Err(ValueError("Invalid palette number. Must be 1-4."))
  }

  /** `get_palette_colors`: the colour table of a palette, or `ValueError` for a
      number that is not one of the four. */
  function GetPaletteColors(n: int): (r: Result<seq<(string, string)>>)
    ensures r.Err? <==> !(1 <= n <= 4)
    ensures r.Err? ==> r.error.ValueError?
    ensures r.Ok? ==> Keys(r.value) == VarNames
  {
    if n in Palettes then
      PalettesShareVariables(n);
      Ok(Palettes[n].colors)
    else
      Err(ValueError("Invalid palette number. Must be 1-4."))
  }

  /** The colours are the `colors` entry of the palette's information, and the two
      lookups refuse the same numbers with the same error. */
  lemma ColorsAreInfoColors(n: int)
    ensures GetPaletteColors(n).Ok? <==> GetPaletteInfo(n).Ok?
    ensures GetPaletteColors(n).Ok? ==> GetPaletteColors(n).value == GetPaletteInfo(n).value.colors
    ensures GetPaletteColors(n).Err? ==> GetPaletteColors(n).error == GetPaletteInfo(n).error
  {
  }

  /** The value of the first entry for a variable. */
  function Lookup(colors: seq<(string, string)>, key: string): (r: Option<string>)
    ensures r.None? <==> forall i :: 0 <= i < |colors| ==> colors[i].0 != key
    ensures r.Some? ==> exists i :: 0 <= i < |colors| && colors[i] == (key, r.value)
  {
    if colors == [] then None
    else if colors[0].0 == key then Some(colors[0].1)
    else
      var r := Lookup(colors[1..], key);
      assert forall i :: 1 <= i < |colors| ==> colors[i] == colors[1..][i - 1];
      if r.Some? then
        var k :| 0 <= k < |colors| - 1 && colors[1..][k] == (key, r.value);
        assert colors[k + 1] == (key, r.value);
        r
      else r
  }

  /** The legacy short names hold the same colours as the names they stand for:
      `--bg`, `--fg`, `--muted`, `--brand`, `--brand-2` and `--surface` (positions
      14 to 19) repeat positions 0, 4, 6, 7, 8 and 2. */
  predicate LegacyAliasesAgree(colors: seq<(string, string)>) {
    && |colors| == |VarNames|
    && colors[14].1 == colors[0].1 && colors[15].1 == colors[4].1
    && colors[16].1 == colors[6].1 && colors[17].1 == colors[7].1
    && colors[18].1 == colors[8].1 && colors[19].1 == colors[2].1
  }

  lemma Palette1Aliases() ensures LegacyAliasesAgree(Palette1.colors) { }
  lemma Palette2Aliases() ensures LegacyAliasesAgree(Palette2.colors) { }
  lemma Palette3Aliases() ensures LegacyAliasesAgree(Palette3.colors) { }
  lemma Palette4Aliases() ensures LegacyAliasesAgree(Palette4.colors) { }

  /** No variable is listed twice. */
  lemma VarNamesDistinct()
    ensures forall i, j :: 0 <= i < j < |VarNames| ==> VarNames[i] != VarNames[j]
  {
  }

  /** A variable listed once is found at its position. */
  lemma {:induction false} LookupAt(colors: seq<(string, string)>, i: nat)
    requires i < |colors|
    requires forall j :: 0 <= j < i ==> colors[j].0 != colors[i].0
    ensures Lookup(colors, colors[i].0) == Some(colors[i].1)
  {
    if i > 0 {
      LookupAt(colors[1..], i - 1);
    }
  }

  /** Looking up a standard variable in a table that lists the standard variables
      gives the value at its position. */
  lemma LookupStandard(colors: seq<(string, string)>, i: nat)
    requires Keys(colors) == VarNames && i < |VarNames|
    ensures Lookup(colors, VarNames[i]) == Some(colors[i].1)
  {
    VarNamesDistinct();
    LookupAt(colors, i);
  }

  /** A table that lists the standard variables and whose legacy entries repeat
      the structured ones reads the same colour under both names. */
  lemma AliasesByName(c: seq<(string, string)>)
    requires Keys(c) == VarNames && LegacyAliasesAgree(c)
    ensures && Lookup(c, "--bg") == Lookup(c, "--bg-primary")
            && Lookup(c, "--fg") == Lookup(c, "--text-primary")
            && Lookup(c, "--muted") == Lookup(c, "--text-muted")
            && Lookup(c, "--brand") == Lookup(c, "--brand-primary")
            && Lookup(c, "--brand-2") == Lookup(c, "--brand-hover")
            && Lookup(c, "--surface") == Lookup(c, "--bg-surface")
  {
    LegacyNames();
    AliasPair(c, 14, 0);
    AliasPair(c, 15, 4);
    AliasPair(c, 16, 6);
    AliasPair(c, 17, 7);
    AliasPair(c, 18, 8);
    AliasPair(c, 19, 2);
  }

  /** Where the legacy names and the names they stand for are listed. */
  lemma LegacyNames()
    ensures VarNames[14] == "--bg" && VarNames[0] == "--bg-primary"
    ensures VarNames[15] == "--fg" && VarNames[4] == "--text-primary"
    ensures VarNames[16] == "--muted" && VarNames[6] == "--text-muted"
    ensures VarNames[17] == "--brand" && VarNames[7] == "--brand-primary"
    ensures VarNames[18] == "--brand-2" && VarNames[8] == "--brand-hover"
    ensures VarNames[19] == "--surface" && VarNames[2] == "--bg-surface"
  {
  }

  lemma AliasPair(c: seq<(string, string)>, i: nat, j: nat)
    requires Keys(c) == VarNames && i < |VarNames| && j < |VarNames| && c[i].1 == c[j].1
    ensures Lookup(c, VarNames[i]) == Lookup(c, VarNames[j])
  {
    LookupStandard(c, i);
    LookupStandard(c, j);
  }

  /** Every palette's legacy entries repeat its structured ones. */
  lemma PaletteAliases(n: int)
    requires n in Palettes
    ensures LegacyAliasesAgree(Palettes[n].colors)
  {
    if n == 1 { Palette1Aliases(); }
    else if n == 2 { Palette2Aliases(); }
    else if n == 3 { Palette3Aliases(); }
    else { Palette4Aliases(); }
  }

  /** In every palette each legacy variable reads the same colour as the variable
      it stands for. */
  lemma LegacyAliases(n: int, c: seq<(string, string)>)
    requires GetPaletteColors(n) == Ok(c)
    ensures && Lookup(c, "--bg") == Lookup(c, "--bg-primary")
            && Lookup(c, "--fg") == Lookup(c, "--text-primary")
            && Lookup(c, "--muted") == Lookup(c, "--text-muted")
            && Lookup(c, "--brand") == Lookup(c, "--brand-primary")
            && Lookup(c, "--brand-2") == Lookup(c, "--brand-hover")
            && Lookup(c, "--surface") == Lookup(c, "--bg-surface")
  {
    PaletteAliases(n);
    AliasesByName(c);
  }

  // ---------------------------------------------------------------------------
  // CSS variables

  /** One declaration line: `  <name>: <value>;`. */
  function CssLine(entry: (string, string)): string {
    "  " + entry.0 + ": " + entry.1 + ";"
  }

  /** The declaration lines joined by newlines, without a trailing newline. */
  function CssVariables(colors: seq<(string, string)>): (r: string)
    ensures |colors| == 0 <==> r == ""
  {
    var lines := seq(|colors|, i requires 0 <= i < |colors| => CssLine(colors[i]));
    JoinNonEmpty(lines);
    Join(lines, "\n")
  }

  lemma {:induction false} JoinNonEmpty(parts: seq<string>)
    requires forall i :: 0 <= i < |parts| ==> parts[i] != ""
    ensures Join(parts, "\n") == "" <==> |parts| == 0
  {
    if |parts| > 1 {
      JoinNonEmpty(parts[1..]);
    }
  }

  /** `generate_css_variables`: the declarations of a palette, or the `ValueError`
      of its lookup. */
  function GenerateCssVariables(n: int): (r: Result<string>)
    ensures r.Err? <==> !(1 <= n <= 4)
    ensures r.Ok? ==> r.value == CssVariables(GetPaletteColors(n).value)
  {
    var colors := GetPaletteColors(n);
    if colors.Err? then Err(colors.error) else Ok(CssVariables(colors.value))
  }

  /** Reads a declaration line back: the name up to the first `:`, the value after
      the following space. */
  function ParseCssLine(line: string): (r: Option<(string, string)>)
    ensures r.Some? ==> ':' !in r.value.0 && CssLine(r.value) == line
  {
    if |line| >= 3 && line[..2] == "  " && line[|line| - 1] == ';' then
      var inner := line[2..|line| - 1];
      match IndexOf(inner, ':')
      case None => None
      case Some(i) =>
        if i + 1 < |inner| && inner[i + 1] == ' ' then
          ParsedLine(line, inner, i);
          Some((inner[..i], inner[i + 2..]))
        else None
    else None
  }

  lemma ParsedLine(line: string, inner: string, i: nat)
    requires |line| >= 3 && line[..2] == "  " && line[|line| - 1] == ';' && inner == line[2..|line| - 1]
    requires i + 1 < |inner| && inner[i] == ':' && inner[i + 1] == ' '
    requires forall j :: 0 <= j < i ==> inner[j] != ':'
    ensures ':' !in inner[..i] && CssLine((inner[..i], inner[i + 2..])) == line
  {
    assert inner == inner[..i] + ": " + inner[i + 2..];
    assert line == line[..2] + inner + [line[|line| - 1]];
  }

  /** Reads every line of a declaration block back, failing if any line is not a
      declaration. */
  function ParseLines(lines: seq<string>): (r: Option<seq<(string, string)>>)
    ensures r.Some? ==> |r.value| == |lines|
  {
    if lines == [] then Some([])
    else
      match (ParseCssLine(lines[0]), ParseLines(lines[1..]))
      case (Some(e), Some(rest)) => Some([e] + rest)
      case _ => None
  }

  /** The declarations of a CSS block, one per line. */
  function ParseCssVariables(css: string): Option<seq<(string, string)>> {
    ParseLines(Split(css, '\n'))
  }

  /** Names without `:` and text without newlines can be read back from the block. */
  predicate Printable(colors: seq<(string, string)>) {
    forall i :: 0 <= i < |colors| ==> ':' !in colors[i].0 && '\n' !in colors[i].0 && '\n' !in colors[i].1
  }

  lemma CssLineRoundTrip(entry: (string, string))
    requires ':' !in entry.0
    ensures ParseCssLine(CssLine(entry)) == Some(entry)
  {
    var line := CssLine(entry);
    var inner := entry.0 + ": " + entry.1;
    assert line[..2] == "  " && line[2..|line| - 1] == inner;
    assert inner == entry.0 + (": " + entry.1);
    IndexOfPrefix(entry.0, ':', ": " + entry.1);
  }

  lemma {:induction false} ParseLinesRoundTrip(colors: seq<(string, string)>)
    requires forall i :: 0 <= i < |colors| ==> ':' !in colors[i].0
    ensures ParseLines(seq(|colors|, i requires 0 <= i < |colors| => CssLine(colors[i]))) == Some(colors)
  {
    if colors != [] {
      var rest := colors[1..];
      var tail := seq(|rest|, i requires 0 <= i < |rest| => CssLine(rest[i]));
      LinesSplit(colors);
      assert forall i :: 0 <= i < |rest| ==> ':' !in rest[i].0 by {
        forall i | 0 <= i < |rest| ensures ':' !in rest[i].0 {
          assert rest[i] == colors[i + 1];
        }
      }
      ParseLinesRoundTrip(rest);
      ParseLinesStep(colors, tail);
    }
  }

  /** The first entry's line read back in front of the rest's. */
  lemma ParseLinesStep(colors: seq<(string, string)>, tail: seq<string>)
    requires colors != [] && ':' !in colors[0].0
    requires tail == seq(|colors| - 1, i requires 0 <= i < |colors| - 1 => CssLine(colors[1..][i]))
    requires ParseLines(tail) == Some(colors[1..])
    ensures ParseLines(seq(|colors|, i requires 0 <= i < |colors| => CssLine(colors[i]))) == Some(colors)
  {
    LinesSplit(colors);
    CssLineRoundTrip(colors[0]);
    ParseLinesCons(CssLine(colors[0]), tail, colors[0], colors[1..]);
    assert [colors[0]] + colors[1..] == colors;
  }

  /** The lines of a non-empty table are its first entry's line before the rest's. */
  lemma LinesSplit(colors: seq<(string, string)>)
    requires colors != []
    ensures var rest := colors[1..];
            seq(|colors|, i requires 0 <= i < |colors| => CssLine(colors[i]))
            == [CssLine(colors[0])] + seq(|rest|, i requires 0 <= i < |rest| => CssLine(rest[i]))
  {
  }

  /** A line read back in front of lines read back. */
  lemma ParseLinesCons(line: string, lines: seq<string>, e: (string, string), rest: seq<(string, string)>)
    requires ParseCssLine(line) == Some(e) && ParseLines(lines) == Some(rest)
    ensures ParseLines([line] + lines) == Some([e] + rest)
  {
    var all := [line] + lines;
    assert all[0] == line && all[1..] == lines;
  }

  /** The block written for a non-empty table reads back as that table: one line per
      entry, in order, with its name and value. */
  lemma CssVariablesRoundTrip(colors: seq<(string, string)>)
    requires |colors| > 0 && Printable(colors)
    ensures ParseCssVariables(CssVariables(colors)) == Some(colors)
  {
    var lines := seq(|colors|, i requires 0 <= i < |colors| => CssLine(colors[i]));
    forall k | 0 <= k < |lines|
      ensures '\n' !in lines[k]
    {
      var e := colors[k];
      assert lines[k] == "  " + e.0 + ": " + e.1 + ";";
    }
    SplitJoin(lines, '\n');
    ParseLinesRoundTrip(colors);
  }


  /** The standard variable names hold no newline and no `:`. */
  lemma VarNamesOneLine() ensures forall i :: 0 <= i < |VarNames| ==> '\n' !in VarNames[i] { }
  lemma VarNamesNoColon() ensures forall i :: 0 <= i < |VarNames| ==> ':' !in VarNames[i] { }

  /** The colour values of each palette hold no newline. */
  lemma Palette1Values() ensures forall i :: 0 <= i < |Palette1.colors| ==> '\n' !in Palette1.colors[i].1 {
    Palette1ValuesLow();
    Palette1ValuesHigh();
  }
  lemma Palette1ValuesLow() ensures forall i :: 0 <= i < 10 ==> '\n' !in Palette1.colors[i].1 {
    Palette1ValuesFirst();
    Palette1ValuesSecond();
  }
  lemma Palette1ValuesFirst() ensures forall i :: 0 <= i < 5 ==> '\n' !in Palette1.colors[i].1 { }
  lemma Palette1ValuesSecond() ensures forall i :: 5 <= i < 10 ==> '\n' !in Palette1.colors[i].1 { }
  lemma Palette1ValuesHigh() ensures forall i :: 10 <= i < |Palette1.colors| ==> '\n' !in Palette1.colors[i].1 { }
  lemma Palette2Values() ensures forall i :: 0 <= i < |Palette2.colors| ==> '\n' !in Palette2.colors[i].1 {
    Palette2ValuesLow();
    Palette2ValuesHigh();
  }
  lemma Palette2ValuesLow() ensures forall i :: 0 <= i < 10 ==> '\n' !in Palette2.colors[i].1 {
    Palette2ValuesFirst();
    Palette2ValuesSecond();
  }
  lemma Palette2ValuesFirst() ensures forall i :: 0 <= i < 5 ==> '\n' !in Palette2.colors[i].1 { }
  lemma Palette2ValuesSecond() ensures forall i :: 5 <= i < 10 ==> '\n' !in Palette2.colors[i].1 { }
  lemma Palette2ValuesHigh() ensures forall i :: 10 <= i < |Palette2.colors| ==> '\n' !in Palette2.colors[i].1 { }
  lemma Palette3Values() ensures forall i :: 0 <= i < |Palette3.colors| ==> '\n' !in Palette3.colors[i].1 {
    Palette3ValuesLow();
    Palette3ValuesHigh();
  }
  lemma Palette3ValuesLow() ensures forall i :: 0 <= i < 10 ==> '\n' !in Palette3.colors[i].1 {
    Palette3ValuesFirst();
    Palette3ValuesSecond();
  }
  lemma Palette3ValuesFirst() ensures forall i :: 0 <= i < 5 ==> '\n' !in Palette3.colors[i].1 { }
  lemma Palette3ValuesSecond() ensures forall i :: 5 <= i < 10 ==> '\n' !in Palette3.colors[i].1 { }
  lemma Palette3ValuesHigh() ensures forall i :: 10 <= i < |Palette3.colors| ==> '\n' !in Palette3.colors[i].1 { }
  lemma Palette4Values() ensures forall i :: 0 <= i < |Palette4.colors| ==> '\n' !in Palette4.colors[i].1 {
    Palette4ValuesLow();
    Palette4ValuesHigh();
  }
  lemma Palette4ValuesLow() ensures forall i :: 0 <= i < 10 ==> '\n' !in Palette4.colors[i].1 {
    Palette4ValuesFirst();
    Palette4ValuesSecond();
  }
  lemma Palette4ValuesFirst() ensures forall i :: 0 <= i < 5 ==> '\n' !in Palette4.colors[i].1 { }
  lemma Palette4ValuesSecond() ensures forall i :: 5 <= i < 10 ==> '\n' !in Palette4.colors[i].1 { }
  lemma Palette4ValuesHigh() ensures forall i :: 10 <= i < |Palette4.colors| ==> '\n' !in Palette4.colors[i].1 { }

  /** Every palette can be written out and read back. */
  lemma PalettePrintable(n: int)
    requires n in Palettes
    ensures Printable(Palettes[n].colors)
  {
    PalettesShareVariables(n);
    VarNamesOneLine();
    VarNamesNoColon();
    if n == 1 { Palette1Values(); }
    else if n == 2 { Palette2Values(); }
    else if n == 3 { Palette3Values(); }
    else { Palette4Values(); }
    var c := Palettes[n].colors;
    assert forall i :: 0 <= i < |c| ==> c[i].0 == VarNames[i];
  }

  /** The block generated for a palette reads back as its colour table: twenty
      lines, one per variable, in the table's order. */
  lemma GeneratedCssRoundTrip(n: int)
    ensures GenerateCssVariables(n).Ok? ==>
              ParseCssVariables(GenerateCssVariables(n).value) == Some(GetPaletteColors(n).value)
              && |GetPaletteColors(n).value| == |VarNames|
  {
    if 1 <= n <= 4 {
      PalettePrintable(n);
      PalettesShareVariables(n);
      CssVariablesRoundTrip(GetPaletteColors(n).value);
    }
  }

}

=== FILE: game_manager.dfy ===
/**
 * `GameManager` (core/game_manager.py): scanning the game content directory, the
 * title / embed / hero precedence, the deterministic rating and the two widget
 * selections.
 *
 * The three comment searches (`<!-- embed: … -->`, `<!-- hero: … -->` and the
 * `<!-- meta: {…} -->` block) and `json.loads` are library regex and JSON code; they
 * enter as the parameters `comments` and `parse`. The `<h1>` search and the tag
 * stripping that decide the title are modelled here.
 */
module GameManager {
  import opened Wrappers
  import opened Strings
  import opened Paths

  /** A decoded JSON value; numbers are kept as integers. */
  datatype Json =
    | JNull
    | JBool(b: bool)
    | JNum(n: int)
    | JStr(s: string)
    | JArr(items: seq<Json>)
    | JObj(fields: map<string, Json>)

  /** The object a meta block decodes to. */
  type Meta = map<string, Json>

  /** `meta.get(key)` when it is a non-empty string, the only truthy values the
      generator reads from these keys. */
  function MetaText(meta: Meta, key: string): (r: Option<string>)
    ensures r.Some? <==> key in meta && meta[key].JStr? && meta[key].s != ""
    ensures r.Some? ==> meta[key] == JStr(r.value)
  {
    if key in meta && meta[key].JStr? && meta[key].s != "" then Some(meta[key].s) else None
  }

  /** What the regex searches of one file found: the stripped embed and hero comment
      values and the raw text of the meta block. */
  datatype Comments = Comments(embed: Option<string>, hero: Option<string>, meta: Option<string>)

  /** One scanned game. `hero` is None when neither the file nor the caller supplies
      one. */
  datatype Game = Game(
    slug: string,
    title: string,
    content: string,
    embed: string,
    hero: Option<string>,
    description: Option<string>,
    meta: Meta)

  // ---------------------------------------------------------------------------
  // Title extraction

  /**
   * The body of `re.search(r"<h1[^>]*>(.*?)</h1>", html, IGNORECASE|DOTALL)`.
   *
   * A match can only start at the first `<h1`: `[^>]*>` runs to the first `>` after
   * it and the lazy group to the first `</h1>` after that, and a later start finds
   * neither if this one does not.
   */
  function H1Body(html: string): (r: Option<string>)
    ensures !Contains(Lower(html), "<h1") ==> r.None?
    ensures r.Some? ==> !Contains(Lower(r.value), "</h1>")
  {
    match Find(Lower(html), "<h1")
    case None => None
    case Some(p) =>
      var tail := html[p + 3..];
      match IndexOf(tail, '>')
      case None => None
      case Some(q) =>
        var body := tail[q + 1..];
        match Find(Lower(body), "</h1>")
        case None => None
        case Some(e) =>
          LowerPrefix(body, e);
          NoOccurrenceBefore(Lower(body), "</h1>", e);
          Some(body[..e])
  }

  /** Lower-casing commutes with taking a prefix. */
  lemma LowerPrefix(s: string, n: nat)
    requires n <= |s|
    ensures Lower(s[..n]) == Lower(s)[..n]
  {
  }

  /** A string that has no occurrence before index `e` keeps none in its first `e`
      characters. */
  lemma NoOccurrenceBefore(s: string, t: string, e: nat)
    requires |t| > 0 && e <= |s| && forall j :: 0 <= j < e ==> !OccursAt(s, t, j)
    ensures !Contains(s[..e], t)
  {
    forall j | 0 <= j && OccursAt(s[..e], t, j) ensures false {
      assert s[..e][j..j + |t|] == s[j..j + |t|];
      assert j < e && OccursAt(s, t, j);
    }
  }

  /** `re.sub(r"<[^>]+>", "", s)`: every `<` followed by at least one character other
      than `>` and then a `>` is removed together with what it encloses. */
  function StripTags(s: string): (r: string)
    ensures |r| <= |s|
    ensures forall i :: 0 <= i < |r| ==> r[i] in s
    decreases |s|
  {
    if |s| == 0 then ""
    else if s[0] == '<' then
      match IndexOf(s[1..], '>')
      case Some(k) =>
        if k >= 1 then StripTags(s[k + 2..]) else [s[0]] + StripTags(s[1..])
      case None => [s[0]] + StripTags(s[1..])
    else [s[0]] + StripTags(s[1..])
  }

  /** No tag the substitution would remove: every `<` is either directly followed by
      `>` or has no `>` after it. */
  predicate TagFree(s: string) {
    forall i :: 0 <= i < |s| && s[i] == '<' ==>
      (i + 1 < |s| && s[i + 1] == '>') || '>' !in s[i + 1..]
  }

  /** The substitution leaves no tag behind. */
  lemma {:induction false} StripTagsTagFree(s: string)
    ensures TagFree(StripTags(s))
    decreases |s|
  {
    if |s| > 0 {
      var r := StripTags(s);
      if s[0] == '<' {
        match IndexOf(s[1..], '>')
        case Some(k) =>
          if k >= 1 {
            StripTagsTagFree(s[k + 2..]);
          } else {
            StripTagsTagFree(s[1..]);
            assert s[1..][0] == '>';
            StripTagsStartsWithClose(s[1..]);
            ConsTagFree(s[0], StripTags(s[1..]));
          }
        case None =>
          StripTagsTagFree(s[1..]);
          assert '>' !in s[1..];
          assert '>' !in StripTags(s[1..]);
          ConsTagFree(s[0], StripTags(s[1..]));
      } else {
        StripTagsTagFree(s[1..]);
        ConsTagFree(s[0], StripTags(s[1..]));
      }
    }
  }

  /** A string starting with `>` keeps that `>` in front. */
  lemma StripTagsStartsWithClose(s: string)
    requires |s| > 0 && s[0] == '>'
    ensures |StripTags(s)| > 0 && StripTags(s)[0] == '>'
  {
  }

  /** Putting a character in front of a tag-free string keeps it tag-free when a `<`
      in front is followed by `>` or by no `>` at all. */
  lemma ConsTagFree(c: char, t: string)
    requires TagFree(t)
    requires c == '<' ==> (|t| > 0 && t[0] == '>') || '>' !in t
    ensures TagFree([c] + t)
  {
    var s := [c] + t;
    forall i | 0 <= i < |s| && s[i] == '<'
      ensures (i + 1 < |s| && s[i + 1] == '>') || '>' !in s[i + 1..]
    {
      if i > 0 {
        assert s[i] == t[i - 1];
        assert s[i + 1..] == t[i..];
      } else {
        assert s[1..] == t;
      }
    }
  }

  /** On a tag-free string the substitution changes nothing. */
  lemma {:induction false} StripTagsTagFreeFixed(s: string)
    requires TagFree(s)
    ensures StripTags(s) == s
    decreases |s|
  {
    if |s| > 0 {
      assert TagFree(s[1..]) by {
        forall i | 0 <= i < |s[1..]| && s[1..][i] == '<'
          ensures (i + 1 < |s[1..]| && s[1..][i + 1] == '>') || '>' !in s[1..][i + 1..]
        {
          assert s[i + 1] == '<';
          assert s[1..][i + 1..] == s[i + 2..];
        }
      }
      StripTagsTagFreeFixed(s[1..]);
      if s[0] == '<' {
        assert (|s| > 1 && s[1] == '>') || '>' !in s[1..];
        match IndexOf(s[1..], '>')
        case Some(k) =>
          assert s[1..][k] == '>';
          assert k == 0;
        case None =>
      }
      assert s == [s[0]] + s[1..];
    }
  }

  /** Stripping tags twice is stripping them once. */
  lemma StripTagsIdempotent(s: string)
    ensures StripTags(StripTags(s)) == StripTags(s)
  {
    StripTagsTagFree(s);
    StripTagsTagFreeFixed(StripTags(s));
  }

  /** `fallback_slug.replace('-', ' ').replace('_', ' ').title()`. */
  function SlugTitle(slug: string): (r: string)
    ensures |r| == |Replace(Replace(slug, "-", " "), "_", " ")|
  {
    Title(Replace(Replace(slug, "-", " "), "_", " "))
  }

  /** Replacing one character by one character keeps a string non-empty. */
  lemma ReplaceKeepsNonEmpty(s: string, pat: string, rep: string)
    requires |pat| == 1 && |rep| == 1 && s != ""
    ensures Replace(s, pat, rep) != ""
  {
  }

  /** A non-empty slug has a non-empty title. */
  lemma SlugTitleNonEmpty(slug: string)
    requires slug != ""
    ensures SlugTitle(slug) != ""
  {
    ReplaceKeepsNonEmpty(slug, "-", " ");
    ReplaceKeepsNonEmpty(Replace(slug, "-", " "), "_", " ");
  }

  /** `_extract_title`: the stripped text of the first `<h1>` when it is non-empty,
      otherwise the title-cased slug. */
  function ExtractTitle(html: string, slug: string): (r: string)
    ensures H1Body(html).Some? && StripSpace(StripTags(H1Body(html).value)) != "" ==>
      r == StripSpace(StripTags(H1Body(html).value))
    ensures H1Body(html).None? || StripSpace(StripTags(H1Body(html).value)) == "" ==>
      r == SlugTitle(slug)
    ensures slug != "" ==> r != ""
  {
    match H1Body(html)
    case Some(body) =>
      var t := StripSpace(StripTags(body));
      if t != "" then t else (if slug != "" then SlugTitleNonEmpty(slug); SlugTitle(slug) else SlugTitle(slug))
    case None => if slug != "" then SlugTitleNonEmpty(slug); SlugTitle(slug) else SlugTitle(slug)
  }

  /** `_extract_metadata`: the decoded meta block, or `{}` when there is none or it
      does not decode. */
  function ExtractMetadata(block: Option<string>, parse: string -> Option<Meta>): (r: Meta)
    ensures block.None? ==> r == map[]
    ensures block.Some? && parse(block.value).None? ==> r == map[]
    ensures block.Some? && parse(block.value).Some? ==> r == parse(block.value).value
  {
    match block
    case None => map[]
    case Some(text) => parse(text).UnwrapOr(map[])
  }

  // ---------------------------------------------------------------------------
  // Scanning

  /** The caller's fallbacks for games without their own embed or hero. */
  datatype Defaults = Defaults(embed: string, hero: Option<string>)

  /** `fname.lower().endswith(".html")`. */
  predicate IsGameFile(name: string) {
    EndsWith(Lower(name), ".html")
  }

  /** `x or y` for an optional string: a non-empty `x` wins. */
  function OrElse(x: Option<string>, y: Option<string>): (r: Option<string>)
    ensures x.Some? && x.value != "" ==> r == x
    ensures (x.None? || x.value == "") ==> r == y
  {
    if x.Some? && x.value != "" then x else y
  }

  /** The record built for one readable game file. */
  function GameOf(name: string, raw: string, d: Defaults, c: Comments, parse: string -> Option<Meta>): (g: Game)
    ensures g.slug == Stem(name) && g.content == raw
    ensures g.meta == ExtractMetadata(c.meta, parse)
    ensures MetaText(g.meta, "title").Some? ==> g.title == MetaText(g.meta, "title").value
    ensures MetaText(g.meta, "title").None? ==> g.title == ExtractTitle(raw, g.slug)
    ensures MetaText(g.meta, "embed").Some? ==> g.embed == MetaText(g.meta, "embed").value
    ensures MetaText(g.meta, "embed").None? ==> g.embed == OrElse(c.embed, Some(d.embed)).value
    ensures MetaText(g.meta, "hero").Some? ==> g.hero == MetaText(g.meta, "hero")
    ensures MetaText(g.meta, "hero").None? ==> g.hero == OrElse(c.hero, d.hero)
  {
    var slug := Stem(name);
    var meta := ExtractMetadata(c.meta, parse);
    var description := if "description" in meta && meta["description"].JStr? then Some(meta["description"].s) else None;
    Game(
      slug,
      MetaText(meta, "title").UnwrapOr(ExtractTitle(raw, slug)),
      raw,
      MetaText(meta, "embed").UnwrapOr(OrElse(c.embed, Some(d.embed)).value),
      OrElse(MetaText(meta, "hero"), OrElse(c.hero, d.hero)),
      description,
      meta)
  }

  /** A non-empty path has a non-empty stem: `splitext` never takes the whole name. */
  lemma StemNonEmpty(p: Path)
    requires p != ""
    ensures Stem(p) != ""
  {
    var b := Basename(p);
    var e := Ext(p);
    if e != "" {
      match ExtIndex(b)
      case Some(i) =>
        var j :| 0 <= j < i && b[j] != '.';
        assert |e| == |b| - i;
      case None =>
    }
    assert Stem(p) + e == p;
  }

  /** Every scanned game has a non-empty slug and title. */
  lemma GameOfNamed(name: string, raw: string, d: Defaults, c: Comments, parse: string -> Option<Meta>)
    requires name != ""
    ensures GameOf(name, raw, d, c, parse).slug != ""
    ensures GameOf(name, raw, d, c, parse).title != ""
  {
    StemNonEmpty(name);
  }

  /** The names of `names` that are readable game files, in the same order. */
  function GameFiles(names: seq<string>, entries: map<string, Option<string>>): (r: seq<string>)
    ensures forall f :: f in r <==> f in names && f in entries && IsGameFile(f) && entries[f].Some?
    ensures StrictlySorted(names) ==> StrictlySorted(r)
  {
    if |names| == 0 then []
    else
      var rest := GameFiles(names[1..], entries);
      if names[0] in entries && IsGameFile(names[0]) && entries[names[0]].Some? then
        assert StrictlySorted(names) ==> forall j :: 0 <= j < |rest| ==> rest[j] in names[1..];
        [names[0]] + rest
      else rest
  }

  /**
   * `scan_games_content`: the readable `*.html` files of the games directory (any
   * case of the extension) in sorted name order, one game each. `dir` is None when the
   * directory does not exist; a file whose contents are None cannot be read and is
   * skipped. `files` lists the file each game came from.
   */
  method ScanGamesContent(dir: Option<map<string, Option<string>>>, d: Defaults,
                          comments: string -> Comments, parse: string -> Option<Meta>)
    returns (games: seq<Game>, files: seq<string>)
    ensures dir.None? ==> games == []
    ensures |games| == |files| && StrictlySorted(files)
    ensures forall f :: f in files <==>
      dir.Some? && f in dir.value && IsGameFile(f) && dir.value[f].Some?
    ensures forall i :: 0 <= i < |files| ==>
      dir.Some? && files[i] in dir.value && dir.value[files[i]].Some? &&
      games[i] == GameOf(files[i], dir.value[files[i]].value, d, comments(dir.value[files[i]].value), parse)
    ensures forall i :: 0 <= i < |games| ==> games[i].slug != "" && games[i].title != ""
  {
    games, files := [], [];
    if dir.None? {
      return;
    }
    var entries := dir.value;
    var names := Sorted(entries.Keys);
    files := GameFiles(names, entries);
    games := seq(|files|, i requires 0 <= i < |files| && files[i] in entries && entries[files[i]].Some? =>
      GameOf(files[i], entries[files[i]].value, d, comments(entries[files[i]].value), parse));
    forall i | 0 <= i < |games| ensures games[i].slug != "" && games[i].title != "" {
      var name := files[i];
      assert name in files;
      assert name != "" by { assert |Lower(name)| >= 5; }
      GameOfNamed(name, entries[name].value, d, comments(entries[name].value), parse);
    }
  }

  // ---------------------------------------------------------------------------
  // Ratings

  /** What `generate_game_rating` returns: the caller's rating as given, or the
      derived value in tenths with its count. */
  datatype Rating = Custom(fields: Meta) | Auto(tenths: nat, count: nat)

  /** `round(v / 100, 1)` as a number of tenths, for a value of `v` hundredths:
      half-way cases go up. */
  function RoundTenths(v: nat): (t: nat)
    ensures 10 * t - 5 <= v < 10 * t + 5
  {
    (v + 5) / 10
  }

  /** `t` tenths is within half a tenth of `v` hundredths: what any correct rounding
      of the binary value `3.0 + x / 100.0` returns, whichever way its ties fall. */
  predicate RoundsTo(v: nat, t: nat) {
    10 * t - 5 <= v <= 10 * t + 5
  }

  /**
   * `generate_game_rating`: a non-empty custom rating is returned unchanged;
   * otherwise the value is `3.0 + (h % 200) / 100` rounded to one decimal and capped at
   * 5.0, and the count is `250 + h % 5001`. `h` is the first 32 bits of the slug's
   * SHA-256 digest.
   */
  function GameRating(h: nat, custom: Option<Meta>): (r: Rating)
    ensures custom.Some? && custom.value != map[] ==> r == Custom(custom.value)
    ensures (custom.None? || custom.value == map[]) ==> r.Auto?
    ensures r.Auto? ==> 30 <= r.tenths <= 50 && 250 <= r.count <= 5250
    ensures r.Auto? ==> RoundsTo(300 + h % 200, r.tenths) && r.count - 250 == h % 5001
  {
    if custom.Some? && custom.value != map[] then Custom(custom.value)
    else
      var t := RoundTenths(300 + h % 200);
      Auto(if t > 50 then 50 else t, 250 + h % 5001)
  }

  /** Whichever way the float rounding resolves a tie, the derived value lies in
      [3.0, 5.0]. */
  lemma AnyRoundingInBounds(h: nat, t: nat)
    requires RoundsTo(300 + h % 200, t)
    ensures 30 <= t <= 50
  {
  }

  /** The cap at 5.0 never fires, and 5.0 itself is reached (so the documented 4.9
      bound does not hold). */
  lemma RatingReachesFive(h: nat)
    requires h % 200 == 199
    ensures GameRating(h, None) == Auto(50, 250 + h % 5001)
  {
  }

  /** The value depends on the hash only through `h % 200`. */
  lemma RatingValueDependsOnResidue(h1: nat, h2: nat)
    requires h1 % 200 == h2 % 200
    ensures GameRating(h1, None).tenths == GameRating(h2, None).tenths
  {
  }

  // ---------------------------------------------------------------------------
  // Widgets

  datatype WidgetEntry = WidgetEntry(title: string, url: string, image: string)

  /** `exclude_slug` when it is truthy. */
  predicate Excludes(exclude: Option<string>, slug: string) {
    exclude.Some? && exclude.value != "" && slug == exclude.value
  }

  /** The filter both widgets apply: a slug and a title, and not the excluded game. */
  predicate Offered(g: Game, exclude: Option<string>) {
    g.slug != "" && g.title != "" && !Excludes(exclude, g.slug)
  }

  /** The games both widgets choose from, in input order. */
  function Available(games: seq<Game>, exclude: Option<string>): (r: seq<Game>)
    ensures |r| <= |games|
    ensures forall g :: g in r <==> g in games && Offered(g, exclude)
    ensures forall i :: 0 <= i < |r| ==> Offered(r[i], exclude)
  {
    if |games| == 0 then []
    else (if Offered(games[0], exclude) then [games[0]] else []) + Available(games[1..], exclude)
  }

  /** The filter works piece by piece: the games offered from two lists joined are
      those offered from the first, then those offered from the second. */
  lemma {:induction false} AvailableConcat(a: seq<Game>, b: seq<Game>, exclude: Option<string>)
    ensures Available(a + b, exclude) == Available(a, exclude) + Available(b, exclude)
  {
    if |a| > 0 {
      assert (a + b)[1..] == a[1..] + b;
      AvailableConcat(a[1..], b, exclude);
    } else {
      assert a + b == b;
    }
  }

  /** A list whose every game is offered is kept whole, in its order. */
  lemma {:induction false} AvailableKeepsOffered(games: seq<Game>, exclude: Option<string>)
    requires forall i :: 0 <= i < |games| ==> Offered(games[i], exclude)
    ensures Available(games, exclude) == games
  {
    if |games| > 0 {
      AvailableKeepsOffered(games[1..], exclude);
    }
  }

  /** Python `s[:n]`, where a negative `n` counts from the end. */
  function SliceTo<T>(s: seq<T>, n: int): (r: seq<T>)
    ensures n >= 0 ==> |r| == if n < |s| then n else |s|
    ensures n < 0 ==> |r| == if -n < |s| then |s| + n else 0
    ensures r == s[..|r|]
  {
    if n >= 0 then (if n < |s| then s[..n] else s)
    else if -n < |s| then s[..|s| + n] else []
  }

  /** `/games/<slug>/`, the widget link. */
  function WidgetUrl(slug: string): (r: string)
    ensures StartsWith(r, "/games/") && EndsWith(r, "/") && |r| == |slug| + 8
  {
    "/games/" + slug + "/"
  }

  /** A widget link names its game. */
  lemma WidgetUrlInjective(a: string, b: string)
    requires WidgetUrl(a) == WidgetUrl(b)
    ensures a == b
  {
    assert a == WidgetUrl(a)[7..|WidgetUrl(a)| - 1];
  }

  /** The logo path both widgets use: `img/` dropped, then under `/assets/images/`. */
  function LogoImage(logo: string): (r: string)
    ensures StartsWith(logo, "img/") ==> r == "/assets/images/" + logo[4..]
    ensures !StartsWith(logo, "img/") ==> r == "/assets/images/" + logo
  {
    if StartsWith(logo, "img/") then "/assets/images/" + logo[4..] else "/assets/images/" + logo
  }

  /** The image `get_all_games_for_widget` shows: the meta logo, else the hero image.
      None is the AttributeError raised by a game whose hero is None. */
  function AllWidgetImage(g: Game): (r: Option<string>)
    ensures MetaText(g.meta, "logo").Some? ==> r == Some(LogoImage(MetaText(g.meta, "logo").value))
    ensures MetaText(g.meta, "logo").None? ==> (r.None? <==> g.hero.None?)
    ensures r.Some? ==> StartsWith(r.value, "/assets/images/")
  {
    match MetaText(g.meta, "logo")
    case Some(logo) => Some(LogoImage(logo))
    case None =>
      match g.hero
      case None => None
      case Some(hero) => Some(LogoImage(hero))
  }

  /** The entries of `get_all_games_for_widget` for a list of games. */
  function AllEntries(gs: seq<Game>): (r: Result<seq<WidgetEntry>>)
    ensures r.Err? <==> exists i :: 0 <= i < |gs| && AllWidgetImage(gs[i]).None?
    ensures r.Err? ==> r.error.AttributeError?
    ensures r.Ok? ==> |r.value| == |gs| && forall i :: 0 <= i < |gs| ==>
      r.value[i] == WidgetEntry(gs[i].title, WidgetUrl(gs[i].slug), AllWidgetImage(gs[i]).value)
  {
    if |gs| == 0 then Ok([])
    else
      match AllWidgetImage(gs[0])
      case None => Err(AttributeError("hero_image is None"))
      case Some(image) =>
        match AllEntries(gs[1..])
        case Err(e) =>
          var i :| 0 <= i < |gs[1..]| && AllWidgetImage(gs[1..][i]).None?;
          assert AllWidgetImage(gs[i + 1]).None?;
          Err(e)
        case Ok(rest) => Ok([WidgetEntry(gs[0].title, WidgetUrl(gs[0].slug), image)] + rest)
  }

  /**
   * `get_all_games_for_widget`: the first `maxGames` offered games (Python slicing)
   * in input order, linked as `/games/<slug>/`. A chosen game with neither a logo
   * nor a hero image raises.
   */
  function AllGamesForWidget(games: seq<Game>, exclude: Option<string>, maxGames: int): (r: Result<seq<WidgetEntry>>)
    ensures r.Ok? ==> |r.value| <= |Available(games, exclude)|
    ensures r.Ok? && maxGames >= 0 ==> |r.value| <= maxGames
    ensures r.Ok? ==> forall e :: e in r.value ==>
      exists g :: g in games && Offered(g, exclude) && e.url == WidgetUrl(g.slug) && e.title == g.title
    ensures r.Ok? ==> forall e :: e in r.value ==> exclude.None? || exclude.value == "" || e.url != WidgetUrl(exclude.value)
    ensures r.Err? ==> r.error.AttributeError?
    ensures var av, n := Available(games, exclude), |SliceTo(Available(games, exclude), maxGames)|;
            (r.Err? <==> exists i :: 0 <= i < n && AllWidgetImage(av[i]).None?)
            && (r.Ok? ==> |r.value| == n && forall i :: 0 <= i < n ==>
                  r.value[i] == WidgetEntry(av[i].title, WidgetUrl(av[i].slug), AllWidgetImage(av[i]).value))
  {
    var chosen := SliceTo(Available(games, exclude), maxGames);
    var r := AllEntries(chosen);
    PrefixEntries(Available(games, exclude), maxGames);
    if r.Ok? then
      ChosenEntries(games, exclude, chosen, r.value);
      r
    else r
  }

  /** The entries of the first `maxGames` of a list, read against the list itself. */
  lemma PrefixEntries(av: seq<Game>, maxGames: int)
    ensures var chosen := SliceTo(av, maxGames);
            forall i :: 0 <= i < |chosen| ==> chosen[i] in av
    ensures var r, n := AllEntries(SliceTo(av, maxGames)), |SliceTo(av, maxGames)|;
            (r.Err? <==> exists i :: 0 <= i < n && AllWidgetImage(av[i]).None?)
            && (r.Ok? ==> |r.value| == n && forall i :: 0 <= i < n ==>
                  r.value[i] == WidgetEntry(av[i].title, WidgetUrl(av[i].slug), AllWidgetImage(av[i]).value))
  {
    var chosen := SliceTo(av, maxGames);
    assert forall i :: 0 <= i < |chosen| ==> chosen[i] == av[i];
  }

  /** Entries built one by one from offered games link only offered games, and never
      the excluded one. */
  lemma ChosenEntries(games: seq<Game>, exclude: Option<string>, chosen: seq<Game>, es: seq<WidgetEntry>)
    requires forall i :: 0 <= i < |chosen| ==> chosen[i] in games && Offered(chosen[i], exclude)
    requires |es| == |chosen| && forall i :: 0 <= i < |chosen| ==>
      es[i].url == WidgetUrl(chosen[i].slug) && es[i].title == chosen[i].title
    ensures forall e :: e in es ==>
      exists g :: g in games && Offered(g, exclude) && e.url == WidgetUrl(g.slug) && e.title == g.title
    ensures forall e :: e in es ==> exclude.None? || exclude.value == "" || e.url != WidgetUrl(exclude.value)
  {
    assert forall e :: e in es ==> exists i :: 0 <= i < |chosen| && e == es[i];
    ExcludedNeverLinked(es, chosen, exclude);
  }

  /** No entry built from offered games links the excluded game. */
  lemma ExcludedNeverLinked(es: seq<WidgetEntry>, gs: seq<Game>, exclude: Option<string>)
    requires |es| == |gs|
    requires forall i :: 0 <= i < |gs| ==> Offered(gs[i], exclude) && es[i].url == WidgetUrl(gs[i].slug)
    ensures forall e :: e in es ==> exclude.None? || exclude.value == "" || e.url != WidgetUrl(exclude.value)
  {
    forall e | e in es && exclude.Some? && exclude.value != "" ensures e.url != WidgetUrl(exclude.value) {
      var i :| 0 <= i < |es| && es[i] == e;
      if e.url == WidgetUrl(exclude.value) {
        WidgetUrlInjective(gs[i].slug, exclude.value);
      }
    }
  }

  /** The image `get_random_games_for_widget` shows: the logo as above, else the hero
      image verbatim (`None` formatted into the path when there is none). */
  function RandomWidgetImage(g: Game): (r: string)
    ensures StartsWith(r, "/assets/images/")
    ensures MetaText(g.meta, "logo").None? && g.hero.Some? ==> r == "/assets/images/" + g.hero.value
  {
    match MetaText(g.meta, "logo")
    case Some(logo) => LogoImage(logo)
    case None => "/assets/images/" + (match g.hero case Some(h) => h case None => "None")
  }

  function RandomEntry(g: Game): WidgetEntry {
    WidgetEntry(g.title, WidgetUrl(g.slug), RandomWidgetImage(g))
  }

  /** `sel` lists `k` distinct positions below `n`: what `random.sample` draws. */
  predicate IsSample(sel: seq<nat>, n: nat, k: nat) {
    |sel| == k && (forall i :: 0 <= i < k ==> sel[i] < n)
    && forall i, j :: 0 <= i < j < k ==> sel[i] != sel[j]
  }

  /** The sample size `min(max_games, len(available))`. */
  function SampleSize(maxGames: int, available: nat): int {
    if maxGames < available then maxGames else available
  }

  /**
   * `get_random_games_for_widget`. `sel` is the draw of `random.sample`: the
   * positions, among the offered games, of the games it returns. A negative
   * `maxGames` makes the sample raise and the code falls back to slicing.
   */
  function RandomGamesForWidget(games: seq<Game>, exclude: Option<string>, maxGames: int, sel: seq<nat>): (r: seq<WidgetEntry>)
    requires SampleSize(maxGames, |Available(games, exclude)|) >= 0 ==>
      IsSample(sel, |Available(games, exclude)|, SampleSize(maxGames, |Available(games, exclude)|))
    ensures |r| <= |Available(games, exclude)|
    ensures maxGames >= 0 ==> |r| == SampleSize(maxGames, |Available(games, exclude)|)
    ensures forall e :: e in r ==> exists g :: g in games && Offered(g, exclude) && e == RandomEntry(g)
    ensures |Available(games, exclude)| > 0 && maxGames >= 0 ==>
      forall i :: 0 <= i < |r| ==> r[i] == RandomEntry(Available(games, exclude)[sel[i]])
  {
    var avail := Available(games, exclude);
    if |avail| == 0 then []
    else if SampleSize(maxGames, |avail|) < 0 then
      var chosen := SliceTo(avail, maxGames);
      assert forall i :: 0 <= i < |chosen| ==> chosen[i] in avail;
      seq(|chosen|, i requires 0 <= i < |chosen| => RandomEntry(chosen[i]))
    else
      var r := seq(|sel|, i requires 0 <= i < |sel| => RandomEntry(avail[sel[i]]));
      assert forall i :: 0 <= i < |sel| ==> avail[sel[i]] in avail;
      r
  }
}

=== FILE: legacy_generator.dfy ===
/**
 * `SiteGenerator` (core/generator.py), the older single-class generator: where a
 * page is written and the URL it is linked by, the rating of a game page, the icon
 * widget, the static-file mapping and the stylesheet link rule built on it, and the
 * hand-written sitemap.
 *
 * Scanning the game directory follows the same precedence as `GameManager.GameOf`
 * (with the configured embed URL and the dynamic hero image as defaults) and is not
 * repeated here.
 */
module LegacyGenerator {
  import opened Wrappers
  import opened Strings
  import opened Paths
  import UrlUtils
  import GameManager

  // ---------------------------------------------------------------------------
  // Page placement and page URLs

  /** The two keys that stay at the site root whatever else is said about them. */
  predicate IsRootKey(key: string) {
    key == "index" || key == "games"
  }

  /** The legal and policy keys `_get_page_output_path` files under `legal/`, in the
      four languages the generator knows. */
  predicate IsLegalKey(key: string) {
    key == "privacybeleid" || key == "gebruiksvoorwaarden" || key == "cookie-beleid"
    || key == "dmca" || key == "ouder-informatie" || key == "datenschutz"
    || key == "nutzungsbedingungen" || key == "cookies" || key == "eltern-information"
    || key == "privacy" || key == "privacy-policy" || key == "terms"
    || key == "terms-of-service" || key == "cookies-policy" || key == "cookie-policy"
    || key == "parents-information" || key == "parent-info" || key == "confidentialite"
    || key == "conditions-utilisation" || key == "politique-cookies" || key == "information-parents"
  }

  /**
   * The sub-directory `_get_page_output_path` chooses: none for the root keys, then
   * `games` for game pages, `legal` for the legal keys and `pages` for everything
   * else (the content-page list and the fallback both say `pages`).
   */
  function Subdir(key: string, isGame: bool): (r: string)
    ensures r == "" <==> IsRootKey(key)
    ensures r == "" || r == "games" || r == "legal" || r == "pages"
    ensures r == "games" <==> !IsRootKey(key) && isGame
    ensures r == "legal" <==> !IsRootKey(key) && !isGame && IsLegalKey(key)
  {
    if IsRootKey(key) then ""
    else if isGame then "games"
    else if IsLegalKey(key) then "legal"
    else "pages"
  }

  /** `_get_page_output_path`: `<key>.html` in the chosen sub-directory of the output
      directory, and the sub-directory. */
  function OutputPath(outputDir: Path, key: string, isGame: bool): (r: (Path, string))
    ensures r.1 == Subdir(key, isGame)
    ensures EndsWith(r.0, key + ".html") || StartsWith(key + ".html", "/")
    ensures r.1 == "" ==> r.0 == JoinPath(outputDir, key + ".html")
    ensures r.1 != "" ==> r.0 == JoinPath(JoinPath(outputDir, r.1), key + ".html")
  {
    var sub := Subdir(key, isGame);
    if sub == "" then (JoinPath(outputDir, key + ".html"), "")
    else (JoinPath(JoinPath(outputDir, sub), key + ".html"), sub)
  }

  /** The literal prefix `_get_page_url` puts before `<key>.html`; it repeats the
      classification of `_get_page_output_path` on its own. */
  function UrlPrefix(key: string, isGame: bool): (r: string)
    ensures |r| > 0 && r[0] == '/' && r[|r| - 1] == '/'
    ensures r == "/" || |r| == 7
    ensures r == "/" ==> |key| >= 5 && key[0] != '/'
  {
    if IsRootKey(key) then "/"
    else if isGame then "/games/"
    else if IsLegalKey(key) then "/legal/"
    else "/pages/"
  }

  /** `_get_page_url`. */
  function PageUrl(key: string, isGame: bool): (r: string)
    ensures StartsWith(r, "/") && EndsWith(r, key + ".html")
  {
    var tail := key + ".html";
    var r := UrlPrefix(key, isGame) + tail;
    assert r[..1] == "/";
    assert r[|r| - |tail|..] == tail;
    r
  }

  /** The prefix is `/`, the output sub-directory and a slash when there is one. */
  lemma PrefixMatchesSubdir(key: string, isGame: bool)
    ensures var sub := Subdir(key, isGame);
            UrlPrefix(key, isGame) == "/" + (if sub != "" then sub + "/" else "")
  {
    if IsRootKey(key) {
      assert "/" + "" == "/";
    } else if isGame {
      assert "/" + ("games" + "/") == "/games/";
    } else if IsLegalKey(key) {
      assert "/" + ("legal" + "/") == "/legal/";
    } else {
      assert "/" + ("pages" + "/") == "/pages/";
    }
  }

  /** The URL of every page is `/`, its sub-directory and a slash when it has one, and
      `<key>.html`: the two classifications agree for every key and flag. */
  lemma UrlMatchesOutputPath(outputDir: Path, key: string, isGame: bool)
    ensures var sub := OutputPath(outputDir, key, isGame).1;
            PageUrl(key, isGame) == "/" + (if sub != "" then sub + "/" else "") + key + ".html"
  {
    SubdirOfOutputPath(outputDir, key, isGame);
    UrlIsPrefixAndTail(key, isGame, Subdir(key, isGame));
  }

  lemma SubdirOfOutputPath(outputDir: Path, key: string, isGame: bool)
    ensures OutputPath(outputDir, key, isGame).1 == Subdir(key, isGame)
  {
  }

  lemma UrlIsPrefixAndTail(key: string, isGame: bool, sub: string)
    requires sub == Subdir(key, isGame)
    ensures PageUrl(key, isGame) == "/" + (if sub != "" then sub + "/" else "") + key + ".html"
  {
    PrefixMatchesSubdir(key, isGame);
    var pre := "/" + (if sub != "" then sub + "/" else "");
    PageUrlParts(key, isGame);
    assert pre + key + ".html" == pre + (key + ".html");
  }

  lemma PageUrlParts(key: string, isGame: bool)
    ensures PageUrl(key, isGame) == UrlPrefix(key, isGame) + (key + ".html")
  {
  }

  /** `index` and `games` are linked at the root even when they are game pages. */
  lemma RootKeysIgnoreGameFlag(key: string)
    requires IsRootKey(key)
    ensures PageUrl(key, true) == PageUrl(key, false) == "/" + key + ".html"
    ensures OutputPath("", key, true) == OutputPath("", key, false)
  {
  }

  /** Two games never share a link. */
  lemma GameUrlInjective(a: string, b: string)
    ensures PageUrl(a, true) == PageUrl(b, true) ==> a == b
  {
    var u, v := PageUrl(a, true), PageUrl(b, true);
    GameUrlLength(a);
    GameUrlLength(b);
    if IsRootKey(a) == IsRootKey(b) && u == v {
      if IsRootKey(a) {
        assert a == u[1..|u| - 5] == v[1..|v| - 5] == b;
      } else {
        assert a == u[7..|u| - 5] == v[7..|v| - 5] == b;
      }
    }
  }

  /** A root key is linked by an eleven-character URL, any other game by a longer
      one. */
  lemma GameUrlLength(k: string)
    ensures IsRootKey(k) ==> |PageUrl(k, true)| == 11
    ensures !IsRootKey(k) ==> |PageUrl(k, true)| == 12 + |k|
  {
  }

  // ---------------------------------------------------------------------------
  // Game-page rating

  /** A rating field: the hash-derived number, or what the meta block says. */
  datatype RatingField = Derived(n: nat) | FromMeta(j: GameManager.Json)

  datatype PageRating = PageRating(value: RatingField, count: RatingField)

  /**
   * The rating `_generate_game_pages` puts on a game page: `ratingValue` and
   * `ratingCount` from the meta block each override the hash-derived value on its
   * own. The derived value is `3.0 + (h % 200) / 100` rounded to one decimal (tenths
   * here) and capped at 5.0; the derived count is `250 + h % 5001`.
   */
  function GamePageRating(h: nat, meta: GameManager.Meta): (r: PageRating)
    ensures r.value.FromMeta? <==> "ratingValue" in meta
    ensures r.value.FromMeta? ==> r.value.j == meta["ratingValue"]
    ensures r.count.FromMeta? <==> "ratingCount" in meta
    ensures r.count.FromMeta? ==> r.count.j == meta["ratingCount"]
    ensures r.value.Derived? ==> 30 <= r.value.n <= 50 && GameManager.RoundsTo(300 + h % 200, r.value.n)
    ensures r.count.Derived? ==> 250 <= r.count.n <= 5250 && r.count.n - 250 == h % 5001
  {
    var t := GameManager.RoundTenths(300 + h % 200);
    PageRating(
      if "ratingValue" in meta then FromMeta(meta["ratingValue"]) else Derived(if t > 50 then 50 else t),
      if "ratingCount" in meta then FromMeta(meta["ratingCount"]) else Derived(250 + h % 5001))
  }

  /** Without overrides the game page shows what `GameManager` derives for the same
      hash. */
  lemma PageRatingMatchesGameManager(h: nat, meta: GameManager.Meta)
    requires "ratingValue" !in meta && "ratingCount" !in meta
    ensures var auto := GameManager.GameRating(h, None);
            GamePageRating(h, meta) == PageRating(Derived(auto.tenths), Derived(auto.count))
  {
  }

  /** Digits in which an underscore may stand only between two digits, the body that
      Python's `int()` reads in base 10. */
  predicate DigitGroups(t: string) {
    |t| > 0 && IsDigit(t[0]) && IsDigit(t[|t| - 1])
    && forall i :: 0 <= i < |t| ==> IsDigit(t[i]) || (t[i] == '_' && i + 1 < |t| && IsDigit(t[i + 1]))
  }

  /** Text that `int()` accepts: surrounding whitespace, an optional sign, then digit
      groups. */
  predicate IntText(s: string) {
    var t := StripSpace(s);
    |t| > 0 && (if t[0] == '+' || t[0] == '-' then DigitGroups(t[1..]) else DigitGroups(t))
  }

  /** Whether `int(str(v))` succeeds for a meta value. An integer's text is its
      digits; a string is read as it stands; `true`, `false`, `null`, arrays and objects
      print as `True`, `False`, `None`, `[...]` and `{...}`, which are never numbers. */
  predicate IntConvertible(j: GameManager.Json) {
    match j
    case JNum(_) => true
    case JStr(s) => IntText(s)
    case _ => false
  }

  /** Whether `float(str(v))` succeeds for a meta value, with Python's float syntax
      the parameter `floatText`. */
  predicate FloatConvertible(j: GameManager.Json, floatText: string -> bool) {
    match j
    case JNum(_) => true
    case JStr(s) => floatText(s)
    case _ => false
  }

  /**
   * The rating handed to the schema: `float(rating_value)` and then
   * `int(rating_count)` of the texts above. A failed conversion raises `ValueError`,
   * which the page loop catches and reports, so that game's page is not written; the
   * derived values always convert.
   */
  function GameSchemaRating(h: nat, meta: GameManager.Meta, floatText: string -> bool): (r: Result<PageRating>)
    ensures r.Err? <==> ("ratingValue" in meta && !FloatConvertible(meta["ratingValue"], floatText))
                        || ("ratingCount" in meta && !IntConvertible(meta["ratingCount"]))
    ensures r.Err? ==> r.error.ValueError?
    ensures r.Ok? ==> r.value == GamePageRating(h, meta)
  {
    var pr := GamePageRating(h, meta);
    if pr.value.FromMeta? && !FloatConvertible(pr.value.j, floatText) then
      Err(ValueError("could not convert string to float"))
    else if pr.count.FromMeta? && !IntConvertible(pr.count.j) then
      Err(ValueError("invalid literal for int() with base 10"))
    else Ok(pr)
  }

  /** What the game-page loop needs of one game: its slug, the hash of the slug and
      its meta block. */
  datatype GameInput = GameInput(slug: string, hash: nat, meta: GameManager.Meta)

  /**
   * The slugs whose pages the game-page loop writes, in order. The loop catches
   * every exception per game and moves on, so a game whose rating fails to convert
   * is reported and left without a page while the games after it are still written.
   */
  function WrittenGamePages(games: seq<GameInput>, floatText: string -> bool): (r: seq<string>)
    ensures |r| <= |games|
    ensures forall k :: 0 <= k < |games| && GameSchemaRating(games[k].hash, games[k].meta, floatText).Ok?
                        ==> games[k].slug in r
    ensures forall s :: s in r ==> exists k :: 0 <= k < |games| && games[k].slug == s
                                              && GameSchemaRating(games[k].hash, games[k].meta, floatText).Ok?
  {
    if games == [] then []
    else
      var rest := WrittenGamePages(games[1..], floatText);
      var g := games[0];
      assert forall k :: 1 <= k < |games| ==> games[k] == games[1..][k - 1];
      if GameSchemaRating(g.hash, g.meta, floatText).Ok? then [g.slug] + rest else rest
  }

  /** A game whose meta rating does not convert gets no page unless another game
      with a converting rating shares its slug. */
  lemma BadRatingLeavesNoPage(games: seq<GameInput>, i: nat, floatText: string -> bool)
    requires i < |games|
    requires GameSchemaRating(games[i].hash, games[i].meta, floatText).Err?
    requires forall k :: 0 <= k < |games| && k != i ==> games[k].slug != games[i].slug
    ensures games[i].slug !in WrittenGamePages(games, floatText)
  {
  }

  /** Meta ratings that are not numbers drop the page: `true` and `null` as the value,
      `n/a` as the count. A padded count with a digit separator is read. */
  lemma BadMetaRatingsDropPage(h: nat, floatText: string -> bool)
    ensures GameSchemaRating(h, map["ratingValue" := GameManager.JBool(true)], floatText).Err?
    ensures GameSchemaRating(h, map["ratingValue" := GameManager.JNull], floatText).Err?
    ensures GameSchemaRating(h, map["ratingCount" := GameManager.JStr("n/a")], floatText).Err?
    ensures GameSchemaRating(h, map["ratingCount" := GameManager.JStr(" 1_200 ")], floatText).Ok?
  {
    BoolRatingRaises(h, floatText);
    NullRatingRaises(h, floatText);
    WordCountRaises(h, floatText);
    PaddedCountRead(h, floatText);
  }

  lemma BoolRatingRaises(h: nat, floatText: string -> bool)
    ensures GameSchemaRating(h, map["ratingValue" := GameManager.JBool(true)], floatText).Err?
  {
  }

  lemma NullRatingRaises(h: nat, floatText: string -> bool)
    ensures GameSchemaRating(h, map["ratingValue" := GameManager.JNull], floatText).Err?
  {
  }

  lemma WordCountRaises(h: nat, floatText: string -> bool)
    ensures GameSchemaRating(h, map["ratingCount" := GameManager.JStr("n/a")], floatText).Err?
  {
    var na := "n/a";
    StripSpaceKeepsInner(na);
    assert !IsDigit(na[0]);
  }

  lemma PaddedCountRead(h: nat, floatText: string -> bool)
    ensures GameSchemaRating(h, map["ratingCount" := GameManager.JStr(" 1_200 ")], floatText).Ok?
  {
    PaddedCount(" 1_200 ");
  }

  lemma PaddedCount(s: string)
    requires s == " 1_200 "
    ensures IntText(s)
  {
    var inner := "1_200";
    PaddedCountStrips(s, inner);
    assert DigitGroups(inner) by {
      assert inner[0] == '1' && inner[1] == '_' && inner[2] == '2' && inner[3] == '0' && inner[4] == '0';
    }
  }

  lemma PaddedCountStrips(s: string, inner: string)
    requires s == " 1_200 " && inner == "1_200"
    ensures StripSpace(s) == inner
  {
    var right := inner + " ";
    assert s[0] == ' ' && s[1..] == right;
    assert right[0] == '1' && right[|right| - 1] == ' ' && right[..|right| - 1] == inner;
    assert inner[0] == '1' && inner[|inner| - 1] == '0';
    assert IsSpace(s[0]) && !IsSpace(right[0]) && IsSpace(right[|right| - 1]);
    assert !IsSpace(inner[0]) && !IsSpace(inner[|inner| - 1]);
    assert StripSpace(inner) == inner;
    assert StripSpace(right) == StripSpace(inner);
    assert StripSpace(s) == StripSpace(right);
  }

  // ---------------------------------------------------------------------------
  // Icon widget

  /**
   * The image `_get_all_games_for_widget` shows: the meta logo, else the hero image,
   * each with an `img/` prefix dropped and put under `/assets/images/`;
   * `gamelogo.webp` when there is neither.
   */
  function WidgetImage(g: GameManager.Game): (r: string)
    ensures StartsWith(r, "/assets/images/")
    ensures GameManager.MetaText(g.meta, "logo").Some? ==>
              r == GameManager.LogoImage(GameManager.MetaText(g.meta, "logo").value)
    ensures GameManager.MetaText(g.meta, "logo").None? && (g.hero.None? || g.hero.value == "") ==>
              r == "/assets/images/gamelogo.webp"
  {
    match GameManager.MetaText(g.meta, "logo")
    case Some(logo) => ImageUnder(logo)
    case None =>
      if g.hero.Some? && g.hero.value != "" then ImageUnder(g.hero.value)
      else
        assert !StartsWith("gamelogo.webp", "img/") by {
          assert "gamelogo.webp"[..4][0] == 'g';
        }
        ImageUnder("gamelogo.webp")
  }

  function ImageUnder(name: string): (r: string)
    ensures StartsWith(r, "/assets/images/") && r == GameManager.LogoImage(name)
  {
    var r := GameManager.LogoImage(name);
    assert r[..15] == "/assets/images/";
    r
  }

  /** Where a game has a logo or a hero image, both widgets show the same picture. */
  lemma WidgetImageMatchesGameManager(g: GameManager.Game)
    requires GameManager.MetaText(g.meta, "logo").Some? || (g.hero.Some? && g.hero.value != "")
    ensures GameManager.AllWidgetImage(g) == Some(WidgetImage(g))
  {
  }

  function WidgetEntryOf(g: GameManager.Game): GameManager.WidgetEntry {
    GameManager.WidgetEntry(g.title, PageUrl(g.slug, true), WidgetImage(g))
  }

  /** The cap of `_get_all_games_for_widget`. */
  const WidgetMax: nat := 60

  /**
   * `_get_all_games_for_widget`: the first 60 offered games (a slug and a title, not
   * the excluded one) in input order, each linked by its game-page URL.
   */
  function AllGamesForWidget(games: seq<GameManager.Game>, exclude: Option<string>): (r: seq<GameManager.WidgetEntry>)
    ensures |r| <= WidgetMax && |r| <= |GameManager.Available(games, exclude)|
    ensures |r| == WidgetMax || |r| == |GameManager.Available(games, exclude)|
    ensures forall i :: 0 <= i < |r| ==> r[i] == WidgetEntryOf(GameManager.Available(games, exclude)[i])
  {
    var chosen := GameManager.SliceTo(GameManager.Available(games, exclude), WidgetMax);
    seq(|chosen|, i requires 0 <= i < |chosen| => WidgetEntryOf(chosen[i]))
  }

  /** No widget entry links the excluded game. */
  lemma WidgetSkipsExcluded(games: seq<GameManager.Game>, exclude: string)
    requires exclude != ""
    ensures forall e :: e in AllGamesForWidget(games, Some(exclude)) ==> e.url != PageUrl(exclude, true)
  {
    var avail := GameManager.Available(games, Some(exclude));
    var r := AllGamesForWidget(games, Some(exclude));
    forall e | e in r ensures e.url != PageUrl(exclude, true) {
      var i :| 0 <= i < |r| && r[i] == e;
      assert avail[i] in avail;
      if e.url == PageUrl(exclude, true) {
        GameUrlInjective(avail[i].slug, exclude);
      }
    }
  }

  // ---------------------------------------------------------------------------
  // Static files

  /** `file_type_mapping`: the asset directory of a lower-cased extension. */
  function AssetType(ext: string): (r: Option<string>)
    ensures r.Some? ==> r.value == "css" || r.value == "js" || r.value == "images"
                        || r.value == "fonts" || r.value == "media"
    ensures ext == ".css" <==> r == Some("css")
  {
    if ext == ".css" then Some("css")
    else if ext == ".js" then Some("js")
    else if ext == ".jpg" || ext == ".jpeg" || ext == ".png" || ext == ".gif" || ext == ".webp"
            || ext == ".svg" || ext == ".ico" || ext == ".bmp" || ext == ".tiff" then Some("images")
    else if ext == ".woff" || ext == ".woff2" || ext == ".ttf" || ext == ".otf" || ext == ".eot" then Some("fonts")
    else if ext == ".mp4" || ext == ".mp3" || ext == ".wav" || ext == ".ogg" || ext == ".avi" || ext == ".mov" then Some("media")
    else None
  }

  /** The type `_copy_static_files` files a static file under, by its lower-cased
      extension. */
  function TypeOf(rel: Path): Option<string> {
    AssetType(Lower(Ext(Basename(rel))))
  }

  /**
   * The output path, relative to the output directory, that `_copy_static_files`
   * gives the file at `rel` under the static directory: `assets/<type>/<basename>`
   * for a known extension, `rel` itself otherwise.
   */
  function StaticTarget(rel: Path): (r: Path)
    ensures TypeOf(rel).Some? ==> r == "assets/" + TypeOf(rel).value + "/" + Basename(rel)
    ensures TypeOf(rel).Some? ==> StartsWith(r, "assets/") && EndsWith(r, Basename(rel))
    ensures TypeOf(rel).None? ==> r == rel
  {
    match TypeOf(rel)
    case Some(t) =>
      AssetsPathShape(t, Basename(rel));
      "assets/" + t + "/" + Basename(rel)
    case None => rel
  }

  lemma AssetsPathShape(t: string, name: string)
    ensures StartsWith("assets/" + t + "/" + name, "assets/")
    ensures EndsWith("assets/" + t + "/" + name, name)
  {
    var r := "assets/" + t + "/" + name;
    assert r[..7] == "assets/";
    assert r[|r| - |name|..] == name;
  }

  /** Two files of a known type with the same name in different folders land on the
      same output file: the later copy overwrites the earlier one. */
  lemma SameNameSameTarget(a: Path, b: Path)
    requires Basename(a) == Basename(b) && TypeOf(a).Some?
    ensures StaticTarget(a) == StaticTarget(b)
  {
  }

  /** A map that records `target(r)` for each path `r` visited, in order. */
  function Record(rels: seq<Path>, target: Path -> Path): (m: map<Path, Path>)
    ensures forall r :: r in m <==> r in rels
    ensures forall r :: r in m ==> m[r] == target(r)
  {
    if |rels| == 0 then map[]
    else Record(rels[..|rels| - 1], target)[rels[|rels| - 1] := target(rels[|rels| - 1])]
  }

  /** `_asset_mappings` after the walk has visited `rels`: each visited path maps to
      its output path. */
  function AssetMappings(rels: seq<Path>): (m: map<Path, Path>)
    ensures forall r :: r in m <==> r in rels
    ensures forall r :: r in m ==> m[r] == StaticTarget(r)
  {
    Record(rels, StaticTarget)
  }

  // ---------------------------------------------------------------------------
  // Stylesheet links

  /** The pattern `href="([^"]*\.css)"` matches at the start of `s` with a name of
      length `k`: the name holds no quote, ends in `.css` and is followed by a quote. */
  predicate CssMatch(s: string, k: nat) {
    7 + k <= |s| && s[..6] == "href=\"" && s[6 + k] == '"'
    && '"' !in s[6..6 + k] && EndsWith(s[6..6 + k], ".css")
  }

  /** The name runs to the first quote after `href="`, so there is at most one match
      at a position; the result is its length. */
  function CssRefAt(s: string): (r: Option<nat>)
    ensures r.Some? ==> CssMatch(s, r.value)
    ensures r.None? ==> forall k: nat :: !CssMatch(s, k)
  {
    if !StartsWith(s, "href=\"") then None
    else
      match IndexOf(s[6..], '"')
      case None =>
        NoQuoteNoMatch(s);
        None
      case Some(k) =>
        assert s[6..6 + k] == s[6..][..k];
        if EndsWith(s[6..6 + k], ".css") then Some(k)
        else
          FirstQuoteOnly(s, k);
          None
  }

  lemma NoQuoteNoMatch(s: string)
    requires |s| >= 6 && forall j :: 0 <= j < |s[6..]| ==> s[6..][j] != '"'
    ensures forall k: nat :: !CssMatch(s, k)
  {
    forall k: nat ensures !CssMatch(s, k) {
      if 7 + k <= |s| {
        assert s[6..][k] == s[6 + k];
      }
    }
  }

  lemma FirstQuoteOnly(s: string, k: nat)
    requires 6 + k < |s| && s[6 + k] == '"' && !EndsWith(s[6..6 + k], ".css")
    requires forall j :: 0 <= j < k ==> s[6..][j] != '"'
    ensures forall q: nat :: !CssMatch(s, q)
  {
    forall q: nat ensures !CssMatch(s, q) {
      if q > k && 7 + q <= |s| {
        assert s[6..6 + q][k] == '"';
      } else if q < k {
        assert s[6 + q] == s[6..][q];
      }
    }
  }

  /** The text `replace_css_refs` puts in place of a match. */
  function CssRewrite(name: string, m: map<Path, Path>): (r: string)
    ensures name in m ==> r == "href=\"" + UrlUtils.RootedPath(m[name]) + "\""
    ensures name !in m ==> r == "href=\"" + name + "\""
  {
    if name in m then "href=\"" + UrlUtils.RootedPath(m[name]) + "\"" else "href=\"" + name + "\""
  }

  /** `a` followed by `b`. */
  function Then(a: string, b: string): string {
    a + b
  }

  /** The stylesheet step of `_resolve_asset_links`: `re.sub` scanning left to right
      and resuming after each match. */
  function ResolveCssRefs(s: string, m: map<Path, Path>): string
    decreases |s|
  {
    if |s| == 0 then s
    else
      match CssRefAt(s)
      case Some(k) => Then(CssRewrite(s[6..6 + k], m), ResolveCssRefs(s[7 + k..], m))
      case None => Then([s[0]], ResolveCssRefs(s[1..], m))
  }

  /** With no mappings recorded, every reference is put back as it was found. */
  lemma {:induction false} ResolveCssWithoutMappings(s: string)
    ensures ResolveCssRefs(s, map[]) == s
    decreases |s|
  {
    if |s| > 0 {
      match CssRefAt(s)
      case Some(k) =>
        ResolveCssWithoutMappings(s[7 + k..]);
        MatchSplits(s, k);
      case None =>
        ResolveCssWithoutMappings(s[1..]);
        assert s == [s[0]] + s[1..];
    }
  }

  /** A match is the opener, the name, the closing quote and the text after it. */
  lemma MatchSplits(s: string, k: nat)
    requires CssMatch(s, k)
    ensures s == "href=\"" + s[6..6 + k] + "\"" + s[7 + k..]
  {
    assert s[..7 + k] == "href=\"" + s[6..6 + k] + "\"";
    assert s == s[..7 + k] + s[7 + k..];
  }

  /** One stylesheet reference at the front of the text: a recorded name is replaced
      by its root-absolute organised path, any other name is kept. */
  lemma CssRefRewritten(name: string, rest: string, m: map<Path, Path>)
    requires '"' !in name && EndsWith(name, ".css")
    ensures name in m ==> ResolveCssRefs("href=\"" + name + "\"" + rest, m)
                          == "href=\"" + UrlUtils.RootedPath(m[name]) + "\"" + ResolveCssRefs(rest, m)
    ensures name !in m ==> ResolveCssRefs("href=\"" + name + "\"" + rest, m)
                           == "href=\"" + name + "\"" + ResolveCssRefs(rest, m)
  {
    var s := "href=\"" + name + "\"" + rest;
    assert s[..6] == "href=\"";
    assert s[6..] == name + "\"" + rest;
    assert s[6..6 + |name|] == name;
    assert s[6 + |name|] == '"';
    assert s[7 + |name|..] == rest;
    IndexOfName(name, rest);
    assert CssRefAt(s) == Some(|name|);
  }

  lemma {:induction false} IndexOfName(name: string, rest: string)
    requires '"' !in name
    ensures IndexOf(name + "\"" + rest, '"') == Some(|name|)
    decreases |name|
  {
    var t := name + "\"" + rest;
    if |name| > 0 {
      assert t[0] == name[0];
      assert t[1..] == name[1..] + "\"" + rest;
      IndexOfName(name[1..], rest);
    }
  }

  /** A stylesheet copied from the static directory is linked at its organised,
      root-absolute location once the copy has recorded it. */
  lemma StaticCssLinked(rels: seq<Path>, rel: Path, rest: string)
    requires rel in rels && '"' !in rel && EndsWith(rel, ".css")
    requires Lower(Ext(Basename(rel))) == ".css"
    ensures ResolveCssRefs("href=\"" + rel + "\"" + rest, AssetMappings(rels))
            == "href=\"" + "/assets/css/" + Basename(rel) + "\"" + ResolveCssRefs(rest, AssetMappings(rels))
  {
    var m := AssetMappings(rels);
    var t := "/assets/css/" + Basename(rel);
    MappedCss(rels, rel);
    RootedCss(Basename(rel));
    MappedRefRewritten(rel, rest, m, t);
    Regroup("href=\"", "/assets/css/", Basename(rel), "\"", ResolveCssRefs(rest, m));
  }

  lemma Regroup(a: string, b: string, c: string, d: string, e: string)
    ensures a + (b + c) + d + e == a + b + c + d + e
  {
  }

  /** A recorded reference whose rooted target is `t`. */
  lemma MappedRefRewritten(name: string, rest: string, m: map<Path, Path>, t: string)
    requires '"' !in name && EndsWith(name, ".css")
    requires name in m && UrlUtils.RootedPath(m[name]) == t
    ensures ResolveCssRefs("href=\"" + name + "\"" + rest, m)
            == "href=\"" + t + "\"" + ResolveCssRefs(rest, m)
  {
    CssRefRewritten(name, rest, m);
  }

  /** The recorded path of a stylesheet. */
  lemma MappedCss(rels: seq<Path>, rel: Path)
    requires rel in rels && Lower(Ext(Basename(rel))) == ".css"
    ensures AssetMappings(rels)[rel] == "assets/css/" + Basename(rel)
  {
    CssTarget(rel);
  }

  lemma CssTarget(rel: Path)
    requires TypeOf(rel) == Some("css")
    ensures StaticTarget(rel) == "assets/css/" + Basename(rel)
  {
    CssDir(Basename(rel));
  }

  lemma CssDir(b: string)
    ensures "assets/" + "css" + "/" + b == "assets/css/" + b
  {
    assert "assets/" + "css" + "/" == "assets/css/";
  }

  lemma RootedCss(b: string)
    ensures UrlUtils.RootedPath("assets/css/" + b) == "/assets/css/" + b
  {
    var t := "assets/css/" + b;
    assert t[0] == 'a';
    RootedRelative(t);
    assert "/" + t == "/assets/css/" + b;
  }

  lemma RootedRelative(p: string)
    requires |p| > 0 && p[0] != '/'
    ensures UrlUtils.RootedPath(p) == "/" + p
  {
    assert !StartsWith(p, "/") by {
      assert p[..1][0] == p[0];
    }
  }

  // ---------------------------------------------------------------------------
  // Sitemap

  /** One page in the list `create_sitemap_xml` builds before writing. */
  datatype SitemapPage = SitemapPage(url: string, priority: string, changefreq: string)

  /** One written `<url>` element. */
  datatype SitemapEntry = SitemapEntry(loc: string, changefreq: string, priority: string)

  predicate IsAboutKey(key: string) {
    key == "about-us" || key == "ueber-uns" || key == "a-propos" || key == "over-ons"
  }

  predicate IsContactKey(key: string) {
    key == "contact" || key == "kontakt"
  }

  /** The homepage entry: the empty URL, priority 1.0, daily. */
  const HomePage: SitemapPage := SitemapPage("", "1.0", "daily")

  /** The entry of a configured page: about pages 0.8, others 0.5; about and contact
      pages monthly, others yearly. */
  function KeyPage(key: string): (r: SitemapPage)
    ensures r.url == PageUrl(key, false)
    ensures r.priority == "0.8" || r.priority == "0.5"
    ensures r.changefreq == "monthly" || r.changefreq == "yearly"
  {
    SitemapPage(PageUrl(key, false),
                if IsAboutKey(key) then "0.8" else "0.5",
                if IsAboutKey(key) || IsContactKey(key) then "monthly" else "yearly")
  }

  /** `s` with every occurrence of `x` removed, the rest kept in order. */
  function Without(s: seq<string>, x: string): (r: seq<string>)
    ensures forall y :: y in r <==> y in s && y != x
    ensures |r| <= |s|
  {
    if |s| == 0 then []
    else
      assert s == [s[0]] + s[1..];
      (if s[0] == x then [] else [s[0]]) + Without(s[1..], x)
  }

  /** Removing distributes over concatenation: what is kept keeps its order. */
  lemma {:induction false} WithoutConcat(a: seq<string>, b: seq<string>, x: string)
    ensures Without(a + b, x) == Without(a, x) + Without(b, x)
    decreases |a|
  {
    if |a| > 0 {
      assert (a + b)[1..] == a[1..] + b;
      WithoutConcat(a[1..], b, x);
    } else {
      assert a + b == b;
    }
  }

  /** One page per item other than `skip`, in order, as the generator's loops append
      them. */
  function PagesOf(xs: seq<string>, skip: string, page: string -> SitemapPage): (r: seq<SitemapPage>)
    ensures |r| == |xs| - multiset(xs)[skip]
    ensures forall p :: p in r ==> exists x :: x in xs && x != skip && p == page(x)
  {
    if |xs| == 0 then []
    else
      var rest := PagesOf(xs[1..], skip, page);
      assert xs == [xs[0]] + xs[1..];
      assert forall x :: x in xs[1..] ==> x in xs;
      if xs[0] == skip then rest else [page(xs[0])] + rest
  }

  /** Entry `i` is the page of the `i`-th item that is not `skip`. */
  lemma {:induction false} PagesInOrder(xs: seq<string>, skip: string, page: string -> SitemapPage)
    ensures |PagesOf(xs, skip, page)| == |Without(xs, skip)|
    ensures forall i :: 0 <= i < |Without(xs, skip)| ==> PagesOf(xs, skip, page)[i] == page(Without(xs, skip)[i])
  {
    if |xs| > 0 {
      PagesInOrder(xs[1..], skip, page);
      if xs[0] != skip {
        KeptHead(xs, skip, page);
      }
    }
  }

  /** A kept first item leads both the pages and the remaining items. */
  lemma KeptHead(xs: seq<string>, skip: string, page: string -> SitemapPage)
    requires |xs| > 0 && xs[0] != skip
    ensures PagesOf(xs, skip, page) == [page(xs[0])] + PagesOf(xs[1..], skip, page)
    ensures Without(xs, skip) == [xs[0]] + Without(xs[1..], skip)
  {
  }

  /** The configured pages other than `index`, in order. */
  function KeyPages(keys: seq<string>): (r: seq<SitemapPage>)
    ensures |r| == |keys| - multiset(keys)["index"]
    ensures forall p :: p in r ==> exists k :: k in keys && k != "index" && p == KeyPage(k)
  {
    PagesOf(keys, "index", KeyPage)
  }

  /** The entry of a game: its game-page URL, priority 0.7, weekly. */
  function GamePage(slug: string): SitemapPage {
    SitemapPage(PageUrl(slug, true), "0.7", "weekly")
  }

  /** The games with a (non-empty) slug, in order. */
  function GamePages(slugs: seq<string>): (r: seq<SitemapPage>)
    ensures |r| == |slugs| - multiset(slugs)[""]
    ensures forall p :: p in r ==> exists s :: s in slugs && s != "" && p == GamePage(s)
  {
    PagesOf(slugs, "", GamePage)
  }

  /** The page list: the homepage, the configured pages, then the games. */
  function SitemapPages(keys: seq<string>, slugs: seq<string>): seq<SitemapPage> {
    [HomePage] + KeyPages(keys) + GamePages(slugs)
  }

  /** Every `http://` turned into `https://` when the URL starts with `http://`. */
  function ForceHttps(u: string): (r: string)
    ensures !StartsWith(r, "http://")
    ensures StartsWith(u, "http://") ==> StartsWith(r, "https://")
    ensures !StartsWith(u, "http://") ==> r == u
  {
    if StartsWith(u, "http://") then
      assert u[..7] == "http://";
      var r := Replace(u, "http://", "https://");
      assert r == "https://" + Replace(u[7..], "http://", "https://");
      assert r[..8] == "https://";
      assert r[..7] != "http://" by { assert r[4] == 's'; }
      r
    else u
  }

  /** The location written for a page URL: the site URL without its trailing slashes,
      then, unless the URL is empty, one slash and the URL without its leading ones. */
  function Loc(site: string, url: string): (r: string)
    ensures !StartsWith(r, "http://")
  {
    ForceHttps(if url == "" then RStrip(site, '/') else RStrip(site, '/') + "/" + LStrip(url, '/'))
  }

  function EntryOf(site: string, p: SitemapPage): SitemapEntry {
    SitemapEntry(Loc(site, p.url), p.changefreq, p.priority)
  }

  /**
   * The `<url>` elements `create_sitemap_xml` writes, in order: the homepage first,
   * one per configured page other than `index`, then one per game with a slug. No
   * location starts with `http://`.
   */
  function Sitemap(site: string, keys: seq<string>, slugs: seq<string>): (r: seq<SitemapEntry>)
    ensures |r| == 1 + (|keys| - multiset(keys)["index"]) + (|slugs| - multiset(slugs)[""])
    ensures r[0] == SitemapEntry(Loc(site, ""), "daily", "1.0")
    ensures forall i :: 0 <= i < |r| ==> !StartsWith(r[i].loc, "http://")
  {
    var ps := SitemapPages(keys, slugs);
    seq(|ps|, i requires 0 <= i < |ps| => EntryOf(site, ps[i]))
  }

  /** Entry `i` of the sitemap is written for page `i` of the page list. */
  lemma SitemapFollowsPages(site: string, keys: seq<string>, slugs: seq<string>)
    ensures var ps := [HomePage] + KeyPages(keys) + GamePages(slugs);
            |Sitemap(site, keys, slugs)| == |ps|
            && forall i :: 0 <= i < |ps| ==> Sitemap(site, keys, slugs)[i] == EntryOf(site, ps[i])
  {
  }

  /** The sitemap, entry by entry: the homepage, then the `i`-th key other than
      `index`, then the `i`-th non-empty slug. */
  lemma SitemapInOrder(site: string, keys: seq<string>, slugs: seq<string>)
    ensures var r, pages, games := Sitemap(site, keys, slugs), Without(keys, "index"), Without(slugs, "");
            |r| == 1 + |pages| + |games|
            && (forall i :: 0 <= i < |pages| ==> r[1 + i] == EntryOf(site, KeyPage(pages[i])))
            && (forall i :: 0 <= i < |games| ==> r[1 + |pages| + i] == EntryOf(site, GamePage(games[i])))
  {
    PagesInOrder(keys, "index", KeyPage);
    PagesInOrder(slugs, "", GamePage);
    SitemapFollowsPages(site, keys, slugs);
    EntriesInOrder(Sitemap(site, keys, slugs), HomePage, KeyPages(keys), GamePages(slugs),
                   Without(keys, "index"), Without(slugs, ""), site, KeyPage, GamePage);
  }

  /** Entries written page by page for a head, then one page per item of `xs`, then one
      per item of `ys`: entry `1 + i` comes from `xs[i]`, entry `1 + |xs| + j` from
      `ys[j]`. */
  lemma EntriesInOrder(r: seq<SitemapEntry>, head: SitemapPage, a: seq<SitemapPage>, b: seq<SitemapPage>,
                       xs: seq<string>, ys: seq<string>, site: string,
                       f: string -> SitemapPage, g: string -> SitemapPage)
    requires |r| == 1 + |a| + |b|
    requires forall i :: 0 <= i < |r| ==> r[i] == EntryOf(site, ([head] + a + b)[i])
    requires |a| == |xs| && forall i :: 0 <= i < |xs| ==> a[i] == f(xs[i])
    requires |b| == |ys| && forall i :: 0 <= i < |ys| ==> b[i] == g(ys[i])
    ensures |r| == 1 + |xs| + |ys|
    ensures forall i :: 0 <= i < |xs| ==> r[1 + i] == EntryOf(site, f(xs[i]))
    ensures forall i :: 0 <= i < |ys| ==> r[1 + |xs| + i] == EntryOf(site, g(ys[i]))
  {
    var ps := [head] + a + b;
    assert forall i :: 0 <= i < |xs| ==> ps[1 + i] == a[i];
    assert forall i :: 0 <= i < |ys| ==> ps[1 + |xs| + i] == b[i];
  }

  /** Every page URL has exactly one leading slash. */
  lemma PageUrlShape(key: string, isGame: bool)
    ensures var u := PageUrl(key, isGame);
            |u| >= 7 && u[0] == '/' && u[1] != '/'
  {
    var p := UrlPrefix(key, isGame);
    var u := p + (key + ".html");
    assert p != "/" ==> u[1] == p[1];
    assert p == "/" ==> u[1] == key[0];
  }

  /** A configured page's location is the site URL, without its trailing slashes,
      followed by the page's URL: the sitemap links the file the page was written to. */
  lemma PageLocIsPageUrl(site: string, key: string)
    ensures Loc(site, PageUrl(key, false)) == ForceHttps(RStrip(site, '/') + PageUrl(key, false))
  {
    PageUrlShape(key, false);
    LocOfRooted(site, PageUrl(key, false));
  }

  /** A URL with exactly one leading slash is appended to the stripped site URL. */
  lemma LocOfRooted(site: string, u: string)
    requires |u| >= 2 && u[0] == '/' && u[1] != '/'
    ensures Loc(site, u) == ForceHttps(RStrip(site, '/') + u)
  {
    var v := u[1..];
    assert LStrip(u, '/') == LStrip(v, '/');
    assert LStrip(v, '/') == v;
    assert "/" + v == u;
    var x := RStrip(site, '/');
    assert x + "/" + v == x + u;
  }
}

=== FILE: optimizer.dfy ===
/**
 * The size, name and arithmetic helpers of `ImageOptimizer` (core/optimizer.py): the
 * PWA icon table and its file names, the maskable padding, the logo's file name, the
 * favicon sizes, the choice of the PWA icon source, the screenshot frame and the
 * defaulting of image SEO attributes. Decoding, resizing and encoding images are not
 * modelled; an image is its width and height.
 */
module Optimizer {
  import opened Wrappers
  import opened Strings
  import GameManager
  import SeoManager

  // ---------------------------------------------------------------------------
  // Numbers in file names

  function DigitChar(d: nat): (c: char)
    requires d < 10
    ensures '0' <= c <= '9'
  {
    "0123456789"[d]
  }

  /** `str(n)` for a natural number: its decimal digits, without leading zeros. */
  function NatText(n: nat): (r: string)
    ensures |r| > 0 && forall i :: 0 <= i < |r| ==> '0' <= r[i] <= '9'
    ensures |r| > 1 ==> r[0] != '0'
    decreases n
  {
    if n < 10 then [DigitChar(n)] else NatText(n / 10) + [DigitChar(n % 10)]
  }

  /** Distinct numbers are written differently. */
  lemma {:induction false} NatTextInjective(a: nat, b: nat)
    ensures NatText(a) == NatText(b) ==> a == b
    decreases a
  {
    var s, t := NatText(a), NatText(b);
    if s == t {
      if a >= 10 && b >= 10 {
        assert s[..|s| - 1] == NatText(a / 10) && t[..|t| - 1] == NatText(b / 10);
        NatTextInjective(a / 10, b / 10);
        DigitCharInjective(a % 10, b % 10);
      } else if a < 10 && b < 10 {
        DigitCharInjective(a, b);
      }
    }
  }

  lemma DigitCharInjective(a: nat, b: nat)
    requires a < 10 && b < 10
    ensures DigitChar(a) == DigitChar(b) ==> a == b
  {
  }

  /** `f"{w}x{h}"`: the way the optimizer and the manifest both write dimensions. */
  function DimText(w: nat, h: nat): (r: string)
    ensures |r| == |NatText(w)| + 1 + |NatText(h)|
    ensures r[|NatText(w)|] == 'x' && '0' <= r[|r| - 1] <= '9'
    ensures forall i :: 0 <= i < |r| && i != |NatText(w)| ==> '0' <= r[i] <= '9'
  {
    NatText(w) + "x" + NatText(h)
  }

  /** Dimensions are read back from their text: the `x` is the only non-digit. */
  lemma DimTextInjective(w: nat, h: nat, w': nat, h': nat)
    ensures DimText(w, h) == DimText(w', h') ==> w == w' && h == h'
  {
    var r, r' := DimText(w, h), DimText(w', h');
    if r == r' {
      var a, a' := NatText(w), NatText(w');
      assert |a| == |a'|;
      assert a == r[..|a|] == r'[..|a'|] == a';
      assert NatText(h) == r[|a| + 1..] == r'[|a'| + 1..] == NatText(h');
      NatTextInjective(w, w');
      NatTextInjective(h, h');
    }
  }

  /** The text of a square size, `f"{n}x{n}"`. */
  function SizeText(n: nat): string {
    DimText(n, n)
  }

  // ---------------------------------------------------------------------------
  // PWA icons

  /** One row of the icon table: a square size and the manifest purpose. */
  datatype PwaIcon = PwaIcon(size: nat, purpose: SeoManager.Purpose)

  /** The table of `_generate_pwa_icons`: eight `any` sizes, then 192 and 512 again
      as `maskable`. */
  const PwaTable: seq<PwaIcon> := [
    PwaIcon(72, SeoManager.AnyPurpose), PwaIcon(96, SeoManager.AnyPurpose),
    PwaIcon(128, SeoManager.AnyPurpose), PwaIcon(144, SeoManager.AnyPurpose),
    PwaIcon(152, SeoManager.AnyPurpose), PwaIcon(192, SeoManager.AnyPurpose),
    PwaIcon(384, SeoManager.AnyPurpose), PwaIcon(512, SeoManager.AnyPurpose),
    PwaIcon(192, SeoManager.Maskable), PwaIcon(512, SeoManager.Maskable)]

  /** The file an icon is saved to: `<seo>-icon-<s>x<s>`, then `-maskable` for a
      maskable icon, then `.png`. */
  function IconFileName(seo: string, icon: PwaIcon): (r: string)
    ensures StartsWith(r, seo + "-icon-" + SizeText(icon.size))
    ensures EndsWith(r, "-maskable.png") <==> icon.purpose.Maskable?
    ensures EndsWith(r, ".png")
  {
    var stem := seo + "-icon-" + SizeText(icon.size);
    var name := if icon.purpose.Maskable? then stem + "-maskable" else stem;
    var r := name + ".png";
    assert r[..|stem|] == stem;
    assert r[|r| - 4..] == ".png";
    assert icon.purpose.Maskable? ==> r[|r| - 13..] == "-maskable.png";
    assert icon.purpose.AnyPurpose? ==> r[|r| - 5] == stem[|stem| - 1] != 'e';
    r
  }

  /** Each table row gets a file of its own: no icon overwrites another. */
  lemma IconFileNameInjective(seo: string, a: PwaIcon, b: PwaIcon)
    ensures IconFileName(seo, a) == IconFileName(seo, b) ==> a == b
  {
    var r := IconFileName(seo, a);
    if r == IconFileName(seo, b) {
      assert a.purpose == b.purpose;
      var p := seo + "-icon-";
      var sfx := if a.purpose.Maskable? then "-maskable.png" else ".png";
      assert r == p + SizeText(a.size) + sfx == p + SizeText(b.size) + sfx;
      assert SizeText(a.size) == r[|p|..|r| - |sfx|] == SizeText(b.size);
      DimTextInjective(a.size, a.size, b.size, b.size);
    }
  }

  /** The sizes of the icon table, written out, one literal per lemma. */
  lemma Size72() ensures SizeText(72) == "72x72" { }
  lemma Size96() ensures SizeText(96) == "96x96" { }
  lemma Size128() ensures SizeText(128) == "128x128" { }
  lemma Size144() ensures SizeText(144) == "144x144" { }
  lemma Size152() ensures SizeText(152) == "152x152" { }
  lemma Size192() ensures SizeText(192) == "192x192" { }
  lemma Size384() ensures SizeText(384) == "384x384" { }
  lemma Size512() ensures SizeText(512) == "512x512" { }

  /** Row `i` of the table has the size and purpose that the manifest declares for
      its icon `i`. */
  lemma PwaTableMatchesManifest(seo: string)
    ensures |PwaTable| == |SeoManager.IconList(seo)|
    ensures forall i :: 0 <= i < |PwaTable| ==>
              SizeText(PwaTable[i].size) == SeoManager.IconList(seo)[i].sizes
              && PwaTable[i].purpose == SeoManager.IconList(seo)[i].purpose
  {
    var m := SeoManager.IconList(seo);
    forall i | 0 <= i < |PwaTable|
      ensures SizeText(PwaTable[i].size) == m[i].sizes && PwaTable[i].purpose == m[i].purpose
    {
      if i < 8 {
        AnySizeText(i);
      } else {
        assert m[i].sizes == SeoManager.MaskableSizes[i - 8];
        if i == 8 { Size192(); } else { Size512(); }
      }
    }
  }

  /** The `any` rows of the table, one index at a time. */
  lemma AnySizeText(i: nat)
    requires i < 8
    ensures SizeText(PwaTable[i].size) == SeoManager.AnySizes[i] && PwaTable[i].purpose.AnyPurpose?
  {
    if i < 4 {
      if i == 0 { Size72(); } else if i == 1 { Size96(); } else if i == 2 { Size128(); } else { Size144(); }
    } else {
      if i == 4 { Size152(); } else if i == 5 { Size192(); } else if i == 6 { Size384(); } else { Size512(); }
    }
  }

  /** ... and is written to the file that the manifest names for it. */
  lemma PwaFilesMatchManifest(seo: string)
    ensures forall i :: 0 <= i < |PwaTable| ==>
              var m := SeoManager.IconList(seo)[i];
              IconFileName(seo, PwaTable[i]) == SeoManager.IconFile(seo, m.sizes, m.purpose)
  {
    PwaTableMatchesManifest(seo);
  }

  // ---------------------------------------------------------------------------
  // Maskable padding

  /** A square icon as saved: the canvas side, the side of the resized source pasted
      onto it and the offset at which it is pasted (the same on both axes). */
  datatype Layout = Layout(canvas: nat, inner: nat, offset: nat)

  /** The pasted square sits inside the canvas with equal margins on every side. */
  predicate Centred(l: Layout) {
    l.offset + l.inner + l.offset == l.canvas
  }

  /** `size // 10`, the safe-area margin of a maskable icon. */
  function MaskablePadding(size: nat): (p: nat)
    ensures 10 * p <= size < 10 * (p + 1)
  {
    size / 10
  }

  /** The layout `_generate_pwa_icons` saves: an `any` icon is the plain resize; a
      maskable one is the full-size resize pasted at `(padding, padding)` onto a
      canvas `2 * padding` larger. */
  function IconLayoutAsWritten(icon: PwaIcon): (r: Layout)
    ensures Centred(r) && r.inner == icon.size
    ensures icon.purpose.AnyPurpose? ==> r.canvas == icon.size && r.offset == 0
    ensures icon.purpose.Maskable? ==> r.offset == MaskablePadding(icon.size)
  {
    if icon.purpose.Maskable? then
      var padding := MaskablePadding(icon.size);
      Layout(icon.size + 2 * padding, icon.size, padding)
    else
      Layout(icon.size, icon.size, 0)
  }

  /** The saved maskable icons are larger than the size their file name and the
      manifest give them: 230 pixels for the 192 icon, 614 for the 512 one. */
  lemma MaskableIconsOversized(seo: string)
    ensures IconLayoutAsWritten(PwaTable[8]).canvas == 230
    ensures IconLayoutAsWritten(PwaTable[9]).canvas == 614
    ensures forall i :: 8 <= i < 10 ==>
              SizeText(IconLayoutAsWritten(PwaTable[i]).canvas) != SeoManager.IconList(seo)[i].sizes
  {
    var m := SeoManager.IconList(seo);
    assert IconLayoutAsWritten(PwaTable[8]).canvas == 230;
    assert IconLayoutAsWritten(PwaTable[9]).canvas == 614;
    assert m[8].sizes == SizeText(192) by {
      Size192();
    }
    assert m[9].sizes == SizeText(512) by {
      Size512();
    }
    DimTextInjective(230, 230, 192, 192);
    DimTextInjective(614, 614, 512, 512);
    forall i | 8 <= i < 10
      ensures SizeText(IconLayoutAsWritten(PwaTable[i]).canvas) != m[i].sizes
    {
      if i == 8 {
        assert SizeText(230) != SizeText(192);
      } else {
        assert SizeText(614) != SizeText(512);
      }
    }
  }

  /** The evidently intended layout: every icon is saved at its declared size, and a
      maskable icon shrinks the source by the margin on each side instead of growing
      the canvas. */
  function IconLayout(icon: PwaIcon): (r: Layout)
    ensures Centred(r) && r.canvas == icon.size
    ensures icon.purpose.AnyPurpose? ==> r.inner == icon.size && r.offset == 0
    ensures icon.purpose.Maskable? ==> r.offset == MaskablePadding(icon.size) && 5 * r.inner >= 4 * icon.size
  {
    if icon.purpose.Maskable? then
      var padding := MaskablePadding(icon.size);
      Layout(icon.size, icon.size - 2 * padding, padding)
    else
      Layout(icon.size, icon.size, 0)
  }

  /** With the corrected layout every saved icon has exactly the size the manifest
      declares for it, and the two layouts agree on every `any` icon. */
  lemma IconLayoutMatchesManifest(seo: string)
    ensures forall i :: 0 <= i < |PwaTable| ==>
              SizeText(IconLayout(PwaTable[i]).canvas) == SeoManager.IconList(seo)[i].sizes
    ensures forall icon: PwaIcon :: icon.purpose.AnyPurpose? ==> IconLayout(icon) == IconLayoutAsWritten(icon)
  {
    PwaTableMatchesManifest(seo);
  }

  // ---------------------------------------------------------------------------
  // Screenshots and their device frame

  /** One screenshot configuration: its name, the size the hero image is fitted to
      and the manifest form factor. */
  datatype Shot = Shot(name: string, width: nat, height: nat, formFactor: SeoManager.FormFactor)

  /** The configurations of `_generate_pwa_screenshots`, in order. */
  const ShotTable: seq<Shot> := [
    Shot("mobile", 390, 844, SeoManager.Narrow),
    Shot("tablet", 768, 1024, SeoManager.Wide),
    Shot("desktop", 1280, 720, SeoManager.Wide)]

  /** `<seo>-screenshot-<name>.png`. */
  function ShotFileName(seo: string, shot: Shot): (r: string)
    ensures StartsWith(r, seo + "-screenshot-") && EndsWith(r, shot.name + ".png")
  {
    var p := seo + "-screenshot-";
    var r := p + (shot.name + ".png");
    assert r[..|p|] == p;
    assert r[|r| - |shot.name + ".png"|..] == shot.name + ".png";
    r
  }

  /** The frame margin of `_add_device_frame`. */
  const FramePadding: nat := 20

  datatype Rgb = Rgb(red: nat, green: nat, blue: nat)

  /** A framed screenshot: the canvas, the pasted screenshot and its offset, the
      background and the rounded border rectangle `[x0, y0, x1, y1]` with its colour. */
  datatype Frame = Frame(
    width: nat, height: nat,
    innerWidth: nat, innerHeight: nat, offset: nat,
    background: Rgb,
    x0: nat, y0: nat, x1: nat, y1: nat, outline: Rgb)

  /** The pasted screenshot lies inside the canvas, and the border rectangle around
      it lies inside the canvas too. */
  predicate FrameWellFormed(f: Frame) {
    && f.offset + f.innerWidth <= f.width && f.offset + f.innerHeight <= f.height
    && f.x0 < f.offset && f.y0 < f.offset
    && f.offset + f.innerWidth < f.x1 <= f.width && f.offset + f.innerHeight < f.y1 <= f.height
  }

  /** Mobile frames are dark with a mid-grey border, tablet and desktop frames light
      with a light-grey border. */
  predicate FrameColours(f: Frame, ff: SeoManager.FormFactor) {
    if ff.Narrow? then f.background == Rgb(20, 20, 20) && f.outline == Rgb(100, 100, 100)
    else f.background == Rgb(240, 240, 240) && f.outline == Rgb(200, 200, 200)
  }

  /** The frame around a canvas of the given size, the screenshot pasted at the
      margin and the border two pixels outside it. */
  function FrameOn(width: nat, height: nat, innerWidth: nat, innerHeight: nat, ff: SeoManager.FormFactor): (r: Frame)
    requires width == innerWidth + 2 * FramePadding && height == innerHeight + 2 * FramePadding
    ensures FrameWellFormed(r) && FrameColours(r, ff)
    ensures r.width == width && r.height == height && r.offset == FramePadding
    ensures r.innerWidth == innerWidth && r.innerHeight == innerHeight
  {
    var dark := ff.Narrow?;
    Frame(width, height, innerWidth, innerHeight, FramePadding,
          if dark then Rgb(20, 20, 20) else Rgb(240, 240, 240),
          FramePadding - 2, FramePadding - 2, width - FramePadding + 2, height - FramePadding + 2,
          if dark then Rgb(100, 100, 100) else Rgb(200, 200, 200))
  }

  /** `_add_device_frame` as written: the fitted screenshot keeps its size and the
      canvas grows by the margin on each side. */
  function FramedAsWritten(shot: Shot): (r: Frame)
    ensures FrameWellFormed(r) && FrameColours(r, shot.formFactor)
    ensures r.innerWidth == shot.width && r.innerHeight == shot.height
    ensures r.width == shot.width + 40 && r.height == shot.height + 40
  {
    FrameOn(shot.width + 2 * FramePadding, shot.height + 2 * FramePadding, shot.width, shot.height, shot.formFactor)
  }

  /** The manifest's screenshot sizes, written out. */
  lemma Dim390x844() ensures DimText(390, 844) == "390x844" { }
  lemma Dim768x1024() ensures DimText(768, 1024) == "768x1024" { }
  lemma Dim1280x720() ensures DimText(1280, 720) == "1280x720" { }

  /** Screenshot `i` has the size and form factor the manifest declares for it. */
  lemma ShotTableMatchesManifest(seo: string)
    ensures |ShotTable| == |SeoManager.ScreenshotList(seo)|
    ensures forall i :: 0 <= i < |ShotTable| ==>
              DimText(ShotTable[i].width, ShotTable[i].height) == SeoManager.ScreenshotList(seo)[i].sizes
              && ShotTable[i].formFactor == SeoManager.ScreenshotList(seo)[i].formFactor
  {
    forall i | 0 <= i < |ShotTable|
      ensures DimText(ShotTable[i].width, ShotTable[i].height) == SeoManager.ScreenshotList(seo)[i].sizes
              && ShotTable[i].formFactor == SeoManager.ScreenshotList(seo)[i].formFactor
    {
      ShotRow(seo, i);
    }
  }

  /** One row of the screenshot table against the manifest. */
  lemma ShotRow(seo: string, i: nat)
    requires i < 3
    ensures DimText(ShotTable[i].width, ShotTable[i].height) == SeoManager.ScreenshotList(seo)[i].sizes
    ensures ShotTable[i].formFactor == SeoManager.ScreenshotList(seo)[i].formFactor
  {
    var m := SeoManager.ScreenshotList(seo);
    if i == 0 {
      Dim390x844();
      assert m[0].sizes == "390x844";
    } else if i == 1 {
      Dim768x1024();
      assert m[1].sizes == "768x1024";
    } else {
      Dim1280x720();
      assert m[2].sizes == "1280x720";
    }
  }

  /** ... and is written to the file the manifest names for it. */
  lemma ShotFilesMatchManifest(seo: string)
    ensures forall i :: 0 <= i < |ShotTable| ==>
              SeoManager.PwaPath(ShotFileName(seo, ShotTable[i])) == SeoManager.ScreenshotList(seo)[i].src
  {
    var m := SeoManager.ScreenshotList(seo);
    forall i | 0 <= i < |ShotTable|
      ensures SeoManager.PwaPath(ShotFileName(seo, ShotTable[i])) == m[i].src
    {
      ShotFileIsManifestFile(seo, ShotTable[i]);
    }
  }

  /** A shot's file name is the manifest's screenshot file of the same kind. */
  lemma ShotFileIsManifestFile(seo: string, shot: Shot)
    ensures ShotFileName(seo, shot) == SeoManager.ScreenshotFile(seo, shot.name)
  {
    assert seo + "-screenshot-" + (shot.name + ".png") == seo + "-screenshot-" + shot.name + ".png";
  }

  /** As written, every saved screenshot is 40 pixels wider and taller than the
      manifest declares: the mobile one is 430x884 against `390x844`. */
  lemma FramedShotsOversized(seo: string)
    ensures FramedAsWritten(ShotTable[0]).width == 430 && FramedAsWritten(ShotTable[0]).height == 884
    ensures forall i :: 0 <= i < |ShotTable| ==>
              var f := FramedAsWritten(ShotTable[i]);
              DimText(f.width, f.height) != SeoManager.ScreenshotList(seo)[i].sizes
  {
    forall i | 0 <= i < |ShotTable|
      ensures DimText(FramedAsWritten(ShotTable[i]).width, FramedAsWritten(ShotTable[i]).height)
              != SeoManager.ScreenshotList(seo)[i].sizes
    {
      FramedShotOversized(seo, i);
    }
  }

  lemma FramedShotOversized(seo: string, i: nat)
    requires i < 3
    ensures DimText(FramedAsWritten(ShotTable[i]).width, FramedAsWritten(ShotTable[i]).height)
            != SeoManager.ScreenshotList(seo)[i].sizes
  {
    ShotRow(seo, i);
    var s := ShotTable[i];
    DimTextInjective(s.width + 40, s.height + 40, s.width, s.height);
  }

  /** The evidently intended frame: the canvas keeps the configured size and the
      screenshot is fitted to the area inside the margin. */
  function Framed(shot: Shot): (r: Frame)
    requires shot.width >= 2 * FramePadding && shot.height >= 2 * FramePadding
    ensures FrameWellFormed(r) && FrameColours(r, shot.formFactor)
    ensures r.width == shot.width && r.height == shot.height
    ensures r.innerWidth == shot.width - 40 && r.innerHeight == shot.height - 40
  {
    FrameOn(shot.width, shot.height, shot.width - 2 * FramePadding, shot.height - 2 * FramePadding, shot.formFactor)
  }

  /** With the corrected frame every saved screenshot has the size the manifest
      declares for it. */
  lemma FramedShotsMatchManifest(seo: string)
    ensures forall i :: 0 <= i < |ShotTable| ==>
              var s := ShotTable[i];
              s.width >= 40 && s.height >= 40
              && DimText(Framed(s).width, Framed(s).height) == SeoManager.ScreenshotList(seo)[i].sizes
  {
    forall i | 0 <= i < |ShotTable|
      ensures var s := ShotTable[i];
              s.width >= 40 && s.height >= 40
              && DimText(Framed(s).width, Framed(s).height) == SeoManager.ScreenshotList(seo)[i].sizes
    {
      FramedShotFits(seo, i);
    }
  }

  lemma FramedShotFits(seo: string, i: nat)
    requires i < 3
    ensures ShotTable[i].width >= 40 && ShotTable[i].height >= 40
    ensures DimText(Framed(ShotTable[i]).width, Framed(ShotTable[i]).height) == SeoManager.ScreenshotList(seo)[i].sizes
  {
    ShotRow(seo, i);
    ShotRoomy(i);
    FramedKeepsSize(ShotTable[i]);
  }

  lemma ShotRoomy(i: nat)
    requires i < 3
    ensures ShotTable[i].width >= 40 && ShotTable[i].height >= 40
  {
  }

  /** The corrected frame has the size of the shot it frames. */
  lemma FramedKeepsSize(s: Shot)
    requires s.width >= 40 && s.height >= 40
    ensures DimText(Framed(s).width, Framed(s).height) == DimText(s.width, s.height)
  {
    var f := Framed(s);
    assert f.width == s.width && f.height == s.height;
  }

  // ---------------------------------------------------------------------------
  // Favicons

  /** The favicon sizes, in order. */
  const FaviconSizes: seq<nat> := [16, 32, 48, 64, 128, 192, 256, 512]

  /** The sizes that also get an `.ico` file. */
  predicate IcoSize(size: nat) {
    size == 16 || size == 32 || size == 48
  }

  datatype ImageFormat = Png | Ico

  /** `favicon-<s>x<s>.png` or `.ico`, under `assets/icons`. */
  function FaviconName(size: nat, format: ImageFormat): (r: string)
    ensures StartsWith(r, "favicon-" + SizeText(size))
    ensures EndsWith(r, ".ico") <==> format.Ico?
  {
    var stem := "favicon-" + SizeText(size);
    var ext := if format.Png? then ".png" else ".ico";
    var r := stem + ext;
    assert r[..|stem|] == stem;
    assert r[|r| - 4..] == ext;
    r
  }

  /** Different sizes or formats give different file names. */
  lemma FaviconNameInjective(a: nat, f: ImageFormat, b: nat, g: ImageFormat)
    ensures FaviconName(a, f) == FaviconName(b, g) ==> a == b && f == g
  {
    var r := FaviconName(a, f);
    if r == FaviconName(b, g) {
      assert f == g;
      var p := "favicon-";
      assert SizeText(a) == r[|p|..|r| - 4] == SizeText(b);
      DimTextInjective(a, a, b, b);
    }
  }

  /** One favicon file: its size and format. */
  datatype Favicon = Favicon(size: nat, format: ImageFormat)

  /** The files `_optimize_favicon` writes under `assets/icons` when the source
      favicon exists: a PNG for every size, each followed by an ICO for the small
      ones. `_create_default_favicon`, used when it does not, writes the PNGs only. */
  function FaviconFiles(sizes: seq<nat>, haveSource: bool): (r: seq<Favicon>)
    ensures forall f :: f in r <==> f.size in sizes && (f.format.Png? || (haveSource && IcoSize(f.size)))
  {
    if sizes == [] then []
    else
      var size := sizes[0];
      var here := [Favicon(size, Png)] + (if haveSource && IcoSize(size) then [Favicon(size, Ico)] else []);
      assert forall x :: x in sizes <==> x == size || x in sizes[1..];
      here + FaviconFiles(sizes[1..], haveSource)
  }

  /** An ICO favicon is written for exactly the sizes 16, 32 and 48, and only when the
      source favicon exists; each of the eight sizes gets its PNG either way. */
  lemma IcoOnlyForSmallSizes(haveSource: bool)
    ensures forall size: nat :: Favicon(size, Ico) in FaviconFiles(FaviconSizes, haveSource) <==> haveSource && IcoSize(size)
    ensures forall size: nat :: Favicon(size, Png) in FaviconFiles(FaviconSizes, haveSource) <==> size in FaviconSizes
  {
    SmallSizesListed();
    FaviconMembers(FaviconSizes, haveSource);
  }

  /** Which PNG and ICO files a list of sizes holding all the small ones yields. */
  lemma FaviconMembers(sizes: seq<nat>, haveSource: bool)
    requires 16 in sizes && 32 in sizes && 48 in sizes
    ensures forall size: nat :: Favicon(size, Ico) in FaviconFiles(sizes, haveSource) <==> haveSource && IcoSize(size)
    ensures forall size: nat :: Favicon(size, Png) in FaviconFiles(sizes, haveSource) <==> size in sizes
  {
  }

  lemma SmallSizesListed()
    ensures 16 in FaviconSizes && 32 in FaviconSizes && 48 in FaviconSizes
  {
    assert FaviconSizes[0] == 16 && FaviconSizes[1] == 32 && FaviconSizes[2] == 48;
  }

  /** No two favicon files share a name. */
  lemma FaviconNamesDistinct(files: seq<Favicon>)
    ensures forall i, j :: 0 <= i < |files| && 0 <= j < |files| && files[i] != files[j] ==>
              FaviconName(files[i].size, files[i].format) != FaviconName(files[j].size, files[j].format)
  {
    forall i, j | 0 <= i < |files| && 0 <= j < |files| && files[i] != files[j]
      ensures FaviconName(files[i].size, files[i].format) != FaviconName(files[j].size, files[j].format)
    {
      FaviconNameInjective(files[i].size, files[i].format, files[j].size, files[j].format);
    }
  }

  // ---------------------------------------------------------------------------
  // The game logo's file name

  /** The characters the logo file name keeps: letters, digits and `-`. */
  predicate SlugChar(c: char) {
    IsAlnum(c) || c == '-'
  }

  /** A character after lower-casing and replacing spaces and underscores. */
  function SlugMap(c: char): char {
    if c == ' ' || c == '_' then '-' else LowerChar(c)
  }

  /** `site_name.lower().replace(" ", "-").replace("_", "-")`, then only the
      alphanumeric characters and `-` kept. */
  function LogoSlug(name: string): (r: string)
    ensures |r| <= |name|
    ensures forall i :: 0 <= i < |r| ==> SlugChar(r[i]) && !IsUpper(r[i])
  {
    if name == [] then []
    else
      var c := SlugMap(name[0]);
      (if SlugChar(c) then [c] else []) + LogoSlug(name[1..])
  }

  /** A name already made of lower-case letters, digits and `-` is its own slug. */
  lemma {:induction false} LogoSlugKeepsClean(name: string)
    requires forall i :: 0 <= i < |name| ==> SlugChar(name[i]) && !IsUpper(name[i])
    ensures LogoSlug(name) == name
  {
    if name != [] {
      assert SlugMap(name[0]) == name[0];
      LogoSlugKeepsClean(name[1..]);
    }
  }

  /** One character contributes its mapped form when that is a slug character, and
      nothing otherwise; with `LogoSlugSplit` this fixes the slug of every name. */
  lemma LogoSlugOne(c: char)
    ensures LogoSlug([c]) == if SlugChar(SlugMap(c)) then [SlugMap(c)] else []
  {
    assert [c][1..] == [];
  }

  /** The default site name slugs to the default SEO file name, so the logo of a site
      without `seo_config.json` is `space-waves-pro-logo.webp`. */
  lemma DefaultSlugIsSeoFilename()
    ensures LogoSlug(DefaultSiteName) == DefaultSeoFilename
    ensures LogoFileName(ConfigMissing) == Some(DefaultSeoFilename + "-logo.webp")
  {
    SlugThreeWords("Space", "Waves", "Pro", "space", "waves", "pro");
  }

  /** Three words of ASCII letters separated by spaces slug to their lower-case forms
      joined by `-`. */
  lemma SlugThreeWords(a: string, b: string, c: string, la: string, lb: string, lc: string)
    requires |a| == |la| && forall i :: 0 <= i < |a| ==> IsLetter(a[i]) && LowerChar(a[i]) == la[i]
    requires |b| == |lb| && forall i :: 0 <= i < |b| ==> IsLetter(b[i]) && LowerChar(b[i]) == lb[i]
    requires |c| == |lc| && forall i :: 0 <= i < |c| ==> IsLetter(c[i]) && LowerChar(c[i]) == lc[i]
    ensures LogoSlug(a + " " + b + " " + c) == la + "-" + lb + "-" + lc
  {
    LogoSlugSplit(a + " " + b + " ", c);
    LogoSlugSplit(a + " " + b, " ");
    LogoSlugSplit(a + " ", b);
    LogoSlugSplit(a, " ");
    LogoSlugOne(' ');
    SlugWord(a, la);
    SlugWord(b, lb);
    SlugWord(c, lc);
  }

  /** A word of ASCII letters slugs to its lower-case form. */
  lemma {:induction false} SlugWord(w: string, lower: string)
    requires |w| == |lower|
    requires forall i :: 0 <= i < |w| ==> IsLetter(w[i]) && LowerChar(w[i]) == lower[i]
    ensures LogoSlug(w) == lower
  {
    if w != [] {
      SlugWord(w[1..], lower[1..]);
    }
  }

  /** Slugging twice changes nothing more. */
  lemma LogoSlugIdempotent(name: string)
    ensures LogoSlug(LogoSlug(name)) == LogoSlug(name)
  {
    LogoSlugKeepsClean(LogoSlug(name));
  }

  /** The site name `_get_site_name` falls back to, and the SEO file name
      `_get_seo_filename` falls back to. */
  const DefaultSiteName: string := "Space" + " " + "Waves" + " " + "Pro"
  const DefaultSeoFilename: string := "space" + "-" + "waves" + "-" + "pro"

  /** The slug of a concatenation is the concatenation of the slugs. */
  lemma {:induction false} LogoSlugSplit(a: string, b: string)
    ensures LogoSlug(a + b) == LogoSlug(a) + LogoSlug(b)
  {
    if a == [] {
      assert a + b == b;
    } else {
      assert (a + b)[0] == a[0] && (a + b)[1..] == a[1..] + b;
      LogoSlugSplit(a[1..], b);
    }
  }

  /** What reading `seo_config.json` gave: a decoded document, no file, or text
      that is not JSON. */
  datatype ConfigFile = ConfigDoc(doc: GameManager.Json) | ConfigMissing | ConfigInvalid

  /** `_get_site_name`: the `site_name` entry of the config, or the default when the
      file is missing or invalid or has no such entry. A document that is not an
      object fails on `.get`, and that error is not among the ones caught. */
  function SiteName(config: ConfigFile): (r: Result<GameManager.Json>)
    ensures r.Err? <==> config.ConfigDoc? && !config.doc.JObj?
    ensures r.Ok? && r.value != GameManager.JStr(DefaultSiteName) ==>
              config.ConfigDoc? && "site_name" in config.doc.fields && config.doc.fields["site_name"] == r.value
    ensures config.ConfigDoc? && config.doc.JObj? && "site_name" in config.doc.fields ==>
              r == Ok(config.doc.fields["site_name"])
    ensures !config.ConfigDoc? || (config.doc.JObj? && "site_name" !in config.doc.fields) ==>
              r == Ok(GameManager.JStr(DefaultSiteName))
  {
    match config
    case ConfigMissing => Ok(GameManager.JStr(DefaultSiteName))
    case ConfigInvalid => Ok(GameManager.JStr(DefaultSiteName))
    case ConfigDoc(doc) =>
      if !doc.JObj? then Err(AttributeError("get"))
      else if "site_name" in doc.fields then Ok(doc.fields["site_name"])
      else Ok(GameManager.JStr(DefaultSiteName))
  }

  /** The logo file `_optimize_game_logo` writes, or None when looking up the site
      name or lower-casing it fails (the step reports the error and writes nothing). */
  function LogoFileName(config: ConfigFile): (r: Option<string>)
    ensures r.Some? <==> SiteName(config).Ok? && SiteName(config).value.JStr?
    ensures r.Some? ==> r.value == LogoSlug(SiteName(config).value.s) + "-logo.webp"
  {
    var name := SiteName(config);
    if name.Ok? && name.value.JStr? then Some(LogoSlug(name.value.s) + "-logo.webp") else None
  }

  // ---------------------------------------------------------------------------
  // The PWA icon source

  /** The first candidate that is present, if any. */
  function FirstPresent(candidates: seq<string>, present: string -> bool): (r: Option<string>)
    ensures r.None? <==> forall i :: 0 <= i < |candidates| ==> !present(candidates[i])
    ensures r.Some? ==> exists i :: 0 <= i < |candidates| && candidates[i] == r.value && present(r.value)
                          && forall j :: 0 <= j < i ==> !present(candidates[j])
  {
    if candidates == [] then None
    else if present(candidates[0]) then Some(candidates[0])
    else
      var r := FirstPresent(candidates[1..], present);
      assert forall i :: 1 <= i < |candidates| ==> candidates[i] == candidates[1..][i - 1];
      if r.Some? then
        var k :| 0 <= k < |candidates| - 1 && candidates[1..][k] == r.value && present(r.value)
                 && forall j :: 0 <= j < k ==> !present(candidates[1..][j]);
        assert candidates[k + 1] == r.value;
        r
      else r
  }

  /** The files `_generate_pwa_icons` tries, in order. */
  const PwaSources: seq<string> := ["favicon.ico", "gamelogo.webp", "hero-image.webp"]

  /** The source of the PWA icons, or None when none of the files is present and the
      step is skipped. */
  function PwaSource(present: string -> bool): (r: Option<string>)
    ensures r.None? <==> !present("favicon.ico") && !present("gamelogo.webp") && !present("hero-image.webp")
    ensures present("favicon.ico") ==> r == Some("favicon.ico")
    ensures !present("favicon.ico") && present("gamelogo.webp") ==> r == Some("gamelogo.webp")
    ensures !present("favicon.ico") && !present("gamelogo.webp") && present("hero-image.webp") ==> r == Some("hero-image.webp")
  {
    var r := FirstPresent(PwaSources, present);
    assert PwaSources[0] == "favicon.ico" && PwaSources[1] == "gamelogo.webp" && PwaSources[2] == "hero-image.webp";
    r
  }

  // ---------------------------------------------------------------------------
  // SEO attributes of images

  /** Python truthiness of a decoded JSON value. */
  predicate Truthy(j: GameManager.Json) {
    match j
    case JNull => false
    case JBool(b) => b
    case JNum(n) => n != 0
    case JStr(s) => s != ""
    case JArr(items) => items != []
    case JObj(fields) => fields != map[]
  }

  type ImageConfig = map<string, GameManager.Json>

  /** `if not config.get(key): config[key] = text`. */
  function FillIfFalsy(config: ImageConfig, key: string, text: string): (r: ImageConfig)
    requires text != ""
    ensures key in r && Truthy(r[key])
    ensures key in config && Truthy(config[key]) ==> r[key] == config[key]
    ensures !(key in config && Truthy(config[key])) ==> r[key] == GameManager.JStr(text)
    ensures forall k :: k != key ==> (k in r <==> k in config) && (k in r ==> r[k] == config[k])
  {
    if key in config && Truthy(config[key]) then config else config[key := GameManager.JStr(text)]
  }

  /** `config[key] = config.get(key, text)`. */
  function SetDefault(config: ImageConfig, key: string, text: string): (r: ImageConfig)
    ensures key in r && r[key] == (if key in config then config[key] else GameManager.JStr(text))
    ensures forall k :: k != key ==> (k in r <==> k in config) && (k in r ==> r[k] == config[k])
  {
    if key in config then config else config[key := GameManager.JStr(text)]
  }

  /** `_update_image_seo_attributes`: a hero image gets a truthy alt text and title,
      defaulted from the site name, and `loading`/`decoding` entries that default to
      `lazy` and `async`; given truthy values and every other entry are kept. */
  function HeroSeoAttributes(config: ImageConfig, siteName: string): (r: ImageConfig)
    ensures "alt_text" in r && Truthy(r["alt_text"]) && "title" in r && Truthy(r["title"])
    ensures "loading" in r && "decoding" in r
    ensures !("alt_text" in config && Truthy(config["alt_text"])) ==>
              r["alt_text"] == GameManager.JStr(siteName + " - High quality image optimized for web")
    ensures !("title" in config && Truthy(config["title"])) ==>
              r["title"] == GameManager.JStr(siteName + " - Play Online")
    ensures r["loading"] == (if "loading" in config then config["loading"] else GameManager.JStr("lazy"))
    ensures r["decoding"] == (if "decoding" in config then config["decoding"] else GameManager.JStr("async"))
    ensures forall k :: k in config ==> k in r
    ensures forall k :: k in config && (Truthy(config[k]) || (k != "alt_text" && k != "title")) ==> r[k] == config[k]
    ensures forall k :: k in r && k !in config ==> k in {"alt_text", "title", "loading", "decoding"}
  {
    var named := FillNames(config, siteName + " - High quality image optimized for web", siteName + " - Play Online");
    SetDefault(SetDefault(named, "loading", "lazy"), "decoding", "async")
  }

  /** A truthy alt text and title, each filled in when missing or falsy; every other
      entry as it was. */
  function FillNames(config: ImageConfig, altText: string, titleText: string): (r: ImageConfig)
    requires altText != "" && titleText != ""
    ensures "alt_text" in r && Truthy(r["alt_text"]) && "title" in r && Truthy(r["title"])
    ensures !("alt_text" in config && Truthy(config["alt_text"])) ==> r["alt_text"] == GameManager.JStr(altText)
    ensures !("title" in config && Truthy(config["title"])) ==> r["title"] == GameManager.JStr(titleText)
    ensures forall k :: k in config ==> k in r
    ensures forall k :: k in config && (Truthy(config[k]) || (k != "alt_text" && k != "title")) ==> r[k] == config[k]
    ensures forall k :: k != "alt_text" && k != "title" ==> (k in r <==> k in config) && (k in r ==> r[k] == config[k])
  {
    FillIfFalsy(FillIfFalsy(config, "alt_text", altText), "title", titleText)
  }

  /** Filling in the hero attributes a second time changes nothing. */
  lemma HeroSeoIdempotent(config: ImageConfig, siteName: string)
    ensures HeroSeoAttributes(HeroSeoAttributes(config, siteName), siteName) == HeroSeoAttributes(config, siteName)
  {
    var once := HeroSeoAttributes(config, siteName);
    var twice := HeroSeoAttributes(once, siteName);
    assert forall k :: k in twice <==> k in once;
    assert forall k :: k in twice ==> twice[k] == once[k];
  }

  /** `_update_og_image_seo_attributes`: an Open Graph image gets a truthy alt text
      and title, defaulted from the site name; nothing else is touched. */
  function OgSeoAttributes(config: ImageConfig, siteName: string): (r: ImageConfig)
    ensures "alt_text" in r && Truthy(r["alt_text"]) && "title" in r && Truthy(r["title"])
    ensures !("alt_text" in config && Truthy(config["alt_text"])) ==>
              r["alt_text"] == GameManager.JStr(siteName + " - Share this exciting game with friends")
    ensures !("title" in config && Truthy(config["title"])) ==>
              r["title"] == GameManager.JStr(siteName + " - Free Online Game")
    ensures forall k :: k in config ==> k in r
    ensures forall k :: k in config && (Truthy(config[k]) || (k != "alt_text" && k != "title")) ==> r[k] == config[k]
    ensures forall k :: k in r && k !in config ==> k == "alt_text" || k == "title"
  {
    FillNames(config, siteName + " - Share this exciting game with friends", siteName + " - Free Online Game")
  }

  /** Filling in the Open Graph attributes a second time changes nothing. */
  lemma OgSeoIdempotent(config: ImageConfig, siteName: string)
    ensures OgSeoAttributes(OgSeoAttributes(config, siteName), siteName) == OgSeoAttributes(config, siteName)
  {
    var once := OgSeoAttributes(config, siteName);
    var twice := OgSeoAttributes(once, siteName);
    assert forall k :: k in twice <==> k in once;
    assert forall k :: k in twice ==> twice[k] == once[k];
  }
}

=== FILE: orchestrator.dfy ===
/**
 * The build orchestration of the refactored site generator: which stages one call
 * of `generate_site` runs, in which order, and when fingerprints are recorded.
 *
 * The stages themselves (rendering, copying, image work) are opaque here; what is
 * modelled is the decision logic around them. A stage may fail: the failures the
 * generator catches (image optimisation, a page, a game page, the games listing, the
 * cache write) are swallowed and the build carries on, any other failure ends the
 * build with the exception re-raised.
 */
module Orchestrator {
  import opened Wrappers
  import opened Strings
  import opened Paths
  import opened BuildCache

  datatype Stage =
    | CopyTemplateStyles   // templates/styles.css copied on every build
    | WriteServiceWorker   // sw.js generated from its template on every build
    | OptimizeImages
    | CopyStatic
    | OptimizeAssets
    | UpdateStatic         // fingerprints of the static category
    | ScanGames
    | RenderPages          // the eight configured pages
    | RenderGamePages
    | GamesListing
    | UpdateContent
    | UpdateTemplates
    | UpdateConfig
    | Manifest
    | Robots
    | Sitemap
    | Save                 // `save_cache`

  /**
   * The stages whose exceptions reach `generate_site`'s handlers and are re-raised.
   * Image optimisation, the pages, the game pages, the games listing and the cache
   * write catch and log their own errors, and recording fingerprints does not raise.
   */
  predicate CanRaise(s: Stage) {
    s in {CopyTemplateStyles, WriteServiceWorker, CopyStatic, OptimizeAssets, ScanGames,
          Manifest, Robots, Sitemap}
  }

  /**
   * What a build depends on besides the cache and the source tree: the `force` flag,
   * whether the two template files exist, whether the game scan finds any game, the
   * build time, and the set of stages that fail.
   */
  datatype Env = Env(
    force: bool,
    stylesExist: bool,
    swTemplateExists: bool,
    hasGames: bool,
    now: int,
    failing: set<Stage>)

  /** A failure the generator does not catch. */
  predicate Fatal(s: Stage, env: Env) {
    s in env.failing && CanRaise(s)
  }

  predicate NoFatal(env: Env) {
    forall s :: s in env.failing ==> !CanRaise(s)
  }

  /** The state of a build so far: stages run, the cache, whether an exception
      escaped, and the document the cache file received. */
  datatype Run = Run(stages: seq<Stage>, cache: Cache, raised: bool, written: Option<CacheData>)

  // ---------------------------------------------------------------------------
  // The change flags

  /** `has_changes(category=name, force=force)`. */
  predicate CategoryChanged(c: Cache, fs: FileSystem, name: string, force: bool) {
    HasChanges(c, fs, None, Some(name), force)
  }

  /** The cache once the static phase has run, if it runs. */
  function AfterStatic(c: Cache, fs: FileSystem, force: bool): (r: Cache)
    ensures r.categories == c.categories
  {
    if CategoryChanged(c, fs, "static", force)
    then UpdateFileCache(c, fs, CategoryPaths(c.categories, "static"))
    else c
  }

  /** `pages_need_rebuild`, evaluated on the cache as it is after the static phase. */
  predicate PagesNeedRebuild(c: Cache, fs: FileSystem, force: bool) {
    CategoryChanged(c, fs, "content", force) || CategoryChanged(c, fs, "templates", force)
    || CategoryChanged(c, fs, "config", force) || force
  }

  // ---------------------------------------------------------------------------
  // The reference plan

  /** The position of each stage in `generate_site`'s code. */
  function Rank(s: Stage): nat {
    match s
    case CopyTemplateStyles => 0
    case WriteServiceWorker => 1
    case OptimizeImages => 2
    case CopyStatic => 3
    case OptimizeAssets => 4
    case UpdateStatic => 5
    case ScanGames => 6
    case RenderPages => 7
    case RenderGamePages => 8
    case GamesListing => 9
    case UpdateContent => 10
    case UpdateTemplates => 11
    case UpdateConfig => 12
    case Manifest => 13
    case Robots => 14
    case Sitemap => 15
    case Save => 16
  }

  /**
   * Whether a build without fatal failures reaches stage `s`, given the static change
   * decision `staticChanged` and the page rebuild decision `rebuild`: the static
   * phase runs with the former, page generation and the page fingerprints with the
   * latter, game pages only when games were found, and the game scan, the SEO files
   * and the cache save always.
   */
  predicate Planned(s: Stage, env: Env, staticChanged: bool, rebuild: bool) {
    match s
    case CopyTemplateStyles => env.stylesExist
    case WriteServiceWorker => env.swTemplateExists
    case OptimizeImages => staticChanged
    case CopyStatic => staticChanged
    case OptimizeAssets => staticChanged
    case UpdateStatic => staticChanged
    case ScanGames => true
    case RenderPages => rebuild
    case RenderGamePages => rebuild && env.hasGames
    case GamesListing => rebuild && env.hasGames
    case UpdateContent => rebuild
    case UpdateTemplates => rebuild
    case UpdateConfig => rebuild
    case Manifest => true
    case Robots => true
    case Sitemap => true
    case Save => true
  }

  /** The stages in strictly increasing code position (so each occurs once). */
  predicate Ranked(r: seq<Stage>) {
    forall i, j :: 0 <= i < j < |r| ==> Rank(r[i]) < Rank(r[j])
  }

  predicate Within(r: seq<Stage>, lo: nat, hi: nat) {
    forall i :: 0 <= i < |r| ==> lo <= Rank(r[i]) < hi
  }

  /** The stages a build runs when nothing fatal happens, phase by phase. */
  function Plan(env: Env, staticChanged: bool, rebuild: bool): (r: seq<Stage>)
    ensures |r| > 0 && r[|r| - 1] == Save
  {
    Head(env) + Statics(staticChanged) + Pages(env, rebuild) + Tail
  }

  function Head(env: Env): seq<Stage> {
    (if env.stylesExist then [CopyTemplateStyles] else [])
    + (if env.swTemplateExists then [WriteServiceWorker] else [])
  }

  function Statics(staticChanged: bool): seq<Stage> {
    if staticChanged then [OptimizeImages, CopyStatic, OptimizeAssets, UpdateStatic] else []
  }

  function Pages(env: Env, rebuild: bool): seq<Stage> {
    if rebuild
    then [ScanGames, RenderPages]
         + (if env.hasGames then [RenderGamePages, GamesListing] else [])
         + [UpdateContent, UpdateTemplates, UpdateConfig]
    else [ScanGames]
  }

  const Tail: seq<Stage> := [Manifest, Robots, Sitemap, Save]

  lemma RankedConcat(a: seq<Stage>, b: seq<Stage>, lo: nat, mid: nat, hi: nat)
    requires Ranked(a) && Ranked(b) && Within(a, lo, mid) && Within(b, mid, hi) && lo <= mid <= hi
    ensures Ranked(a + b) && Within(a + b, lo, hi)
  {
  }

  /**
   * The plan holds exactly the planned stages, each once and in code order.
   */
  lemma PlanShape(env: Env, staticChanged: bool, rebuild: bool)
    ensures forall s :: s in Plan(env, staticChanged, rebuild) <==> Planned(s, env, staticChanged, rebuild)
    ensures Ranked(Plan(env, staticChanged, rebuild))
  {
    PlanMembers(env, staticChanged, rebuild);
    PlanRanked(env, staticChanged, rebuild);
  }

  lemma PlanRanked(env: Env, staticChanged: bool, rebuild: bool)
    ensures Ranked(Plan(env, staticChanged, rebuild))
  {
    var head, statics, pages := Head(env), Statics(staticChanged), Pages(env, rebuild);
    SegmentsRanked(env, staticChanged, rebuild);
    RankedConcat(head, statics, 0, 2, 6);
    RankedConcat(head + statics, pages, 0, 6, 13);
    RankedConcat(head + statics + pages, Tail, 0, 13, 17);
  }

  lemma PlanMembers(env: Env, staticChanged: bool, rebuild: bool)
    ensures forall s :: s in Plan(env, staticChanged, rebuild) <==> Planned(s, env, staticChanged, rebuild)
  {
    forall s ensures s in Plan(env, staticChanged, rebuild) <==> Planned(s, env, staticChanged, rebuild) {
      SegmentMembers(env, staticChanged, rebuild, s);
      assert s in Plan(env, staticChanged, rebuild) <==>
        s in Head(env) || s in Statics(staticChanged) || s in Pages(env, rebuild) || s in Tail;
    }
  }

  lemma SegmentsRanked(env: Env, staticChanged: bool, rebuild: bool)
    ensures Ranked(Head(env)) && Within(Head(env), 0, 2)
    ensures Ranked(Statics(staticChanged)) && Within(Statics(staticChanged), 2, 6)
    ensures Ranked(Pages(env, rebuild)) && Within(Pages(env, rebuild), 6, 13)
    ensures Ranked(Tail) && Within(Tail, 13, 17)
  {
    HeadRanked(env);
    StaticsRanked(staticChanged);
    PagesRanked(env, rebuild);
    TailRanked();
  }

  lemma HeadRanked(env: Env)
    ensures Ranked(Head(env)) && Within(Head(env), 0, 2)
  {
  }

  lemma StaticsRanked(staticChanged: bool)
    ensures Ranked(Statics(staticChanged)) && Within(Statics(staticChanged), 2, 6)
  {
  }

  lemma PagesRanked(env: Env, rebuild: bool)
    ensures Ranked(Pages(env, rebuild)) && Within(Pages(env, rebuild), 6, 13)
  {
  }

  lemma TailRanked()
    ensures Ranked(Tail) && Within(Tail, 13, 17)
  {
  }

  lemma SegmentMembers(env: Env, staticChanged: bool, rebuild: bool, s: Stage)
    ensures s in Head(env) <==> Rank(s) < 2 && Planned(s, env, staticChanged, rebuild)
    ensures s in Statics(staticChanged) <==> 2 <= Rank(s) < 6 && Planned(s, env, staticChanged, rebuild)
    ensures s in Pages(env, rebuild) <==> 6 <= Rank(s) < 13 && Planned(s, env, staticChanged, rebuild)
    ensures s in Tail <==> 13 <= Rank(s) && Planned(s, env, staticChanged, rebuild)
  {
    HeadMembers(env, staticChanged, rebuild, s);
    StaticsMembers(env, staticChanged, rebuild, s);
    PagesMembers(env, staticChanged, rebuild, s);
    TailMembers(env, staticChanged, rebuild, s);
  }

  lemma HeadMembers(env: Env, staticChanged: bool, rebuild: bool, s: Stage)
    ensures s in Head(env) <==> Rank(s) < 2 && Planned(s, env, staticChanged, rebuild)
  {
  }

  lemma StaticsMembers(env: Env, staticChanged: bool, rebuild: bool, s: Stage)
    ensures s in Statics(staticChanged) <==> 2 <= Rank(s) < 6 && Planned(s, env, staticChanged, rebuild)
  {
  }

  lemma PagesMembers(env: Env, staticChanged: bool, rebuild: bool, s: Stage)
    ensures s in Pages(env, rebuild) <==> 6 <= Rank(s) < 13 && Planned(s, env, staticChanged, rebuild)
  {
  }

  lemma TailMembers(env: Env, staticChanged: bool, rebuild: bool, s: Stage)
    ensures s in Tail <==> 13 <= Rank(s) && Planned(s, env, staticChanged, rebuild)
  {
  }

  /** `a` occurs somewhere before `b`. */
  predicate Before(s: seq<Stage>, a: Stage, b: Stage) {
    exists i, j :: 0 <= i < j < |s| && s[i] == a && s[j] == b
  }

  /**
   * In the plan, one stage precedes another exactly when both are planned and the
   * first comes earlier in the code: games are scanned before the sitemap, static
   * fingerprints are recorded after the copy and before the pages, page fingerprints
   * after rendering, and the cache is saved last.
   */
  lemma PlanOrder(env: Env, staticChanged: bool, rebuild: bool, a: Stage, b: Stage)
    ensures Before(Plan(env, staticChanged, rebuild), a, b) <==>
              Planned(a, env, staticChanged, rebuild) && Planned(b, env, staticChanged, rebuild)
              && Rank(a) < Rank(b)
  {
    PlanShape(env, staticChanged, rebuild);
    RankedBefore(Plan(env, staticChanged, rebuild), a, b);
  }

  lemma RankedBefore(r: seq<Stage>, a: Stage, b: Stage)
    requires Ranked(r)
    ensures Before(r, a, b) <==> a in r && b in r && Rank(a) < Rank(b)
  {
    if a in r && b in r && Rank(a) < Rank(b) {
      RanksGiveOrder(r, a, b);
    }
    if Before(r, a, b) {
      OrderGivesRanks(r, a, b);
    }
  }

  lemma OrderGivesRanks(r: seq<Stage>, a: Stage, b: Stage)
    requires Ranked(r) && Before(r, a, b)
    ensures a in r && b in r && Rank(a) < Rank(b)
  {
    var i, j :| 0 <= i < j < |r| && r[i] == a && r[j] == b;
    assert Rank(r[i]) < Rank(r[j]);
  }

  lemma RanksGiveOrder(r: seq<Stage>, a: Stage, b: Stage)
    requires Ranked(r) && a in r && b in r && Rank(a) < Rank(b)
    ensures Before(r, a, b)
  {
    var i :| 0 <= i < |r| && r[i] == a;
    var j :| 0 <= j < |r| && r[j] == b;
    RankedIndices(r, i, j);
    assert r[i] == a && r[j] == b && i < j;
  }

  lemma RankedIndices(r: seq<Stage>, i: nat, j: nat)
    requires Ranked(r) && i < |r| && j < |r|
    ensures j <= i ==> Rank(r[j]) <= Rank(r[i])
  {
  }

  // ---------------------------------------------------------------------------
  // The build as the generator performs it

  /** Runs one opaque stage, unless an exception has already escaped. */
  function Perform(r: Run, s: Stage, env: Env): (r': Run)
    ensures r'.cache == r.cache && r'.written == r.written
    ensures r.raised ==> r' == r
    ensures !r.raised ==> r'.stages == r.stages + [s] && (r'.raised <==> Fatal(s, env))
  {
    if r.raised then r
    else Run(r.stages + [s], r.cache, Fatal(s, env), r.written)
  }

  /** `update_file_cache(file_categories[name])`, which never raises. */
  function Record(r: Run, fs: FileSystem, s: Stage, name: string): (r': Run)
    ensures r.raised ==> r' == r
    ensures !r.raised ==> r'.stages == r.stages + [s] && !r'.raised
    ensures r'.written == r.written && r'.cache.categories == r.cache.categories
  {
    if r.raised then r
    else Run(r.stages + [s], UpdateFileCache(r.cache, fs, CategoryPaths(r.cache.categories, name)), false, r.written)
  }

  /** Lines 214-227: images, static copy, minification, static fingerprints. */
  function StaticPhase(r: Run, fs: FileSystem, env: Env): (r': Run)
    ensures r.raised ==> r' == r
    ensures r'.cache.categories == r.cache.categories && r'.written == r.written
  {
    var r1 := Perform(r, OptimizeImages, env);
    var r2 := Perform(r1, CopyStatic, env);
    var r3 := Perform(r2, OptimizeAssets, env);
    Record(r3, fs, UpdateStatic, "static")
  }

  /** Lines 245-278: scan, pages, game pages and listing, then fingerprints. */
  function PagePhase(r: Run, fs: FileSystem, env: Env): (r': Run)
    ensures r.raised ==> r' == r
    ensures r'.cache.categories == r.cache.categories && r'.written == r.written
  {
    var r1 := Perform(r, ScanGames, env);
    var r2 := Perform(r1, RenderPages, env);
    var r3 := if env.hasGames then Perform(Perform(r2, RenderGamePages, env), GamesListing, env) else r2;
    var r4 := Record(r3, fs, UpdateContent, "content");
    var r5 := Record(r4, fs, UpdateTemplates, "templates");
    Record(r5, fs, UpdateConfig, "config")
  }

  /** Line 301: the document is stamped; a failed write is logged and ignored. */
  function SavePhase(r: Run, env: Env): Run {
    if r.raised then r
    else
      var saved := SaveCache(r.cache, env.now, Save !in env.failing);
      Run(r.stages + [Save], saved.0, false, saved.1)
  }

  /** The phases of `generate_site` before the cache is saved. */
  function Phases(c: Cache, fs: FileSystem, env: Env): Run {
    SeoPhase(PageStep(StaticStep(HeadPhase(c, env), fs, env), fs, env), env)
  }

  /** The static phase when the static files changed (or a rebuild is forced). */
  function StaticStep(r: Run, fs: FileSystem, env: Env): Run {
    if CategoryChanged(r.cache, fs, "static", env.force) then StaticPhase(r, fs, env) else r
  }

  /** The page phase when the pages need rebuilding, otherwise only the game scan. */
  function PageStep(r: Run, fs: FileSystem, env: Env): Run {
    if PagesNeedRebuild(r.cache, fs, env.force) then PagePhase(r, fs, env) else Perform(r, ScanGames, env)
  }

  /** `generate_site`, from the loaded cache to the end of the build. */
  function GenerateSite(c: Cache, fs: FileSystem, env: Env): (r: Run)
    ensures r.cache.categories == c.categories
  {
    PhasesAlongPlan(c, fs, env);
    SavePhase(Phases(c, fs, env), env)
  }

  /**
   * The stages `generate_site` runs are always a prefix of the plan for the two
   * change decisions; the build raises exactly when the last stage it reached failed
   * fatally, and then the cache file is not written; with no fatal failure the whole
   * plan runs and the stamped document is what the cache file receives unless the
   * write fails.
   */
  lemma GenerateSiteFollowsPlan(c: Cache, fs: FileSystem, env: Env)
    ensures Followed(GenerateSite(c, fs, env),
                     Plan(env, CategoryChanged(c, fs, "static", env.force),
                          PagesNeedRebuild(AfterStatic(c, fs, env.force), fs, env.force)), env)
  {
    var plan := Plan(env, CategoryChanged(c, fs, "static", env.force),
                     PagesNeedRebuild(AfterStatic(c, fs, env.force), fs, env.force));
    PhasesAlongPlan(c, fs, env);
    Finish(Phases(c, fs, env), plan, env);
  }

  /** The phases follow all of the plan but its final save. */
  lemma PhasesAlongPlan(c: Cache, fs: FileSystem, env: Env)
    ensures var plan := Plan(env, CategoryChanged(c, fs, "static", env.force),
                             PagesNeedRebuild(AfterStatic(c, fs, env.force), fs, env.force));
            |plan| > 0 && plan[|plan| - 1] == Save && Along(Phases(c, fs, env), plan[..|plan| - 1], env)
    ensures Phases(c, fs, env).cache.categories == c.categories
  {
    PhasesAlongDecided(c, fs, env, CategoryChanged(c, fs, "static", env.force),
                       PagesNeedRebuild(AfterStatic(c, fs, env.force), fs, env.force));
  }

  lemma PhasesAlongDecided(c: Cache, fs: FileSystem, env: Env, staticChanged: bool, rebuild: bool)
    requires staticChanged == CategoryChanged(c, fs, "static", env.force)
    requires rebuild == PagesNeedRebuild(AfterStatic(c, fs, env.force), fs, env.force)
    ensures var plan := Plan(env, staticChanged, rebuild);
            |plan| > 0 && plan[|plan| - 1] == Save && Along(Phases(c, fs, env), plan[..|plan| - 1], env)
    ensures Phases(c, fs, env).cache.categories == c.categories
  {
    var r2 := HeadPhase(c, env);
    var r3 := StaticStep(r2, fs, env);
    var r4 := PageStep(r3, fs, env);
    RunsAlongPlan(c, fs, env, r2, r3, r4, SeoPhase(r4, env));
    AlongPlan(Phases(c, fs, env), env, staticChanged, rebuild);
  }

  /** A run along the phases of a plan is along the plan without its save. */
  lemma AlongPlan(r: Run, env: Env, staticChanged: bool, rebuild: bool)
    requires Along(r, Head(env) + Statics(staticChanged) + Pages(env, rebuild) + [Manifest, Robots, Sitemap], env)
    ensures var plan := Plan(env, staticChanged, rebuild);
            |plan| > 0 && plan[|plan| - 1] == Save && Along(r, plan[..|plan| - 1], env)
  {
    PlanInit(env, staticChanged, rebuild);
  }

  /** Lines 180-201: the stylesheet copy and the service worker, on every build. */
  function HeadPhase(c: Cache, env: Env): Run {
    var r0 := Run([], c, false, None);
    var r1 := if env.stylesExist then Perform(r0, CopyTemplateStyles, env) else r0;
    if env.swTemplateExists then Perform(r1, WriteServiceWorker, env) else r1
  }

  /** Lines 295-297: manifest, robots.txt and sitemap, on every build. */
  function SeoPhase(r: Run, env: Env): Run {
    Perform(Perform(Perform(r, Manifest, env), Robots, env), Sitemap, env)
  }

  /**
   * A run has followed `done`: what it ran is a prefix of `done`, all of it unless an
   * exception escaped at the last stage run, and nothing was written yet.
   */
  predicate Along(r: Run, done: seq<Stage>, env: Env) {
    && r.stages <= done
    && (r.raised <==> |r.stages| > 0 && Fatal(r.stages[|r.stages| - 1], env))
    && (!r.raised ==> r.stages == done)
    && Save !in r.stages
    && r.written == None
  }

  lemma PerformAlong(r: Run, done: seq<Stage>, s: Stage, env: Env)
    requires Along(r, done, env) && s != Save
    ensures Along(Perform(r, s, env), done + [s], env)
  {
  }

  lemma RecordAlong(r: Run, done: seq<Stage>, fs: FileSystem, s: Stage, name: string, env: Env)
    requires Along(r, done, env) && s != Save && !CanRaise(s)
    ensures Along(Record(r, fs, s, name), done + [s], env)
  {
  }

  /** Once an exception has escaped, the run follows any longer plan as well. */
  lemma RaisedAlong(r: Run, done: seq<Stage>, more: seq<Stage>, env: Env)
    requires Along(r, done, env) && r.raised
    ensures Along(r, done + more, env)
  {
  }

  lemma PerformTwice(r: Run, done: seq<Stage>, s: Stage, t: Stage, env: Env)
    requires Along(r, done, env) && s != Save && t != Save
    ensures Along(Perform(Perform(r, s, env), t, env), done + [s, t], env)
  {
    PerformAlong(r, done, s, env);
    PerformAlong(Perform(r, s, env), done + [s], t, env);
    assert done + [s] + [t] == done + [s, t];
  }

  lemma StaticPhaseAlong(r: Run, done: seq<Stage>, fs: FileSystem, env: Env)
    requires Along(r, done, env)
    ensures Along(StaticPhase(r, fs, env), done + Statics(true), env)
    ensures !StaticPhase(r, fs, env).raised ==>
              StaticPhase(r, fs, env).cache == UpdateFileCache(r.cache, fs, CategoryPaths(r.cache.categories, "static"))
  {
    var r3 := Perform(Perform(Perform(r, OptimizeImages, env), CopyStatic, env), OptimizeAssets, env);
    var done3 := done + [OptimizeImages, CopyStatic, OptimizeAssets];
    OptimizationsAlong(r, done, env);
    RecordAlong(r3, done3, fs, UpdateStatic, "static", env);
    assert done3 + [UpdateStatic] == done + Statics(true);
    assert StaticPhase(r, fs, env) == Record(r3, fs, UpdateStatic, "static");
    StaticPhaseCache(r, fs, env);
  }

  /** The three optimisation and copy stages of the static phase. */
  lemma OptimizationsAlong(r: Run, done: seq<Stage>, env: Env)
    requires Along(r, done, env)
    ensures Along(Perform(Perform(Perform(r, OptimizeImages, env), CopyStatic, env), OptimizeAssets, env),
                  done + [OptimizeImages, CopyStatic, OptimizeAssets], env)
  {
    var r2 := Perform(Perform(r, OptimizeImages, env), CopyStatic, env);
    PerformTwice(r, done, OptimizeImages, CopyStatic, env);
    PerformAlong(r2, done + [OptimizeImages, CopyStatic], OptimizeAssets, env);
    assert done + [OptimizeImages, CopyStatic] + [OptimizeAssets] == done + [OptimizeImages, CopyStatic, OptimizeAssets];
  }

  /** A static phase that completes leaves the cache with the static fingerprints
      refreshed and nothing else changed. */
  lemma StaticPhaseCache(r: Run, fs: FileSystem, env: Env)
    ensures !StaticPhase(r, fs, env).raised ==>
              StaticPhase(r, fs, env).cache == UpdateFileCache(r.cache, fs, CategoryPaths(r.cache.categories, "static"))
  {
    var r3 := Perform(Perform(Perform(r, OptimizeImages, env), CopyStatic, env), OptimizeAssets, env);
    assert r3.cache == r.cache;
    assert StaticPhase(r, fs, env) == Record(r3, fs, UpdateStatic, "static");
  }

  lemma GamesAlong(r: Run, done: seq<Stage>, env: Env)
    requires Along(r, done, env)
    ensures Along(if env.hasGames then Perform(Perform(r, RenderGamePages, env), GamesListing, env) else r,
                  done + (if env.hasGames then [RenderGamePages, GamesListing] else []), env)
  {
    if env.hasGames {
      PerformTwice(r, done, RenderGamePages, GamesListing, env);
    } else {
      assert done + [] == done;
    }
  }

  lemma RecordsAlong(r: Run, done: seq<Stage>, fs: FileSystem, env: Env)
    requires Along(r, done, env)
    ensures Along(Record(Record(Record(r, fs, UpdateContent, "content"), fs, UpdateTemplates, "templates"),
                         fs, UpdateConfig, "config"),
                  done + [UpdateContent, UpdateTemplates, UpdateConfig], env)
  {
    var r1 := Record(r, fs, UpdateContent, "content");
    RecordAlong(r, done, fs, UpdateContent, "content", env);
    RecordTwice(r1, done + [UpdateContent], fs, env);
    assert done + [UpdateContent] + [UpdateTemplates, UpdateConfig] == done + [UpdateContent, UpdateTemplates, UpdateConfig];
  }

  lemma RecordTwice(r: Run, done: seq<Stage>, fs: FileSystem, env: Env)
    requires Along(r, done, env)
    ensures Along(Record(Record(r, fs, UpdateTemplates, "templates"), fs, UpdateConfig, "config"),
                  done + [UpdateTemplates, UpdateConfig], env)
  {
    var r1 := Record(r, fs, UpdateTemplates, "templates");
    RecordAlong(r, done, fs, UpdateTemplates, "templates", env);
    RecordAlong(r1, done + [UpdateTemplates], fs, UpdateConfig, "config", env);
    assert done + [UpdateTemplates] + [UpdateConfig] == done + [UpdateTemplates, UpdateConfig];
  }

  lemma PagePhaseAlong(r: Run, done: seq<Stage>, fs: FileSystem, env: Env)
    requires Along(r, done, env)
    ensures Along(PagePhase(r, fs, env), done + Pages(env, true), env)
  {
    var games := if env.hasGames then [RenderGamePages, GamesListing] else [];
    var r2 := Perform(Perform(r, ScanGames, env), RenderPages, env);
    PerformTwice(r, done, ScanGames, RenderPages, env);
    var r3 := if env.hasGames then Perform(Perform(r2, RenderGamePages, env), GamesListing, env) else r2;
    GamesAlong(r2, done + [ScanGames, RenderPages], env);
    RecordsAlong(r3, done + [ScanGames, RenderPages] + games, fs, env);
    PagesSplit(done, games, env);
  }

  lemma PagesSplit(done: seq<Stage>, games: seq<Stage>, env: Env)
    requires games == if env.hasGames then [RenderGamePages, GamesListing] else []
    ensures done + [ScanGames, RenderPages] + games + [UpdateContent, UpdateTemplates, UpdateConfig]
            == done + Pages(env, true)
  {
  }

  lemma HeadAlong(c: Cache, env: Env)
    ensures Along(HeadPhase(c, env), Head(env), env) && HeadPhase(c, env).cache == c
  {
    var r0 := Run([], c, false, None);
    var h1 := if env.stylesExist then [CopyTemplateStyles] else [];
    var r1 := if env.stylesExist then Perform(r0, CopyTemplateStyles, env) else r0;
    if env.stylesExist { PerformAlong(r0, [], CopyTemplateStyles, env); }
    assert Along(r1, h1, env);
    if env.swTemplateExists { PerformAlong(r1, h1, WriteServiceWorker, env); }
    else { assert Head(env) == h1 + []; }
  }

  lemma SeoAlong(r: Run, done: seq<Stage>, env: Env)
    requires Along(r, done, env)
    ensures Along(SeoPhase(r, env), done + [Manifest, Robots, Sitemap], env)
    ensures SeoPhase(r, env).cache == r.cache
  {
    PerformTwice(r, done, Manifest, Robots, env);
    PerformAlong(Perform(Perform(r, Manifest, env), Robots, env), done + [Manifest, Robots], Sitemap, env);
    assert done + [Manifest, Robots] + [Sitemap] == done + [Manifest, Robots, Sitemap];
  }

  /**
   * A finished run has followed `plan`: what it ran is a prefix of the plan; it raised
   * exactly when the last stage it reached failed fatally, and then nothing was saved
   * or written; otherwise it ran the whole plan, holds a stamped document, and wrote it
   * unless the write failed.
   */
  predicate Followed(r: Run, plan: seq<Stage>, env: Env) {
    && r.stages <= plan
    && (r.raised <==> |r.stages| > 0 && Fatal(r.stages[|r.stages| - 1], env))
    && (r.raised ==> Save !in r.stages && r.written == None)
    && (!r.raised ==> r.stages == plan && (r.written.Some? <==> Save !in env.failing)
                      && !IsEmpty(r.cache.data))
  }

  /** Saving completes a run that has followed all of the plan but its last stage. */
  lemma Finish(r: Run, plan: seq<Stage>, env: Env)
    requires |plan| > 0 && plan[|plan| - 1] == Save && Along(r, plan[..|plan| - 1], env)
    ensures Followed(SavePhase(r, env), plan, env)
    ensures SavePhase(r, env).cache.categories == r.cache.categories
  {
    SaveAlong(r, plan[..|plan| - 1], env);
    assert plan[..|plan| - 1] + [Save] == plan;
  }

  lemma SaveAlong(r: Run, done: seq<Stage>, env: Env)
    requires Along(r, done, env)
    ensures Followed(SavePhase(r, env), done + [Save], env)
    ensures SavePhase(r, env).cache.categories == r.cache.categories
  {
  }

  /** The step-by-step argument behind `GenerateSite`'s contract. */
  lemma RunsAlongPlan(c: Cache, fs: FileSystem, env: Env, r2: Run, r3: Run, r4: Run, r5: Run)
    requires r2 == HeadPhase(c, env)
    requires r3 == StaticStep(r2, fs, env)
    requires r4 == PageStep(r3, fs, env)
    requires r5 == SeoPhase(r4, env)
    ensures Along(r5, Head(env) + Statics(CategoryChanged(c, fs, "static", env.force))
                      + Pages(env, PagesNeedRebuild(AfterStatic(c, fs, env.force), fs, env.force))
                      + [Manifest, Robots, Sitemap], env)
    ensures r5.cache.categories == c.categories
  {
    var staticChanged := CategoryChanged(c, fs, "static", env.force);
    var rebuild := PagesNeedRebuild(AfterStatic(c, fs, env.force), fs, env.force);
    HeadAlong(c, env);
    StaticCache(c, fs, env, r2, r3);
    assert r3.raised ==> r4 == r3;
    assert !r3.raised ==> PagesNeedRebuild(r3.cache, fs, env.force) == rebuild;
    assert r4.cache.categories == r3.cache.categories;
    PhasesAlong(r2, r3, r4, r5, staticChanged, rebuild, fs, env);
  }

  lemma PlanInit(env: Env, staticChanged: bool, rebuild: bool)
    ensures var plan := Plan(env, staticChanged, rebuild);
            |plan| > 0 && plan[|plan| - 1] == Save
            && plan[..|plan| - 1] == Head(env) + Statics(staticChanged) + Pages(env, rebuild) + [Manifest, Robots, Sitemap]
  {
    var pre := Head(env) + Statics(staticChanged) + Pages(env, rebuild);
    assert Plan(env, staticChanged, rebuild) == pre + [Manifest, Robots, Sitemap] + [Save];
  }

  /** The static phase, when it completes, leaves the cache `AfterStatic` describes. */
  lemma StaticCache(c: Cache, fs: FileSystem, env: Env, r2: Run, r3: Run)
    requires r2 == HeadPhase(c, env)
    requires r3 == (if CategoryChanged(r2.cache, fs, "static", env.force) then StaticPhase(r2, fs, env) else r2)
    ensures !r3.raised ==> r3.cache == AfterStatic(c, fs, env.force)
    ensures r3.cache.categories == c.categories
    ensures r3 == (if CategoryChanged(c, fs, "static", env.force) then StaticPhase(r2, fs, env) else r2)
  {
    HeadAlong(c, env);
    if CategoryChanged(c, fs, "static", env.force) {
      StaticPhaseAlong(r2, Head(env), fs, env);
    }
  }

  /** The phase sequence with both decisions taken as given. */
  lemma PhasesAlong(r2: Run, r3: Run, r4: Run, r5: Run, staticChanged: bool, rebuild: bool,
                    fs: FileSystem, env: Env)
    requires Along(r2, Head(env), env)
    requires r3 == (if staticChanged then StaticPhase(r2, fs, env) else r2)
    requires r3.raised ==> r4 == r3
    requires !r3.raised ==> r4 == (if rebuild then PagePhase(r3, fs, env) else Perform(r3, ScanGames, env))
    requires r5 == SeoPhase(r4, env)
    ensures Along(r5, Head(env) + Statics(staticChanged) + Pages(env, rebuild) + [Manifest, Robots, Sitemap], env)
  {
    var d3 := Head(env) + Statics(staticChanged);
    if staticChanged {
      StaticPhaseAlong(r2, Head(env), fs, env);
    } else {
      assert d3 == Head(env);
    }
    var d4 := d3 + Pages(env, rebuild);
    if r3.raised {
      RaisedAlong(r3, d3, Pages(env, rebuild), env);
    } else if rebuild {
      PagePhaseAlong(r3, d3, fs, env);
    } else {
      PerformAlong(r3, d3, ScanGames, env);
    }
    SeoAlong(r4, d4, env);
  }

  // ---------------------------------------------------------------------------
  // What the decisions mean for the build

  /**
   * With no fatal failure, the static phase (image optimisation, static copy,
   * minification, static fingerprints) runs exactly when the static category has
   * changes; pages are rendered and their fingerprints recorded exactly when
   * content, templates or config changed (as seen after the static fingerprints were
   * recorded) or the build is forced; the page fingerprints come after the pages;
   * games are always scanned, before the sitemap; and the cache is saved last.
   */
  lemma BuildDecisions(c: Cache, fs: FileSystem, env: Env)
    requires NoFatal(env)
    ensures var r := GenerateSite(c, fs, env);
            var staticChanged := CategoryChanged(c, fs, "static", env.force);
            var rebuild := PagesNeedRebuild(AfterStatic(c, fs, env.force), fs, env.force);
            && !r.raised
            && (OptimizeImages in r.stages <==> staticChanged)
            && (CopyStatic in r.stages <==> staticChanged)
            && (OptimizeAssets in r.stages <==> staticChanged)
            && (UpdateStatic in r.stages <==> staticChanged)
            && (RenderPages in r.stages <==> rebuild)
            && (UpdateContent in r.stages <==> rebuild)
            && (UpdateTemplates in r.stages <==> rebuild)
            && (UpdateConfig in r.stages <==> rebuild)
            && (rebuild ==> Before(r.stages, RenderPages, UpdateContent) && Before(r.stages, RenderPages, UpdateConfig))
            && ScanGames in r.stages && Before(r.stages, ScanGames, Sitemap)
            && r.stages[|r.stages| - 1] == Save
  {
    GenerateSiteFollowsPlan(c, fs, env);
    var r := GenerateSite(c, fs, env);
    NoFatalNoRaise(r.stages, env);
    PlanDecisions(r.stages, env, CategoryChanged(c, fs, "static", env.force),
                  PagesNeedRebuild(AfterStatic(c, fs, env.force), fs, env.force));
  }

  lemma PlanDecisions(stages: seq<Stage>, env: Env, staticChanged: bool, rebuild: bool)
    requires stages == Plan(env, staticChanged, rebuild)
    ensures && (OptimizeImages in stages <==> staticChanged)
            && (CopyStatic in stages <==> staticChanged)
            && (OptimizeAssets in stages <==> staticChanged)
            && (UpdateStatic in stages <==> staticChanged)
            && (RenderPages in stages <==> rebuild)
            && (UpdateContent in stages <==> rebuild)
            && (UpdateTemplates in stages <==> rebuild)
            && (UpdateConfig in stages <==> rebuild)
            && (rebuild ==> Before(stages, RenderPages, UpdateContent) && Before(stages, RenderPages, UpdateConfig))
            && ScanGames in stages && Before(stages, ScanGames, Sitemap)
            && stages[|stages| - 1] == Save
  {
    PlanMembers(env, staticChanged, rebuild);
    PlanStaticMembers(stages, env, staticChanged, rebuild);
    PlanPageMembers(stages, env, staticChanged, rebuild);
    PlanOrders(stages, env, staticChanged, rebuild);
  }

  lemma PlanStaticMembers(stages: seq<Stage>, env: Env, staticChanged: bool, rebuild: bool)
    requires forall s :: s in stages <==> Planned(s, env, staticChanged, rebuild)
    ensures && (OptimizeImages in stages <==> staticChanged)
            && (CopyStatic in stages <==> staticChanged)
            && (OptimizeAssets in stages <==> staticChanged)
            && (UpdateStatic in stages <==> staticChanged)
            && ScanGames in stages
  {
    assert Planned(OptimizeImages, env, staticChanged, rebuild) == staticChanged;
    assert Planned(CopyStatic, env, staticChanged, rebuild) == staticChanged;
    assert Planned(OptimizeAssets, env, staticChanged, rebuild) == staticChanged;
    assert Planned(UpdateStatic, env, staticChanged, rebuild) == staticChanged;
    assert Planned(ScanGames, env, staticChanged, rebuild);
  }

  lemma PlanPageMembers(stages: seq<Stage>, env: Env, staticChanged: bool, rebuild: bool)
    requires forall s :: s in stages <==> Planned(s, env, staticChanged, rebuild)
    ensures && (RenderPages in stages <==> rebuild)
            && (UpdateContent in stages <==> rebuild)
            && (UpdateTemplates in stages <==> rebuild)
            && (UpdateConfig in stages <==> rebuild)
  {
    assert Planned(RenderPages, env, staticChanged, rebuild) == rebuild;
    assert Planned(UpdateContent, env, staticChanged, rebuild) == rebuild;
    assert Planned(UpdateTemplates, env, staticChanged, rebuild) == rebuild;
    assert Planned(UpdateConfig, env, staticChanged, rebuild) == rebuild;
  }

  lemma PlanOrders(stages: seq<Stage>, env: Env, staticChanged: bool, rebuild: bool)
    requires stages == Plan(env, staticChanged, rebuild)
    ensures rebuild ==> Before(stages, RenderPages, UpdateContent) && Before(stages, RenderPages, UpdateConfig)
    ensures Before(stages, ScanGames, Sitemap)
  {
    PlanOrder(env, staticChanged, rebuild, RenderPages, UpdateContent);
    PlanOrder(env, staticChanged, rebuild, RenderPages, UpdateConfig);
    PlanOrder(env, staticChanged, rebuild, ScanGames, Sitemap);
  }

  lemma NoFatalNoRaise(stages: seq<Stage>, env: Env)
    requires NoFatal(env)
    ensures !(|stages| > 0 && Fatal(stages[|stages| - 1], env))
  {
  }

  /** Failures the generator swallows leave the stages of a build as they were. */
  lemma SwallowedFailuresChangeNothing(c: Cache, fs: FileSystem, env: Env)
    requires NoFatal(env)
    ensures GenerateSite(c, fs, env).stages == GenerateSite(c, fs, env.(failing := {})).stages
  {
    GenerateSiteFollowsPlan(c, fs, env);
    GenerateSiteFollowsPlan(c, fs, env.(failing := {}));
    NoFatalNoRaise(GenerateSite(c, fs, env).stages, env);
    NoFatalNoRaise(GenerateSite(c, fs, env.(failing := {})).stages, env.(failing := {}));
    assert Plan(env, CategoryChanged(c, fs, "static", env.force),
                PagesNeedRebuild(AfterStatic(c, fs, env.force), fs, env.force))
        == Plan(env.(failing := {}), CategoryChanged(c, fs, "static", env.force),
                PagesNeedRebuild(AfterStatic(c, fs, env.force), fs, env.force));
  }

  /** `_optimize_images` calls `optimize_all_images(force=...)`, which takes no such
      argument, so the image stage always fails; that failure is swallowed, and the
      build runs the same stages as one whose image stage succeeds. */
  lemma ImageFailureSwallowed(c: Cache, fs: FileSystem, env: Env)
    requires NoFatal(env)
    ensures GenerateSite(c, fs, env.(failing := env.failing + {OptimizeImages})).stages
            == GenerateSite(c, fs, env.(failing := env.failing - {OptimizeImages})).stages
  {
    var e1 := env.(failing := env.failing + {OptimizeImages});
    var e2 := env.(failing := env.failing - {OptimizeImages});
    SwallowedFailuresChangeNothing(c, fs, e1);
    SwallowedFailuresChangeNothing(c, fs, e2);
    assert e1.(failing := {}) == e2.(failing := {});
  }

  /** Every path tracked under `name` exists. */
  predicate Present(c: Cache, fs: FileSystem, name: string) {
    forall p :: p in CategoryPaths(c.categories, name) ==> Exists(fs, p)
  }

  /** No path tracked under `name` has changed since it was fingerprinted. */
  predicate Settled(c: Cache, fs: FileSystem, name: string) {
    forall p :: p in CategoryPaths(c.categories, name) ==> !Changed(c.data, fs, p)
  }

  /** Fingerprinting the existing paths of one category settles it and keeps every
      other category as settled as it was. */
  lemma UpdateSettles(c: Cache, fs: FileSystem, name: string, other: string)
    requires Present(c, fs, name)
    ensures Settled(c, fs, other) || other == name ==>
              Settled(UpdateFileCache(c, fs, CategoryPaths(c.categories, name)), fs, other)
  {
    var paths := CategoryPaths(c.categories, name);
    if Settled(c, fs, other) || other == name {
      forall p | p in CategoryPaths(c.categories, other)
        ensures !Changed(UpdateFileCache(c, fs, paths).data, fs, p)
      {
        if p in paths {
          UpdateSettlesChanges(c, fs, paths, p);
        } else {
          UpdateKeepsOthers(c, fs, paths, p);
        }
      }
    }
  }

  /** A category `has_changes` reports unchanged is settled, and the cache is not empty. */
  lemma UnchangedIsSettled(c: Cache, fs: FileSystem, name: string, force: bool)
    requires name != "" && !CategoryChanged(c, fs, name, force)
    ensures Settled(c, fs, name) && !IsEmpty(c.data) && !force
  {
  }

  /** One fingerprint stage, as `UpdateSettles` describes. */
  lemma RecordSettles(r: Run, fs: FileSystem, s: Stage, name: string, other: string)
    requires !r.raised && Present(r.cache, fs, name)
    ensures Settled(r.cache, fs, other) || other == name ==> Settled(Record(r, fs, s, name).cache, fs, other)
  {
    UpdateSettles(r.cache, fs, name, other);
  }

  /** The page phase settles the three page categories and keeps the rest as settled
      as they were. */
  lemma PagePhaseSettles(r: Run, fs: FileSystem, env: Env, name: string)
    requires !PagePhase(r, fs, env).raised
    requires Present(r.cache, fs, "content") && Present(r.cache, fs, "templates") && Present(r.cache, fs, "config")
    requires Settled(r.cache, fs, name) || name in {"content", "templates", "config"}
    ensures Settled(PagePhase(r, fs, env).cache, fs, name)
  {
    var r2 := Perform(Perform(r, ScanGames, env), RenderPages, env);
    var r3 := if env.hasGames then Perform(Perform(r2, RenderGamePages, env), GamesListing, env) else r2;
    var r4 := Record(r3, fs, UpdateContent, "content");
    var r5 := Record(r4, fs, UpdateTemplates, "templates");
    assert r3.cache == r.cache && !r3.raised && !r4.raised && !r5.raised;
    RecordSettles(r3, fs, UpdateContent, "content", name);
    RecordSettles(r4, fs, UpdateTemplates, "templates", name);
    RecordSettles(r5, fs, UpdateConfig, "config", name);
  }

  /** Stamping the document changes no fingerprint. */
  lemma SaveKeepsSettled(r: Run, env: Env, fs: FileSystem, name: string)
    requires Settled(r.cache, fs, name)
    ensures Settled(SavePhase(r, env).cache, fs, name)
  {
  }

  /** After a build that completes, with every tracked path still present, all four
      tracked categories are settled and the cache is not empty. */
  /** After a static phase that completes, or none, the static category is settled. */
  lemma StaticSettled(c: Cache, fs: FileSystem, env: Env, r2: Run, r3: Run)
    requires r2 == HeadPhase(c, env)
    requires r3 == (if CategoryChanged(c, fs, "static", env.force) then StaticPhase(r2, fs, env) else r2)
    requires !r3.raised && Present(c, fs, "static")
    ensures r3.cache.categories == c.categories
    ensures Settled(r3.cache, fs, "static")
  {
    HeadAlong(c, env);
    StaticCache(c, fs, env, r2, r3);
    if CategoryChanged(c, fs, "static", env.force) {
      UpdateSettles(c, fs, "static", "static");
    } else {
      UnchangedIsSettled(c, fs, "static", env.force);
    }
  }

  lemma BuildSettles(c: Cache, fs: FileSystem, env: Env, name: string)
    requires !GenerateSite(c, fs, env).raised
    requires name in {"static", "content", "templates", "config"}
    requires Present(c, fs, "static") && Present(c, fs, "content")
    requires Present(c, fs, "templates") && Present(c, fs, "config")
    ensures Settled(GenerateSite(c, fs, env).cache, fs, name)
    ensures !IsEmpty(GenerateSite(c, fs, env).cache.data)
  {
    GenerateSiteFollowsPlan(c, fs, env);
    var r2 := HeadPhase(c, env);
    HeadAlong(c, env);
    var staticChanged := CategoryChanged(c, fs, "static", env.force);
    var r3 := if staticChanged then StaticPhase(r2, fs, env) else r2;
    var rebuild := PagesNeedRebuild(r3.cache, fs, env.force);
    var r4 := if rebuild then PagePhase(r3, fs, env) else Perform(r3, ScanGames, env);
    var r5 := SeoPhase(r4, env);
    assert GenerateSite(c, fs, env) == SavePhase(r5, env);
    // A completed build passed through every phase without raising.
    assert !r5.raised;
    assert !r4.raised;
    assert !r3.raised;
    StaticSettled(c, fs, env, r2, r3);
    if rebuild {
      PagePhaseSettles(r3, fs, env, name);
    } else {
      UnchangedIsSettled(r3.cache, fs, "content", env.force);
      UnchangedIsSettled(r3.cache, fs, "templates", env.force);
      UnchangedIsSettled(r3.cache, fs, "config", env.force);
    }
    assert Settled(r4.cache, fs, name);
    SaveKeepsSettled(r5, env, fs, name);
  }

  /** A tracked category that is settled is reported unchanged by an unforced check
      once the cache is no longer empty. */
  lemma SettledUnchanged(c: Cache, fs: FileSystem, name: string)
    requires name != "" && Settled(c, fs, name) && !IsEmpty(c.data)
    ensures !CategoryChanged(c, fs, name, false)
  {
  }

  /**
   * Incremental builds: after a build that completes, with every tracked source
   * still present and unchanged, an unforced build skips the static phase and page
   * generation; it only scans games, writes the SEO files and saves the cache.
   */
  lemma SecondBuildIsIncremental(c: Cache, fs: FileSystem, env: Env, env2: Env)
    requires !GenerateSite(c, fs, env).raised
    requires Present(c, fs, "static") && Present(c, fs, "content")
    requires Present(c, fs, "templates") && Present(c, fs, "config")
    requires !env2.force && NoFatal(env2)
    ensures GenerateSite(GenerateSite(c, fs, env).cache, fs, env2).stages == Plan(env2, false, false)
    ensures RenderPages !in GenerateSite(GenerateSite(c, fs, env).cache, fs, env2).stages
    ensures UpdateStatic !in GenerateSite(GenerateSite(c, fs, env).cache, fs, env2).stages
  {
    var c' := GenerateSite(c, fs, env).cache;
    BuildSettles(c, fs, env, "static");
    BuildSettles(c, fs, env, "content");
    BuildSettles(c, fs, env, "templates");
    BuildSettles(c, fs, env, "config");
    SettledUnchanged(c', fs, "static");
    SettledUnchanged(c', fs, "content");
    SettledUnchanged(c', fs, "templates");
    SettledUnchanged(c', fs, "config");
    assert AfterStatic(c', fs, false) == c';
    assert !PagesNeedRebuild(c', fs, false);
    GenerateSiteFollowsPlan(c', fs, env2);
    NoFatalNoRaise(GenerateSite(c', fs, env2).stages, env2);
    PlanStaticMembers(Plan(env2, false, false), env2, false, false) by {
      PlanMembers(env2, false, false);
    }
    PlanPageMembers(Plan(env2, false, false), env2, false, false) by {
      PlanMembers(env2, false, false);
    }
  }

  /**
   * A first build (empty cache document) whose content, template and config lists
   * are empty renders no page: the static phase runs because the document is empty,
   * recording the static fingerprints gives the document a `files` key, and the
   * page check that follows no longer sees an empty document and has no path to
   * examine.
   */
  lemma FirstBuildWithoutPageSourcesRendersNothing(c: Cache, fs: FileSystem, env: Env)
    requires IsEmpty(c.data) && !env.force && NoFatal(env)
    requires CategoryPaths(c.categories, "content") == []
    requires CategoryPaths(c.categories, "templates") == []
    requires CategoryPaths(c.categories, "config") == []
    ensures UpdateStatic in GenerateSite(c, fs, env).stages
    ensures RenderPages !in GenerateSite(c, fs, env).stages
  {
    var after := AfterStatic(c, fs, false);
    assert CategoryChanged(c, fs, "static", false);
    assert !IsEmpty(after.data);
    assert !CategoryChanged(after, fs, "content", false);
    assert !CategoryChanged(after, fs, "templates", false);
    assert !CategoryChanged(after, fs, "config", false);
    BuildDecisions(c, fs, env);
  }

  // ---------------------------------------------------------------------------
  // Tracking setup and page sources

  /** The patterns `_setup_file_tracking` scans the static directory with. */
  const StaticPatterns: seq<Pattern> := [
    EndingWith(".css"), EndingWith(".js"), EndingWith(".png"), EndingWith(".jpg"),
    EndingWith(".jpeg"), EndingWith(".webp"), EndingWith(".svg"), EndingWith(".ico")]

  /**
   * `_setup_file_tracking`: the content and template directories are scanned for
   * `*.html`, the static directory for the asset patterns, and the settings module's
   * file (when there is one) is tracked as config.
   */
  function SetupFileTracking(c: Cache, fs: FileSystem, contentDir: Path, staticDir: Path,
                             templateDir: Path, settingsFile: Option<Path>): (r: Cache)
    requires HasCategory(c.categories, "content") && HasCategory(c.categories, "static")
    requires HasCategory(c.categories, "templates")
    ensures r.data == c.data
    ensures CategoryPaths(r.categories, "config") == CategoryPaths(c.categories, "config")
              + (if settingsFile.Some? then [settingsFile.value] else [])
  {
    TrackFiles(ScanSources(c, fs, contentDir, staticDir, templateDir),
               if settingsFile.Some? then [settingsFile.value] else [], "config")
  }

  /** The three directory scans of `_setup_file_tracking`, which leave the config
      list alone. */
  function ScanSources(c: Cache, fs: FileSystem, contentDir: Path, staticDir: Path, templateDir: Path): (r: Cache)
    requires HasCategory(c.categories, "content") && HasCategory(c.categories, "static")
    requires HasCategory(c.categories, "templates")
    ensures r.data == c.data
    ensures CategoryPaths(r.categories, "config") == CategoryPaths(c.categories, "config")
  {
    var c1 := Scanned(c, fs, contentDir, [EndingWith(".html")], "content");
    var c2 := Scanned(c1, fs, staticDir, StaticPatterns, "static");
    ScannedKeepsOther(c, fs, contentDir, [EndingWith(".html")], "content", "config");
    ScannedKeepsOther(c1, fs, staticDir, StaticPatterns, "static", "config");
    ScannedKeepsOther(c2, fs, templateDir, [EndingWith(".html")], "templates", "config");
    Scanned(c2, fs, templateDir, [EndingWith(".html")], "templates")
  }

  /** Every path the setup adds to `static` is a file below the static directory, and
      every visible file there with one of the asset extensions is added. */
  lemma SetupTracksStatic(c: Cache, fs: FileSystem, contentDir: Path, staticDir: Path,
                          templateDir: Path, settingsFile: Option<Path>, p: Path)
    requires HasCategory(c.categories, "content") && HasCategory(c.categories, "static")
    requires HasCategory(c.categories, "templates")
    ensures p in CategoryPaths(SetupFileTracking(c, fs, contentDir, staticDir, templateDir, settingsFile).categories, "static")
            ==> p in CategoryPaths(c.categories, "static") || (IsFile(fs, p) && Under(p, staticDir))
    ensures (Exists(fs, staticDir) && p in fs.order && IsFile(fs, p)
             && exists k :: 0 <= k < |StaticPatterns| && GlobMatch(fs, staticDir, StaticPatterns[k], p))
            ==> p in CategoryPaths(SetupFileTracking(c, fs, contentDir, staticDir, templateDir, settingsFile).categories, "static")
  {
    var c1 := Scanned(c, fs, contentDir, [EndingWith(".html")], "content");
    SetupStaticIsScan(c, fs, contentDir, staticDir, templateDir, settingsFile);
    ScannedKeepsOther(c, fs, contentDir, [EndingWith(".html")], "content", "static");
    ScannedCovers(c1, fs, staticDir, StaticPatterns, "static", p);
    if Exists(fs, staticDir) && p in fs.order && IsFile(fs, p)
       && exists k :: 0 <= k < |StaticPatterns| && GlobMatch(fs, staticDir, StaticPatterns[k], p) {
      var k :| 0 <= k < |StaticPatterns| && GlobMatch(fs, staticDir, StaticPatterns[k], p);
      assert FoundBy(fs, staticDir, StaticPatterns[k], p);
    }
  }

  /** The same two facts for `content` and its `*.html` pattern. */
  lemma SetupTracksContent(c: Cache, fs: FileSystem, contentDir: Path, staticDir: Path,
                           templateDir: Path, settingsFile: Option<Path>, p: Path)
    requires HasCategory(c.categories, "content") && HasCategory(c.categories, "static")
    requires HasCategory(c.categories, "templates")
    ensures p in CategoryPaths(SetupFileTracking(c, fs, contentDir, staticDir, templateDir, settingsFile).categories, "content")
            ==> p in CategoryPaths(c.categories, "content") || (IsFile(fs, p) && Under(p, contentDir))
    ensures (Exists(fs, contentDir) && p in fs.order && IsFile(fs, p)
             && GlobMatch(fs, contentDir, EndingWith(".html"), p))
            ==> p in CategoryPaths(SetupFileTracking(c, fs, contentDir, staticDir, templateDir, settingsFile).categories, "content")
  {
    SetupContentIsScan(c, fs, contentDir, staticDir, templateDir, settingsFile);
    assert [EndingWith(".html")][0] == EndingWith(".html");
    ScannedCovers(c, fs, contentDir, [EndingWith(".html")], "content", p);
    assert GlobMatch(fs, contentDir, EndingWith(".html"), p) ==> FoundBy(fs, contentDir, EndingWith(".html"), p);
  }

  /** After the setup, the static list is what the static scan left it. */
  lemma SetupStaticIsScan(c: Cache, fs: FileSystem, contentDir: Path, staticDir: Path,
                          templateDir: Path, settingsFile: Option<Path>)
    requires HasCategory(c.categories, "content") && HasCategory(c.categories, "static")
    requires HasCategory(c.categories, "templates")
    ensures var c1 := Scanned(c, fs, contentDir, [EndingWith(".html")], "content");
            CategoryPaths(SetupFileTracking(c, fs, contentDir, staticDir, templateDir, settingsFile).categories, "static")
            == CategoryPaths(Scanned(c1, fs, staticDir, StaticPatterns, "static").categories, "static")
  {
    var c1 := Scanned(c, fs, contentDir, [EndingWith(".html")], "content");
    var c2 := Scanned(c1, fs, staticDir, StaticPatterns, "static");
    ScannedKeepsOther(c2, fs, templateDir, [EndingWith(".html")], "templates", "static");
    assert ScanSources(c, fs, contentDir, staticDir, templateDir) == Scanned(c2, fs, templateDir, [EndingWith(".html")], "templates");
  }

  /** After the setup, the content list is what the content scan left it. */
  lemma SetupContentIsScan(c: Cache, fs: FileSystem, contentDir: Path, staticDir: Path,
                           templateDir: Path, settingsFile: Option<Path>)
    requires HasCategory(c.categories, "content") && HasCategory(c.categories, "static")
    requires HasCategory(c.categories, "templates")
    ensures CategoryPaths(SetupFileTracking(c, fs, contentDir, staticDir, templateDir, settingsFile).categories, "content")
            == CategoryPaths(Scanned(c, fs, contentDir, [EndingWith(".html")], "content").categories, "content")
  {
    var c1 := Scanned(c, fs, contentDir, [EndingWith(".html")], "content");
    var c2 := Scanned(c1, fs, staticDir, StaticPatterns, "static");
    ScannedKeepsOther(c1, fs, staticDir, StaticPatterns, "static", "content");
    ScannedKeepsOther(c2, fs, templateDir, [EndingWith(".html")], "templates", "content");
    assert ScanSources(c, fs, contentDir, staticDir, templateDir) == Scanned(c2, fs, templateDir, [EndingWith(".html")], "templates");
  }

  /** One `scan_directory` call on a category the cache has. */
  function Scanned(c: Cache, fs: FileSystem, dir: Path, patterns: seq<Pattern>, category: string): (r: Cache)
    requires |patterns| > 0 && HasCategory(c.categories, category)
    ensures r.data == c.data
    ensures forall n :: HasCategory(r.categories, n) <==> HasCategory(c.categories, n)
  {
    match ScanDirectory(c, fs, dir, patterns, category)
    case Ok((c', found)) => c'
    case Err(_) => assert false; c
  }

  /** One scan leaves every other category's list as it was. */
  lemma ScannedKeepsOther(c: Cache, fs: FileSystem, dir: Path, patterns: seq<Pattern>, category: string, other: string)
    requires |patterns| > 0 && HasCategory(c.categories, category) && other != category
    ensures CategoryPaths(Scanned(c, fs, dir, patterns, category).categories, other)
            == CategoryPaths(c.categories, other)
  {
  }

  /** What one scan adds to its category: only files below the directory, and every
      visible file there that one of the patterns finds. */
  lemma ScannedCovers(c: Cache, fs: FileSystem, dir: Path, patterns: seq<Pattern>, category: string, p: Path)
    requires |patterns| > 0 && HasCategory(c.categories, category)
    ensures p in CategoryPaths(Scanned(c, fs, dir, patterns, category).categories, category) ==>
              p in CategoryPaths(c.categories, category) || (IsFile(fs, p) && Under(p, dir))
    ensures (Exists(fs, dir) && p in fs.order && IsFile(fs, p)
             && exists k :: 0 <= k < |patterns| && FoundBy(fs, dir, patterns[k], p))
            ==> p in CategoryPaths(Scanned(c, fs, dir, patterns, category).categories, category)
  {
    assert EffectivePatterns(patterns) == patterns;
  }

  /** `_get_content_file`'s name mapping: only the cookie policy is renamed. */
  function ContentName(key: string): string {
    if key == "cookies-policy" then "cookies" else key
  }

  /** `_get_content_file`. */
  function ContentFile(contentDir: Path, key: string): (r: Path)
    ensures key == "cookies-policy" ==> r == JoinPath(contentDir, "cookies.html")
    ensures key != "cookies-policy" ==> r == JoinPath(contentDir, key + ".html")
  {
    var name := ContentName(key) + ".html";
    assert key == "cookies-policy" ==> name == "cookies.html";
    JoinPath(contentDir, name)
  }

  /** `_get_pages_from_config`: page key and template, in generation order. */
  const ConfiguredPages: seq<(string, string)> := [
    ("index", "index.html"), ("about-us", "page.html"), ("contact", "page.html"),
    ("privacy-policy", "page.html"), ("terms-of-service", "page.html"),
    ("cookies-policy", "page.html"), ("dmca", "page.html"),
    ("parents-information", "page.html")]

  /** Joining two relative names onto the same directory gives the same path only for
      the same name. */
  lemma JoinInjective(dir: Path, a: Path, b: Path)
    requires !StartsWith(a, "/") && !StartsWith(b, "/")
    ensures JoinPath(dir, a) == JoinPath(dir, b) <==> a == b
  {
    var pre := if dir == "" || EndsWith(dir, "/") then dir else dir + "/";
    assert JoinPath(dir, a) == pre + a && JoinPath(dir, b) == pre + b;
    if pre + a == pre + b {
      assert a == (pre + a)[|pre|..] && b == (pre + b)[|pre|..];
    }
  }

  /** `_get_content_file` renames only the cookie policy, so two keys share a name
      exactly when they are equal or are `cookies-policy` and `cookies`. */
  lemma ContentNamesCollide(k1: string, k2: string)
    ensures ContentName(k1) == ContentName(k2) <==>
              k1 == k2 || (k1 == "cookies-policy" && k2 == "cookies") || (k1 == "cookies" && k2 == "cookies-policy")
  {
  }

  /** Two page keys that are not absolute read the same content file exactly when
      their names collide. */
  lemma ContentFilesDistinct(contentDir: Path, k1: string, k2: string)
    requires !StartsWith(k1, "/") && !StartsWith(k2, "/")
    ensures ContentFile(contentDir, k1) == ContentFile(contentDir, k2) <==>
              k1 == k2 || (k1 == "cookies-policy" && k2 == "cookies") || (k1 == "cookies" && k2 == "cookies-policy")
  {
    var n1, n2 := ContentName(k1), ContentName(k2);
    assert !StartsWith(n1 + ".html", "/") by {
      assert (n1 + ".html")[0] == if n1 == "" then '.' else n1[0];
    }
    assert !StartsWith(n2 + ".html", "/") by {
      assert (n2 + ".html")[0] == if n2 == "" then '.' else n2[0];
    }
    JoinInjective(contentDir, n1 + ".html", n2 + ".html");
    if n1 + ".html" == n2 + ".html" {
      assert n1 == (n1 + ".html")[..|n1|] && n2 == (n2 + ".html")[..|n2|];
    }
    ContentNamesCollide(k1, k2);
  }

  /** The eight configured pages read eight different content files. */
  lemma ConfiguredPagesReadDistinctFiles(contentDir: Path, i: nat, j: nat)
    requires i < j < |ConfiguredPages|
    ensures ContentFile(contentDir, ConfiguredPages[i].0) != ContentFile(contentDir, ConfiguredPages[j].0)
  {
    var k1, k2 := ConfiguredPages[i].0, ConfiguredPages[j].0;
    assert k1 != k2 && k1 != "cookies" && k2 != "cookies";
    assert k1[0] != '/' && k2[0] != '/';
    ContentFilesDistinct(contentDir, k1, k2);
  }
}

=== FILE: page_builder.dfy ===
/**
 * `PageBuilder` (core/page_builder.py): where each page is written, how listing
 * images are formatted, the asset-link rewrite applied to rendered pages, and the
 * write-to-temporary-then-rename discipline.
 *
 * Template rendering is Jinja2 library code: a rendered page enters as a
 * `Result<string>` (an error is a template or lookup failure). The filesystem is a
 * map from path to contents together with the set of paths whose open or rename
 * fails.
 */
module PageBuilder {
  import opened Wrappers
  import opened Strings
  import opened Paths
  import UrlUtils
  import SiteCrawler
  import opened GameManager

  // ---------------------------------------------------------------------------
  // Output paths

  /** The keys `get_page_output_path` files under `pages/`. */
  predicate IsSectionPage(key: string) {
    key == "about-us" || key == "contact"
  }

  /** The five keys `get_page_output_path` files under `legal/`. */
  predicate IsLegalPage(key: string) {
    key == "privacy-policy" || key == "terms-of-service" || key == "cookies-policy"
    || key == "dmca" || key == "parents-information"
  }

  /** The full output path of a page and the sub-directory it is filed under. */
  datatype Placement = Placement(file: Path, subdir: Option<string>)

  /** The directory a page with the given sub-directory is written to. */
  function PageDir(outputDir: Path, subdir: Option<string>): Path {
    match subdir
    case None => outputDir
    case Some(d) => JoinPath(outputDir, d)
  }

  /** The sub-directory `get_page_output_path` files a page under. */
  function PageSubdir(key: string, isGame: bool): (r: Option<string>)
    ensures isGame ==> r == Some("games")
    ensures !isGame && IsSectionPage(key) ==> r == Some("pages")
    ensures !isGame && IsLegalPage(key) ==> r == Some("legal")
    ensures !isGame && !IsSectionPage(key) && !IsLegalPage(key) ==> r.None?
    ensures key == "index" && !isGame ==> r.None?
  {
    if isGame then Some("games")
    else if key == "index" then None
    else if IsSectionPage(key) then Some("pages")
    else if IsLegalPage(key) then Some("legal")
    else None
  }

  /**
   * `get_page_output_path`: game pages under `games/`, `index` at the root, the
   * about and contact pages under `pages/`, the legal pages under `legal/`, anything
   * else at the root; the file is `<key>.html` in that directory (`index.html` for
   * the index page).
   */
  function PageOutputPath(outputDir: Path, key: string, isGame: bool): (r: Placement)
    ensures r.subdir == PageSubdir(key, isGame)
    ensures EndsWith(r.file, key + ".html") || StartsWith(key + ".html", "/")
  {
    var sub := PageSubdir(key, isGame);
    Placement(JoinPath(PageDir(outputDir, sub), key + ".html"), sub)
  }

  /** The path `generate_page` writes: `output_path` inside `subdir` when it is
      truthy, otherwise directly inside the output directory. */
  function GeneratedPath(outputDir: Path, outputPath: Path, subdir: Option<string>): (r: Path)
    ensures subdir.Some? && subdir.value != "" ==> r == JoinPath(JoinPath(outputDir, subdir.value), outputPath)
    ensures subdir.None? || subdir.value == "" ==> r == JoinPath(outputDir, outputPath)
  {
    if subdir.Some? && subdir.value != "" then JoinPath(JoinPath(outputDir, subdir.value), outputPath)
    else JoinPath(outputDir, outputPath)
  }

  /** Handing `generate_page` the placement's sub-directory and `<key>.html` writes
      exactly the placement's file. */
  lemma GeneratedPathIsPlacement(outputDir: Path, key: string, isGame: bool)
    ensures GeneratedPath(outputDir, key + ".html", PageOutputPath(outputDir, key, isGame).subdir)
            == PageOutputPath(outputDir, key, isGame).file
  {
  }

  // ---------------------------------------------------------------------------
  // Listing images

  /** `_format_image_path`; None is a missing image. */
  function FormatImagePath(image: Option<string>): (r: string)
    ensures StartsWith(r, "/assets/")
    ensures image.None? || image.value == "" ==> r == "/assets/images/gamelogo.webp"
    ensures image.Some? && StartsWith(image.value, "img/") ==> r == "/assets/images/" + image.value[4..]
    ensures image.Some? && StartsWith(image.value, "/img/") ==> r == "/assets/images/" + image.value[5..]
    ensures image.Some? && StartsWith(image.value, "/assets/") ==> r == image.value
    ensures image.Some? && image.value != "" && !StartsWith(image.value, "img/")
            && !StartsWith(image.value, "/img/") && !StartsWith(image.value, "/assets/") ==>
            r == "/assets/images/" + image.value
  {
    match image
    case None => "/assets/images/gamelogo.webp"
    case Some(p) =>
      if p == "" then "/assets/images/gamelogo.webp"
      else if StartsWith(p, "img/") then assert p[..4][0] == 'i'; UnderAssets("images/" + p[4..])
      else if StartsWith(p, "/img/") then assert p[..5][1] == 'i'; UnderAssets("images/" + p[5..])
      else if StartsWith(p, "/assets/") then p
      else UnderAssets("images/" + p)
  }

  /** A path below `/assets/`. */
  function UnderAssets(rest: string): (r: string)
    ensures r == "/assets/" + rest && StartsWith(r, "/assets/")
  {
    PrefixOfConcat("/assets/", rest);
    "/assets/" + rest
  }

  /** Formatting an already formatted path changes nothing. */
  lemma FormatImageIdempotent(image: Option<string>)
    ensures FormatImagePath(Some(FormatImagePath(image))) == FormatImagePath(image)
  {
    var r := FormatImagePath(image);
    assert r[..8] == "/assets/";
    assert !StartsWith(r, "img/") by { assert |r| < 4 || r[..4][0] == '/'; }
    assert !StartsWith(r, "/img/") by { assert |r| < 5 || r[..5][1] == 'a'; }
  }

  /** For the legacy `img/` prefixes the formatter and `normalize_asset_path` agree. */
  lemma FormatAgreesWithNormalize(p: string)
    requires StartsWith(p, "img/") || StartsWith(p, "/img/")
    ensures FormatImagePath(Some(p)) == UrlUtils.NormalizeAssetPath(p)
  {
    if StartsWith(p, "img/") {
      assert p[..4][0] == 'i';
    }
  }

  // ---------------------------------------------------------------------------
  // Asset link rewriting

  /** One alternative of a case-insensitive pattern, in lower case: `keep` is matched
      and written back as found, `drop` is matched and replaced. */
  datatype Alt = Alt(keep: string, drop: string)

  /** One compiled pattern with its replacement; at each position the alternatives
      are tried in order. */
  datatype Rule = Rule(alts: seq<Alt>, rep: string)

  function Pat(a: Alt): string {
    a.keep + a.drop
  }

  /** The alternative matches the text at `j`, ignoring the case of ASCII letters. */
  predicate MatchesAt(s: string, j: int, a: Alt) {
    0 <= j && j + |Pat(a)| <= |s| && forall k :: 0 <= k < |Pat(a)| ==> LowerChar(s[j + k]) == Pat(a)[k]
  }

  predicate NoMatch(s: string, a: Alt) {
    forall j :: 0 <= j <= |s| ==> !MatchesAt(s, j, a)
  }

  /** Every alternative consumes some text it replaces. */
  predicate Consuming(rule: Rule) {
    forall a :: a in rule.alts ==> |a.drop| > 0
  }

  /** The first alternative that matches at `j`. */
  function AltAt(s: string, j: int, alts: seq<Alt>): (r: Option<Alt>)
    ensures r.Some? ==> r.value in alts && MatchesAt(s, j, r.value)
    ensures r.None? ==> forall a :: a in alts ==> !MatchesAt(s, j, a)
  {
    if |alts| == 0 then None
    else if MatchesAt(s, j, alts[0]) then Some(alts[0])
    else AltAt(s, j, alts[1..])
  }

  /** A match: its position and the alternative that matched there. */
  datatype Hit = Hit(pos: nat, alt: Alt)

  /** The leftmost match at or after `j`, as `re.search` finds it. */
  function FirstMatch(s: string, alts: seq<Alt>, j: nat): (r: Option<Hit>)
    requires j <= |s|
    ensures r.Some? ==> j <= r.value.pos <= |s| && r.value.alt in alts && MatchesAt(s, r.value.pos, r.value.alt)
    decreases |s| - j
  {
    match AltAt(s, j, alts)
    case Some(a) => Some(Hit(j, a))
    case None => if j == |s| then None else FirstMatch(s, alts, j + 1)
  }

  /** The match found is the leftmost one, and none is found only when there is none. */
  lemma {:induction false} FirstMatchLeftmost(s: string, alts: seq<Alt>, j: nat)
    requires j <= |s|
    ensures FirstMatch(s, alts, j).Some? ==>
      forall i, a :: j <= i < FirstMatch(s, alts, j).value.pos && a in alts ==> !MatchesAt(s, i, a)
    ensures FirstMatch(s, alts, j).None? ==> forall i, a :: j <= i && a in alts ==> !MatchesAt(s, i, a)
    decreases |s| - j
  {
    if AltAt(s, j, alts).None? && j < |s| {
      FirstMatchLeftmost(s, alts, j + 1);
    }
  }

  /**
   * `pattern.sub(replacement, s)`: matches are replaced left to right without
   * overlapping, each by its kept part followed by the replacement. Text with no
   * match comes back unchanged.
   */
  function Sub(s: string, rule: Rule): string
    requires Consuming(rule)
    decreases |s|
  {
    var fm := FirstMatch(s, rule.alts, 0);
    if fm.None? then s
    else Splice(s, fm.value, rule.rep, Sub(s[fm.value.pos + |Pat(fm.value.alt)|..], rule))
  }

  predicate AllConsuming(rules: seq<Rule>) {
    forall r :: r in rules ==> Consuming(r)
  }

  /** The text up to the end of a match's kept part, the replacement, then `tail`. */
  function Splice(s: string, h: Hit, rep: string, tail: string): string
    requires h.pos + |h.alt.keep| <= |s|
  {
    s[..h.pos + |h.alt.keep|] + rep + tail
  }

  /** The first match, kept part and replacement, then the rest rewritten. */
  lemma SubStep(s: string, rule: Rule, h: Hit)
    requires Consuming(rule) && FirstMatch(s, rule.alts, 0) == Some(h)
    ensures Sub(s, rule) == Splice(s, h, rule.rep, Sub(s[h.pos + |Pat(h.alt)|..], rule))
  {
    var fm := FirstMatch(s, rule.alts, 0);
    assert fm.Some? && fm.value == h;
  }

  /** A pattern that matches nowhere leaves the text as it is. */
  lemma SubUnchanged(s: string, rule: Rule)
    requires Consuming(rule)
    ensures (forall a :: a in rule.alts ==> NoMatch(s, a)) ==> Sub(s, rule) == s
  {
    FirstMatchLeftmost(s, rule.alts, 0);
  }

  /** The rules applied one after another, as `resolve_asset_links` loops over them. */
  function ApplyAll(s: string, rules: seq<Rule>): (r: string)
    requires AllConsuming(rules)
    ensures Clean(s, rules) ==> r == s
    decreases |rules|
  {
    if |rules| == 0 then s
    else
      assert rules[0] in rules;
      SubUnchanged(s, rules[0]);
      ApplyAll(Sub(s, rules[0]), rules[1..])
  }

  /** The rules that re-emit an opening quote or parenthesis and insert a rooted
      `/assets/…/` path. */
  predicate Opener(c: char) {
    c == '"' || c == '('
  }

  /** An alternative that keeps an attribute or `url(` ending in an opener and drops
      a slash-terminated directory name. */
  predicate ShapedAlt(a: Alt) {
    |a.keep| > 0 && Opener(a.keep[|a.keep| - 1]) && '/' !in a.keep
    && |a.drop| >= 2 && a.drop[|a.drop| - 1] == '/' && '/' !in a.drop[..|a.drop| - 1]
    && !Opener(a.drop[|a.drop| - 2])
  }

  /** A replacement that is a slash-delimited path without openers. */
  predicate ShapedRep(rep: string) {
    |rep| > 0 && rep[0] == '/' && rep[|rep| - 1] == '/' && '"' !in rep && '(' !in rep
  }

  predicate Shaped(rule: Rule) {
    Consuming(rule) && ShapedRep(rule.rep) && forall a :: a in rule.alts ==> ShapedAlt(a)
  }

  predicate AllShaped(rules: seq<Rule>) {
    forall r :: r in rules ==> Shaped(r)
  }

  /** A character that lower-cases to an opener is that opener. */
  lemma LowerOpener(c: char)
    ensures Opener(LowerChar(c)) <==> Opener(c)
  {
  }

  /** A window that overlaps an inserted replacement cannot match: the replacement
      holds no opener and the text before it ends in one. */
  lemma RepBlocks(t: string, r0: nat, rep: string, b: Alt, j: int)
    requires ShapedAlt(b) && ShapedRep(rep)
    requires 1 <= r0 && r0 + |rep| <= |t| && t[r0..r0 + |rep|] == rep
    requires Opener(LowerChar(t[r0 - 1]))
    requires j < r0 + |rep| && j + |Pat(b)| > r0
    ensures !MatchesAt(t, j, b)
  {
    var p := Pat(b);
    var nk := |b.keep|;
    if 0 <= j && j + |p| <= |t| {
      var q := j + nk - 1;
      assert p[nk - 1] == b.keep[nk - 1];
      if q < r0 {
        var k := r0 - j;
        assert t[r0] == rep[0];
        assert p[k] == b.drop[k - nk];
        if k - nk == |b.drop| - 1 {
          assert p[k - 1] == b.drop[|b.drop| - 2];
          assert LowerChar(t[j + (k - 1)]) != p[k - 1];
        } else {
          assert b.drop[k - nk] in b.drop[..|b.drop| - 1];
          assert LowerChar(t[j + k]) != p[k];
        }
      } else if q < r0 + |rep| {
        assert t[q] == rep[q - r0];
        LowerOpener(t[q]);
        assert LowerChar(t[j + (nk - 1)]) != p[nk - 1];
      } else {
        var k := r0 + |rep| - 1 - j;
        assert t[r0 + |rep| - 1] == rep[|rep| - 1];
        assert p[k] == b.keep[k];
        assert LowerChar(t[j + k]) != p[k];
      }
    }
  }

  /** Two texts that agree on their first `n` characters agree on every window
      inside them. */
  lemma PrefixWindow(x: string, y: string, n: nat, b: Alt, j: int)
    requires n <= |x| && n <= |y| && x[..n] == y[..n] && j + |Pat(b)| <= n
    ensures MatchesAt(x, j, b) <==> MatchesAt(y, j, b)
  {
    if 0 <= j {
      forall i | j <= i < j + |Pat(b)| ensures x[i] == y[i] {
        assert x[..n][i] == y[..n][i];
      }
    }
  }

  /** A window in a suffix is the same window, shifted, in the whole text. */
  lemma SuffixWindow(x: string, off: nat, b: Alt, j: int)
    requires off <= |x| && j >= off
    ensures MatchesAt(x, j, b) <==> MatchesAt(x[off..], j - off, b)
  {
    if MatchesAt(x[off..], j - off, b) {
      forall k | 0 <= k < |Pat(b)| ensures LowerChar(x[j + k]) == Pat(b)[k] {
        assert x[off..][j - off + k] == x[j + k];
      }
    }
  }

  /** A suffix of a text without matches has none either. */
  lemma NoMatchSuffix(x: string, off: nat, b: Alt)
    requires off <= |x| && NoMatch(x, b)
    ensures NoMatch(x[off..], b)
  {
    forall j | 0 <= j <= |x[off..]| ensures !MatchesAt(x[off..], j, b) {
      SuffixWindow(x, off, b, j + off);
    }
  }

  /** Before the end of the kept part of the first match, a window of a shaped
      alternative that the rule clears, or that was absent, does not match: either it
      starts before the first match, or it would end in `/` inside the kept part. */
  lemma KeptWindow(s: string, rule: Rule, b: Alt, m: nat, a: Alt, j: int)
    requires Shaped(rule) && ShapedAlt(b) && a in rule.alts && MatchesAt(s, m, a)
    requires forall i, c :: 0 <= i < m && c in rule.alts ==> !MatchesAt(s, i, c)
    requires b in rule.alts || NoMatch(s, b)
    requires j + |Pat(b)| <= m + |a.keep|
    ensures !MatchesAt(s, j, b)
  {
    if b in rule.alts && m <= j {
      var e := j + |Pat(b)| - 1;
      assert Pat(b)[|Pat(b)| - 1] == '/';
      assert LowerChar(s[m + (e - m)]) == Pat(a)[e - m];
      assert Pat(a)[e - m] == a.keep[e - m];
      assert LowerChar(s[j + (|Pat(b)| - 1)]) != Pat(b)[|Pat(b)| - 1];
    }
  }

  /** No window of the rewritten text matches: windows inside the kept prefix are
      windows of the input, windows touching the replacement are blocked by it, and
      windows after it lie in the rewritten rest. */
  lemma OutWindow(s: string, rule: Rule, b: Alt, m: nat, a: Alt, rest: string, j: int)
    requires Shaped(rule) && ShapedAlt(b) && a in rule.alts && MatchesAt(s, m, a)
    requires forall i, c :: 0 <= i < m && c in rule.alts ==> !MatchesAt(s, i, c)
    requires b in rule.alts || NoMatch(s, b)
    requires NoMatch(rest, b)
    ensures !MatchesAt(s[..m + |a.keep|] + rule.rep + rest, j, b)
  {
    var nA := m + |a.keep|;
    var out := s[..nA] + rule.rep + rest;
    if j + |Pat(b)| <= nA {
      assert out[..nA] == s[..nA];
      PrefixWindow(out, s, nA, b, j);
      KeptWindow(s, rule, b, m, a, j);
    } else if j < nA + |rule.rep| {
      assert out[nA..nA + |rule.rep|] == rule.rep;
      assert out[nA - 1] == s[m + (|a.keep| - 1)];
      assert Pat(a)[|a.keep| - 1] == a.keep[|a.keep| - 1];
      RepBlocks(out, nA, rule.rep, b, j);
    } else {
      assert out[nA + |rule.rep|..] == rest;
      SuffixWindow(out, nA + |rule.rep|, b, j);
    }
  }

  /**
   * One substitution leaves no match of its own alternatives, and creates no match
   * of any other shaped alternative: a match would have to overlap an inserted
   * replacement.
   */
  lemma {:induction false} SubClears(s: string, rule: Rule, b: Alt)
    requires Shaped(rule) && ShapedAlt(b)
    requires b in rule.alts || NoMatch(s, b)
    ensures NoMatch(Sub(s, rule), b)
    decreases |s|
  {
    var fm := FirstMatch(s, rule.alts, 0);
    FirstMatchLeftmost(s, rule.alts, 0);
    if fm.Some? {
      var h := fm.value;
      var rest := s[h.pos + |Pat(h.alt)|..];
      if b !in rule.alts {
        NoMatchSuffix(s, h.pos + |Pat(h.alt)|, b);
      }
      SubClears(rest, rule, b);
      SpliceClears(s, rule, b, h, Sub(rest, rule));
      SubStep(s, rule, h);
    }
  }

  /** The first match's kept part and replacement followed by a rest without
      matches has no match. */
  lemma SpliceClears(s: string, rule: Rule, b: Alt, h: Hit, tail: string)
    requires Shaped(rule) && ShapedAlt(b) && h.alt in rule.alts && MatchesAt(s, h.pos, h.alt)
    requires forall i, c :: 0 <= i < h.pos && c in rule.alts ==> !MatchesAt(s, i, c)
    requires b in rule.alts || NoMatch(s, b)
    requires NoMatch(tail, b)
    ensures NoMatch(Splice(s, h, rule.rep, tail), b)
  {
    forall j | 0 <= j ensures !MatchesAt(Splice(s, h, rule.rep, tail), j, b) {
      OutWindow(s, rule, b, h.pos, h.alt, tail, j);
    }
  }

  /** After all the rules have run, no alternative of any of them matches, and a
      shaped alternative absent at the start stays absent. */
  lemma {:induction false} ApplyAllClears(s: string, rules: seq<Rule>, b: Alt)
    requires AllShaped(rules)
    requires ShapedAlt(b)
    requires NoMatch(s, b) || exists i :: 0 <= i < |rules| && b in rules[i].alts
    ensures NoMatch(ApplyAll(s, rules), b)
    decreases |rules|
  {
    if |rules| > 0 {
      assert rules[0] in rules;
      var t := Sub(s, rules[0]);
      if NoMatch(s, b) || b in rules[0].alts {
        SubClears(s, rules[0], b);
        ApplyAllClears(t, rules[1..], b);
      } else {
        var i :| 0 <= i < |rules| && b in rules[i].alts;
        assert b in rules[1..][i - 1].alts;
        ApplyAllClears(t, rules[1..], b);
      }
    }
  }

  /** The text a match drops holds no character that the dropped pattern lacks. */
  lemma DroppedLacks(s: string, j: nat, a: Alt, c: char)
    requires MatchesAt(s, j, a) && !IsUpper(c) && c !in a.drop
    ensures c !in s[j + |a.keep|..j + |Pat(a)|]
  {
    var mid := s[j + |a.keep|..j + |Pat(a)|];
    forall k | 0 <= k < |mid| ensures mid[k] != c {
      assert mid[k] == s[j + (|a.keep| + k)];
      assert Pat(a)[|a.keep| + k] == a.drop[k];
    }
  }

  /** Counting a character across three consecutive slices. */
  lemma CountSplit(s: string, i: nat, j: nat, c: char)
    requires i <= j <= |s|
    ensures multiset(s)[c] == multiset(s[..i])[c] + multiset(s[i..j])[c] + multiset(s[j..])[c]
  {
    assert s == s[..i] + s[i..j] + s[j..];
  }

  /** Replacing a match's dropped text, which lacks `c`, by a replacement without `c`
      and the rest by text with as many `c` keeps the count of `c`. */
  lemma SpliceKeepsCount(s: string, h: Hit, rep: string, tail: string, c: char)
    requires MatchesAt(s, h.pos, h.alt) && !IsUpper(c) && c !in h.alt.drop && c !in rep
    requires multiset(tail)[c] == multiset(s[h.pos + |Pat(h.alt)|..])[c]
    ensures multiset(Splice(s, h, rep, tail))[c] == multiset(s)[c]
  {
    var nA := h.pos + |h.alt.keep|;
    var nE := h.pos + |Pat(h.alt)|;
    DroppedLacks(s, h.pos, h.alt, c);
    CountSplit(s, nA, nE, c);
    assert Splice(s, h, rep, tail) == s[..nA] + rep + tail;
  }

  /** A rule keeps the count of a character that neither its dropped text nor its
      replacement contains. */
  lemma {:induction false} SubKeepsCount(s: string, rule: Rule, c: char)
    requires Consuming(rule) && !IsUpper(c)
    requires c !in rule.rep && forall a :: a in rule.alts ==> c !in a.drop
    ensures multiset(Sub(s, rule))[c] == multiset(s)[c]
    decreases |s|
  {
    var fm := FirstMatch(s, rule.alts, 0);
    if fm.Some? {
      var h := fm.value;
      var back := s[h.pos + |Pat(h.alt)|..];
      SubKeepsCount(back, rule, c);
      SpliceKeepsCount(s, h, rule.rep, Sub(back, rule), c);
      SubStep(s, rule, h);
    }
  }

  /** The rules applied in turn keep such a character's count. */
  lemma {:induction false} ApplyAllKeepsCount(s: string, rules: seq<Rule>, c: char)
    requires AllConsuming(rules)
    requires !IsUpper(c)
    requires KeepsChar(rules, c)
    ensures multiset(ApplyAll(s, rules))[c] == multiset(s)[c]
    decreases |rules|
  {
    if |rules| > 0 {
      SubKeepsCount(s, rules[0], c);
      ApplyAllKeepsCount(Sub(s, rules[0]), rules[1..], c);
    }
  }

  /** Every alternative of every rule fails to match. */
  predicate Clean(s: string, rules: seq<Rule>) {
    forall i, a :: 0 <= i < |rules| && a in rules[i].alts ==> NoMatch(s, a)
  }

  /** After shaped rules have run in turn, none of them matches anywhere. */
  lemma ApplyAllClean(s: string, rules: seq<Rule>)
    requires AllShaped(rules)
    ensures Clean(ApplyAll(s, rules), rules)
  {
    forall i, a | 0 <= i < |rules| && a in rules[i].alts ensures NoMatch(ApplyAll(s, rules), a) {
      assert rules[i] in rules;
      ApplyAllClears(s, rules, a);
    }
  }

  /** No rule drops or inserts the character `c`. */
  predicate KeepsChar(rules: seq<Rule>, c: char) {
    forall i :: 0 <= i < |rules| ==> c !in rules[i].rep && forall a :: a in rules[i].alts ==> c !in a.drop
  }

  /** `(src|href)="<dir>/`, the attribute and quote written back as found. */
  function AttrRule(dir: string, rep: string): Rule {
    Rule([Alt("src=\"", dir + "/"), Alt("href=\"", dir + "/")], rep)
  }

  /** `url\("?<dir>/` with the `url(` and the optional quote written back as found. */
  function UrlRule(dir: string, rep: string): Rule {
    Rule([Alt("url(\"", dir + "/"), Alt("url(", dir + "/")], rep)
  }

  /** `url\("?<dir>/` replaced, quote or not, by a fixed `url("<rep>`. */
  function UrlRuleAsWritten(dir: string, rep: string): Rule {
    Rule([Alt("", "url(\"" + dir + "/"), Alt("", "url(" + dir + "/")], "url(\"" + rep)
  }

  /** The six rules of `resolve_asset_links`, with the `url(` rules re-emitting the
      quote they found (AsWrittenRules holds the code as it stands). */
  const AssetRules: seq<Rule> := [
    AttrRule("img", "/assets/images/"), AttrRule("css", "/assets/css/"), AttrRule("js", "/assets/js/"),
    UrlRule("img", "/assets/images/"), UrlRule("css", "/assets/css/"), UrlRule("js", "/assets/js/")]

  /** The six rules exactly as compiled: a `url\("?…/` match is replaced by a fixed
      `url("/assets/…/`, quote included. */
  const AsWrittenRules: seq<Rule> := [
    AttrRule("img", "/assets/images/"), AttrRule("css", "/assets/css/"), AttrRule("js", "/assets/js/"),
    UrlRuleAsWritten("img", "/assets/images/"), UrlRuleAsWritten("css", "/assets/css/"),
    UrlRuleAsWritten("js", "/assets/js/")]

  /** A directory name the shape argument accepts: no slash, not ending in an opener. */
  predicate DirName(dir: string) {
    |dir| > 0 && '/' !in dir && !Opener(dir[|dir| - 1])
  }

  /** A shaped alternative: an attribute or `url(` ending in an opener, then a
      directory name and a slash. */
  lemma ShapedAltOf(keep: string, dir: string)
    requires |keep| > 0 && Opener(keep[|keep| - 1]) && '/' !in keep
    requires DirName(dir)
    ensures ShapedAlt(Alt(keep, dir + "/"))
  {
    assert (dir + "/")[..|dir|] == dir;
  }

  lemma AttrRuleShaped(dir: string, rep: string)
    requires DirName(dir) && ShapedRep(rep)
    ensures Shaped(AttrRule(dir, rep))
  {
    ShapedAltOf("src=\"", dir);
    ShapedAltOf("href=\"", dir);
  }

  lemma UrlRuleShaped(dir: string, rep: string)
    requires DirName(dir) && ShapedRep(rep)
    ensures Shaped(UrlRule(dir, rep))
  {
    ShapedAltOf("url(\"", dir);
    ShapedAltOf("url(", dir);
  }

  /** The three directories and their replacements. */
  lemma AssetDirsShaped()
    ensures DirName("img") && DirName("css") && DirName("js")
    ensures ShapedRep("/assets/images/") && ShapedRep("/assets/css/") && ShapedRep("/assets/js/")
  {
  }

  lemma AssetRulesShaped()
    ensures AllShaped(AssetRules)
  {
    AssetDirsShaped();
    AttrRuleShaped("img", "/assets/images/");
    AttrRuleShaped("css", "/assets/css/");
    AttrRuleShaped("js", "/assets/js/");
    UrlRuleShaped("img", "/assets/images/");
    UrlRuleShaped("css", "/assets/css/");
    UrlRuleShaped("js", "/assets/js/");
  }

  /** A rule built from a directory name and replacement without `c` neither drops
      nor inserts `c`. */
  lemma BuiltRuleKeeps(dir: string, rep: string, c: char)
    requires c !in dir && c != '/' && c !in rep
    ensures forall rule :: rule in [AttrRule(dir, rep), UrlRule(dir, rep)] ==>
      c !in rule.rep && forall a :: a in rule.alts ==> c !in a.drop
  {
  }

  /** No rule drops or inserts a double quote. */
  lemma AssetRulesKeepQuotes()
    ensures KeepsChar(AssetRules, '"')
  {
    BuiltRuleKeeps("img", "/assets/images/", '"');
    BuiltRuleKeeps("css", "/assets/css/", '"');
    BuiltRuleKeeps("js", "/assets/js/", '"');
  }

  lemma AsWrittenConsuming()
    ensures AllConsuming(AsWrittenRules)
  {
    AssetRulesShaped();
    ShapedPrefixConsuming(AssetRules, 3);
    var urls := [UrlRuleAsWritten("img", "/assets/images/"), UrlRuleAsWritten("css", "/assets/css/"),
                 UrlRuleAsWritten("js", "/assets/js/")];
    UrlRulesAsWrittenConsuming(urls);
    assert AsWrittenRules == AssetRules[..3] + urls;
    ConsumingConcat(AssetRules[..3], urls);
  }

  lemma ShapedPrefixConsuming(rules: seq<Rule>, n: nat)
    requires AllShaped(rules) && n <= |rules|
    ensures AllConsuming(rules[..n])
  {
    forall r | r in rules[..n] ensures Consuming(r) {
      var i :| 0 <= i < n && rules[..n][i] == r;
      assert rules[i] in rules;
    }
  }

  lemma UrlRulesAsWrittenConsuming(urls: seq<Rule>)
    requires forall i :: 0 <= i < |urls| ==> exists dir, rep :: urls[i] == UrlRuleAsWritten(dir, rep)
    ensures AllConsuming(urls)
  {
    forall r | r in urls ensures Consuming(r) {
      var i :| 0 <= i < |urls| && urls[i] == r;
      var dir, rep :| urls[i] == UrlRuleAsWritten(dir, rep);
      assert |r.alts[0].drop| > 0 && |r.alts[1].drop| > 0;
    }
  }

  lemma ConsumingConcat(a: seq<Rule>, b: seq<Rule>)
    requires AllConsuming(a) && AllConsuming(b)
    ensures AllConsuming(a + b)
  {
  }

  /**
   * `resolve_asset_links` with the quote kept as found: afterwards no rule matches
   * anywhere (a second pass has nothing to do), double quotes are neither added nor
   * removed, and text without a match is returned unchanged.
   */
  function ResolveAssetLinks(html: string): (r: string)
    ensures Clean(r, AssetRules)
    ensures multiset(r)['"'] == multiset(html)['"']
    ensures Clean(html, AssetRules) ==> r == html
  {
    AssetRulesShaped();
    AssetRulesKeepQuotes();
    ApplyAllClean(html, AssetRules);
    ApplyAllKeepsCount(html, AssetRules, '"');
    ApplyAll(html, AssetRules)
  }

  /** Resolving twice is resolving once. */
  lemma ResolveIdempotent(html: string)
    ensures ResolveAssetLinks(ResolveAssetLinks(html)) == ResolveAssetLinks(html)
  {
  }

  // ---------------------------------------------------------------------------
  // The rules as written also leave nothing to match

  /** An as-written `url(` alternative split after its opener, as the shaped
      alternative with the same pattern. */
  function UrlTwin(a: Alt): (b: Alt)
    requires |a.drop| >= 5
    ensures Pat(b) == a.drop
  {
    var n := if a.drop[4] == '"' then 5 else 4;
    assert a.drop == a.drop[..n] + a.drop[n..];
    Alt(a.drop[..n], a.drop[n..])
  }

  /** A rule shaped like the `url(` rules as written: each alternative keeps nothing
      and has a shaped twin, and the replacement is `url("` followed by a shaped path. */
  predicate UrlShaped(rule: Rule) {
    Consuming(rule) && |rule.rep| > 5 && rule.rep[..5] == "url(\"" && ShapedRep(rule.rep[5..])
    && forall a :: a in rule.alts ==> a.keep == "" && |a.drop| >= 5 && ShapedAlt(UrlTwin(a))
  }

  /** The shaped alternative `b` is one of the rule's own, or the twin of one. */
  predicate Owns(rule: Rule, b: Alt) {
    b in rule.alts || (UrlShaped(rule) && exists a :: a in rule.alts && UrlTwin(a) == b)
  }

  /** Two alternatives with the same pattern match at the same places. */
  lemma SamePattern(s: string, a: Alt, b: Alt)
    requires Pat(a) == Pat(b)
    ensures NoMatch(s, a) <==> NoMatch(s, b)
  {
    forall j | 0 <= j <= |s|
      ensures MatchesAt(s, j, a) <==> MatchesAt(s, j, b)
    {
    }
  }

  /** A window of the text an as-written `url(` rule produces does not match a shaped
      alternative: before the match it is a window of the input, one ending inside
      `url("` ends in no slash, one touching the path is blocked by the quote before
      it, and later ones lie in the rewritten rest. */
  lemma UrlOutWindow(s: string, rule: Rule, b: Alt, m: nat, a: Alt, rest: string, j: int)
    requires UrlShaped(rule) && ShapedAlt(b) && a in rule.alts && MatchesAt(s, m, a)
    requires forall i, c :: 0 <= i < m && c in rule.alts ==> !MatchesAt(s, i, c)
    requires NoMatch(s, b) || exists c :: c in rule.alts && Pat(c) == Pat(b)
    requires NoMatch(rest, b)
    ensures !MatchesAt(s[..m] + rule.rep + rest, j, b)
  {
    var e := j + |Pat(b)| - 1;
    if e < m {
      OutBeforeMatch(s, rule, b, m, rest, j);
    } else if e < m + 5 {
      OutInOpener(s, rule, b, m, rest, j);
    } else if j < m + |rule.rep| {
      OutInPath(s, rule, b, m, rest, j);
    } else {
      var out := s[..m] + rule.rep + rest;
      assert out[m + |rule.rep|..] == rest;
      SuffixWindow(out, m + |rule.rep|, b, j);
    }
  }

  /** A window that ends before the match lies in the input, where nothing matched. */
  lemma OutBeforeMatch(s: string, rule: Rule, b: Alt, m: nat, rest: string, j: int)
    requires m <= |s| && |Pat(b)| > 0 && j + |Pat(b)| - 1 < m
    requires forall i, c :: 0 <= i < m && c in rule.alts ==> !MatchesAt(s, i, c)
    requires NoMatch(s, b) || exists c :: c in rule.alts && Pat(c) == Pat(b)
    ensures !MatchesAt(s[..m] + rule.rep + rest, j, b)
  {
    var out := s[..m] + rule.rep + rest;
    assert out[..m] == s[..m];
    PrefixWindow(out, s, m, b, j);
    if !NoMatch(s, b) && 0 <= j {
      var c :| c in rule.alts && Pat(c) == Pat(b);
      assert !MatchesAt(s, j, c);
    }
  }

  /** A window whose last character falls inside `url("` cannot end in the slash every
      shaped pattern ends in. */
  lemma OutInOpener(s: string, rule: Rule, b: Alt, m: nat, rest: string, j: int)
    requires UrlShaped(rule) && ShapedAlt(b)
    requires m <= |s| && m <= j + |Pat(b)| - 1 < m + 5
    ensures !MatchesAt(s[..m] + rule.rep + rest, j, b)
  {
    var out := s[..m] + rule.rep + rest;
    var e := j + |Pat(b)| - 1;
    assert out[e] == rule.rep[..5][e - m];
    assert Pat(b)[|Pat(b)| - 1] == '/';
    assert LowerChar(out[j + (|Pat(b)| - 1)]) != Pat(b)[|Pat(b)| - 1];
  }

  /** A window reaching into the replacement path is blocked by the quote before it. */
  lemma OutInPath(s: string, rule: Rule, b: Alt, m: nat, rest: string, j: int)
    requires UrlShaped(rule) && ShapedAlt(b)
    requires m <= |s| && m + 5 <= j + |Pat(b)| - 1 && j < m + |rule.rep|
    ensures !MatchesAt(s[..m] + rule.rep + rest, j, b)
  {
    var out := s[..m] + rule.rep + rest;
    var path := rule.rep[5..];
    assert out[m + 5..m + 5 + |path|] == path;
    assert out[m + 4] == rule.rep[..5][4];
    RepBlocks(out, m + 5, path, b, j);
  }

  /** One as-written `url(` substitution leaves no match of its own patterns, and
      creates no match of any other shaped alternative. */
  lemma {:induction false} UrlSubClears(s: string, rule: Rule, b: Alt)
    requires UrlShaped(rule) && ShapedAlt(b)
    requires NoMatch(s, b) || exists c :: c in rule.alts && Pat(c) == Pat(b)
    ensures NoMatch(Sub(s, rule), b)
    decreases |s|
  {
    var fm := FirstMatch(s, rule.alts, 0);
    FirstMatchLeftmost(s, rule.alts, 0);
    if fm.Some? {
      var h := fm.value;
      var rest := s[h.pos + |Pat(h.alt)|..];
      if NoMatch(s, b) {
        NoMatchSuffix(s, h.pos + |Pat(h.alt)|, b);
      }
      UrlSubClears(rest, rule, b);
      UrlSpliceClears(s, rule, b, h, Sub(rest, rule));
      SubStep(s, rule, h);
    } else if !NoMatch(s, b) {
      var c :| c in rule.alts && Pat(c) == Pat(b);
      SamePattern(s, c, b);
    }
  }

  /** The as-written replacement of the first match followed by a rest without
      matches has no match. */
  lemma UrlSpliceClears(s: string, rule: Rule, b: Alt, h: Hit, tail: string)
    requires UrlShaped(rule) && ShapedAlt(b) && h.alt in rule.alts && MatchesAt(s, h.pos, h.alt)
    requires forall i, c :: 0 <= i < h.pos && c in rule.alts ==> !MatchesAt(s, i, c)
    requires NoMatch(s, b) || exists c :: c in rule.alts && Pat(c) == Pat(b)
    requires NoMatch(tail, b)
    ensures NoMatch(Splice(s, h, rule.rep, tail), b)
  {
    assert Splice(s, h, rule.rep, tail) == s[..h.pos] + rule.rep + tail;
    forall j | 0 <= j ensures !MatchesAt(s[..h.pos] + rule.rep + tail, j, b) {
      UrlOutWindow(s, rule, b, h.pos, h.alt, tail, j);
    }
  }

  /** A shaped or as-written `url(` rule clears the alternatives it owns and keeps
      absent the shaped ones that were absent. */
  lemma SubClearsEither(s: string, rule: Rule, b: Alt)
    requires Shaped(rule) || UrlShaped(rule)
    requires ShapedAlt(b) && (NoMatch(s, b) || Owns(rule, b))
    ensures NoMatch(Sub(s, rule), b)
  {
    if UrlShaped(rule) {
      if Owns(rule, b) {
        OwnedPattern(rule, b);
      }
      UrlSubClears(s, rule, b);
    } else {
      SubClears(s, rule, b);
    }
  }

  /** An alternative an as-written `url(` rule owns has the pattern of one of its
      alternatives. */
  lemma OwnedPattern(rule: Rule, b: Alt)
    requires UrlShaped(rule) && Owns(rule, b)
    ensures exists c :: c in rule.alts && Pat(c) == Pat(b)
  {
    if b !in rule.alts {
      var a :| a in rule.alts && UrlTwin(a) == b;
      assert Pat(a) == Pat(b);
    }
  }

  predicate AllEitherShaped(rules: seq<Rule>) {
    forall r :: r in rules ==> Shaped(r) || UrlShaped(r)
  }

  /** After all the rules have run, none matches, counting a twin as its original. */
  lemma {:induction false} ApplyAllClearsEither(s: string, rules: seq<Rule>, b: Alt)
    requires AllEitherShaped(rules) && ShapedAlt(b)
    requires NoMatch(s, b) || exists i :: 0 <= i < |rules| && Owns(rules[i], b)
    ensures AllConsuming(rules) && NoMatch(ApplyAll(s, rules), b)
    decreases |rules|
  {
    assert AllConsuming(rules) by {
      forall r | r in rules ensures Consuming(r) {
        assert Shaped(r) || UrlShaped(r);
      }
    }
    if |rules| > 0 {
      assert rules[0] in rules;
      var t := Sub(s, rules[0]);
      if NoMatch(s, b) || Owns(rules[0], b) {
        SubClearsEither(s, rules[0], b);
      } else {
        var i :| 0 <= i < |rules| && Owns(rules[i], b);
        assert Owns(rules[1..][i - 1], b);
      }
      ApplyAllClearsEither(t, rules[1..], b);
    }
  }

  /** The as-written `url(` rule has the shape the argument above needs. */
  lemma UrlRuleAsWrittenShaped(dir: string, rep: string)
    requires DirName(dir) && dir[0] != '"' && ShapedRep(rep)
    ensures UrlShaped(UrlRuleAsWritten(dir, rep))
  {
    var rule := UrlRuleAsWritten(dir, rep);
    assert rule.rep[..5] == "url(\"" && rule.rep[5..] == rep;
    forall a | a in rule.alts ensures a.keep == "" && |a.drop| >= 5 && ShapedAlt(UrlTwin(a)) {
      if a == rule.alts[0] {
        WrittenAltTwin("url(\"", dir);
      } else {
        assert a == rule.alts[1];
        WrittenAltTwin("url(", dir);
      }
    }
  }

  /** An as-written `url(` alternative keeps nothing; its twin splits the opener off. */
  lemma WrittenAltTwin(keep: string, dir: string)
    requires keep == "url(\"" || (keep == "url(" && |dir| > 0 && dir[0] != '"')
    requires DirName(dir)
    ensures var a := Alt("", keep + dir + "/");
            |a.drop| >= 5 && UrlTwin(a) == Alt(keep, dir + "/") && ShapedAlt(UrlTwin(a))
  {
    var d := keep + dir + "/";
    assert d[..|keep|] == keep && d[|keep|..] == dir + "/";
    if keep == "url(" {
      assert d[4] == dir[0];
    } else {
      assert d[4] == '"';
    }
    ShapedAltOf(keep, dir);
  }

  lemma AsWrittenShaped()
    ensures AllEitherShaped(AsWrittenRules)
  {
    AssetRulesShaped();
    assert AsWrittenRules[..3] == AssetRules[..3];
    assert AssetRules[0] in AssetRules && AssetRules[1] in AssetRules && AssetRules[2] in AssetRules;
    AssetDirsShaped();
    UrlRuleAsWrittenShaped("img", "/assets/images/");
    UrlRuleAsWrittenShaped("css", "/assets/css/");
    UrlRuleAsWrittenShaped("js", "/assets/js/");
  }

  /** After the as-written rules have run in turn, none of them matches anywhere. */
  lemma AsWrittenClean(s: string)
    ensures AllConsuming(AsWrittenRules) && Clean(ApplyAll(s, AsWrittenRules), AsWrittenRules)
  {
    AsWrittenShaped();
    AsWrittenConsuming();
    var rules := AsWrittenRules;
    forall i, a | 0 <= i < |rules| && a in rules[i].alts ensures NoMatch(ApplyAll(s, rules), a) {
      ClearsAlt(s, rules, i, a);
    }
  }

  /** After shaped rules have run in turn, no alternative of any of them matches. */
  lemma ClearsAlt(s: string, rules: seq<Rule>, i: int, a: Alt)
    requires AllEitherShaped(rules) && 0 <= i < |rules| && a in rules[i].alts
    ensures NoMatch(ApplyAll(s, rules), a)
  {
    assert rules[i] in rules;
    if UrlShaped(rules[i]) {
      var b := UrlTwin(a);
      assert Owns(rules[i], b);
      ApplyAllClearsEither(s, rules, b);
      SamePattern(ApplyAll(s, rules), a, b);
    } else {
      assert Owns(rules[i], a);
      ApplyAllClearsEither(s, rules, a);
    }
  }

  /**
   * `resolve_asset_links` as written: a bare `url(` gains a quote, but afterwards no
   * rule matches anywhere, so a second pass has nothing to do, and text without a
   * match is returned unchanged.
   */
  function ResolveAssetLinksAsWritten(html: string): (r: string)
    ensures Clean(r, AsWrittenRules)
    ensures Clean(html, AsWrittenRules) ==> r == html
  {
    AsWrittenClean(html);
    ApplyAll(html, AsWrittenRules)
  }

  /** Resolving twice as written is resolving once. */
  lemma ResolveAsWrittenIdempotent(html: string)
    ensures ResolveAssetLinksAsWritten(ResolveAssetLinksAsWritten(html)) == ResolveAssetLinksAsWritten(html)
  {
  }

  /** Text without upper-case letters, which lower-casing leaves as it is. */
  predicate LowerCase(s: string) {
    forall k :: 0 <= k < |s| ==> !IsUpper(s[k])
  }

  /** Lower-case text matches itself at its start. */
  lemma SelfMatch(s: string)
    requires LowerCase(s)
    ensures MatchesAt(s, 0, Alt("", s))
  {
    assert Pat(Alt("", s)) == s;
  }

  /** On a bare `url(<dir>/`, the corrected rule's unquoted alternative matches at the
      start. */
  lemma BareFirstHit(dir: string, rep: string)
    requires LowerCase(dir) && '"' !in dir
    ensures FirstMatch("url(" + dir + "/", UrlRule(dir, rep).alts, 0) == Some(Hit(0, UrlRule(dir, rep).alts[1]))
  {
    var html := "url(" + dir + "/";
    var rule := UrlRule(dir, rep);
    BareUrlLower(dir);
    assert Pat(rule.alts[1]) == html;
    SelfMatch(html);
    assert MatchesAt(html, 0, rule.alts[1]);
    assert html[4] != '"' && LowerChar(html[4]) != Pat(rule.alts[0])[4];
    assert AltAt(html, 0, rule.alts) == Some(rule.alts[1]);
  }

  /** The empty text is left as it is. */
  lemma SubEmpty(rule: Rule)
    requires Consuming(rule)
    ensures Sub("", rule) == ""
  {
    assert AltAt("", 0, rule.alts) == None;
  }

  /** The bare `url(<dir>/` is lower case when the directory name is. */
  lemma BareUrlLower(dir: string)
    requires LowerCase(dir)
    ensures LowerCase("url(" + dir + "/")
  {
    var html := "url(" + dir + "/";
    forall k | 0 <= k < |html| ensures !IsUpper(html[k]) {
      if 4 <= k < 4 + |dir| {
        assert html[k] == dir[k - 4];
      }
    }
  }

  /**
   * The `url\("?<dir>/` rule as written, on a bare `url(<dir>/` (as in
   * `url(img/a.png)`): the unquoted alternative matches, and the text becomes
   * `url("<rep>` — one double quote more, with no closing partner.
   */
  lemma UrlAsWrittenAddsQuote(dir: string, rep: string)
    requires LowerCase(dir) && '"' !in dir && '"' !in rep
    ensures Sub("url(" + dir + "/", UrlRuleAsWritten(dir, rep)) == "url(\"" + rep
    ensures multiset(Sub("url(" + dir + "/", UrlRuleAsWritten(dir, rep)))['"']
      == multiset("url(" + dir + "/")['"'] + 1
  {
    AsWrittenRewritten(dir, rep);
    NoQuoteCount("url(", dir, "/");
    OneQuoteAhead(rep);
  }

  /** The as-written rule turns the whole bare `url(<dir>/` into its fixed replacement. */
  lemma AsWrittenRewritten(dir: string, rep: string)
    requires LowerCase(dir) && '"' !in dir
    ensures Sub("url(" + dir + "/", UrlRuleAsWritten(dir, rep)) == "url(\"" + rep
  {
    var html := "url(" + dir + "/";
    var rule := UrlRuleAsWritten(dir, rep);
    var h := Hit(0, rule.alts[1]);
    AsWrittenFirstHit(dir, rep);
    assert Consuming(rule) && Pat(h.alt) == html;
    WholeMatchSub(html, rule, h);
  }

  /** On a bare `url(<dir>/` the as-written rule's quoted alternative fails and the
      unquoted one matches at the start. */
  lemma AsWrittenFirstHit(dir: string, rep: string)
    requires LowerCase(dir) && '"' !in dir
    ensures FirstMatch("url(" + dir + "/", UrlRuleAsWritten(dir, rep).alts, 0)
            == Some(Hit(0, UrlRuleAsWritten(dir, rep).alts[1]))
  {
    var html := "url(" + dir + "/";
    var rule := UrlRuleAsWritten(dir, rep);
    BareUrlLower(dir);
    SelfMatch(html);
    assert rule.alts[1] == Alt("", html);
    assert !MatchesAt(html, 0, rule.alts[0]);
    assert AltAt(html, 0, rule.alts) == Some(rule.alts[1]);
  }

  /** `url("` followed by a quote-free text holds exactly one quote. */
  lemma OneQuoteAhead(rep: string)
    requires '"' !in rep
    ensures multiset("url(\"" + rep)['"'] == 1
  {
    assert multiset("url(\"" + rep) == multiset("url(\"") + multiset(rep);
  }

  /** The corrected rule on the same bare `url(<dir>/` writes `url(` back without a
      quote: `url(<rep>`. */
  lemma UrlRuleKeepsBare(dir: string, rep: string)
    requires LowerCase(dir) && '"' !in dir && ShapedRep(rep)
    ensures Sub("url(" + dir + "/", UrlRule(dir, rep)) == "url(" + rep
    ensures multiset(Sub("url(" + dir + "/", UrlRule(dir, rep)))['"'] == multiset("url(" + dir + "/")['"']
  {
    BareUrlRewritten(dir, rep);
    NoQuoteCount("url(", rep, "");
    NoQuoteCount("url(", dir, "/");
  }

  lemma BareUrlRewritten(dir: string, rep: string)
    requires LowerCase(dir) && '"' !in dir
    ensures Sub("url(" + dir + "/", UrlRule(dir, rep)) == "url(" + rep
  {
    var html := "url(" + dir + "/";
    var rule := UrlRule(dir, rep);
    var h := Hit(0, rule.alts[1]);
    BareFirstHit(dir, rep);
    BareHitShape(dir, rep, html, h);
    WholeMatchSub(html, rule, h);
    SpliceWhole(html, h, rep);
  }

  /** The bare alternative's hit covers the whole `url(<dir>/`. */
  lemma BareHitShape(dir: string, rep: string, html: string, h: Hit)
    requires html == "url(" + dir + "/" && h == Hit(0, UrlRule(dir, rep).alts[1])
    ensures Consuming(UrlRule(dir, rep)) && h.pos + |Pat(h.alt)| == |html|
    ensures |html| >= 4 && html[..4] == "url(" && h == Hit(0, Alt("url(", html[4..]))
  {
    assert html[4..] == dir + "/";
  }

  /** A first match that runs to the end of the text leaves only its splice. */
  lemma WholeMatchSub(s: string, rule: Rule, h: Hit)
    requires Consuming(rule) && FirstMatch(s, rule.alts, 0) == Some(h)
    requires h.pos + |Pat(h.alt)| == |s|
    ensures Sub(s, rule) == Splice(s, h, rule.rep, "")
  {
    SubStep(s, rule, h);
    assert s[h.pos + |Pat(h.alt)|..] == "";
    SubEmpty(rule);
  }

  lemma SpliceWhole(html: string, h: Hit, rep: string)
    requires |html| >= 4 && html[..4] == "url(" && h == Hit(0, Alt("url(", html[4..]))
    ensures Splice(html, h, rep, "") == "url(" + rep
  {
  }

  lemma NoQuoteCount(a: string, b: string, c: string)
    requires '"' !in a && '"' !in b && '"' !in c
    ensures multiset(a + b + c)['"'] == 0 && multiset(a + b)['"'] == 0
  {
  }

  // ---------------------------------------------------------------------------
  // Writing pages

  /** The output tree: file contents by path, and the paths that cannot be opened for
      writing or renamed onto (a directory in the way, no permission). */
  datatype Disk = Disk(files: map<Path, string>, failing: set<Path>)

  /** The tree after a write, and the error the write raised, if any. */
  datatype Written = Written(disk: Disk, error: Option<Error>)

  /** What a path holds, if anything. */
  function Contents(d: Disk, p: Path): Option<string> {
    if p in d.files then Some(d.files[p]) else None
  }

  /** The temporary file a page is first written to. */
  function TempPath(p: Path): (r: Path)
    ensures r != p && StartsWith(r, p)
  {
    PrefixOfConcat(p, ".tmp");
    p + ".tmp"
  }

  /**
   * `open(path + ".tmp", "w").write(content)` followed by `os.rename` onto `path`.
   * The target holds either its old contents or all of the new ones; after a
   * successful write the temporary file is gone, and no other path changes.
   */
  function WriteAtomically(d: Disk, path: Path, content: string): (w: Written)
    ensures w.error.None? <==> TempPath(path) !in d.failing && path !in d.failing
    ensures w.error.Some? ==> w.error.value.OSError?
    ensures w.error.None? ==> Contents(w.disk, path) == Some(content) && TempPath(path) !in w.disk.files
    ensures w.error.Some? ==> Contents(w.disk, path) == Contents(d, path)
    ensures forall q :: q != path && q != TempPath(path) ==> Contents(w.disk, q) == Contents(d, q)
    ensures w.disk.failing == d.failing
  {
    var tmp := TempPath(path);
    if tmp in d.failing then Written(d, Some(OSError(tmp)))
    else
      var staged := d.(files := d.files[tmp := content]);
      if path in d.failing then Written(staged, Some(OSError(path)))
      else Written(staged.(files := (staged.files - {tmp})[path := content]), None)
  }

  /** Writing the same content twice leaves the tree as one write does. */
  lemma WriteAtomicallyIdempotent(d: Disk, path: Path, content: string)
    requires WriteAtomically(d, path, content).error.None?
    ensures WriteAtomically(WriteAtomically(d, path, content).disk, path, content) == WriteAtomically(d, path, content)
  {
    var w := WriteAtomically(d, path, content);
    var w2 := WriteAtomically(w.disk, path, content);
    assert w2.disk.files == w.disk.files;
  }

  /**
   * `generate_page`: the rendered page, with its asset links resolved, written
   * atomically to the file the sub-directory selects. A rendering error and a
   * filesystem error are both raised to the caller; after a filesystem error the
   * target still holds what it held before.
   */
  function GeneratePage(d: Disk, outputDir: Path, outputPath: Path, subdir: Option<string>,
                        rendered: Result<string>): (w: Written)
    ensures rendered.Err? ==> w == Written(d, Some(rendered.error))
    ensures rendered.Ok? && w.error.None? ==>
      Contents(w.disk, GeneratedPath(outputDir, outputPath, subdir)) == Some(ResolveAssetLinksAsWritten(rendered.value))
    ensures rendered.Ok? && w.error.Some? ==>
      w.error.value.OSError? && Contents(w.disk, GeneratedPath(outputDir, outputPath, subdir))
                                == Contents(d, GeneratedPath(outputDir, outputPath, subdir))
    ensures var file := GeneratedPath(outputDir, outputPath, subdir);
            rendered.Ok? ==> (w.error.None? <==> file !in d.failing && TempPath(file) !in d.failing)
    ensures var file := GeneratedPath(outputDir, outputPath, subdir);
            forall q :: q != file && q != TempPath(file) ==> Contents(w.disk, q) == Contents(d, q)
  {
    match rendered
    case Err(e) => Written(d, Some(e))
    case Ok(html) => WriteAtomically(d, GeneratedPath(outputDir, outputPath, subdir), ResolveAssetLinksAsWritten(html))
  }

  /** A page `generate_page` wrote successfully has no asset link left to resolve. */
  lemma GeneratedPageResolved(d: Disk, outputDir: Path, outputPath: Path, subdir: Option<string>, html: string)
    requires GeneratePage(d, outputDir, outputPath, subdir, Ok(html)).error.None?
    ensures var w := GeneratePage(d, outputDir, outputPath, subdir, Ok(html));
            var page := Contents(w.disk, GeneratedPath(outputDir, outputPath, subdir)).value;
            Clean(page, AsWrittenRules) && ResolveAssetLinksAsWritten(page) == page
  {
  }

  // ---------------------------------------------------------------------------
  // Game pages

  /** `canonical_url` of a game page: the site URL, the sub-directory, and
      `<slug>.html`. */
  function GameCanonical(siteUrl: string, subdir: string, slug: string): (r: string)
    ensures StartsWith(r, siteUrl) && EndsWith(r, slug + ".html")
  {
    var rel := subdir + "/" + slug + ".html";
    PrefixOfConcat(siteUrl, rel);
    assert (siteUrl + rel)[|siteUrl + rel| - |slug + ".html"|..] == slug + ".html";
    siteUrl + rel
  }

  /** The game file `generate_game_page` writes: `<slug>.html` inside the
      sub-directory. */
  function GamePageFile(outputDir: Path, subdir: string, slug: string): Path {
    JoinPath(JoinPath(outputDir, subdir), slug + ".html")
  }

  /** The canonical URL of a game page is the site URL followed by the page's path
      relative to the output directory. */
  lemma GameCanonicalNamesFile(siteUrl: string, outputDir: Path, subdir: string, slug: string)
    requires outputDir != "" && !EndsWith(outputDir, "/")
    requires subdir != "" && !StartsWith(subdir, "/") && !EndsWith(subdir, "/")
    requires !StartsWith(slug + ".html", "/")
    ensures var rel := subdir + "/" + slug + ".html";
            GamePageFile(outputDir, subdir, slug) == outputDir + "/" + rel
            && GameCanonical(siteUrl, subdir, slug) == siteUrl + rel
  {
    assert outputDir[|outputDir| - 1..] == [outputDir[|outputDir| - 1]];
    DirPrefixAddsSlash(outputDir);
    JoinRelative(outputDir, subdir);
    var dir := JoinPath(outputDir, subdir);
    assert dir == outputDir + "/" + subdir;
    var last := subdir[|subdir| - 1];
    assert subdir[|subdir| - 1..] == [last];
    assert dir[|dir| - 1] == last;
    DirPrefixAddsSlash(dir);
    JoinRelative(dir, slug + ".html");
    assert GamePageFile(outputDir, subdir, slug) == dir + "/" + (slug + ".html");
  }

  /** What the game page's template is given (the remaining entries — the site
      settings, the game list, breadcrumbs and ad settings — pass through unchanged). */
  datatype GameContext = GameContext(
    pageTitle: string,
    description: Option<string>,
    canonical: string,
    currentPage: string,
    embedUrl: string,
    hero: Option<string>,
    content: string)

  /** The context `generate_game_page` builds for one game. */
  function GamePageContext(siteUrl: string, subdir: string, g: Game): (c: GameContext)
    ensures c.pageTitle == g.title && c.currentPage == g.slug && c.embedUrl == g.embed
    ensures c.description == g.description && c.hero == g.hero && c.content == g.content
    ensures c.canonical == GameCanonical(siteUrl, subdir, g.slug)
  {
    GameContext(g.title, g.description, GameCanonical(siteUrl, subdir, g.slug), g.slug, g.embed, g.hero, g.content)
  }

  /**
   * `generate_game_page`: like `generate_page`, but every error is logged and
   * swallowed, so the caller always goes on with the tree as the attempt left it.
   * The game's file then holds either its old contents or the resolved page.
   */
  function GenerateGamePage(d: Disk, outputDir: Path, siteUrl: string, g: Game, subdir: string,
                            render: GameContext -> Result<string>): (r: Disk)
    ensures var file := GamePageFile(outputDir, subdir, g.slug);
            var rendered := render(GamePageContext(siteUrl, subdir, g));
            Contents(r, file) == Contents(d, file)
            || (rendered.Ok? && Contents(r, file) == Some(ResolveAssetLinksAsWritten(rendered.value)))
    ensures render(GamePageContext(siteUrl, subdir, g)).Err? ==> r == d
    ensures var file := GamePageFile(outputDir, subdir, g.slug);
            var rendered := render(GamePageContext(siteUrl, subdir, g));
            rendered.Ok? && file !in d.failing && TempPath(file) !in d.failing ==>
              Contents(r, file) == Some(ResolveAssetLinksAsWritten(rendered.value))
    ensures var file := GamePageFile(outputDir, subdir, g.slug);
            file in d.failing || TempPath(file) in d.failing ==> Contents(r, file) == Contents(d, file)
    ensures var file := GamePageFile(outputDir, subdir, g.slug);
            forall q :: q != file && q != TempPath(file) ==> Contents(r, q) == Contents(d, q)
    ensures r.failing == d.failing
  {
    match render(GamePageContext(siteUrl, subdir, g))
    case Err(_) => d
    case Ok(html) => WriteAtomically(d, GamePageFile(outputDir, subdir, g.slug), ResolveAssetLinksAsWritten(html)).disk
  }

  // ---------------------------------------------------------------------------
  // Games listing

  /** One card of the games listing. */
  datatype ListingEntry = ListingEntry(title: string, url: string, image: string)

  /** The listing URL of a game page. */
  function ListingUrl(slug: string): (r: string)
    ensures StartsWith(r, "/games/") && EndsWith(r, ".html")
  {
    var r := "/games/" + slug + ".html";
    PrefixOfConcat("/games/", slug + ".html");
    assert r == "/games/" + (slug + ".html");
    assert r[|r| - 5..] == ".html";
    r
  }

  /** The card of one game: its title, `/games/<slug>.html`, and the formatted meta
      logo or, failing that, hero image. */
  function ListingEntryOf(g: Game): (e: ListingEntry)
    ensures e.title == g.title && e.url == ListingUrl(g.slug)
    ensures StartsWith(e.image, "/assets/")
    ensures MetaText(g.meta, "logo").Some? ==> e.image == FormatImagePath(MetaText(g.meta, "logo"))
    ensures MetaText(g.meta, "logo").None? ==> e.image == FormatImagePath(g.hero)
  {
    ListingEntry(g.title, ListingUrl(g.slug), FormatImagePath(OrElse(MetaText(g.meta, "logo"), g.hero)))
  }

  /** The listing cards, one per game in order. */
  function ListingEntries(games: seq<Game>): (r: seq<ListingEntry>)
    ensures |r| == |games| && forall i :: 0 <= i < |r| ==> r[i] == ListingEntryOf(games[i])
  {
    seq(|games|, i requires 0 <= i < |games| => ListingEntryOf(games[i]))
  }

  /** Distinct slugs give distinct listing URLs. */
  lemma ListingUrlInjective(a: string, b: string)
    requires ListingUrl(a) == ListingUrl(b)
    ensures a == b
  {
    assert ListingUrl(a)[7..|ListingUrl(a)| - 5] == a;
    assert ListingUrl(b)[7..|ListingUrl(b)| - 5] == b;
  }

  /** The template for the listing: `games_list.html` if it loads, else
      `page.html`, else none (and nothing is written). */
  function ListingTemplate(loadable: set<string>): (r: Option<string>)
    ensures r.Some? <==> "games_list.html" in loadable || "page.html" in loadable
    ensures "games_list.html" in loadable ==> r == Some("games_list.html")
    ensures r.Some? ==> r.value in loadable
  {
    if "games_list.html" in loadable then Some("games_list.html")
    else if "page.html" in loadable then Some("page.html")
    else None
  }

  /** What the listing template is given, apart from the site settings. */
  datatype ListingContext = ListingContext(canonical: string, entries: seq<ListingEntry>)

  /**
   * `generate_games_listing`: `games.html` in the output directory, rendered from the
   * first template that loads and written atomically — without the asset-link
   * rewrite. Missing templates, rendering errors and filesystem errors are all
   * swallowed.
   */
  function GenerateGamesListing(d: Disk, outputDir: Path, siteUrl: string, games: seq<Game>,
                                loadable: set<string>,
                                render: (string, ListingContext) -> Result<string>): (r: Disk)
    ensures var file := JoinPath(outputDir, "games.html");
            var ctx := ListingContext(siteUrl + "games.html", ListingEntries(games));
            ListingTemplate(loadable).None? ==> r == d
    ensures var file := JoinPath(outputDir, "games.html");
            var ctx := ListingContext(siteUrl + "games.html", ListingEntries(games));
            ListingTemplate(loadable).Some? ==>
              Contents(r, file) == Contents(d, file)
              || (render(ListingTemplate(loadable).value, ctx).Ok?
                  && Contents(r, file) == Some(render(ListingTemplate(loadable).value, ctx).value))
    ensures var file := JoinPath(outputDir, "games.html");
            var ctx := ListingContext(siteUrl + "games.html", ListingEntries(games));
            ListingTemplate(loadable).Some? && render(ListingTemplate(loadable).value, ctx).Ok?
            && file !in d.failing && TempPath(file) !in d.failing ==>
              Contents(r, file) == Some(render(ListingTemplate(loadable).value, ctx).value)
    ensures var file := JoinPath(outputDir, "games.html");
            file in d.failing || TempPath(file) in d.failing ==> Contents(r, file) == Contents(d, file)
    ensures var file := JoinPath(outputDir, "games.html");
            forall q :: q != file && q != TempPath(file) ==> Contents(r, q) == Contents(d, q)
    ensures r.failing == d.failing
  {
    match ListingTemplate(loadable)
    case None => d
    case Some(t) =>
      match render(t, ListingContext(siteUrl + "games.html", ListingEntries(games)))
      case Err(_) => d
      case Ok(html) => WriteAtomically(d, JoinPath(outputDir, "games.html"), html).disk
  }

  /** Every listing link names the page the crawler finds for the game's file
      `games/<slug>.html` (slugs are file stems: no separators; `index` would be read
      as the directory page `/games/`). */
  lemma ListingUrlIsCrawlerUrl(slug: string)
    requires '/' !in slug && '\\' !in slug && slug != "index"
    ensures SiteCrawler.FileToUrl("games/" + slug + ".html") == Some(ListingUrl(slug))
  {
    var fp := "games/" + slug + ".html";
    GameFileShape(slug);
    GameFileNotSpecial(fp);
    GameFileNotIndex(slug);
    SiteCrawler.PlainHtmlUrl(fp);
    ListingUrlRoots(slug);
  }

  /** A file under `games/` is none of the special root pages. */
  lemma GameFileNotSpecial(fp: string)
    requires |fp| >= 6 && fp[..6] == "games/"
    ensures fp != "index.html" && fp != "404.html" && fp != "offline.html"
  {
    assert fp[0] == 'g';
    assert "index.html"[0] == 'i' && "404.html"[0] == '4' && "offline.html"[0] == 'o';
  }

  lemma ListingUrlRoots(slug: string)
    ensures ListingUrl(slug) == "/" + ("games/" + slug + ".html")
  {
  }

  lemma GameFileShape(slug: string)
    requires '\\' !in slug
    ensures var fp := "games/" + slug + ".html";
            '\\' !in fp && EndsWith(fp, ".html") && fp[..6] == "games/"
  {
    var fp := "games/" + slug + ".html";
    forall i | 0 <= i < |fp| ensures fp[i] != '\\' {
      if 6 <= i < 6 + |slug| {
        assert fp[i] == slug[i - 6];
      }
    }
    assert fp[|fp| - 5..] == ".html";
  }

  /** A game file is not a directory page unless the slug is `index`. */
  lemma GameFileNotIndex(slug: string)
    requires '/' !in slug && slug != "index"
    ensures !EndsWith("games/" + slug + ".html", "/index.html")
  {
    var fp := "games/" + slug + ".html";
    var tail := fp[|fp| - 11..];
    if |slug| == 5 {
      assert fp[6..11] == slug;
      assert exists i :: 0 <= i < 5 && slug[i] != "index"[i];
      var i :| 0 <= i < 5 && slug[i] != "index"[i];
      assert tail[1 + i] == slug[i];
      assert tail[1 + i] != "/index.html"[1 + i];
    } else if |slug| > 5 {
      assert tail[0] == slug[|slug| - 6];
      assert tail[0] != '/';
    } else {
      assert tail[0] == "games/"[|slug|];
      assert tail[0] != '/';
    }
  }
}

=== FILE: paths.dfy ===
/**
 * POSIX `os.path` helpers and the abstract filesystem the generator reads.
 *
 * A filesystem is a map from path to node together with the order in which a
 * directory walk visits paths; the order is whatever the operating system yields
 * and the model only takes it as given.
 */
module Paths {
  import opened Wrappers
  import opened Strings

  type Path = string

  /** One filesystem entry. `digest` is the SHA-256 hex digest of a file's bytes, or
      None when the file cannot be opened for reading. */
  datatype Node =
    | File(mtime: int, size: nat, digest: Option<string>)
    | Dir(mtime: int, size: nat)

  datatype FileSystem = FileSystem(nodes: map<Path, Node>, order: seq<Path>)

  /** `os.path.exists`. */
  predicate Exists(fs: FileSystem, p: Path) {
    p in fs.nodes
  }

  /** `os.path.isfile`. */
  predicate IsFile(fs: FileSystem, p: Path) {
    p in fs.nodes && fs.nodes[p].File?
  }

  /** The walk order lists every path of the filesystem exactly once. */
  predicate WellFormed(fs: FileSystem) {
    (forall i :: 0 <= i < |fs.order| ==> fs.order[i] in fs.nodes)
    && (forall p :: p in fs.nodes ==> p in fs.order)
    && (forall i, j :: 0 <= i < j < |fs.order| ==> fs.order[i] != fs.order[j])
  }

  /** `os.path.join(a, b)` for two components. */
  function JoinPath(a: Path, b: Path): (r: Path)
    ensures StartsWith(b, "/") ==> r == b
    ensures !StartsWith(b, "/") ==> EndsWith(r, b) && StartsWith(r, a)
  {
    if StartsWith(b, "/") then b
    else if a == "" || EndsWith(a, "/") then a + b
    else a + "/" + b
  }

  /** `os.path.basename`: everything after the last slash. */
  function Basename(p: Path): (r: Path)
    ensures '/' !in r
    ensures EndsWith(p, r)
    ensures |r| < |p| ==> p[|p| - |r| - 1] == '/'
  {
    match LastIndexOf(p, '/')
    case None => p
    case Some(i) => p[i + 1..]
  }

  /** The part of `splitext(p)[1]` search that Python performs: the last dot of the base
      name, provided some character before it is not a dot. */
  function ExtIndex(b: string): (r: Option<nat>)
    ensures r.Some? ==> r.value < |b| && b[r.value] == '.'
  {
    match LastIndexOf(b, '.')
    case None => None
    case Some(i) => if exists j :: 0 <= j < i && b[j] != '.' then Some(i) else None
  }

  /** `os.path.splitext(p)[1]`: the extension including its dot, or "". */
  function Ext(p: Path): (r: string)
    ensures r == "" || (r[0] == '.' && EndsWith(p, r) && '/' !in r)
  {
    var b := Basename(p);
    match ExtIndex(b)
    case None => ""
    case Some(i) => b[i..]
  }

  /** Some dot of `b` follows a character other than a dot. */
  predicate HasInnerDot(b: string) {
    exists i, j :: 0 <= j < i < |b| && b[i] == '.' && b[j] != '.'
  }

  /** `r` is the text of `b` from its last dot. */
  predicate FromLastDot(b: string, r: string) {
    EndsWith(b, r) && |r| > 0 && r[0] == '.' && forall m :: 1 <= m < |r| ==> r[m] != '.'
  }

  /** The extension is the base name's text from its last dot, and there is one exactly
      when some dot of the base name follows a character other than a dot. */
  lemma ExtIsLastDot(p: Path)
    ensures Ext(p) != "" ==> FromLastDot(Basename(p), Ext(p))
    ensures Ext(p) != "" <==> HasInnerDot(Basename(p))
  {
    var b := Basename(p);
    ExtIndexInner(b);
    match ExtIndex(b)
    case None =>
      assert Ext(p) == "";
    case Some(k) =>
      SuffixFromLastDot(b, k);
      assert Ext(p) == b[k..];
  }

  /** The extension's index exists exactly when some dot follows a character other than
      a dot, and it is then the last dot. */
  lemma ExtIndexInner(b: string)
    ensures ExtIndex(b).Some? <==> HasInnerDot(b)
    ensures ExtIndex(b).Some? ==> LastIndexOf(b, '.') == Some(ExtIndex(b).value)
  {
    match LastIndexOf(b, '.')
    case None =>
      NoDotNoInner(b);
    case Some(k) =>
      InnerDotBeforeLast(b, k);
  }

  lemma NoDotNoInner(b: string)
    requires LastIndexOf(b, '.').None?
    ensures !HasInnerDot(b)
  {
  }

  lemma InnerDotBeforeLast(b: string, k: nat)
    requires LastIndexOf(b, '.') == Some(k)
    ensures HasInnerDot(b) <==> exists j :: 0 <= j < k && b[j] != '.'
  {
    if HasInnerDot(b) {
      var i, j :| 0 <= j < i < |b| && b[i] == '.' && b[j] != '.';
      assert i <= k;
    }
    if exists j :: 0 <= j < k && b[j] != '.' {
      var j :| 0 <= j < k && b[j] != '.';
      assert b[k] == '.';
    }
  }

  lemma SuffixFromLastDot(b: string, k: nat)
    requires LastIndexOf(b, '.') == Some(k)
    ensures FromLastDot(b, b[k..])
  {
    var r := b[k..];
    forall m | 1 <= m < |r| ensures r[m] != '.' {
      assert r[m] == b[k + m];
    }
    assert b[|b| - |r|..] == r;
  }

  /** Cutting a suffix off and putting it back gives the text again. */
  lemma SplitAtSuffix(p: string, e: string)
    requires EndsWith(p, e)
    ensures p[..|p| - |e|] + e == p
  {
    assert p == p[..|p| - |e|] + p[|p| - |e|..];
  }

  /** `os.path.splitext(p)[0]`. */
  function Stem(p: Path): (r: Path)
    ensures r + Ext(p) == p
  {
    var e := Ext(p);
    SplitAtSuffix(p, e);
    p[..|p| - |e|]
  }

  /** The prefix that `os.path.join(dir, name)` puts in front of `name`. */
  function DirPrefix(dir: Path): Path {
    JoinPath(dir, "")
  }

  /** The directory prefix is empty or ends in a slash. */
  lemma DirPrefixEnd(dir: Path)
    ensures var d := DirPrefix(dir); |d| == 0 || d[|d| - 1] == '/'
  {
    var d := DirPrefix(dir);
    if dir != "" && EndsWith(dir, "/") {
      assert d == dir;
      assert dir[|dir| - 1..][0] == dir[|dir| - 1];
    } else if dir != "" {
      assert d == dir + "/";
    }
  }

  /** Joining a relative name is appending it to the directory prefix. */
  lemma JoinRelative(a: Path, b: Path)
    requires !StartsWith(b, "/")
    ensures JoinPath(a, b) == DirPrefix(a) + b
  {
  }

  /** A non-empty directory name without a trailing slash gets one. */
  lemma DirPrefixAddsSlash(x: Path)
    requires x != "" && x[|x| - 1] != '/'
    ensures DirPrefix(x) == x + "/"
  {
  }

  /** `p` lies strictly below directory `dir`. */
  predicate Under(p: Path, dir: Path) {
    StartsWith(p, DirPrefix(dir)) && |p| > |DirPrefix(dir)|
  }

  /** A non-empty name joined below a directory without a trailing slash lies below
      it, and its relative path is that name. */
  lemma ChildRel(dir: Path, rel: Path)
    requires dir != "" && !EndsWith(dir, "/") && rel != ""
    ensures Under(dir + "/" + rel, dir) && RelPath(dir + "/" + rel, dir) == rel
  {
    assert DirPrefix(dir) == dir + "/";
    var p := dir + "/" + rel;
    assert p[..|dir| + 1] == dir + "/";
  }

  /** `os.path.relpath(p, dir)` for a path below `dir`. */
  function RelPath(p: Path, dir: Path): (r: Path)
    requires Under(p, dir)
    ensures JoinPath(dir, r) == p || StartsWith(r, "/")
  {
    p[|DirPrefix(dir)|..]
  }

  /** No component of the relative path starts with a dot (what `glob` skips). */
  predicate Visible(rel: Path) {
    (|rel| == 0 || rel[0] != '.')
    && forall i :: 0 < i < |rel| && rel[i - 1] == '/' ==> rel[i] != '.'
  }

  /** The file name patterns the generator hands to `glob`. */
  datatype Pattern =
    | Everything            // '*', which the build cache turns into a full walk
    | EndingWith(suffix: string)  // '*.css' and the like
    | Named(name: string)   // a literal file name such as 'favicon.ico'

  predicate NameMatches(name: string, pat: Pattern) {
    match pat
    case Everything => true
    case EndingWith(suffix) => EndsWith(name, suffix)
    case Named(n) => name == n
  }

  /** `p` is yielded by `glob(os.path.join(dir, '**', pat), recursive=True)`. */
  predicate GlobMatch(fs: FileSystem, dir: Path, pat: Pattern, p: Path) {
    Exists(fs, p) && Under(p, dir) && Visible(RelPath(p, dir)) && NameMatches(Basename(p), pat)
  }

  /** The glob's results, in walk order. */
  function Glob(fs: FileSystem, dir: Path, pat: Pattern): (r: seq<Path>)
    ensures forall p :: p in r <==> p in fs.order && GlobMatch(fs, dir, pat, p)
  {
    GlobFrom(fs, fs.order, dir, pat)
  }

  function GlobFrom(fs: FileSystem, ps: seq<Path>, dir: Path, pat: Pattern): (r: seq<Path>)
    ensures forall p :: p in r <==> p in ps && GlobMatch(fs, dir, pat, p)
    ensures |r| <= |ps|
  {
    if |ps| == 0 then []
    else
      (if GlobMatch(fs, dir, pat, ps[0]) then [ps[0]] else [])
      + GlobFrom(fs, ps[1..], dir, pat)
  }

  /** The regular files below `dir`, in walk order (`os.walk`, hidden files included). */
  function WalkFiles(fs: FileSystem, ps: seq<Path>, dir: Path): (r: seq<Path>)
    ensures forall p :: p in r <==> p in ps && IsFile(fs, p) && Under(p, dir)
    ensures |r| <= |ps|
  {
    if |ps| == 0 then []
    else
      (if IsFile(fs, ps[0]) && Under(ps[0], dir) then [ps[0]] else [])
      + WalkFiles(fs, ps[1..], dir)
  }
}

=== FILE: seo_manager.dfy ===
/**
 * `SEOManager` (core/seo_manager.py): the sitemap entry list before it is serialised
 * to XML, the PWA icon and screenshot lists of the manifest, the breadcrumb schema and
 * the rating of the software-application schema.
 *
 * The build date and the SHA-256 value of a slug are not computed here: `today` and
 * `h` (the first 32 bits of the digest) are parameters. `urljoin` is the parameter
 * `join`, as in `UrlUtils`.
 */
module SeoManager {
  import opened Wrappers
  import opened Strings
  import opened UrlUtils
  import GameManager
  import PageBuilder

  /** The manager's own `site_url.rstrip('/') + '/'` and the one its URL builder makes
      from the raw value are the same: normalising twice changes nothing. */
  lemma SiteUrlStable(raw: string)
    ensures SiteUrl(SiteUrl(raw)) == SiteUrl(raw)
  {
    var s := RStrip(raw, '/');
    var t := s + "/";
    assert RStrip(t, '/') == RStrip(t[..|t| - 1], '/') by {
      assert t[|t| - 1] == '/';
    }
    assert t[..|t| - 1] == s;
    assert s == [] || s[|s| - 1] != '/';
  }

  // ---------------------------------------------------------------------------
  // Sitemap

  /** One page handed to `create_sitemap_xml`: the three keys it reads, None when the
      key is absent. */
  datatype PageSpec = PageSpec(url: Option<string>, changefreq: Option<string>, priority: Option<string>)

  /** The location of a page: a URL starting with `http` is used as given, anything
      else goes through `get_canonical_url`. */
  function PageLoc(site: string, url: string, join: (string, string) -> string): (r: string)
    ensures StartsWith(url, "http") ==> r == url
    ensures !StartsWith(url, "http") && IsHomePath(url) ==> r == site
    ensures !StartsWith(url, "http") ==> r == CanonicalUrl(site, url, join)
  {
    if StartsWith(url, "http") then url else CanonicalUrl(site, url, join)
  }

  /** The entry of one page, with the defaults `''`, `monthly` and `0.5`. */
  function PageEntry(site: string, page: PageSpec, today: string, join: (string, string) -> string): (r: SitemapUrl)
    ensures r.loc == PageLoc(site, page.url.UnwrapOr(""), join)
    ensures page.changefreq.None? ==> r.changefreq == "monthly"
    ensures page.changefreq.Some? ==> r.changefreq == page.changefreq.value
    ensures page.priority.None? ==> r.priority == "0.5"
    ensures page.priority.Some? ==> r.priority == page.priority.value
    ensures r.lastmod == today
  {
    SitemapUrl(PageLoc(site, page.url.UnwrapOr(""), join), today,
               page.changefreq.UnwrapOr("monthly"), page.priority.UnwrapOr("0.5"))
  }

  /** The entry of one game: its canonical `games/<slug>` URL, weekly, priority 0.8. */
  function GameEntry(site: string, slug: string, today: string, join: (string, string) -> string): (r: SitemapUrl)
    ensures r == SitemapEntry(site, "games/" + slug, "0.8", "weekly", today, join)
  {
    SitemapUrl(CanonicalUrl(site, "games/" + slug, join), today, "weekly", "0.8")
  }

  /** The slugs of `games or []`. */
  function GameSlugs(games: Option<seq<string>>): seq<string> {
    games.UnwrapOr([])
  }

  /** The number the sitemap step reports: `len(pages) + (len(games) if games else 0)`. */
  function ReportedCount(pages: seq<PageSpec>, games: Option<seq<string>>): nat {
    |pages| + if games.Some? then |games.value| else 0
  }

  /**
   * The `<url>` elements of `create_sitemap_xml`, in document order: one per page
   * in input order, then one per game. The count it reports is the number of
   * entries written.
   */
  function SitemapEntries(site: string, pages: seq<PageSpec>, games: Option<seq<string>>,
                          today: string, join: (string, string) -> string): (r: seq<SitemapUrl>)
    ensures |r| == ReportedCount(pages, games)
    ensures forall i :: 0 <= i < |pages| ==> r[i] == PageEntry(site, pages[i], today, join)
    ensures forall j :: 0 <= j < |GameSlugs(games)| ==>
              r[|pages| + j] == SitemapEntry(site, "games/" + GameSlugs(games)[j], "0.8", "weekly", today, join)
  {
    var slugs := GameSlugs(games);
    var pageEntries := seq(|pages|, i requires 0 <= i < |pages| => PageEntry(site, pages[i], today, join));
    var gameEntries := seq(|slugs|, j requires 0 <= j < |slugs| => GameEntry(site, slugs[j], today, join));
    ConcatIndexes(pageEntries, gameEntries);
    pageEntries + gameEntries
  }

  /** The elements of `a + b`: those of `a`, then those of `b`. */
  lemma ConcatIndexes<T>(a: seq<T>, b: seq<T>)
    ensures |a + b| == |a| + |b|
    ensures forall i :: 0 <= i < |a| ==> (a + b)[i] == a[i]
    ensures forall j :: 0 <= j < |b| ==> (a + b)[|a| + j] == b[j]
  {
  }

  /** With `urljoin` concatenating, every canonical URL starts with the site URL. */
  lemma CanonicalOnSite(site: string, p: string)
    ensures StartsWith(CanonicalUrl(site, p, Concat), site)
  {
    if IsHomePath(p) {
      assert site[..|site|] == site;
    } else {
      var q := LStrip(DropHtml(p), '/');
      PrefixOfConcat(site, q);
      SlashedKeepsPrefix(Concat(site, q), site);
    }
  }

  lemma SlashedKeepsPrefix(u: string, pre: string)
    requires StartsWith(u, pre)
    ensures StartsWith(Slashed(u), pre)
  {
    if Slashed(u) != u {
      StartsWithExtend(u, "/", pre);
    }
  }

  /** Every location in the sitemap is on the site, unless a page supplied its own
      absolute `http…` URL. */
  lemma {:induction false} SitemapLocsOnSite(site: string, pages: seq<PageSpec>, games: Option<seq<string>>, today: string)
    ensures var r := SitemapEntries(site, pages, games, today, Concat);
            forall i :: 0 <= i < |r| ==> StartsWith(r[i].loc, site) || StartsWith(r[i].loc, "http")
  {
    var r := SitemapEntries(site, pages, games, today, Concat);
    forall i | 0 <= i < |r|
      ensures StartsWith(r[i].loc, site) || StartsWith(r[i].loc, "http")
    {
      if i < |pages| {
        var u := pages[i].url.UnwrapOr("");
        if !StartsWith(u, "http") {
          CanonicalOnSite(site, u);
        }
      } else {
        CanonicalOnSite(site, "games/" + GameSlugs(games)[i - |pages|]);
      }
    }
  }

  /**
   * The sitemap names a game by its clean directory URL: with `urljoin` concatenating,
   * the location of `games/<slug>` is the site URL followed by the widget link
   * `/games/<slug>/` without its leading slash, for a plain slug.
   */
  lemma GameLocIsWidgetUrl(site: string, slug: string)
    requires EndsWith(site, "/")
    requires slug != "" && '/' !in slug
    requires !EndsWith(slug, ".html") && !IsFileResource("/" + slug)
    ensures CanonicalUrl(site, "games/" + slug, Concat) == site + GameManager.WidgetUrl(slug)[1..]
  {
    var p := "games/" + slug;
    assert !StartsWith(p, "//") by {
      assert |p| < 2 || p[..2][0] == 'g';
    }
    CanonicalMatchesRelative(site, p);
    GameRelativeUrl(slug);
    WidgetTail(slug);
    SlashedTail(site, RelativeUrl(p), p, GameManager.WidgetUrl(slug));
  }

  lemma SlashedTail(site: string, rel: string, p: string, widget: string)
    requires rel == "/" + p + "/" && |widget| > 0 && widget[1..] == p + "/"
    ensures site + rel[1..] == site + widget[1..]
  {
    assert rel[1..] == p + "/";
  }

  /** The widget link without its leading slash. */
  lemma WidgetTail(slug: string)
    ensures GameManager.WidgetUrl(slug)[1..] == "games/" + slug + "/"
  {
  }

  /** The relative URL of `games/<slug>` is `/games/<slug>/`. */
  lemma GameRelativeUrl(slug: string)
    requires slug != "" && '/' !in slug
    requires !EndsWith(slug, ".html") && !IsFileResource("/" + slug)
    ensures RelativeUrl("games/" + slug) == "/" + ("games/" + slug) + "/"
  {
    var p := "games/" + slug;
    assert p != "" && p != "index" && p != "index.html" by {
      assert p[0] == 'g';
    }
    GameDropHtml(slug);
    assert !StartsWith(p, "/") by {
      assert p[..1][0] == 'g';
    }
    assert RootedPath(p) == "/" + p;
    GameSlashed(slug);
  }

  lemma GameDropHtml(slug: string)
    requires !EndsWith(slug, ".html")
    ensures DropHtml("games/" + slug) == "games/" + slug
  {
    SuffixAfterSlash("games", slug, ".html");
    assert "games" + "/" + slug == "games/" + slug;
  }

  lemma GameSlashed(slug: string)
    requires slug != "" && '/' !in slug
    requires !IsFileResource("/" + slug)
    ensures Slashed("/" + ("games/" + slug)) == "/" + ("games/" + slug) + "/"
  {
    var q := "/" + ("games/" + slug);
    FileResourceAfterSlash("/games", slug);
    assert "/games" + "/" + slug == q;
    assert !EndsWith(q, "/") by {
      assert q[|q| - 1] == slug[|slug| - 1];
      assert slug[|slug| - 1] in slug;
    }
  }

  /** The location the sitemap gives a game is not the canonical URL of the page the
      page builder writes for it (`<subdir>/<slug>.html`): one ends in a slash, the
      other in `.html`. */
  lemma GameLocIsNotPageCanonical(site: string, slug: string)
    requires EndsWith(site, "/")
    requires slug != "" && '/' !in slug
    requires !EndsWith(slug, ".html") && !IsFileResource("/" + slug)
    ensures CanonicalUrl(site, "games/" + slug, Concat) != PageBuilder.GameCanonical(site, "games", slug)
  {
    GameLocIsWidgetUrl(site, slug);
    var a := site + GameManager.WidgetUrl(slug)[1..];
    var b := PageBuilder.GameCanonical(site, "games", slug);
    assert a[|a| - 1] == '/';
    assert b[|b| - 1] == 'l' by {
      assert EndsWith(b, slug + ".html");
      assert b[|b| - 1] == (slug + ".html")[|slug + ".html"| - 1];
    }
  }

  // ---------------------------------------------------------------------------
  // Manifest icons and screenshots

  /** A file under `/assets/pwa/`. */
  function PwaPath(name: string): (r: string)
    ensures StartsWith(r, "/assets/pwa/")
  {
    PrefixOfConcat("/assets/pwa/", name);
    "/assets/pwa/" + name
  }

  /** Normalising a PWA asset path leaves it as it is. */
  lemma PwaPathKept(name: string)
    ensures NormalizeAssetPath(PwaPath(name)) == PwaPath(name)
  {
    var r := PwaPath(name);
    assert r[..12] == "/assets/pwa/";
    RootedNotLegacy(r);
  }

  datatype Purpose = AnyPurpose | Maskable

  datatype Icon = Icon(src: string, sizes: string, mime: string, purpose: Purpose)

  /** The sizes of the `any` icons, in order. */
  const AnySizes: seq<string> := ["72x72", "96x96", "128x128", "144x144", "152x152", "192x192", "384x384", "512x512"]

  /** The sizes of the `maskable` icons, in order. */
  const MaskableSizes: seq<string> := ["192x192", "512x512"]

  /** The file name of a manifest icon: `<seo>-icon-<size>[-maskable].png`. */
  function IconFile(seo: string, size: string, purpose: Purpose): string {
    seo + "-icon-" + size + (if purpose.Maskable? then "-maskable" else "") + ".png"
  }

  /** One icon; normalising its rooted path leaves it as it is. */
  function IconOf(seo: string, size: string, purpose: Purpose): (r: Icon)
    ensures r.src == PwaPath(IconFile(seo, size, purpose))
  {
    PwaPathKept(IconFile(seo, size, purpose));
    Icon(NormalizeAssetPath(PwaPath(IconFile(seo, size, purpose))), size, "image/png", purpose)
  }

  /** One run of icons with a common purpose, one per size in order. */
  function IconRun(seo: string, sizes: seq<string>, purpose: Purpose): (r: seq<Icon>)
    ensures |r| == |sizes|
    ensures forall i :: 0 <= i < |r| ==>
              r[i].sizes == sizes[i] && r[i].purpose == purpose && r[i].mime == "image/png"
              && r[i].src == PwaPath(IconFile(seo, sizes[i], purpose))
  {
    seq(|sizes|, i requires 0 <= i < |sizes| => IconOf(seo, sizes[i], purpose))
  }

  /** `_generate_icon_list`: eight `any` icons followed by the two `maskable` ones,
      each naming its file under `/assets/pwa/`. */
  function IconList(seo: string): (r: seq<Icon>)
    ensures |r| == 10
    ensures forall i :: 0 <= i < 8 ==> r[i].purpose == AnyPurpose && r[i].sizes == AnySizes[i]
    ensures forall i :: 8 <= i < 10 ==> r[i].purpose == Maskable && r[i].sizes == MaskableSizes[i - 8]
    ensures forall i :: 0 <= i < 10 ==> r[i].src == PwaPath(IconFile(seo, r[i].sizes, r[i].purpose))
    ensures forall i :: 0 <= i < 10 ==> r[i].mime == "image/png"
  {
    IconRun(seo, AnySizes, AnyPurpose) + IconRun(seo, MaskableSizes, Maskable)
  }

  /** Every maskable icon has an `any` icon of the same size in front of it. */
  lemma MaskableHaveAnyTwin(seo: string)
    ensures var r := IconList(seo);
            forall i :: 8 <= i < 10 ==> exists j :: 0 <= j < 8 && r[j].sizes == r[i].sizes
  {
    var r := IconList(seo);
    assert r[8].sizes == r[5].sizes;
    assert r[9].sizes == r[7].sizes;
  }

  datatype FormFactor = Narrow | Wide

  datatype Screenshot = Screenshot(src: string, sizes: string, mime: string, formFactor: FormFactor, caption: string)

  /** The file name of a manifest screenshot: `<seo>-screenshot-<kind>.png`. */
  function ScreenshotFile(seo: string, kind: string): string {
    seo + "-screenshot-" + kind + ".png"
  }

  function ScreenshotOf(seo: string, kind: string, sizes: string, ff: FormFactor, caption: string): (r: Screenshot)
    ensures r.src == PwaPath(ScreenshotFile(seo, kind))
    ensures r.mime == "image/png" && r.formFactor == ff && r.sizes == sizes && r.caption == caption
  {
    PwaPathKept(ScreenshotFile(seo, kind));
    Screenshot(NormalizeAssetPath(PwaPath(ScreenshotFile(seo, kind))), sizes, "image/png", ff, caption)
  }

  /** `_generate_screenshot_list`: the mobile view (narrow) then the tablet and
      desktop views (wide). */
  function ScreenshotList(seo: string): (r: seq<Screenshot>)
    ensures |r| == 3
    ensures r[0].formFactor == Narrow && r[1].formFactor == Wide && r[2].formFactor == Wide
    ensures r[0].src == PwaPath(ScreenshotFile(seo, "mobile"))
    ensures r[1].src == PwaPath(ScreenshotFile(seo, "tablet"))
    ensures r[2].src == PwaPath(ScreenshotFile(seo, "desktop"))
    ensures r[0].mime == "image/png" && r[1].mime == "image/png" && r[2].mime == "image/png"
    ensures r[0].sizes == "390x844" && r[1].sizes == "768x1024" && r[2].sizes == "1280x720"
    ensures r[0].caption == "Mobile view" && r[1].caption == "Tablet view" && r[2].caption == "Desktop view"
  {
    [ScreenshotOf(seo, "mobile", "390x844", Narrow, "Mobile view"),
     ScreenshotOf(seo, "tablet", "768x1024", Wide, "Tablet view"),
     ScreenshotOf(seo, "desktop", "1280x720", Wide, "Desktop view")]
  }

  // ---------------------------------------------------------------------------
  // Breadcrumbs

  /** One breadcrumb as given: its title and its `url`, None when absent or None. */
  datatype Crumb = Crumb(title: string, url: Option<string>)

  /** One `ListItem` of the schema; `item` is None when the key is not set. */
  datatype ListItem = ListItem(position: nat, name: string, item: Option<string>)

  /** The `item` of one crumb: `""` and `"/"` name the site root, any other URL its
      canonical URL. */
  function CrumbItem(site: string, url: Option<string>, join: (string, string) -> string): (r: Option<string>)
    ensures r.Some? <==> url.Some?
    ensures url == Some("") || url == Some("/") ==> r == Some(site)
    ensures url.Some? ==> r == Some(CanonicalUrl(site, url.value, join))
  {
    match url
    case None => None
    case Some(u) =>
      if u == "" || u == "/" then Some(CanonicalUrl(site, "", join)) else Some(CanonicalUrl(site, u, join))
  }

  /** `get_breadcrumb_schema`'s item list: positions 1..n in input order. */
  function BreadcrumbItems(site: string, crumbs: seq<Crumb>, join: (string, string) -> string): (r: seq<ListItem>)
    ensures |r| == |crumbs|
    ensures forall i :: 0 <= i < |r| ==> r[i].position == i + 1 && r[i].name == crumbs[i].title
    ensures forall i :: 0 <= i < |r| ==> (r[i].item.Some? <==> crumbs[i].url.Some?)
    ensures forall i :: 0 <= i < |r| && crumbs[i].url.Some? && crumbs[i].url.value in {"", "/"} ==> r[i].item == Some(site)
  {
    seq(|crumbs|, i requires 0 <= i < |crumbs| =>
      ListItem(i + 1, crumbs[i].title, CrumbItem(site, crumbs[i].url, join)))
  }

  /** The positions are distinct and increase along the list. */
  lemma BreadcrumbPositionsIncrease(site: string, crumbs: seq<Crumb>, join: (string, string) -> string)
    ensures var r := BreadcrumbItems(site, crumbs, join);
            forall i, j :: 0 <= i < j < |r| ==> r[i].position < r[j].position
  {
  }

  /** A breadcrumb item names the same place as the page's relative URL: with
      `urljoin` concatenating, it is the site URL followed by the relative URL without
      its leading slash. */
  lemma BreadcrumbMatchesRelative(site: string, crumbs: seq<Crumb>, i: nat)
    requires EndsWith(site, "/")
    requires i < |crumbs| && crumbs[i].url.Some? && !StartsWith(crumbs[i].url.value, "//")
    ensures BreadcrumbItems(site, crumbs, Concat)[i].item == Some(site + RelativeUrl(crumbs[i].url.value)[1..])
  {
    CanonicalMatchesRelative(site, crumbs[i].url.value);
  }

  // ---------------------------------------------------------------------------
  // Software-application schema

  /** The schema's rating: derived from the hash, or read from the supplied object
      (None is the default `4.5` / `1000`). */
  datatype SchemaRating =
    | AutoRating(tenths: nat, count: nat)
    | GivenRating(givenValue: Option<GameManager.Json>, givenCount: Option<GameManager.Json>)

  /** The hundredths `3.5 + (h % 150) / 100` stands for. */
  function RawHundredths(h: nat): nat {
    350 + h % 150
  }

  /**
   * The rating `get_software_application_schema` puts in the schema. A falsy rating
   * (None or an empty object) gives the derived one: `3.5 + (h % 150) / 100` rounded
   * to one decimal, capped at 4.9, and the count `150 + h % 3351`. Otherwise the
   * object's `ratingValue` and `ratingCount` are used when present.
   */
  function SoftwareRating(h: nat, rating: Option<GameManager.Meta>): (r: SchemaRating)
    ensures (rating.None? || rating.value == map[]) <==> r.AutoRating?
    ensures r.AutoRating? ==> 35 <= r.tenths <= 49 && 150 <= r.count <= 3500
    ensures r.AutoRating? ==> r.count - 150 == h % 3351
    ensures r.AutoRating? && r.tenths < 49 ==> GameManager.RoundsTo(RawHundredths(h), r.tenths)
    ensures r.AutoRating? && r.tenths == 49 ==> RawHundredths(h) >= 485
    ensures r.GivenRating? ==>
              (r.givenValue.Some? <==> "ratingValue" in rating.value)
              && (r.givenValue.Some? ==> r.givenValue.value == rating.value["ratingValue"])
              && (r.givenCount.Some? <==> "ratingCount" in rating.value)
              && (r.givenCount.Some? ==> r.givenCount.value == rating.value["ratingCount"])
  {
    if rating.None? || rating.value == map[] then
      var t := GameManager.RoundTenths(RawHundredths(h));
      AutoRating(if t > 49 then 49 else t, 150 + h % 3351)
    else
      var m := rating.value;
      GivenRating(if "ratingValue" in m then Some(m["ratingValue"]) else None,
                  if "ratingCount" in m then Some(m["ratingCount"]) else None)
  }

  /** Whichever way the float rounding resolves a tie, the capped value lies in
      [3.5, 4.9]. */
  lemma AnyRoundingCapped(h: nat, t: nat)
    requires GameManager.RoundsTo(RawHundredths(h), t)
    ensures 35 <= (if t > 49 then 49 else t) <= 49
  {
  }

  /** Unlike the game manager's rating, here the cap is needed: the rounding alone
      would give 5.0 for the top residues. */
  lemma CapFires(h: nat)
    requires h % 150 >= 145
    ensures GameManager.RoundTenths(RawHundredths(h)) == 50
    ensures SoftwareRating(h, None) == AutoRating(49, 150 + h % 3351)
  {
  }

  /** The parts of the schema that are modelled. */
  datatype SoftwareApp = SoftwareApp(id: string, name: string, url: string, description: string, rating: SchemaRating)

  /** `f"Play {title} free online - {site_name}"`. */
  function DefaultDescription(title: string, siteName: string): (r: string)
    ensures StartsWith(r, "Play " + title) && EndsWith(r, siteName)
  {
    var tail := " free online - " + siteName;
    PrefixOfConcat("Play " + title, tail);
    assert ("Play " + title + tail)[|"Play " + title + tail| - |siteName|..] == siteName;
    "Play " + title + tail
  }

  /** The schema of one game page. */
  function SoftwareApplication(site: string, siteName: string, title: string, slug: string,
                               description: Option<string>, h: nat, rating: Option<GameManager.Meta>,
                               join: (string, string) -> string): (r: SoftwareApp)
    ensures r.id == r.url + "#software"
    ensures r.url == CanonicalUrl(site, "games/" + slug, join)
    ensures r.name == title
    ensures description.Some? && description.value != "" ==> r.description == description.value
    ensures description.None? || description.value == "" ==>
              StartsWith(r.description, "Play " + title) && EndsWith(r.description, siteName)
    ensures r.rating == SoftwareRating(h, rating)
  {
    var url := CanonicalUrl(site, "games/" + slug, join);
    var d := if description.Some? && description.value != "" then description.value
             else DefaultDescription(title, siteName);
    SoftwareApp(url + "#software", title, url, d, SoftwareRating(h, rating))
  }

  /** A game's schema URL is the location its sitemap entry gives it. */
  lemma SchemaUrlIsSitemapLoc(site: string, siteName: string, title: string, pages: seq<PageSpec>, games: seq<string>,
                              j: nat, today: string, h: nat, join: (string, string) -> string)
    requires j < |games|
    ensures SoftwareApplication(site, siteName, title, games[j], None, h, None, join).url
            == SitemapEntries(site, pages, Some(games), today, join)[|pages| + j].loc
  {
  }
}

=== FILE: site_config.dfy ===
/**
 * `SiteConfig` (core/config.py): how a new site URL is normalised, the breadcrumb
 * schema, the configuration of one page, the rating in a game's schema, the hero image
 * path and the FAQ schema with its error paths.
 *
 * The constructor reads the site settings module; here its values are the fields of
 * `Site`.
 */
module SiteConfig {
  import opened Wrappers
  import opened Strings
  import UrlUtils
  import GameManager
  import SeoManager
  import LegacyGenerator

  // ---------------------------------------------------------------------------
  // Site URL

  /** The URL starts with one of the two schemes `update_site_url` recognises. */
  predicate HasScheme(u: string) {
    StartsWith(u, "http://") || StartsWith(u, "https://")
  }

  /** `https://` put in front of a URL without a scheme. */
  function WithScheme(u: string): (r: string)
    ensures HasScheme(r)
    ensures HasScheme(u) ==> r == u
    ensures !HasScheme(u) ==> r == "https://" + u
  {
    if HasScheme(u) then u
    else
      PrefixOfConcat("https://", u);
      "https://" + u
  }

  /** The length of the scheme and `://` of a URL that has a scheme. */
  function SchemeLength(w: string): (n: nat)
    requires HasScheme(w)
    ensures n == 7 || n == 8
    ensures n <= |w| && w[n - 3..n] == "://"
    ensures forall i :: 0 <= i < n - 3 ==> w[i] != ':' && w[i] != '/'
  {
    if StartsWith(w, "http://") then
      assert w[..7] == "http://";
      7
    else
      assert w[..8] == "https://";
      8
  }

  /** Nothing but slashes follows the scheme: no host at all. */
  predicate Hostless(w: string)
    requires HasScheme(w)
  {
    forall k :: SchemeLength(w) <= k < |w| ==> w[k] == '/'
  }

  /** `split('://')[1]`: the text after the first `://` up to the next one. Python
      raises `IndexError` when there is no `://`; that is None here. */
  function AfterScheme(s: string): (r: Option<string>)
    ensures r.None? <==> !Contains(s, "://")
    ensures r.Some? ==> !Contains(r.value, "://")
    ensures r.Some? ==> Find(s, "://").Some? && StartsWith(s[Find(s, "://").value + 3..], r.value)
  {
    match Find(s, "://")
    case None => None
    case Some(i) =>
      var rest := s[i + 3..];
      match Find(rest, "://")
      case None => Some(rest)
      case Some(j) =>
        CutBeforeOccurrence(rest, j);
        assert rest[..j] == rest[..|rest[..j]|];
        Some(rest[..j])
  }

  /** No occurrence lies wholly before the first one. */
  lemma CutBeforeOccurrence(s: string, j: nat)
    requires j <= |s| && forall k :: 0 <= k < j ==> !OccursAt(s, "://", k)
    ensures !Contains(s[..j], "://")
  {
    forall k | 0 <= k <= j ensures !OccursAt(s[..j], "://", k) {
      if k + 3 <= j {
        assert !OccursAt(s, "://", k);
        assert s[..j][k..k + 3] == s[k..k + 3];
      }
    }
  }

  /** `split('/')[0]`: the text before the first slash. */
  function Host(seg: string): (r: string)
    ensures '/' !in r
    ensures StartsWith(seg, r)
    ensures |r| < |seg| ==> seg[|r|] == '/'
  {
    match IndexOf(seg, '/')
    case None => seg
    case Some(k) => seg[..k]
  }

  /** The site URL with what is derived from it. */
  datatype SiteIdentity = SiteIdentity(siteUrl: string, domain: string, supportEmail: string)

  /**
   * `update_site_url`: `https://` when the URL has no scheme, exactly one trailing
   * slash, the host between `://` and the next slash as the domain, and
   * `support@<domain>` as the support address. A URL whose scheme is followed by
   * nothing but slashes loses its `://` to the stripping, so `split('://')` yields
   * one piece and taking its second raises `IndexError`.
   */
  function UpdateSiteUrl(newUrl: string): (r: Result<SiteIdentity>)
    ensures r.Err? <==> Hostless(WithScheme(newUrl))
    ensures r.Err? ==> r.error.IndexError?
    ensures r.Ok? ==> r.value.siteUrl == UrlUtils.SiteUrl(WithScheme(newUrl))
    ensures r.Ok? ==> HasScheme(r.value.siteUrl) && UrlUtils.IsSiteUrl(r.value.siteUrl)
    ensures r.Ok? ==> '/' !in r.value.domain && r.value.supportEmail == "support@" + r.value.domain
    ensures r.Ok? ==> StartsWith(r.value.siteUrl[SchemeLength(r.value.siteUrl)..], r.value.domain)
  {
    var w := WithScheme(newUrl);
    var site := UrlUtils.SiteUrl(w);
    HostlessIffNoSeparator(w);
    match AfterScheme(site)
    case None => Err(IndexError("list index out of range"))
    case Some(seg) =>
      var d := Host(seg);
      DomainOfSite(w, site, seg, d);
      Ok(SiteIdentity(site, d, "support@" + d))
  }

  /** The host taken from the site URL is a slash-free prefix of what follows its
      scheme. */
  lemma DomainOfSite(w: string, site: string, seg: string, d: string)
    requires HasScheme(w) && !Hostless(w) && site == UrlUtils.SiteUrl(w)
    requires AfterScheme(site) == Some(seg) && d == Host(seg)
    ensures HasScheme(site) && UrlUtils.IsSiteUrl(site) && '/' !in d
    ensures StartsWith(site[SchemeLength(site)..], d)
  {
    HostlessIffNoSeparator(w);
    FirstSeparatorAfterScheme(site);
    PrefixTransitive(site[SchemeLength(site)..], seg, d);
  }

  /** The first `://` of a URL with a scheme is the scheme's own. */
  lemma FirstSeparatorAfterScheme(w: string)
    requires HasScheme(w)
    ensures Find(w, "://") == Some(SchemeLength(w) - 3)
  {
    var n := SchemeLength(w);
    assert OccursAt(w, "://", n - 3);
    forall j | 0 <= j < n - 3 ensures !OccursAt(w, "://", j) {
      assert w[j..j + 3][0] == w[j] != ':';
    }
  }

  lemma PrefixTransitive(a: string, b: string, c: string)
    requires StartsWith(a, b) && StartsWith(b, c)
    ensures StartsWith(a, c)
  {
    assert a[..|c|] == a[..|b|][..|c|];
  }

  /** The normalised URL keeps its `://` exactly when something other than a slash
      follows the scheme; when it does, it keeps the scheme too. */
  lemma HostlessIffNoSeparator(w: string)
    requires HasScheme(w)
    ensures Hostless(w) <==> !Contains(UrlUtils.SiteUrl(w), "://")
    ensures !Hostless(w) ==> HasScheme(UrlUtils.SiteUrl(w))
  {
    var n := SchemeLength(w);
    var s := RStrip(w, '/');
    var site := s + "/";
    if Hostless(w) {
      HostlessStrip(w, n);
      assert forall i :: 0 <= i < n - 3 ==> site[i] != ':';
      forall k | 0 <= k <= |site| ensures !OccursAt(site, "://", k) {
        if k + 3 <= |site| {
          assert site[k..k + 3][0] == site[k] != ':';
        }
      }
    } else {
      var k :| n <= k < |w| && w[k] != '/';
      assert |s| > k;
      assert site[..n] == w[..n];
      assert OccursAt(site, "://", n - 3);
      SchemeKept(w, site, n);
    }
  }

  lemma HostlessStrip(w: string, n: nat)
    requires HasScheme(w) && n == SchemeLength(w) && Hostless(w)
    ensures RStrip(w, '/') == w[..n - 2]
  {
    var s := RStrip(w, '/');
    assert w[n - 3] == ':' && w[n - 2] == '/' && w[n - 1] == '/';
    assert |s| == 0 || w[|s| - 1] == s[|s| - 1] != '/';
  }

  lemma SchemeKept(w: string, site: string, n: nat)
    requires HasScheme(w) && n == SchemeLength(w) && n <= |site| && site[..n] == w[..n]
    ensures HasScheme(site)
  {
    if StartsWith(w, "http://") {
      assert site[..7] == w[..7];
    } else {
      assert site[..8] == w[..8];
    }
  }

  /** A bare scheme, with or without more slashes, raises `IndexError`; a scheme
      followed by a host does not. */
  lemma BareSchemeRaises()
    ensures UpdateSiteUrl("https://").Err? && UpdateSiteUrl("https://").error.IndexError?
    ensures UpdateSiteUrl("http:///").Err?
    ensures UpdateSiteUrl("https://a").Ok?
  {
    assert StartsWith("https://", "https://");
    assert Hostless("https://");
    var w := "http:///";
    assert StartsWith(w, "http://") by { assert w[..7] == "http://"; }
    assert SchemeLength(w) == 7;
    assert Hostless(w);
    var v := "https://a";
    assert StartsWith(v, "https://") by { assert v[..8] == "https://"; }
    assert !StartsWith(v, "http://") by { assert v[4] == 's'; }
    assert SchemeLength(v) == 8 && v[8] == 'a';
    assert !Hostless(v);
  }

  /** Feeding the result back in changes nothing. */
  lemma UpdateSiteUrlIdempotent(newUrl: string)
    requires UpdateSiteUrl(newUrl).Ok?
    ensures UpdateSiteUrl(UpdateSiteUrl(newUrl).value.siteUrl) == UpdateSiteUrl(newUrl)
  {
    var w := WithScheme(newUrl);
    var site := UrlUtils.SiteUrl(w);
    SeoManager.SiteUrlStable(w);
    assert WithScheme(site) == site;
    assert UrlUtils.SiteUrl(site) == site;
  }

  // ---------------------------------------------------------------------------
  // Breadcrumbs

  /** `base`, one slash, then text that does not start with a slash. */
  predicate JoinedOnce(item: string, base: string) {
    (base == [] || base[|base| - 1] != '/')
    && StartsWith(item, base + "/")
    && (|item| == |base| + 1 || item[|base| + 1] != '/')
  }

  /**
   * The `item` of one crumb in `get_breadcrumb_schema`: none without a URL, the site
   * URL without its trailing slashes for `""`, and otherwise that, one slash and the
   * URL without its leading slashes.
   */
  function CrumbItem(site: string, url: Option<string>): (r: Option<string>)
    ensures r.Some? <==> url.Some?
    ensures url == Some("") ==> r == Some(RStrip(site, '/'))
    ensures url.Some? && url.value != "" ==> JoinedOnce(r.value, RStrip(site, '/'))
    ensures url.Some? && url.value != "" ==> EndsWith(r.value, LStrip(url.value, '/'))
  {
    match url
    case None => None
    case Some(u) =>
      if u == "" then Some(RStrip(site, '/'))
      else
        var b, t := RStrip(site, '/'), LStrip(u, '/');
        PrefixOfConcat(b + "/", t);
        assert (b + "/" + t)[|b + "/" + t| - |t|..] == t;
        Some(b + "/" + t)
  }

  /** `get_breadcrumb_schema`'s item list: positions 1..n in input order. */
  function BreadcrumbSchema(site: string, crumbs: seq<SeoManager.Crumb>): (r: seq<SeoManager.ListItem>)
    ensures |r| == |crumbs|
    ensures forall i :: 0 <= i < |r| ==> r[i].position == i + 1 && r[i].name == crumbs[i].title
    ensures forall i :: 0 <= i < |r| ==> r[i].item == CrumbItem(site, crumbs[i].url)
  {
    seq(|crumbs|, i requires 0 <= i < |crumbs| =>
      SeoManager.ListItem(i + 1, crumbs[i].title, CrumbItem(site, crumbs[i].url)))
  }

  /** A site URL with its one trailing slash loses exactly that slash to `rstrip`. */
  lemma StripOneSlash(site: string)
    requires UrlUtils.IsSiteUrl(site)
    ensures RStrip(site, '/') == site[..|site| - 1]
  {
    assert site[|site| - 1] == '/';
    assert RStrip(site, '/') == RStrip(site[..|site| - 1], '/');
  }

  /** For a site URL with its one trailing slash, the root crumb `/` names the site URL
      itself, as the search-engine manager's breadcrumbs do. */
  lemma RootCrumbIsSiteUrl(site: string, join: (string, string) -> string)
    requires UrlUtils.IsSiteUrl(site)
    ensures CrumbItem(site, Some("/")) == Some(site) == SeoManager.CrumbItem(site, Some("/"), join)
  {
    RootCrumb(site);
    assert SeoManager.CrumbItem(site, Some("/"), join) == Some(site);
  }

  lemma RootCrumb(site: string)
    requires UrlUtils.IsSiteUrl(site)
    ensures CrumbItem(site, Some("/")) == Some(site)
  {
    StripOneSlash(site);
    CrumbItemJoins(site, "/");
    RootStripsEmpty();
    SlashRestored(site, RStrip(site, '/'));
  }

  lemma RootStripsEmpty()
    ensures LStrip("/", '/') == []
  {
    assert "/"[0] == '/' && "/"[1..] == [];
  }

  /** The site URL is its stripped form with the slash put back. */
  lemma SlashRestored(site: string, b: string)
    requires UrlUtils.IsSiteUrl(site) && b == site[..|site| - 1]
    ensures b + "/" + [] == site
  {
    assert site[|site| - 1] == '/' by { assert site[|site| - 1..] == "/"; }
    assert b + "/" + [] == b + "/";
  }

  /** A crumb URL other than `""` gives the stripped site URL, one slash, and the
      stripped URL. */
  lemma CrumbItemJoins(site: string, u: string)
    requires u != ""
    ensures CrumbItem(site, Some(u)) == Some(RStrip(site, '/') + "/" + LStrip(u, '/'))
  {
  }

  /** The empty crumb URL is where the two managers differ: this one drops the trailing
      slash. */
  lemma EmptyCrumbDropsSlash(site: string, join: (string, string) -> string)
    requires UrlUtils.IsSiteUrl(site)
    ensures CrumbItem(site, Some("")).value + "/" == site
    ensures CrumbItem(site, Some("")) != SeoManager.CrumbItem(site, Some(""), join)
  {
    StripOneSlash(site);
  }

  /** The legacy sitemap builds its locations with the same join, then forces https. */
  lemma CrumbItemIsLegacyLoc(site: string, url: string)
    ensures LegacyGenerator.Loc(site, url) == LegacyGenerator.ForceHttps(CrumbItem(site, Some(url)).value)
  {
  }

  // ---------------------------------------------------------------------------
  // FAQ schema

  /** What reading `faq.json` gives: a decoded document, or one of the failures the
      `try` block can meet. */
  datatype FaqLoad = Loaded(doc: GameManager.Json) | FileMissing | InvalidJson | OtherFailure

  /** The FAQ schema: the file's object with two keys set, or the built-in one-question
      fallback. */
  datatype Faq = FromFile(fields: map<string, GameManager.Json>) | Fallback

  /** `(language or "en-US").split('-')[0]`. */
  function FaqLanguage(language: string): (r: string)
    ensures '-' !in r
  {
    Split(if language == "" then "en-US" else language, '-')[0]
  }

  /** The file's object with `@id` set to `<site_url>#faq` and `inLanguage` to the
      language's first part; every other key is kept. */
  function TagFaq(fields: map<string, GameManager.Json>, siteUrl: string, language: string): (r: map<string, GameManager.Json>)
    ensures "@id" in r && r["@id"] == GameManager.JStr(siteUrl + "#faq")
    ensures "inLanguage" in r && r["inLanguage"] == GameManager.JStr(FaqLanguage(language))
    ensures r.Keys == fields.Keys + {"@id", "inLanguage"}
    ensures forall k :: k in fields && k != "@id" && k != "inLanguage" ==> r[k] == fields[k]
  {
    fields["@id" := GameManager.JStr(siteUrl + "#faq")]["inLanguage" := GameManager.JStr(FaqLanguage(language))]
  }

  /**
   * `get_faq_schema` as written: the fallback `return` sits inside the last `except`
   * block, so a missing file or invalid JSON ends the function without a value. A
   * document that is not an object fails when `@id` is assigned, which the last
   * `except` catches.
   */
  function FaqSchemaAsWritten(load: FaqLoad, siteUrl: string, language: string): (r: Option<Faq>)
    ensures r.None? <==> load.FileMissing? || load.InvalidJson?
    ensures r == Some(Fallback) <==> load.OtherFailure? || (load.Loaded? && !load.doc.JObj?)
    ensures r.Some? && r.value.FromFile? ==> load.Loaded? && load.doc.JObj?
  {
    match load
    case Loaded(doc) =>
      if doc.JObj? then Some(FromFile(TagFaq(doc.fields, siteUrl, language))) else Some(Fallback)
    case FileMissing => None
    case InvalidJson => None
    case OtherFailure => Some(Fallback)
  }

  /** `get_faq_schema` with the fallback returned for every failure, as its comment
      says: there is always a schema. */
  function FaqSchema(load: FaqLoad, siteUrl: string, language: string): (r: Option<Faq>)
    ensures r.Some?
    ensures r.value == Fallback <==> !(load.Loaded? && load.doc.JObj?)
    ensures r.value.FromFile? ==> r.value.fields == TagFaq(load.doc.fields, siteUrl, language)
  {
    match load
    case Loaded(doc) =>
      if doc.JObj? then Some(FromFile(TagFaq(doc.fields, siteUrl, language))) else Some(Fallback)
    case _ => Some(Fallback)
  }

  /** The two differ exactly where the file is missing or is not JSON. */
  lemma FaqFixOnlyTouchesMissingAndInvalid(load: FaqLoad, siteUrl: string, language: string)
    ensures FaqSchemaAsWritten(load, siteUrl, language) != FaqSchema(load, siteUrl, language)
            <==> load.FileMissing? || load.InvalidJson?
  {
  }

  /** A site without `faq.json` gets no FAQ schema as written, and the fallback once
      corrected. */
  lemma MissingFaqGivesNoSchema(siteUrl: string, language: string)
    ensures FaqSchemaAsWritten(FileMissing, siteUrl, language).None?
    ensures FaqSchema(FileMissing, siteUrl, language) == Some(Fallback)
  {
  }

  // ---------------------------------------------------------------------------
  // Page configuration

  /** The settings the configuration object is built from; `gameName` is the index
      title, or the site name when the settings define none. */
  datatype Site = Site(siteUrl: string, siteName: string, gameName: string, language: string)

  /** The first part of the lower-cased language code, `en` when there is none. */
  function LanguageShort(language: string): (r: string)
    ensures '-' !in r
  {
    Split(Lower(if language == "" then "en" else language), '-')[0]
  }

  /** The home crumb's title: `Accueil` in French, `Home` otherwise. */
  function HomeTitle(language: string): (r: string)
    ensures r == "Accueil" <==> LanguageShort(language) == "fr"
    ensures r == "Home" <==> LanguageShort(language) != "fr"
  {
    if LanguageShort(language) == "fr" then "Accueil" else "Home"
  }

  /** The schemas only the index page carries. */
  datatype IndexSchemas = IndexSchemas(softwareId: string, faq: Option<Faq>)

  datatype PageConfig = PageConfig(
    title: string, description: string, canonical: string, current: string,
    breadcrumbs: seq<SeoManager.Crumb>, customHtml: string,
    indexSchemas: Option<IndexSchemas>, breadcrumbSchema: seq<SeoManager.ListItem>)

  /**
   * `get_page_config`: the title-cased key as title and `<site_url><key>.html` as
   * canonical URL, with the crumbs Home then the page; the index page instead has the
   * game name as title, the site URL without its trailing slashes as canonical URL,
   * Home as both crumbs, and the software-application and FAQ schemas. Every page gets
   * the breadcrumb schema of its crumbs.
   */
  function GetPageConfig(site: Site, key: string, faq: FaqLoad): (r: PageConfig)
    ensures r.indexSchemas.Some? <==> key == "index"
    ensures r.indexSchemas.Some? ==> r.indexSchemas.value.softwareId == site.siteUrl + "#software"
                                     && r.indexSchemas.value.faq == FaqSchemaAsWritten(faq, site.siteUrl, site.language)
    ensures r.indexSchemas.Some? ==> (r.indexSchemas.value.faq.None? <==> faq.FileMissing? || faq.InvalidJson?)
    ensures key == "index" ==> r.title == site.gameName && r.canonical == RStrip(site.siteUrl, '/')
    ensures key != "index" ==> r.title == Title(key) && r.canonical == site.siteUrl + key + ".html"
    ensures r.description == "Learn more about " + site.siteName
    ensures |r.breadcrumbs| == 2 && r.breadcrumbs[0] == SeoManager.Crumb(HomeTitle(site.language), Some("/"))
    ensures r.breadcrumbs[1] == SeoManager.Crumb(if key == "index" then HomeTitle(site.language) else r.title, None)
    ensures r.breadcrumbSchema == BreadcrumbSchema(site.siteUrl, r.breadcrumbs)
    ensures r.current == key && r.customHtml == "content_html/" + key + ".html"
  {
    var home := HomeTitle(site.language);
    var isIndex := key == "index";
    var title := if isIndex then site.gameName else Title(key);
    var canonical := if isIndex then RStrip(site.siteUrl, '/') else Under(site.siteUrl, key);
    var crumbs := [SeoManager.Crumb(home, Some("/")), SeoManager.Crumb(if isIndex then home else title, None)];
    PageConfig(title, "Learn more about " + site.siteName, canonical, key, crumbs,
               Under("content_html/", key),
               if isIndex then Some(IndexSchemas(site.siteUrl + "#software", FaqSchemaAsWritten(faq, site.siteUrl, site.language)))
               else None,
               BreadcrumbSchema(site.siteUrl, crumbs))
  }

  /** `<dir><key>.html`. */
  function Under(dir: string, key: string): (r: string)
    ensures r == dir + key + ".html"
    ensures StartsWith(r, dir) && EndsWith(r, key + ".html")
    ensures |r| == |dir| + |key| + 5
  {
    PrefixOfConcat(dir, key + ".html");
    assert (dir + (key + ".html"))[|dir|..] == key + ".html";
    dir + (key + ".html")
  }

  /** For a site URL with its one trailing slash, every page's breadcrumb schema is the
      site root at position 1 and the page, without a link, at position 2. */
  lemma PageBreadcrumbSchema(site: Site, key: string, faq: FaqLoad)
    requires UrlUtils.IsSiteUrl(site.siteUrl)
    ensures var r := GetPageConfig(site, key, faq);
            r.breadcrumbSchema == [SeoManager.ListItem(1, HomeTitle(site.language), Some(site.siteUrl)),
                                   SeoManager.ListItem(2, r.breadcrumbs[1].title, None)]
  {
    var r := GetPageConfig(site, key, faq);
    TwoCrumbSchema(site.siteUrl, r.breadcrumbs, HomeTitle(site.language), r.breadcrumbs[1].title);
  }

  /** The schema of a root crumb followed by an unlinked one. */
  lemma TwoCrumbSchema(siteUrl: string, crumbs: seq<SeoManager.Crumb>, home: string, title: string)
    requires UrlUtils.IsSiteUrl(siteUrl)
    requires crumbs == [SeoManager.Crumb(home, Some("/")), SeoManager.Crumb(title, None)]
    ensures BreadcrumbSchema(siteUrl, crumbs) == [SeoManager.ListItem(1, home, Some(siteUrl)),
                                                  SeoManager.ListItem(2, title, None)]
  {
    SchemaOfTwo(siteUrl, crumbs[0], crumbs[1]);
    RootCrumb(siteUrl);
  }

  /** Two crumbs become two list items at positions 1 and 2. */
  lemma SchemaOfTwo(site: string, a: SeoManager.Crumb, b: SeoManager.Crumb)
    ensures BreadcrumbSchema(site, [a, b]) == [SeoManager.ListItem(1, a.title, CrumbItem(site, a.url)),
                                               SeoManager.ListItem(2, b.title, CrumbItem(site, b.url))]
  {
    var r := BreadcrumbSchema(site, [a, b]);
    assert r[0] == SeoManager.ListItem(1, a.title, CrumbItem(site, a.url));
    assert r[1] == SeoManager.ListItem(2, b.title, CrumbItem(site, b.url));
  }

  /** The index page's canonical URL is the site URL without its slash: the root its
      first crumb links to, written differently. */
  lemma IndexCanonicalIsRoot(site: Site, faq: FaqLoad)
    requires UrlUtils.IsSiteUrl(site.siteUrl)
    ensures var r := GetPageConfig(site, "index", faq);
            r.canonical + "/" == site.siteUrl && r.breadcrumbSchema[0].item == Some(site.siteUrl)
  {
    StripOneSlash(site.siteUrl);
    PageBreadcrumbSchema(site, "index", faq);
  }

  // ---------------------------------------------------------------------------
  // Game schema

  /**
   * The rating of `get_game_software_application_schema`: the derived value
   * `3.5 + (h % 150) / 100` rounded to one decimal and capped at 4.9, and the derived
   * count `150 + h % 3351`; a non-empty rating object overrides each of the two keys it
   * holds on its own.
   */
  function GameRating(h: nat, rating: Option<GameManager.Meta>): (r: LegacyGenerator.PageRating)
    ensures var given := rating.Some? && rating.value != map[];
            (r.value.FromMeta? <==> given && "ratingValue" in rating.value)
            && (r.count.FromMeta? <==> given && "ratingCount" in rating.value)
    ensures r.value.FromMeta? ==> r.value.j == rating.value["ratingValue"]
    ensures r.count.FromMeta? ==> r.count.j == rating.value["ratingCount"]
    ensures r.value.Derived? ==> 35 <= r.value.n <= 49
    ensures r.value.Derived? && r.value.n < 49 ==> GameManager.RoundsTo(SeoManager.RawHundredths(h), r.value.n)
    ensures r.value.Derived? && r.value.n == 49 ==> SeoManager.RawHundredths(h) >= 485
    ensures r.count.Derived? ==> 150 <= r.count.n <= 3500 && r.count.n - 150 == h % 3351
  {
    var t := GameManager.RoundTenths(SeoManager.RawHundredths(h));
    var value := LegacyGenerator.Derived(if t > 49 then 49 else t);
    var count := LegacyGenerator.Derived(150 + h % 3351);
    if rating.Some? && rating.value != map[] then
      var m := rating.value;
      LegacyGenerator.PageRating(
        if "ratingValue" in m then LegacyGenerator.FromMeta(m["ratingValue"]) else value,
        if "ratingCount" in m then LegacyGenerator.FromMeta(m["ratingCount"]) else count)
    else LegacyGenerator.PageRating(value, count)
  }

  /** Against the search-engine manager's rating: the same derived rating when no
      rating is given, the same overrides when one is, but where a key is missing this
      one keeps the derived value and that one falls back to a constant. */
  lemma GameRatingMatchesSeo(h: nat, rating: Option<GameManager.Meta>)
    ensures var r, s := GameRating(h, rating), SeoManager.SoftwareRating(h, rating);
            (s.AutoRating? ==> r == LegacyGenerator.PageRating(LegacyGenerator.Derived(s.tenths), LegacyGenerator.Derived(s.count)))
            && (s.GivenRating? ==> (r.value.FromMeta? <==> s.givenValue.Some?) && (r.count.FromMeta? <==> s.givenCount.Some?))
            && (s.GivenRating? && s.givenValue.Some? ==> r.value.j == s.givenValue.value)
            && (s.GivenRating? && s.givenCount.Some? ==> r.count.j == s.givenCount.value)
  {
  }

  datatype GameSchema = GameSchema(id: string, name: string, url: string, description: string,
                                   rating: LegacyGenerator.PageRating)

  /** The schema of one game page: `<site_url><slug>.html`, the `#software` id on that
      URL, the given description or the default one, and the rating above. */
  function GameSoftwareSchema(site: Site, title: string, slug: string, description: Option<string>,
                              h: nat, rating: Option<GameManager.Meta>): (r: GameSchema)
    ensures r.id == r.url + "#software" && r.name == title
    ensures StartsWith(r.url, site.siteUrl) && EndsWith(r.url, slug + ".html")
    ensures |r.url| == |site.siteUrl| + |slug| + 5
    ensures description.Some? && description.value != "" ==> r.description == description.value
    ensures description.None? || description.value == "" ==>
              r.description == SeoManager.DefaultDescription(title, site.siteName)
    ensures r.rating == GameRating(h, rating)
  {
    var url := Under(site.siteUrl, slug);
    GameSchema(url + "#software", title, url,
               if description.Some? && description.value != "" then description.value
               else SeoManager.DefaultDescription(title, site.siteName),
               GameRating(h, rating))
  }

  /** Two games never share a schema id. */
  lemma GameSchemaIdsDistinct(site: Site, a: string, b: string, h: nat, g: nat)
    ensures GameSoftwareSchema(site, a, a, None, h, None).id == GameSoftwareSchema(site, b, b, None, g, None).id ==> a == b
  {
    var u, v := GameSoftwareSchema(site, a, a, None, h, None).url, GameSoftwareSchema(site, b, b, None, g, None).url;
    var n := |site.siteUrl|;
    if u + "#software" == v + "#software" {
      assert u == (u + "#software")[..|u|] == (v + "#software")[..|v|] == v;
      assert a == u[n..|u| - 5] == v[n..|v| - 5] == b;
    }
  }

  // ---------------------------------------------------------------------------
  // Hero image

  /** `get_dynamic_hero_image`: the SEO image named by the settings' file name, or the
      `space-waves-pro` image when the settings have none. */
  function DynamicHeroImage(seoFilename: Option<string>): (r: string)
    ensures StartsWith(r, "/assets/images/seo/") && EndsWith(r, ".webp")
    ensures |r| == 24 + |seoFilename.UnwrapOr("space-waves-pro")|
    ensures r[19..|r| - 5] == seoFilename.UnwrapOr("space-waves-pro")
  {
    var name := seoFilename.UnwrapOr("space-waves-pro");
    var r := "/assets/images/seo/" + name + ".webp";
    assert r[..19] == "/assets/images/seo/";
    assert r[|r| - 5..] == ".webp";
    assert r[19..|r| - 5] == name;
    r
  }
}

=== FILE: site_crawler.dfy ===
/**
 * `SiteCrawler` (core/site_crawler.py): turns the generated files into page URLs,
 * checks the links and asset references found in each page, builds the sitemap
 * entries of the pages it found and gives the build verdict.
 *
 * The filesystem enters as the set of paths that exist; `urljoin`, `os.path.normpath`
 * and the date are parameters. Reading a page and the regular expressions that pull
 * its links out are not modelled: the links and assets of a page are given.
 */
module SiteCrawler {
  import opened Wrappers
  import opened Strings
  import opened Paths
  import opened UrlUtils

  datatype BrokenLink = BrokenLink(source: string, target: string)
  datatype MissingAsset = MissingAsset(source: string, asset: string, expectedPath: Path)

  /** The crawler's state: what it found and what it reported. */
  datatype Crawler = Crawler(outputDir: Path, siteUrl: string, discovered: set<string>,
                             broken: seq<BrokenLink>, missing: seq<MissingAsset>,
                             external: set<string>)

  /** The constructor: nothing found yet, and the site URL with one trailing slash. */
  function NewCrawler(outputDir: Path, siteUrl: string): (r: Crawler)
    ensures IsSiteUrl(r.siteUrl)
    ensures r.discovered == {} && r.broken == [] && r.missing == [] && r.external == {}
  {
    Crawler(outputDir, SiteUrl(siteUrl), {}, [], [], {})
  }

  // ---------------------------------------------------------------------------
  // Files and page URLs

  /** `file_path.replace('\\', '/')`. */
  function Normalized(filePath: Path): (r: Path)
    ensures '\\' !in filePath ==> r == filePath
  {
    if '\\' !in filePath then
      CharAbsent(filePath, '\\');
      ReplaceAbsent(filePath, "\\", "/");
      filePath
    else Replace(filePath, "\\", "/")
  }

  /**
   * `_file_to_url`: `404.html` and `offline.html` have no URL; a directory index
   * `d/index.html` becomes `/d/`, the root index `/`, and any other `.html` file keeps
   * its name behind a slash. Other files have no URL.
   */
  function FileToUrl(filePath: Path): (r: Option<string>)
    ensures r.Some? <==> EndsWith(Normalized(filePath), ".html")
                         && Normalized(filePath) != "404.html" && Normalized(filePath) != "offline.html"
    ensures r.Some? ==> StartsWith(r.value, "/")
  {
    var fp := Normalized(filePath);
    if fp == "404.html" || fp == "offline.html" then None
    else if EndsWith(fp, "/index.html") then
      assert "/index.html" == "/index" + ".html";
      EndsWithTail(fp, "/index", ".html");
      Some(Rooted("/", fp[..|fp| - 10]))
    else if fp == "index.html" then Some("/")
    else if EndsWith(fp, ".html") then Some(Rooted("/", fp))
    else None
  }

  /** An `.html` file that is neither a directory index nor one of the two special
      pages is served under its own name behind a slash. */
  lemma PlainHtmlUrl(fp: Path)
    requires '\\' !in fp && EndsWith(fp, ".html") && !EndsWith(fp, "/index.html")
    requires fp != "index.html" && fp != "404.html" && fp != "offline.html"
    ensures FileToUrl(fp) == Some("/" + fp)
  {
    assert Normalized(fp) == fp;
  }

  /** `d/index.html` and the clean URL `/d/` name the same page. */
  lemma DirectoryIndexUrl(d: Path)
    requires '\\' !in d
    ensures FileToUrl(d + "/index.html") == Some("/" + d + "/")
  {
    var fp := d + "/index.html";
    assert '\\' !in fp by {
      assert forall i :: 0 <= i < |"/index.html"| ==> "/index.html"[i] != '\\';
    }
    PrefixOfConcat(d, "/index.html");
    assert EndsWith(fp, "/index.html") by {
      assert fp[|fp| - 11..] == "/index.html";
    }
    assert |fp| >= 11;
    assert |fp| == 12 ==> fp[1] == '/' && "offline.html"[1] == 'f';
    assert fp != "404.html" && fp != "offline.html";
    assert Normalized(fp) == fp;
    assert fp[..|fp| - 10] == d + "/";
    assert Rooted("/", d + "/") == "/" + d + "/";
  }

  /** A file `_discover_html_files` turns into a page: it ends in `.html`, sits in no
      hidden directory, and has a URL. */
  predicate Discoverable(rel: Path) {
    EndsWith(rel, ".html") && HiddenFree(rel) && FileToUrl(rel).Some?
  }

  /** No directory on the way to the file starts with a dot (`os.walk` skips those
      directories; a file name may start with one). */
  predicate HiddenFree(rel: Path) {
    (|rel| == 0 || rel[0] != '.' || '/' !in rel)
    && forall i :: 0 < i < |rel| && rel[i - 1] == '/' && rel[i] == '.' ==> '/' !in rel[i..]
  }

  /** `_discover_html_files` over the relative paths of the output directory's files. */
  function DiscoverPages(rels: seq<Path>): (r: set<string>)
    ensures forall f :: f in rels && Discoverable(f) ==> FileToUrl(f).value in r
    ensures forall u :: u in r ==> StartsWith(u, "/")
    ensures forall u :: u in r ==> exists f :: f in rels && Discoverable(f) && FileToUrl(f) == Some(u)
  {
    set f | f in rels && Discoverable(f) :: FileToUrl(f).value
  }

  /** Every directory index in a visible directory is discovered under its clean URL. */
  lemma DirectoryIndexDiscovered(rels: seq<Path>, d: Path)
    requires d + "/index.html" in rels && HiddenFree(d + "/index.html") && '\\' !in d
    ensures "/" + d + "/" in DiscoverPages(rels)
  {
    DirectoryIndexUrl(d);
    var f := d + "/index.html";
    assert EndsWith(f, ".html") by {
      assert f[|f| - 5..] == ".html";
    }
  }

  /**
   * `_validate_page_links`' choice of file for a page URL: the root or
   * `<url stripped>/index.html`, and when that does not exist, `<url stripped>.html`.
   */
  function PageFile(outputDir: Path, pageUrl: string, present: set<Path>): (r: Option<Path>)
    ensures r.Some? ==> r.value in present
    ensures r.Some? ==> r.value == IndexFile(outputDir, pageUrl)
                        || r.value == JoinPath(outputDir, Strip(pageUrl, '/') + ".html")
  {
    var primary := IndexFile(outputDir, pageUrl);
    var file := if primary in present then primary else JoinPath(outputDir, Strip(pageUrl, '/') + ".html");
    if file in present then Some(file) else None
  }

  /** The first file tried for a page URL. */
  function IndexFile(outputDir: Path, pageUrl: string): Path {
    if pageUrl == "/" then JoinPath(outputDir, "index.html")
    else JoinPath(JoinPath(outputDir, Strip(pageUrl, '/')), "index.html")
  }

  /**
   * A legacy page such as `about.html` is discovered as `/about.html`; the lookup then
   * tries `about.html/index.html` and `about.html.html`, which are both longer than
   * the file's own path, so with only the page itself present it is never found.
   */
  lemma LegacyPageNotFound(outputDir: Path, rel: Path)
    requires !StartsWith(rel, "/") && |rel| > 0 && rel[|rel| - 1] != '/'
    ensures PageFile(outputDir, "/" + rel, {JoinPath(outputDir, rel)}) == None
  {
    TriesDiffer(outputDir, rel);
    BothTriesMissing(outputDir, "/" + rel, JoinPath(outputDir, rel));
  }

  /** Neither file tried for `"/" + rel` is the file `rel` itself. */
  lemma TriesDiffer(outputDir: Path, rel: Path)
    requires !StartsWith(rel, "/") && |rel| > 0 && rel[|rel| - 1] != '/'
    ensures IndexFile(outputDir, "/" + rel) != JoinPath(outputDir, rel)
    ensures JoinPath(outputDir, Strip("/" + rel, '/') + ".html") != JoinPath(outputDir, rel)
  {
    RootedTries(outputDir, rel);
    IndexFileLonger(outputDir, rel);
    LegacyNameLonger(outputDir, rel);
  }

  /** The two files tried for `"/" + rel`. */
  lemma RootedTries(outputDir: Path, rel: Path)
    requires !StartsWith(rel, "/") && |rel| > 0 && rel[|rel| - 1] != '/'
    ensures IndexFile(outputDir, "/" + rel) == JoinPath(JoinPath(outputDir, rel), "index.html")
    ensures Strip("/" + rel, '/') == rel
  {
    StripRooted(rel);
    assert "/" + rel != "/";
  }

  /** When only one file is present and it is neither of the two tried, no file is
      found. */
  lemma BothTriesMissing(outputDir: Path, pageUrl: string, only: Path)
    requires IndexFile(outputDir, pageUrl) != only
    requires JoinPath(outputDir, Strip(pageUrl, '/') + ".html") != only
    ensures PageFile(outputDir, pageUrl, {only}) == None
  {
  }

  lemma LegacyNameLonger(outputDir: Path, rel: Path)
    requires !StartsWith(rel, "/") && |rel| > 0 && rel[|rel| - 1] != '/'
    ensures |JoinPath(outputDir, rel + ".html")| == |JoinPath(outputDir, rel)| + 5
  {
    JoinRelative(outputDir, rel);
    assert !StartsWith(rel + ".html", "/") by {
      assert (rel + ".html")[..1] == rel[..1];
    }
    JoinRelative(outputDir, rel + ".html");
  }

  lemma IndexFileLonger(outputDir: Path, rel: Path)
    requires !StartsWith(rel, "/") && |rel| > 0 && rel[|rel| - 1] != '/'
    ensures |JoinPath(JoinPath(outputDir, rel), "index.html")| == |JoinPath(outputDir, rel)| + 11
  {
    JoinRelative(outputDir, rel);
    var page := JoinPath(outputDir, rel);
    assert page != "" && page[|page| - 1] != '/' by {
      assert page[|page| - 1] == rel[|rel| - 1];
    }
    DirPrefixAddsSlash(page);
    JoinRelative(page, "index.html");
  }

  /** `"/" + rel` stripped of slashes is `rel` again. */
  lemma StripRooted(rel: Path)
    requires !StartsWith(rel, "/") && |rel| > 0 && rel[|rel| - 1] != '/'
    ensures Strip("/" + rel, '/') == rel
  {
    assert rel[..1] != "/";
    assert LStrip("/" + rel, '/') == LStrip(rel, '/') == rel;
  }

  /** `os.path.join` adds one slash at most. */
  lemma JoinLength(a: Path, b: Path)
    requires !StartsWith(b, "/")
    ensures |JoinPath(a, b)| == |a| + |b| + (if a == "" || EndsWith(a, "/") then 0 else 1)
  {
  }

  /** The lookup with the legacy name corrected: a URL that already ends in `.html`
      is looked up as it is. */
  function PageFileFixed(outputDir: Path, pageUrl: string, present: set<Path>): (r: Option<Path>)
    ensures r.Some? ==> r.value in present
  {
    var primary := IndexFile(outputDir, pageUrl);
    var name := Strip(pageUrl, '/');
    var legacy := JoinPath(outputDir, if EndsWith(name, ".html") then name else name + ".html");
    var file := if primary in present then primary else legacy;
    if file in present then Some(file) else None
  }

  /** A legacy file keeps its name in its URL. */
  lemma LegacyUrl(rel: Path)
    requires '\\' !in rel && !StartsWith(rel, "/")
    requires EndsWith(rel, ".html") && !EndsWith(rel, "index.html")
    requires rel != "404.html" && rel != "offline.html"
    ensures FileToUrl(rel) == Some("/" + rel)
  {
    assert "/index.html" == "/" + "index.html";
    EndsWithTailContra(rel, "/", "index.html");
    assert rel != "index.html" by {
      assert EndsWith("index.html", "index.html");
    }
  }

  /** With the correction, the file of every legacy page is found through its own
      name. */
  lemma LegacyPageFound(outputDir: Path, rel: Path, present: set<Path>)
    requires !StartsWith(rel, "/") && |rel| > 0 && rel[|rel| - 1] != '/'
    requires EndsWith(rel, ".html")
    requires JoinPath(outputDir, rel) in present
    ensures PageFileFixed(outputDir, "/" + rel, present).Some?
  {
    StripRooted(rel);
    FixedFindsLegacy(outputDir, "/" + rel, present);
  }

  /** A page whose stripped URL already ends in `.html` is found through that name. */
  lemma FixedFindsLegacy(outputDir: Path, pageUrl: string, present: set<Path>)
    requires EndsWith(Strip(pageUrl, '/'), ".html")
    requires JoinPath(outputDir, Strip(pageUrl, '/')) in present
    ensures PageFileFixed(outputDir, pageUrl, present).Some?
  {
  }

  // ---------------------------------------------------------------------------
  // Links

  /** `url.split('?')[0].split('#')[0]`. */
  function StripQuery(url: string): (r: string)
    ensures '?' !in r && '#' !in r && StartsWith(url, r)
    ensures '?' !in url && '#' !in url ==> r == url
  {
    var beforeQuery := Before(url, '?');
    var beforeFragment := Before(beforeQuery, '#');
    assert StartsWith(url, beforeFragment) by {
      assert url[..|beforeFragment|] == beforeQuery[..|beforeFragment|];
    }
    beforeFragment
  }

  /** `s.split(c)[0]`. */
  function Before(s: string, c: char): (r: string)
    ensures c !in r && StartsWith(s, r)
    ensures c !in s ==> r == s
    ensures Split(s, c)[0] == r
  {
    match IndexOf(s, c)
    case None => s
    case Some(i) => s[..i]
  }

  /** A query or fragment after a plain URL is dropped. */
  lemma StripQueryOf(u: string, tail: string)
    requires '?' !in u && '#' !in u && |tail| > 0 && (tail[0] == '?' || tail[0] == '#')
    ensures StripQuery(u + tail) == u
  {
    if tail[0] == '?' {
      IndexOfPrefix(u, '?', tail);
      assert Before(u + tail, '?') == u;
    } else {
      assert '?' in tail || Before(u + tail, '?') == u + tail;
      var b := Before(u + tail, '?');
      assert |b| >= |u| by {
        if IndexOf(u + tail, '?').Some? {
          var i := IndexOf(u + tail, '?').value;
          assert i >= |u|;
        }
      }
      assert b == u + b[|u|..] by {
        assert b[..|u|] == (u + tail)[..|u|] == u;
      }
      assert |b| > |u| ==> b[|u|] == '#';
      IndexOfPrefix(u, '#', b[|u|..]);
    }
  }

  /**
   * `_url_exists`: a URL (without query and fragment) exists when it is a discovered
   * page, when adding a slash gives one, or when its file can be found.
   */
  function UrlExists(discovered: set<string>, outputDir: Path, url: string, present: set<Path>): (r: bool)
    ensures StripQuery(url) in discovered ==> r
    ensures !EndsWith(StripQuery(url), "/") && StripQuery(url) + "/" in discovered ==> r
  {
    var u := StripQuery(url);
    u in discovered
    || (!EndsWith(u, "/") && u + "/" in discovered)
    || FileFallback(outputDir, u, present)
  }

  /** The file checks that end `_url_exists`: the root index for `/`; otherwise the
      directory index, then the path itself, then the path with `.html`. */
  predicate FileFallback(outputDir: Path, u: string, present: set<Path>) {
    var cs := CandidateFiles(outputDir, u);
    if |cs| == 1 then cs[0] in present
    else
      var file := if cs[0] in present then cs[0] else if cs[1] in present then cs[1] else cs[2];
      file in present
  }

  /** The files `_url_exists` tries: the root index for `/`; otherwise the directory
      index, the path itself and the path with `.html`. */
  function CandidateFiles(outputDir: Path, u: string): (r: seq<Path>)
    ensures |r| == 1 <==> u == "/"
    ensures |r| == 1 || |r| == 3
  {
    if u == "/" then [JoinPath(outputDir, "index.html")]
    else
      var name := Strip(u, '/');
      [JoinPath(JoinPath(outputDir, name), "index.html"), JoinPath(outputDir, name),
       JoinPath(outputDir, name + ".html")]
  }

  /** The chain of file checks succeeds exactly when one of the candidate files exists. */
  lemma FileFallbackMeans(outputDir: Path, u: string, present: set<Path>)
    ensures FileFallback(outputDir, u, present) <==>
              exists k :: 0 <= k < |CandidateFiles(outputDir, u)| && CandidateFiles(outputDir, u)[k] in present
  {
    var cs := CandidateFiles(outputDir, u);
    if |cs| == 3 && cs[2] in present {
      assert FileFallback(outputDir, u, present);
    }
  }

  /** A link to a discovered page exists whatever query or fragment it carries. */
  lemma QueryDoesNotBreakLink(discovered: set<string>, outputDir: Path, u: string, tail: string, present: set<Path>)
    requires u in discovered && '?' !in u && '#' !in u
    requires |tail| > 0 && (tail[0] == '?' || tail[0] == '#')
    ensures UrlExists(discovered, outputDir, u + tail, present)
  {
    StripQueryOf(u, tail);
  }

  /** The link prefixes `_validate_link` ignores. */
  predicate Ignored(link: string) {
    StartsWith(link, "#") || StartsWith(link, "mailto:") || StartsWith(link, "tel:")
    || StartsWith(link, "javascript:") || StartsWith(link, "data:")
  }

  /** `urlparse(link).netloc` for a link starting `http://`, `https://` or `//`: the
      text after the double slash up to the first `/`, `?` or `#`. */
  function Netloc(link: string): (r: string)
    requires IsExternal(link)
  {
    var rest := if StartsWith(link, "http://") then link[7..]
                else if StartsWith(link, "https://") then link[8..]
                else link[2..];
    HostPart(rest)
  }

  function HostPart(s: string): (r: string)
    ensures StartsWith(s, r)
    ensures forall i :: 0 <= i < |r| ==> r[i] != '/' && r[i] != '?' && r[i] != '#'
  {
    if |s| == 0 || s[0] == '/' || s[0] == '?' || s[0] == '#' then ""
    else
      var t := HostPart(s[1..]);
      assert s == [s[0]] + s[1..];
      [s[0]] + t
  }

  /** A character `urlsplit` allows in a scheme. */
  predicate SchemeChar(c: char) {
    IsLetter(c) || IsDigit(c) || c == '+' || c == '-' || c == '.'
  }

  /** What `urlsplit` reads after the scheme: the text after the first `:` when what
      precedes it is a scheme starting with a letter, otherwise the whole URL. */
  function AfterScheme(url: string): (r: string)
    ensures |r| <= |url|
  {
    match IndexOf(url, ':')
    case None => url
    case Some(i) =>
      if i > 0 && IsLetter(url[0]) && forall k :: 0 <= k < i ==> SchemeChar(url[k]) then url[i + 1..] else url
  }

  /** The network location `urlsplit` finds: there is one when the text after the
      scheme starts with `//`, and it runs to the first `/`, `?` or `#`. */
  function SplitNetloc(url: string): (r: Option<string>)
    ensures r.Some? ==> forall i :: 0 <= i < |r.value| ==> r.value[i] != '/' && r.value[i] != '?' && r.value[i] != '#'
  {
    var rest := AfterScheme(url);
    if StartsWith(rest, "//") then Some(HostPart(rest[2..])) else None
  }

  /** `urlsplit` raises `ValueError("Invalid IPv6 URL")` when the network location holds
      one square bracket without the other. */
  predicate SplitRaises(url: string) {
    SplitNetloc(url).Some? && (('[' in SplitNetloc(url).value) != (']' in SplitNetloc(url).value))
  }

  /** The network location of an external link, as `Netloc` reads it, is the one
      `urlsplit` finds. */
  lemma ExternalNetloc(link: string)
    requires IsExternal(link)
    ensures SplitNetloc(link) == Some(Netloc(link))
  {
    if StartsWith(link, "http://") {
      AfterHttp(link, 4);
    } else if StartsWith(link, "https://") {
      AfterHttp(link, 5);
    } else {
      assert link[..2] == "//" && link[0] == '/';
      assert AfterScheme(link) == link;
    }
  }

  /** Behind `http:` or `https:` (`n` is the colon's index) come the two slashes and
      the network location. */
  lemma AfterHttp(link: string, n: nat)
    requires (n == 4 && StartsWith(link, "http://")) || (n == 5 && StartsWith(link, "https://"))
    ensures SplitNetloc(link) == Some(HostPart(link[n + 3..]))
  {
    var scheme := if n == 4 then "http://" else "https://";
    assert link[..n + 3] == scheme;
    assert forall k :: 0 <= k < n + 3 ==> link[k] == scheme[k];
    assert link[0] == 'h' && link[n] == ':' && link[n + 1] == '/' && link[n + 2] == '/';
    assert forall k :: 0 <= k < n ==> SchemeChar(link[k]) && link[k] != ':';
    SchemeSplit(link, n);
    var rest := link[n + 1..];
    assert rest[0] == '/' && rest[1] == '/';
    assert rest[..2] == "//";
    assert rest[2..] == link[n + 3..];
  }

  /** A scheme of `n` scheme characters starting with a letter, then `:`, is what
      `urlsplit` strips. */
  lemma SchemeSplit(link: string, n: nat)
    requires 0 < n < |link| && link[n] == ':' && IsLetter(link[0])
    requires forall k :: 0 <= k < n ==> SchemeChar(link[k]) && link[k] != ':'
    ensures AfterScheme(link) == link[n + 1..]
  {
    assert IndexOf(link, ':') == Some(n);
  }

  /**
   * Whether `_validate_link` raises: `urlparse` of an external link fails, or, for a
   * relative link, `urljoin` fails, which parses the page and then the link unless
   * either is empty.
   */
  predicate LinkRaises(link: string, sourcePage: string) {
    !Ignored(link)
    && if IsExternal(link) then SplitRaises(link)
       else !StartsWith(link, "/") && sourcePage != "" && link != ""
            && (SplitRaises(sourcePage) || SplitRaises(link))
  }

  /** The page a relative link is resolved against, joined by `urljoin`. */
  function LinkTarget(link: string, sourcePage: string, join: (string, string) -> string): string {
    if StartsWith(link, "/") then link else join(sourcePage, link)
  }

  /** The internal links `_validate_link` reports: neither ignored nor external, parsed
      without error, and not existing. */
  predicate Broken(c: Crawler, link: string, sourcePage: string,
                   join: (string, string) -> string, present: set<Path>) {
    !Ignored(link) && !IsExternal(link) && !LinkRaises(link, sourcePage)
    && !UrlExists(c.discovered, c.outputDir, LinkTarget(link, sourcePage, join), present)
  }

  /**
   * `_validate_link`: ignored links change nothing; a link that cannot be parsed
   * raises `ValueError`; external links are recorded when their host is not part of
   * the site URL; an internal link is reported broken exactly when its target does not
   * exist.
   */
  function ValidateLink(c: Crawler, link: string, sourcePage: string,
                        join: (string, string) -> string, present: set<Path>): (r: Result<Crawler>)
    ensures r.Err? <==> LinkRaises(link, sourcePage)
    ensures r.Err? ==> r.error.ValueError?
    ensures r.Ok? ==> r.value.discovered == c.discovered && r.value.missing == c.missing
    ensures r.Ok? ==> r.value.outputDir == c.outputDir && r.value.siteUrl == c.siteUrl
    ensures Broken(c, link, sourcePage, join, present) ==> r == Ok(c.(broken := c.broken + [BrokenLink(sourcePage, link)]))
    ensures r.Ok? && !Broken(c, link, sourcePage, join, present) ==> r.value.broken == c.broken
    ensures (IsExternal(link) && !Ignored(link) && !SplitRaises(link) && Netloc(link) != ""
             && !Contains(c.siteUrl, Netloc(link))) ==> r == Ok(c.(external := c.external + {link}))
    ensures r.Ok? ==> r.value.external == c.external || r.value.external == c.external + {link}
    ensures r.Ok? && r.value.external != c.external ==> IsExternal(link)
  {
    if Ignored(link) then Ok(c)
    else if LinkRaises(link, sourcePage) then Err(ValueError("Invalid IPv6 URL"))
    else if IsExternal(link) then
      var host := Netloc(link);
      if host != "" && !Contains(c.siteUrl, host) then Ok(c.(external := c.external + {link})) else Ok(c)
    else if !UrlExists(c.discovered, c.outputDir, LinkTarget(link, sourcePage, join), present) then
      Ok(c.(broken := c.broken + [BrokenLink(sourcePage, link)]))
    else Ok(c)
  }

  /** The links of one page, checked in order until one raises; the flag says whether
      one did, which ends the checking of that page. */
  function ValidateLinks(c: Crawler, links: seq<string>, sourcePage: string,
                         join: (string, string) -> string, present: set<Path>): (r: (Crawler, bool))
    ensures r.0.discovered == c.discovered && r.0.missing == c.missing
    ensures r.0.outputDir == c.outputDir && r.0.siteUrl == c.siteUrl
    ensures r.1 <==> exists k :: 0 <= k < |links| && LinkRaises(links[k], sourcePage)
    decreases |links|
  {
    if |links| == 0 then (c, false)
    else
      match ValidateLink(c, links[0], sourcePage, join, present)
      case Err(_) => (c, true)
      case Ok(c') =>
        var r := ValidateLinks(c', links[1..], sourcePage, join, present);
        RaisesInTail(links, sourcePage);
        r
  }

  /** A list whose first link does not raise has a raising link exactly when its tail
      does. */
  lemma RaisesInTail(links: seq<string>, sourcePage: string)
    requires |links| > 0 && !LinkRaises(links[0], sourcePage)
    ensures (exists k :: 0 <= k < |links| && LinkRaises(links[k], sourcePage))
            <==> (exists k :: 0 <= k < |links[1..]| && LinkRaises(links[1..][k], sourcePage))
  {
    if exists k :: 0 <= k < |links| && LinkRaises(links[k], sourcePage) {
      var k :| 0 <= k < |links| && LinkRaises(links[k], sourcePage);
      assert links[1..][k - 1] == links[k];
    }
    if exists k :: 0 <= k < |links[1..]| && LinkRaises(links[1..][k], sourcePage) {
      var k :| 0 <= k < |links[1..]| && LinkRaises(links[1..][k], sourcePage);
      assert links[1..][k] == links[k + 1];
    }
  }

  /** The reference list of reports for a page: one per broken link before the first
      link that raises, in order. */
  function BrokenOf(c: Crawler, links: seq<string>, sourcePage: string,
                    join: (string, string) -> string, present: set<Path>): (r: seq<BrokenLink>)
    ensures |r| <= |links|
    decreases |links|
  {
    if |links| == 0 || LinkRaises(links[0], sourcePage) then []
    else (if Broken(c, links[0], sourcePage, join, present) then [BrokenLink(sourcePage, links[0])] else [])
         + BrokenOf(c, links[1..], sourcePage, join, present)
  }

  /** Checking a page's links appends exactly one report per broken link before the
      first link that raises, in order, and nothing else. */
  lemma {:induction false} ValidateLinksReports(c: Crawler, links: seq<string>, sourcePage: string,
                                                join: (string, string) -> string, present: set<Path>)
    ensures ValidateLinks(c, links, sourcePage, join, present).0.broken
            == c.broken + BrokenOf(c, links, sourcePage, join, present)
    decreases |links|
  {
    if |links| > 0 && !LinkRaises(links[0], sourcePage) {
      var c' := ValidateLink(c, links[0], sourcePage, join, present).value;
      ValidateLinksReports(c', links[1..], sourcePage, join, present);
      BrokenOfDependsOnPages(c, c', links[1..], sourcePage, join, present);
      ReportsStep(c, links, sourcePage, join, present, c'.broken);
    }
  }

  /** A link whose host has an opening bracket and no closing one raises, so nothing
      after it on the page is checked. */
  lemma BracketLinkStopsPage(c: Crawler, rest: seq<string>, sourcePage: string,
                             join: (string, string) -> string, present: set<Path>)
    ensures LinkRaises("https://[x", sourcePage)
    ensures ValidateLinks(c, ["https://[x"] + rest, sourcePage, join, present) == (c, true)
  {
    BracketLinkRaises("https://[x", sourcePage);
    RaisingLinkStops(c, "https://[x", rest, sourcePage, join, present);
  }

  lemma BracketLinkRaises(link: string, sourcePage: string)
    requires link == "https://[x"
    ensures LinkRaises(link, sourcePage)
  {
    BracketNetloc(link);
    assert SplitRaises(link) by {
      var n := SplitNetloc(link).value;
      assert n == "[x";
      assert n[0] == '[';
      assert forall k :: 0 <= k < |n| ==> n[k] != ']';
    }
    assert !Ignored(link) by { NotIgnored(link); }
  }

  /** The netloc `urlsplit` finds in the bracket link. */
  lemma BracketNetloc(link: string)
    requires link == "https://[x"
    ensures IsExternal(link) && SplitNetloc(link) == Some("[x")
  {
    assert link == "https://" + "[x";
    HttpsNetloc("[x");
    HostPartPlain("[x");
  }

  /** Behind `https://`, the netloc is the host part of the rest. */
  lemma HttpsNetloc(rest: string)
    ensures IsExternal("https://" + rest)
    ensures SplitNetloc("https://" + rest) == Some(HostPart(rest))
  {
    var link := "https://" + rest;
    assert link[..8] == "https://";
    assert !StartsWith(link, "http://") by { assert link[4] == 's'; }
    ExternalNetloc(link);
    assert link[8..] == rest;
  }

  /** A text without `/`, `?` or `#` is its own host part. */
  lemma {:induction false} HostPartPlain(s: string)
    requires forall k :: 0 <= k < |s| ==> s[k] != '/' && s[k] != '?' && s[k] != '#'
    ensures HostPart(s) == s
  {
    if |s| > 0 {
      HostPartPlain(s[1..]);
      assert s == [s[0]] + s[1..];
    }
  }

  /** A link starting with `h` has none of the ignored prefixes. */
  lemma NotIgnored(link: string)
    requires |link| > 0 && link[0] == 'h'
    ensures !Ignored(link)
  {
    assert !StartsWith(link, "#") by { assert "#"[0] != 'h'; }
    assert !StartsWith(link, "mailto:") by { assert "mailto:"[0] != 'h'; }
    assert !StartsWith(link, "tel:") by { assert "tel:"[0] != 'h'; }
    assert !StartsWith(link, "javascript:") by { assert "javascript:"[0] != 'h'; }
    assert !StartsWith(link, "data:") by { assert "data:"[0] != 'h'; }
  }

  /** A first link that raises ends the page's links with the crawler untouched. */
  lemma RaisingLinkStops(c: Crawler, link: string, rest: seq<string>, sourcePage: string,
                         join: (string, string) -> string, present: set<Path>)
    requires LinkRaises(link, sourcePage)
    ensures ValidateLinks(c, [link] + rest, sourcePage, join, present) == (c, true)
  {
    var links := [link] + rest;
    assert links[0] == link;
  }

  /** One step of the induction: the first link's report, then the rest's. */
  lemma ReportsStep(c: Crawler, links: seq<string>, sourcePage: string,
                    join: (string, string) -> string, present: set<Path>, after: seq<BrokenLink>)
    requires |links| > 0 && !LinkRaises(links[0], sourcePage)
    requires after == c.broken + if Broken(c, links[0], sourcePage, join, present)
                                 then [BrokenLink(sourcePage, links[0])] else []
    ensures after + BrokenOf(c, links[1..], sourcePage, join, present)
            == c.broken + BrokenOf(c, links, sourcePage, join, present)
  {
  }

  /** Whether a link is broken depends only on the discovered pages and the output
      directory, which checking links does not change. */
  lemma {:induction false} BrokenOfDependsOnPages(c: Crawler, c': Crawler, links: seq<string>, sourcePage: string,
                                                  join: (string, string) -> string, present: set<Path>)
    requires c'.discovered == c.discovered && c'.outputDir == c.outputDir
    ensures BrokenOf(c', links, sourcePage, join, present) == BrokenOf(c, links, sourcePage, join, present)
    decreases |links|
  {
    if |links| > 0 {
      BrokenOfDependsOnPages(c, c', links[1..], sourcePage, join, present);
    }
  }

  // ---------------------------------------------------------------------------
  // Assets

  /** The references `_validate_asset` never checks. */
  predicate ExternalAsset(asset: string) {
    IsExternal(asset) || StartsWith(asset, "data:")
  }

  /** `os.path.dirname`: the part before the last slash, without trailing slashes
      unless it is all slashes. */
  function Dirname(p: Path): (r: Path)
    ensures |r| <= |p|
  {
    match LastIndexOf(p, '/')
    case None => ""
    case Some(i) =>
      var head := p[..i + 1];
      if forall k :: 0 <= k < |head| ==> head[k] == '/' then head else RStrip(head, '/')
  }

  /** The path `_validate_asset` expects an asset at, before `normpath`. */
  function AssetPath(outputDir: Path, asset: string, sourcePage: string): Path {
    if StartsWith(asset, "/") then JoinPath(outputDir, LStrip(asset, '/'))
    else
      var pageDir := Dirname(Strip(sourcePage, '/'));
      if pageDir != "" then JoinPath(JoinPath(outputDir, pageDir), asset)
      else JoinPath(outputDir, asset)
  }

  /**
   * `_validate_asset`: external and `data:` references are skipped; any other
   * reference is reported exactly when its normalised path does not exist.
   */
  function ValidateAsset(c: Crawler, asset: string, sourcePage: string,
                         normpath: Path -> Path, present: set<Path>): (r: Crawler)
    ensures ExternalAsset(asset) ==> r == c
    ensures r.discovered == c.discovered && r.broken == c.broken && r.external == c.external
    ensures !ExternalAsset(asset) && normpath(AssetPath(c.outputDir, asset, sourcePage)) !in present
            ==> r.missing == c.missing + [MissingAsset(sourcePage, asset, normpath(AssetPath(c.outputDir, asset, sourcePage)))]
    ensures ExternalAsset(asset) || normpath(AssetPath(c.outputDir, asset, sourcePage)) in present
            ==> r.missing == c.missing
  {
    if ExternalAsset(asset) then c
    else
      var path := normpath(AssetPath(c.outputDir, asset, sourcePage));
      if path !in present then c.(missing := c.missing + [MissingAsset(sourcePage, asset, path)]) else c
  }

  /** The asset references of one page, checked in order. */
  function ValidateAssets(c: Crawler, assets: seq<string>, sourcePage: string,
                          normpath: Path -> Path, present: set<Path>): (r: Crawler)
    ensures r.discovered == c.discovered && r.broken == c.broken && r.external == c.external
    ensures r.outputDir == c.outputDir
    ensures |c.missing| <= |r.missing| <= |c.missing| + |assets|
    ensures (forall k :: 0 <= k < |assets| ==> ExternalAsset(assets[k])) ==> r == c
    decreases |assets|
  {
    if |assets| == 0 then c
    else
      var c' := ValidateAsset(c, assets[0], sourcePage, normpath, present);
      assert forall k :: 0 <= k < |assets[1..]| ==> assets[1..][k] == assets[k + 1];
      ValidateAssets(c', assets[1..], sourcePage, normpath, present)
  }

  /** What a page refers to: the links and the asset references found in its file. */
  datatype PageRefs = PageRefs(links: seq<string>, assets: seq<string>)

  /**
   * `_validate_page_links`: a page whose file is not found by the lookup, or cannot be
   * read (absent from `contents`), is skipped; otherwise its links and then its
   * assets are checked, and a link that raises ends the page: the handler around the
   * loops logs it, so the later links and all the assets go unchecked.
   */
  function ValidatePage(c: Crawler, pageUrl: string, present: set<Path>, contents: map<Path, PageRefs>,
                        join: (string, string) -> string, normpath: Path -> Path): (r: Crawler)
    ensures r.discovered == c.discovered && r.outputDir == c.outputDir
    ensures PageFile(c.outputDir, pageUrl, present).None? ==> r == c
    ensures PageFile(c.outputDir, pageUrl, present).Some?
            && PageFile(c.outputDir, pageUrl, present).value in contents
            ==> r.broken == c.broken + BrokenOf(c, contents[PageFile(c.outputDir, pageUrl, present).value].links,
                                                pageUrl, join, present)
    ensures PageFile(c.outputDir, pageUrl, present).Some?
            && PageFile(c.outputDir, pageUrl, present).value in contents
            && (exists k :: 0 <= k < |contents[PageFile(c.outputDir, pageUrl, present).value].links|
                            && LinkRaises(contents[PageFile(c.outputDir, pageUrl, present).value].links[k], pageUrl))
            ==> r.missing == c.missing
  {
    match PageFile(c.outputDir, pageUrl, present)
    case None => c
    case Some(file) =>
      if file !in contents then c
      else
        var refs := contents[file];
        ValidateLinksReports(c, refs.links, pageUrl, join, present);
        var checked := ValidateLinks(c, refs.links, pageUrl, join, present);
        if checked.1 then checked.0
        else ValidateAssets(checked.0, refs.assets, pageUrl, normpath, present)
  }

  /** A legacy page whose only file is its own is skipped: none of its links is
      checked, whatever it holds. */
  lemma LegacyPageSkipped(c: Crawler, rel: Path, contents: map<Path, PageRefs>,
                          join: (string, string) -> string, normpath: Path -> Path)
    requires !StartsWith(rel, "/") && |rel| > 0 && rel[|rel| - 1] != '/'
    ensures ValidatePage(c, "/" + rel, {JoinPath(c.outputDir, rel)}, contents, join, normpath) == c
  {
    LegacyPageNotFound(c.outputDir, rel);
  }

  // ---------------------------------------------------------------------------
  // Sitemap and verdict

  /** A sitemap priority in tenths and its change frequency. */
  datatype Rank = Rank(tenths: nat, changefreq: string)

  /** The priority table of `generate_sitemap_entries`. */
  function PageRank(url: string): (r: Rank)
    ensures r.tenths <= 10
    ensures r.tenths == 10 <==> url == "/"
    ensures r.tenths >= 8 <==> url == "/" || StartsWith(url, "/games/")
    ensures r.tenths == 3 <==> IsLegalUrl(url) && url != "/" && !StartsWith(url, "/games/")
  {
    if url == "/" then Rank(10, "daily")
    else if StartsWith(url, "/games/") then
      if url == "/games/" then Rank(9, "daily") else Rank(8, "weekly")
    else if url == "/about-us/" || url == "/contact/" then Rank(6, "monthly")
    else if IsLegalUrl(url) then Rank(3, "yearly")
    else Rank(5, "monthly")
  }

  /** The whole priority table: each class of page URL with its priority and change
      frequency. */
  lemma PageRankTable(url: string)
    ensures url == "/" ==> PageRank(url) == Rank(10, "daily")
    ensures url == "/games/" ==> PageRank(url) == Rank(9, "daily")
    ensures StartsWith(url, "/games/") && url != "/games/" ==> PageRank(url) == Rank(8, "weekly")
    ensures url == "/about-us/" || url == "/contact/" ==> PageRank(url) == Rank(6, "monthly")
    ensures IsLegalUrl(url) ==> PageRank(url) == Rank(3, "yearly")
    ensures (url != "/" && !StartsWith(url, "/games/") && url != "/about-us/" && url != "/contact/"
             && !IsLegalUrl(url)) ==> PageRank(url) == Rank(5, "monthly")
  {
    if StartsWith(url, "/games/") {
      GamesUrlIsNoOtherClass(url);
    }
  }

  /** A URL under `/games/` is none of the fixed pages ranked separately. */
  lemma GamesUrlIsNoOtherClass(url: string)
    requires StartsWith(url, "/games/")
    ensures !IsLegalUrl(url) && url != "/about-us/" && url != "/contact/"
  {
    assert url[1] == 'g';
  }

  predicate IsLegalUrl(url: string) {
    url == "/privacy-policy/" || url == "/terms-of-service/" || url == "/dmca/" || url == "/cookies-policy/"
  }

  /** The value in tenths of a priority written `<digit>.<digit>`. */
  function TenthsOf(text: string): int
    requires |text| == 3
  {
    (text[0] as int - '0' as int) * 10 + (text[2] as int - '0' as int)
  }

  /** The priority as the source writes it: `1.0` or `0.<tenths>`, a decimal text
      that reads back as the given number of tenths. */
  function PriorityText(tenths: nat): (r: string)
    requires tenths <= 10
    ensures |r| == 3 && r[1] == '.'
    ensures '0' <= r[0] <= '1' && '0' <= r[2] <= '9'
    ensures TenthsOf(r) == tenths
  {
    if tenths == 10 then "1.0" else ['0', '.', ('0' as int + tenths) as char]
  }

  /** The entry `generate_sitemap_entries` writes for one page. */
  function EntryFor(siteUrl: string, pageUrl: string, today: string): (r: SitemapUrl)
    ensures r.loc == siteUrl + LStrip(pageUrl, '/') && r.lastmod == today
    ensures r.priority == PriorityText(PageRank(pageUrl).tenths)
    ensures r.changefreq == PageRank(pageUrl).changefreq
  {
    var rank := PageRank(pageUrl);
    SitemapUrl(siteUrl + LStrip(pageUrl, '/'), today, rank.changefreq, PriorityText(rank.tenths))
  }

  /** `generate_sitemap_entries`: one entry per discovered page, in sorted order. */
  method SitemapEntries(c: Crawler, today: string) returns (pages: seq<string>, entries: seq<SitemapUrl>)
    ensures StrictlySorted(pages) && |pages| == |c.discovered|
    ensures forall u :: u in pages <==> u in c.discovered
    ensures |entries| == |pages|
    ensures forall i :: 0 <= i < |entries| ==> entries[i] == EntryFor(c.siteUrl, pages[i], today)
  {
    pages := Sorted(c.discovered);
    var site := c.siteUrl;
    entries := [];
    var i := 0;
    while i < |pages|
      invariant 0 <= i <= |pages| && |entries| == i
      invariant forall k :: 0 <= k < i ==> entries[k] == EntryFor(site, pages[k], today)
    {
      var e := EntryFor(site, pages[i], today);
      entries := entries + [e];
      i := i + 1;
    }
  }

  /** Two different page URLs with one leading slash never share a sitemap location. */
  lemma SitemapLocsDistinct(siteUrl: string, u1: string, u2: string, today: string)
    requires StartsWith(u1, "/") && StartsWith(u2, "/") && !StartsWith(u1, "//") && !StartsWith(u2, "//")
    requires u1 != u2
    ensures EntryFor(siteUrl, u1, today).loc != EntryFor(siteUrl, u2, today).loc
  {
    LocAfterSite(siteUrl, u1, today);
    LocAfterSite(siteUrl, u2, today);
    assert u1 == [u1[0]] + u1[1..] && u2 == [u2[0]] + u2[1..];
  }

  /** The location is the site URL followed by the page URL without its slash, and
      the page URL can be read back from it. */
  lemma LocAfterSite(siteUrl: string, u: string, today: string)
    requires StartsWith(u, "/") && !StartsWith(u, "//")
    ensures EntryFor(siteUrl, u, today).loc[|siteUrl|..] == u[1..]
    ensures u[0] == '/'
  {
    OneSlashStripped(u);
    assert (siteUrl + u[1..])[|siteUrl|..] == u[1..];
  }

  lemma OneSlashStripped(u: string)
    requires StartsWith(u, "/") && !StartsWith(u, "//")
    ensures LStrip(u, '/') == u[1..]
  {
    var t := u[1..];
    assert u[0] == '/' by { assert u[..1][0] == u[0]; }
    assert |t| == 0 || t[0] != '/' by {
      assert |t| == 0 || u[..2] == [u[0], t[0]];
    }
    DropLeadingSlash(u, t);
  }

  lemma DropLeadingSlash(u: string, t: string)
    requires |u| > 0 && u[0] == '/' && t == u[1..] && (|t| == 0 || t[0] != '/')
    ensures LStrip(u, '/') == t
  {
  }

  /**
   * `validate_build`: valid exactly when nothing is broken or missing and some page
   * was found; an invalid build raises `ValueError` when `failOnErrors` is set.
   */
  function ValidateBuild(c: Crawler, failOnErrors: bool): (r: Result<bool>)
    ensures r.Err? <==> failOnErrors && !(c.broken == [] && c.missing == [] && c.discovered != {})
    ensures r.Ok? ==> (r.value <==> c.broken == [] && c.missing == [] && c.discovered != {})
    ensures r.Err? ==> r.error.ValueError?
  {
    var valid := |c.broken| == 0 && |c.missing| == 0 && |c.discovered| > 0;
    if !valid && failOnErrors then Err(ValueError("Build validation failed")) else Ok(valid)
  }

  /** A page whose links all lead to discovered pages (or are ignored or external)
      leaves the verdict as it was. */
  lemma GoodLinksKeepVerdict(c: Crawler, links: seq<string>, sourcePage: string,
                             join: (string, string) -> string, present: set<Path>, failOnErrors: bool)
    requires forall k :: 0 <= k < |links| ==> !Broken(c, links[k], sourcePage, join, present)
    ensures ValidateBuild(ValidateLinks(c, links, sourcePage, join, present).0, failOnErrors)
            == ValidateBuild(c, failOnErrors)
  {
    ValidateLinksReports(c, links, sourcePage, join, present);
    NoneBroken(c, links, sourcePage, join, present);
  }

  lemma {:induction false} NoneBroken(c: Crawler, links: seq<string>, sourcePage: string,
                                      join: (string, string) -> string, present: set<Path>)
    requires forall k :: 0 <= k < |links| ==> !Broken(c, links[k], sourcePage, join, present)
    ensures BrokenOf(c, links, sourcePage, join, present) == []
    decreases |links|
  {
    if |links| > 0 {
      assert !Broken(c, links[0], sourcePage, join, present);
      forall k | 0 <= k < |links[1..]| ensures !Broken(c, links[1..][k], sourcePage, join, present) {
        assert links[1..][k] == links[k + 1];
      }
      NoneBroken(c, links[1..], sourcePage, join, present);
    }
  }
}

=== FILE: site_loader.dfy ===
/**
 * The site loader (core/site_loader.py): which site names are accepted, which settings
 * a site runs with, where its sources and output live, and which sites are listed.
 *
 * The project root is the parameter `root`. Path resolution (`Path.resolve`, which
 * follows symbolic links and may fail) is the parameter `resolve`, and whether
 * anything, file or directory, exists at a path is the parameter `present`. The
 * paths `abs_path` builds are joined onto `root` without the final resolution, which
 * changes nothing for the plain names joined here unless a symbolic link intervenes.
 */
module SiteLoader {
  import opened Wrappers
  import opened Strings
  import opened Paths

  // ---------------------------------------------------------------------------
  // Site names

  /** A character of the class `[a-z0-9.-]`. */
  predicate SafeChar(c: char) {
    'a' <= c <= 'z' || '0' <= c <= '9' || c == '.' || c == '-'
  }

  predicate AllSafe(s: string) {
    forall i :: 0 <= i < |s| ==> SafeChar(s[i])
  }

  /** `re.match(r'^[a-z0-9.-]+$', s)`: without the multi-line flag `$` matches at the
      end and also just before a newline that ends the string. */
  predicate PatternMatches(s: string) {
    (|s| > 0 && AllSafe(s)) || (|s| > 1 && s[|s| - 1] == '\n' && AllSafe(s[..|s| - 1]))
  }

  /** The same pattern matched against the whole string. */
  predicate PatternFullMatches(s: string) {
    |s| > 0 && AllSafe(s)
  }

  /** The label rules: no `..` or `--`, and no `.` or `-` at either end. */
  predicate LabelRules(site: string) {
    !Contains(site, "..") && !Contains(site, "--")
    && !StartsWith(site, ".") && !EndsWith(site, ".") && !StartsWith(site, "-") && !EndsWith(site, "-")
  }

  /** `p` is `dir` or lies below it: `os.path.commonpath([dir, p]) == dir`. */
  predicate WithinDir(p: Path, dir: Path) {
    p == dir || Under(p, dir)
  }

  /** The resolved `sites/<site>` stays within the resolved `sites`; a resolution that
      fails counts as escaping. */
  predicate Contained(site: string, sitesDir: Path, resolve: Path -> Option<Path>) {
    var d, p := resolve(sitesDir), resolve(JoinPath(sitesDir, site));
    d.Some? && p.Some? && WithinDir(p.value, d.value)
  }

  /**
   * `validate_site_name` as written: non-empty, the lower-cased name matches the
   * character pattern, the label rules hold, and the site directory resolves within the
   * sites directory. Because `$` also matches before a final newline, a name may end
   * in one.
   */
  function ValidateSiteNameAsWritten(site: string, sitesDir: Path, resolve: Path -> Option<Path>): (r: bool)
    ensures r ==> |site| > 0 && Contained(site, sitesDir, resolve)
    ensures r ==> forall i :: 0 <= i < |site| - 1 ==> SafeChar(LowerChar(site[i]))
    ensures r ==> SafeChar(LowerChar(site[|site| - 1])) || site[|site| - 1] == '\n'
    ensures r ==> LabelRules(site)
    ensures (|site| > 0 && (forall i :: 0 <= i < |site| - 1 ==> SafeChar(LowerChar(site[i])))
             && (SafeChar(LowerChar(site[|site| - 1])) || (|site| > 1 && site[|site| - 1] == '\n'))
             && LabelRules(site) && Contained(site, sitesDir, resolve)) ==> r
  {
    if site == "" then false
    else
      CharsMatchPattern(site);
      if !PatternMatches(Lower(site)) then false
      else if !LabelRules(site) then false
      else
        PatternChars(site);
        Contained(site, sitesDir, resolve)
  }

  /** A name whose characters are safe once lower-cased, except that the last may be
      a newline after at least one character, matches the written pattern. */
  lemma CharsMatchPattern(site: string)
    requires |site| > 0
    ensures ((forall i :: 0 <= i < |site| - 1 ==> SafeChar(LowerChar(site[i])))
             && (SafeChar(LowerChar(site[|site| - 1])) || (|site| > 1 && site[|site| - 1] == '\n')))
            ==> PatternMatches(Lower(site))
  {
    var l, n := Lower(site), |site| - 1;
    if (forall i :: 0 <= i < n ==> SafeChar(LowerChar(site[i]))) {
      if SafeChar(LowerChar(site[n])) {
        assert AllSafe(l);
      } else if n > 0 && site[n] == '\n' {
        assert l[n] == '\n';
        assert AllSafe(l[..n]) by {
          forall i | 0 <= i < n ensures SafeChar(l[..n][i]) {
            assert l[..n][i] == LowerChar(site[i]);
          }
        }
      }
    }
  }

  /** What the written pattern says of the name's own characters: each is in the class
      once lower-cased, except that the last may be a newline. */
  lemma PatternChars(site: string)
    requires |site| > 0 && PatternMatches(Lower(site))
    ensures forall i :: 0 <= i < |site| - 1 ==> SafeChar(LowerChar(site[i]))
    ensures SafeChar(LowerChar(site[|site| - 1])) || site[|site| - 1] == '\n'
  {
    var l, n := Lower(site), |site| - 1;
    if !AllSafe(l) {
      assert l[n] == '\n';
      assert forall i :: 0 <= i < n ==> l[..n][i] == l[i];
    }
  }

  /** `validate_site_name` with the pattern matched against the whole name: every
      character is in the class, so the name is one path component. */
  function ValidateSiteName(site: string, sitesDir: Path, resolve: Path -> Option<Path>): (r: bool)
    ensures r ==> |site| > 0 && Contained(site, sitesDir, resolve)
    ensures r ==> forall i :: 0 <= i < |site| ==> SafeChar(LowerChar(site[i]))
    ensures r ==> '/' !in site && '\n' !in site && site[0] != '.' && site[|site| - 1] != '.'
    ensures r ==> LabelRules(site)
    ensures (|site| > 0 && (forall i :: 0 <= i < |site| ==> SafeChar(LowerChar(site[i])))
             && LabelRules(site) && Contained(site, sitesDir, resolve)) ==> r
  {
    if site == "" then false
    else if !PatternFullMatches(Lower(site)) then false
    else if !LabelRules(site) then false
    else
      SafeHasNoSeparator(site);
      EndChars(site);
      Contained(site, sitesDir, resolve)
  }

  lemma SafeHasNoSeparator(site: string)
    requires AllSafe(Lower(site))
    ensures '/' !in site && '\n' !in site
  {
    forall i | 0 <= i < |site| ensures site[i] != '/' && site[i] != '\n' {
      assert SafeChar(Lower(site)[i]);
    }
  }

  lemma EndChars(site: string)
    requires |site| > 0 && !StartsWith(site, ".") && !EndsWith(site, ".")
    ensures site[0] != '.' && site[|site| - 1] != '.'
  {
    assert site[..1] == [site[0]];
    assert site[|site| - 1..] == [site[|site| - 1]];
  }

  /** `.` or `-`, the characters that separate labels. */
  predicate SeparatorChar(c: char) {
    c == '.' || c == '-'
  }

  /** The label rules read character by character: the name neither starts nor ends
      with a separator, and no separator is immediately repeated. */
  predicate LabelsByChar(site: string) {
    (|site| > 0 ==> !SeparatorChar(site[0]) && !SeparatorChar(site[|site| - 1]))
    && forall i :: 0 <= i < |site| - 1 ==> !(SeparatorChar(site[i]) && site[i + 1] == site[i])
  }

  /** The label rules, stated through substring tests, say exactly what they say
      character by character. */
  lemma LabelRulesByChar(site: string)
    ensures LabelRules(site) <==> LabelsByChar(site)
  {
    assert ".." == ['.', '.'] && "--" == ['-', '-'];
    ContainsDouble(site, '.');
    ContainsDouble(site, '-');
    if |site| > 0 {
      assert site[..1] == [site[0]];
      assert site[|site| - 1..] == [site[|site| - 1]];
    }
  }

  /** `cc in s` holds exactly when two adjacent characters of `s` are both `c`. */
  lemma ContainsDouble(s: string, c: char)
    ensures Contains(s, [c, c]) <==> exists i :: 0 <= i < |s| - 1 && s[i] == c && s[i + 1] == c
  {
    if Contains(s, [c, c]) {
      var i :| 0 <= i <= |s| && OccursAt(s, [c, c], i);
      assert s[i..i + 2][0] == s[i] && s[i..i + 2][1] == s[i + 1];
    }
    if exists i :: 0 <= i < |s| - 1 && s[i] == c && s[i + 1] == c {
      var i :| 0 <= i < |s| - 1 && s[i] == c && s[i + 1] == c;
      assert s[i..i + 2] == [c, c];
      assert OccursAt(s, [c, c], i);
    }
  }

  /** Names that break a label rule are refused by both checks, however the
      directories resolve. */
  lemma LabelBreaksRefused(sitesDir: Path, resolve: Path -> Option<Path>)
    ensures !ValidateSiteNameAsWritten("a..b", sitesDir, resolve) && !ValidateSiteName("a..b", sitesDir, resolve)
    ensures !ValidateSiteNameAsWritten("a--b", sitesDir, resolve) && !ValidateSiteName("a--b", sitesDir, resolve)
    ensures !ValidateSiteNameAsWritten("-a", sitesDir, resolve) && !ValidateSiteName("-a", sitesDir, resolve)
    ensures !ValidateSiteNameAsWritten("a.", sitesDir, resolve) && !ValidateSiteName("a.", sitesDir, resolve)
  {
    LabelRulesByChar("a..b");
    assert "a..b"[1] == '.' && "a..b"[2] == '.';
    LabelRulesByChar("a--b");
    assert "a--b"[1] == '-' && "a--b"[2] == '-';
    LabelRulesByChar("-a");
    LabelRulesByChar("a.");
  }

  /** A dotted, hyphenated name whose directory stays inside `sites` is accepted by
      both checks. */
  lemma DottedNameAccepted(sitesDir: Path, resolve: Path -> Option<Path>)
    requires Contained("a-b.c", sitesDir, resolve)
    ensures ValidateSiteNameAsWritten("a-b.c", sitesDir, resolve) && ValidateSiteName("a-b.c", sitesDir, resolve)
  {
    var s := "a-b.c";
    DottedNameRules(s);
    DottedNameChars(s);
  }

  lemma DottedNameRules(s: string)
    requires s == "a-b.c"
    ensures LabelRules(s)
  {
    LabelRulesByChar(s);
    assert s[0] == 'a' && s[1] == '-' && s[2] == 'b' && s[3] == '.' && s[4] == 'c';
  }

  lemma DottedNameChars(s: string)
    requires s == "a-b.c"
    ensures |s| > 0 && forall i :: 0 <= i < |s| ==> SafeChar(LowerChar(s[i]))
  {
    assert s[0] == 'a' && s[1] == '-' && s[2] == 'b' && s[3] == '.' && s[4] == 'c';
  }

  /** The corrected check accepts a subset of what the written one accepts, and the
      names only the written one accepts end in a newline. */
  lemma ValidationDiffersOnlyOnNewline(site: string, sitesDir: Path, resolve: Path -> Option<Path>)
    ensures ValidateSiteName(site, sitesDir, resolve) ==> ValidateSiteNameAsWritten(site, sitesDir, resolve)
    ensures ValidateSiteNameAsWritten(site, sitesDir, resolve) && !ValidateSiteName(site, sitesDir, resolve)
            ==> |site| > 1 && site[|site| - 1] == '\n'
  {
    if ValidateSiteNameAsWritten(site, sitesDir, resolve) && !PatternFullMatches(Lower(site)) {
      assert Lower(site)[|site| - 1] == '\n';
    }
  }

  /** `"a\n"` passes the written check wherever its directory resolves inside `sites`,
      and fails the corrected one. */
  lemma TrailingNewlineAccepted(sitesDir: Path, resolve: Path -> Option<Path>)
    requires Contained("a\n", sitesDir, resolve)
    ensures ValidateSiteNameAsWritten("a\n", sitesDir, resolve)
    ensures !ValidateSiteName("a\n", sitesDir, resolve)
  {
    NewlineNamePattern("a\n");
    NewlineNameLabels("a\n");
  }

  lemma NewlineNamePattern(s: string)
    requires s == "a\n"
    ensures PatternMatches(Lower(s)) && !PatternFullMatches(Lower(s))
  {
    var l := Lower(s);
    assert l[0] == 'a' && l[1] == '\n';
    assert !SafeChar(l[1]);
    assert AllSafe(l[..1]) by { assert l[..1][0] == 'a'; }
  }

  lemma NewlineNameLabels(s: string)
    requires s == "a\n"
    ensures LabelRules(s)
  {
    forall i | 0 <= i <= |s| ensures !OccursAt(s, "..", i) && !OccursAt(s, "--", i) {
      if i + 2 <= |s| { assert s[i..i + 2][0] == s[i]; }
    }
    assert s[..1] == "a" && s[1..] == "\n";
  }

  /** An accepted name is the last component of its site directory: the character
      rules alone keep `sites/<site>` one level below `sites`. */
  lemma SiteDirIsChild(sitesDir: Path, site: string, resolve: Path -> Option<Path>)
    requires ValidateSiteNameAsWritten(site, sitesDir, resolve)
    ensures Basename(JoinPath(sitesDir, site)) == site
  {
    AcceptedHasNoSlash(site, sitesDir, resolve);
    assert !StartsWith(site, "/");
    if sitesDir == "" {
      var b := Basename(site);
      assert site[|site| - |b|..] == b;
      assert |b| == |site|;
    } else if EndsWith(sitesDir, "/") {
      BasenameOfChild(sitesDir, site);
    } else {
      BasenameOfChild(sitesDir + "/", site);
      assert sitesDir + "/" + site == JoinPath(sitesDir, site);
    }
  }

  /** Even the written check, which lets a final newline through, accepts no slash. */
  lemma AcceptedHasNoSlash(site: string, sitesDir: Path, resolve: Path -> Option<Path>)
    requires ValidateSiteNameAsWritten(site, sitesDir, resolve)
    ensures |site| > 0 && '/' !in site
  {
    PatternCharsNoSlash(site);
  }

  lemma PatternCharsNoSlash(site: string)
    requires |site| > 0 && forall i :: 0 <= i < |site| - 1 ==> SafeChar(LowerChar(site[i]))
    requires SafeChar(LowerChar(site[|site| - 1])) || site[|site| - 1] == '\n'
    ensures '/' !in site
  {
    var n := |site| - 1;
    forall i | 0 <= i < |site| ensures site[i] != '/' {
      if i < n {
        SafeNotSlash(site[i]);
      } else if site[n] != '\n' {
        SafeNotSlash(site[n]);
      }
    }
  }

  lemma SafeNotSlash(c: char)
    requires SafeChar(LowerChar(c))
    ensures c != '/'
  {
  }

  lemma BasenameOfChild(x: Path, s: string)
    requires |x| > 0 && x[|x| - 1] == '/' && '/' !in s
    ensures Basename(x + s) == s
  {
    var p := x + s;
    assert p[|x| - 1] == '/';
    assert forall k :: |x| <= k < |p| ==> p[k] == s[k - |x|];
    assert p[|x|..] == s;
  }

  // ---------------------------------------------------------------------------
  // Settings

  /** The settings module a build runs with. */
  datatype Settings = SiteSettings(site: string) | CoreSettings

  /** A site argument that Python treats as given: present and non-empty. */
  predicate Given(site: Option<string>) {
    site.Some? && site.value != ""
  }

  /**
   * `load_site_settings`: a given name that fails validation raises `ValueError`; a
   * valid one whose `settings.py` exists and loads gives the site's settings
   * (`siteLoads`); everything else falls back to the core settings.
   */
  function LoadSiteSettings(site: Option<string>, sitesDir: Path, resolve: Path -> Option<Path>,
                            siteLoads: bool): (r: Result<Settings>)
    ensures r.Err? <==> Given(site) && !ValidateSiteNameAsWritten(site.value, sitesDir, resolve)
    ensures r.Err? ==> r.error.ValueError?
    ensures r.Ok? && r.value.SiteSettings? <==> Given(site) && siteLoads && ValidateSiteNameAsWritten(site.value, sitesDir, resolve)
    ensures r.Ok? && r.value.SiteSettings? ==> r.value.site == site.value
  {
    if Given(site) && !ValidateSiteNameAsWritten(site.value, sitesDir, resolve) then
      Err(ValueError("Invalid site name: " + site.value))
    else if Given(site) && siteLoads then Ok(SiteSettings(site.value))
    else Ok(CoreSettings)
  }

  /** A name whose directory stays in `sites` but ends in a newline is loaded (its
      settings when they load), though the corrected check refuses it. */
  lemma NewlineNameLoaded(sitesDir: Path, resolve: Path -> Option<Path>, siteLoads: bool)
    requires Contained("a\n", sitesDir, resolve)
    ensures LoadSiteSettings(Some("a\n"), sitesDir, resolve, siteLoads)
            == Ok(if siteLoads then SiteSettings("a\n") else CoreSettings)
    ensures !ValidateSiteName("a\n", sitesDir, resolve)
  {
    TrailingNewlineAccepted(sitesDir, resolve);
  }

  // ---------------------------------------------------------------------------
  // Directories

  datatype SitePaths = SitePaths(siteRoot: Path, contentDir: Path, staticDir: Path, projectRoot: Path)

  /**
   * `get_site_paths`: with a site, `sites/<site>` and its `content_html` and `static`
   * paths, each of the two replaced by the project's own when nothing exists there;
   * without one, the project root and the project's directories.
   */
  function GetSitePaths(site: Option<string>, root: Path, present: Path -> bool): (r: SitePaths)
    ensures r.projectRoot == root
    ensures !Given(site) ==> r.siteRoot == root
    ensures Given(site) ==> r.siteRoot == JoinPath(JoinPath(root, "sites"), site.value)
    ensures var own := JoinPath(r.siteRoot, "content_html");
            r.contentDir == (if Given(site) && present(own) then own else JoinPath(root, "content_html"))
    ensures var own := JoinPath(r.siteRoot, "static");
            r.staticDir == (if Given(site) && present(own) then own else JoinPath(root, "static"))
  {
    if Given(site) then
      var siteRoot := JoinPath(JoinPath(root, "sites"), site.value);
      var content := JoinPath(siteRoot, "content_html");
      var staticDir := JoinPath(siteRoot, "static");
      SitePaths(siteRoot,
                if present(content) then content else JoinPath(root, "content_html"),
                if present(staticDir) then staticDir else JoinPath(root, "static"),
                root)
    else
      SitePaths(root, JoinPath(root, "content_html"), JoinPath(root, "static"), root)
  }

  /** A site without directories of its own builds from the same sources as a build
      without a site. */
  lemma BareSiteUsesLegacySources(site: string, root: Path, present: Path -> bool)
    requires site != ""
    requires var siteRoot := JoinPath(JoinPath(root, "sites"), site);
             !present(JoinPath(siteRoot, "content_html")) && !present(JoinPath(siteRoot, "static"))
    ensures var a, b := GetSitePaths(Some(site), root, present), GetSitePaths(None, root, present);
            a.contentDir == b.contentDir && a.staticDir == b.staticDir
  {
  }

  /** `get_site_output_dir`: a given custom directory, resolved; else `output/<site>`
      for a given site; else `output`. */
  function GetSiteOutputDir(site: Option<string>, custom: Option<string>, root: Path,
                            resolve: Path -> Path): (r: Path)
    ensures Given(custom) ==> r == resolve(custom.value)
    ensures !Given(custom) && Given(site) ==> r == JoinPath(JoinPath(root, "output"), site.value)
    ensures !Given(custom) && !Given(site) ==> r == JoinPath(root, "output")
  {
    if Given(custom) then resolve(custom.value)
    else if Given(site) then JoinPath(JoinPath(root, "output"), site.value)
    else JoinPath(root, "output")
  }

  /** Without a custom directory, two accepted site names share an output directory
      only when they are the same name, and none shares the site-less one. */
  lemma OutputDirsDistinct(a: string, b: string, root: Path, sitesDir: Path,
                           resolve: Path -> Option<Path>, resolveOut: Path -> Path)
    requires ValidateSiteNameAsWritten(a, sitesDir, resolve) && ValidateSiteNameAsWritten(b, sitesDir, resolve)
    ensures GetSiteOutputDir(Some(a), None, root, resolveOut) == GetSiteOutputDir(Some(b), None, root, resolveOut) ==> a == b
    ensures GetSiteOutputDir(Some(a), None, root, resolveOut) != GetSiteOutputDir(None, None, root, resolveOut)
  {
    assert a != "" && '/' !in a by { AcceptedHasNoSlash(a, sitesDir, resolve); }
    assert '/' !in b by { AcceptedHasNoSlash(b, sitesDir, resolve); }
    OutputDirsOfNames(a, b, root, resolveOut);
  }

  lemma OutputDirsOfNames(a: string, b: string, root: Path, resolveOut: Path -> Path)
    requires a != "" && '/' !in a && '/' !in b
    ensures GetSiteOutputDir(Some(a), None, root, resolveOut) == GetSiteOutputDir(Some(b), None, root, resolveOut) ==> a == b
    ensures GetSiteOutputDir(Some(a), None, root, resolveOut) != GetSiteOutputDir(None, None, root, resolveOut)
  {
    ChildDirsDistinct(JoinPath(root, "output"), a, b);
  }

  lemma ChildDirsDistinct(o: Path, a: string, b: string)
    requires a != "" && '/' !in a && '/' !in b
    ensures JoinPath(o, a) == JoinPath(o, b) ==> a == b
    ensures JoinPath(o, a) != o
  {
    assert !StartsWith(a, "/") by { assert a[..1][0] == a[0]; }
    assert !StartsWith(b, "/") by { assert |b| == 0 || b[..1][0] == b[0]; }
    JoinGrows(o, a);
    if JoinPath(o, a) == JoinPath(o, b) {
      JoinInjective(o, a, b);
    }
  }

  lemma JoinGrows(o: Path, a: string)
    requires a != "" && !StartsWith(a, "/")
    ensures |JoinPath(o, a)| > |o|
  {
  }

  lemma JoinInjective(o: Path, a: string, b: string)
    requires !StartsWith(a, "/") && !StartsWith(b, "/") && JoinPath(o, a) == JoinPath(o, b)
    ensures a == b
  {
    var p := JoinPath(o, a);
    var n := if o == "" || EndsWith(o, "/") then |o| else |o| + 1;
    assert a == p[n..] == b;
  }

  // ---------------------------------------------------------------------------
  // Listing sites

  /** One entry of the sites directory. */
  datatype DirEntry = DirEntry(name: string, isDir: bool)

  /** Some directory entry carries the name. */
  predicate HasDirNamed(entries: seq<DirEntry>, name: string) {
    exists i :: 0 <= i < |entries| && entries[i].isDir && entries[i].name == name
  }

  /** `name` is listed: a directory whose name is accepted. */
  predicate Listed(entries: seq<DirEntry>, name: string, sitesDir: Path, resolve: Path -> Option<Path>) {
    HasDirNamed(entries, name) && ValidateSiteNameAsWritten(name, sitesDir, resolve)
  }

  /** `list_available_sites`: the accepted directory names, sorted; nothing when the
      sites directory does not exist. */
  method ListAvailableSites(sitesExists: bool, entries: seq<DirEntry>, sitesDir: Path,
                            resolve: Path -> Option<Path>) returns (r: seq<string>)
    ensures StrictlySorted(r)
    ensures forall n :: n in r <==> sitesExists && Listed(entries, n, sitesDir, resolve)
    ensures !sitesExists ==> r == []
  {
    if !sitesExists {
      return [];
    }
    var found := set i | 0 <= i < |entries| && entries[i].isDir
                         && ValidateSiteNameAsWritten(entries[i].name, sitesDir, resolve) :: entries[i].name;
    r := Sorted(found);
  }
}

=== FILE: strings.dfy ===
/**
 * The Python string operations the generator relies on, over `string` (`seq<char>`).
 * Case mapping (`lower`, `upper`, `title`, `isalnum`) is modelled on ASCII letters;
 * `isspace` follows Python's full whitespace table.
 */
module Strings {
  import opened Wrappers

  /** Python `s.startswith(p)`. */
  predicate StartsWith(s: string, p: string) {
    |p| <= |s| && s[..|p|] == p
  }

  /** Python `s.endswith(p)`. */
  predicate EndsWith(s: string, p: string) {
    |p| <= |s| && s[|s| - |p|..] == p
  }

  /** A string starts with each of its prefixes. */
  lemma PrefixOfConcat(a: string, b: string)
    ensures StartsWith(a + b, a)
  {
    assert (a + b)[..|a|] == a;
  }

  /** Appending keeps every prefix. */
  lemma StartsWithExtend(a: string, b: string, t: string)
    requires StartsWith(a, t)
    ensures StartsWith(a + b, t)
  {
    assert (a + b)[..|t|] == a[..|t|];
  }

  /** A string that ends with `a + b` ends with `b`. */
  lemma EndsWithTail(s: string, a: string, b: string)
    requires EndsWith(s, a + b)
    ensures EndsWith(s, b)
  {
    assert s[|s| - |b|..] == (a + b)[|a|..];
  }

  /** The contrapositive, for use where only the shorter suffix is known to be absent. */
  lemma EndsWithTailContra(s: string, a: string, b: string)
    requires !EndsWith(s, b)
    ensures !EndsWith(s, a + b)
  {
    if EndsWith(s, a + b) {
      EndsWithTail(s, a, b);
    }
  }

  /** `t` occurs in `s` starting at index `i`. */
  predicate OccursAt(s: string, t: string, i: int) {
    0 <= i && i + |t| <= |s| && s[i..i + |t|] == t
  }

  /** Python `t in s` for two strings. */
  predicate Contains(s: string, t: string) {
    exists i :: 0 <= i <= |s| && OccursAt(s, t, i)
  }

  /** Python `s.lstrip(c)` for a one-character argument. */
  function LStrip(s: string, c: char): (r: string)
    ensures |r| <= |s| && r == s[|s| - |r|..]
    ensures r == [] || r[0] != c
    ensures forall i :: 0 <= i < |s| - |r| ==> s[i] == c
  {
    if |s| > 0 && s[0] == c then LStrip(s[1..], c) else s
  }

  /** Python `s.rstrip(c)` for a one-character argument. */
  function RStrip(s: string, c: char): (r: string)
    ensures |r| <= |s| && r == s[..|r|]
    ensures r == [] || r[|r| - 1] != c
    ensures forall i :: |r| <= i < |s| ==> s[i] == c
  {
    if |s| > 0 && s[|s| - 1] == c then RStrip(s[..|s| - 1], c) else s
  }

  /** Python `s.strip(c)` for a one-character argument. */
  function Strip(s: string, c: char): (r: string)
    ensures r == [] || (r[0] != c && r[|r| - 1] != c)
  {
    RStrip(LStrip(s, c), c)
  }

  /** Python's `str.isspace` for one character. */
  predicate IsSpace(c: char) {
    ('\t' <= c <= '\r') || ('\U{1c}' <= c <= '\U{1f}') || c == ' ' || c == '\U{85}'
    || c == '\U{a0}' || c == '\U{1680}' || ('\U{2000}' <= c <= '\U{200a}')
    || c == '\U{2028}' || c == '\U{2029}' || c == '\U{202f}' || c == '\U{205f}' || c == '\U{3000}'
  }

  /** Every character of `t` is whitespace. */
  predicate AllSpace(t: string) {
    forall k :: 0 <= k < |t| ==> IsSpace(t[k])
  }

  /** Python `s.strip()` with no argument: drop leading and trailing whitespace. */
  function StripSpace(s: string): (r: string)
    ensures r == [] || (!IsSpace(r[0]) && !IsSpace(r[|r| - 1]))
    ensures |r| <= |s|
    decreases |s|
  {
    if |s| > 0 && IsSpace(s[0]) then StripSpace(s[1..])
    else if |s| > 0 && IsSpace(s[|s| - 1]) then StripSpace(s[..|s| - 1])
    else s
  }

  /** `r` is the part of `s` from index `i` on, with only whitespace before and after. */
  predicate SpaceFramed(s: string, r: string, i: int) {
    0 <= i <= |s| - |r| && r == s[i..i + |r|] && AllSpace(s[..i]) && AllSpace(s[i + |r|..])
  }

  /** The stripped text is the run of `s` left between its leading and its trailing
      whitespace: nothing but whitespace is removed, and only at the ends. */
  lemma {:induction false} StripSpaceIsInfix(s: string)
    ensures exists i :: SpaceFramed(s, StripSpace(s), i)
    decreases |s|
  {
    var r := StripSpace(s);
    if |s| > 0 && IsSpace(s[0]) {
      var t := s[1..];
      StripSpaceIsInfix(t);
      var i :| SpaceFramed(t, r, i);
      FramedAfterSpace(s, r, i);
    } else if |s| > 0 && IsSpace(s[|s| - 1]) {
      var t := s[..|s| - 1];
      StripSpaceIsInfix(t);
      var i :| SpaceFramed(t, r, i);
      FramedBeforeSpace(s, r, i);
    } else {
      assert s[..0] == [] && s[|s|..] == [];
      assert SpaceFramed(s, r, 0);
    }
  }

  /** A string without outer whitespace is its own strip. */
  lemma StripSpaceKeepsInner(s: string)
    requires |s| > 0 && !IsSpace(s[0]) && !IsSpace(s[|s| - 1])
    ensures StripSpace(s) == s
  {
    StripSpaceIsInfix(s);
    var i :| SpaceFramed(s, StripSpace(s), i);
  }

  lemma FramedAfterSpace(s: string, r: string, i: int)
    requires |s| > 0 && IsSpace(s[0]) && SpaceFramed(s[1..], r, i)
    ensures SpaceFramed(s, r, i + 1)
  {
    var t := s[1..];
    assert s[..i + 1] == [s[0]] + t[..i];
    assert s[i + 1 + |r|..] == t[i + |r|..];
    assert r == s[i + 1..i + 1 + |r|];
  }

  lemma FramedBeforeSpace(s: string, r: string, i: int)
    requires |s| > 0 && IsSpace(s[|s| - 1]) && SpaceFramed(s[..|s| - 1], r, i)
    ensures SpaceFramed(s, r, i)
  {
    var t := s[..|s| - 1];
    assert s[..i] == t[..i];
    assert s[i + |r|..] == t[i + |r|..] + [s[|s| - 1]];
    assert r == s[i..i + |r|];
  }

  predicate IsUpper(c: char) { 'A' <= c <= 'Z' }
  predicate IsLowerLetter(c: char) { 'a' <= c <= 'z' }
  predicate IsLetter(c: char) { IsUpper(c) || IsLowerLetter(c) }
  predicate IsDigit(c: char) { '0' <= c <= '9' }
  predicate IsAlnum(c: char) { IsLetter(c) || IsDigit(c) }

  function LowerChar(c: char): (r: char)
    ensures !IsUpper(r)
    ensures IsLetter(c) <==> IsLetter(r)
  {
    if IsUpper(c) then (c as int + 32) as char else c
  }

  function UpperChar(c: char): (r: char)
    ensures !IsLowerLetter(r)
    ensures LowerChar(r) == LowerChar(c)
  {
    if IsLowerLetter(c) then (c as int - 32) as char else c
  }

  /** Python `s.lower()`. */
  function Lower(s: string): (r: string)
    ensures |r| == |s|
    ensures forall i :: 0 <= i < |r| ==> r[i] == LowerChar(s[i])
  {
    seq(|s|, i requires 0 <= i < |s| => LowerChar(s[i]))
  }

  /**
   * Python `s.title()`: a letter becomes upper case when the character before it is
   * not a letter, lower case otherwise; other characters are kept.
   */
  function TitleFrom(s: string, afterLetter: bool): (r: string)
    ensures |r| == |s|
    decreases |s|
  {
    if |s| == 0 then ""
    else
      var c := s[0];
      var d := if !IsLetter(c) then c else if afterLetter then LowerChar(c) else UpperChar(c);
      [d] + TitleFrom(s[1..], IsLetter(c))
  }

  function Title(s: string): (r: string)
    ensures |r| == |s|
  {
    TitleFrom(s, false)
  }

  /** Title casing changes the case of letters and nothing else. */
  lemma {:induction false} TitleKeepsLetters(s: string, afterLetter: bool)
    ensures Lower(TitleFrom(s, afterLetter)) == Lower(s)
    decreases |s|
  {
    if |s| > 0 {
      TitleKeepsLetters(s[1..], IsLetter(s[0]));
      var r := TitleFrom(s, afterLetter);
      assert r == [r[0]] + TitleFrom(s[1..], IsLetter(s[0]));
      assert Lower(r)[0] == Lower(s)[0];
      assert Lower(r)[1..] == Lower(TitleFrom(s[1..], IsLetter(s[0])));
      assert Lower(s)[1..] == Lower(s[1..]);
    }
  }

  /** Title casing is idempotent. */
  lemma {:induction false} TitleIdempotent(s: string, afterLetter: bool)
    ensures TitleFrom(TitleFrom(s, afterLetter), afterLetter) == TitleFrom(s, afterLetter)
    decreases |s|
  {
    if |s| > 0 {
      var r := TitleFrom(s, afterLetter);
      assert r[1..] == TitleFrom(s[1..], IsLetter(s[0]));
      assert IsLetter(r[0]) == IsLetter(s[0]);
      TitleIdempotent(s[1..], IsLetter(s[0]));
    }
  }

  /**
   * Python `s.replace(pat, rep)` for a non-empty `pat`: occurrences are replaced left
   * to right without overlapping.
   */
  function Replace(s: string, pat: string, rep: string): (r: string)
    requires |pat| > 0
    decreases |s|
  {
    if |s| < |pat| then s
    else if s[..|pat|] == pat then rep + Replace(s[|pat|..], pat, rep)
    else [s[0]] + Replace(s[1..], pat, rep)
  }

  /** Replacing a pattern that does not occur leaves the string unchanged. */
  lemma {:induction false} ReplaceAbsent(s: string, pat: string, rep: string)
    requires |pat| > 0 && !Contains(s, pat)
    ensures Replace(s, pat, rep) == s
    decreases |s|
  {
    if |s| >= |pat| {
      assert !OccursAt(s, pat, 0);
      forall i | OccursAt(s[1..], pat, i) ensures OccursAt(s, pat, i + 1) {
        assert s[1..][i..i + |pat|] == s[i + 1..i + 1 + |pat|];
      }
      ReplaceAbsent(s[1..], pat, rep);
    }
  }

  /** A replacement no longer than the pattern never makes the string longer. */
  lemma {:induction false} ReplaceShrinks(s: string, pat: string, rep: string)
    requires 0 < |pat| && |rep| <= |pat|
    ensures |Replace(s, pat, rep)| <= |s|
    decreases |s|
  {
    if |s| >= |pat| {
      if s[..|pat|] == pat {
        ReplaceShrinks(s[|pat|..], pat, rep);
      } else {
        ReplaceShrinks(s[1..], pat, rep);
      }
    }
  }

  /** Index of the first `c` in `s` (Python `s.find(c)`, with None for -1). */
  function IndexOf(s: string, c: char): (r: Option<nat>)
    ensures r.Some? ==> r.value < |s| && s[r.value] == c
    ensures r.Some? ==> forall j :: 0 <= j < r.value ==> s[j] != c
    ensures r.None? ==> forall j :: 0 <= j < |s| ==> s[j] != c
  {
    if |s| == 0 then None
    else if s[0] == c then Some(0)
    else match IndexOf(s[1..], c)
      case None => None
      case Some(i) => Some(i + 1)
  }

  /** Index of the last `c` in `s` (Python `s.rfind(c)`, with None for -1). */
  function LastIndexOf(s: string, c: char): (r: Option<nat>)
    ensures r.Some? ==> r.value < |s| && s[r.value] == c
    ensures r.Some? ==> forall j :: r.value < j < |s| ==> s[j] != c
    ensures r.None? ==> forall j :: 0 <= j < |s| ==> s[j] != c
  {
    if |s| == 0 then None
    else if s[|s| - 1] == c then Some(|s| - 1)
    else LastIndexOf(s[..|s| - 1], c)
  }

  /** A character that does not occur in `s` gives a one-character pattern that does
      not occur either. */
  lemma CharAbsent(s: string, c: char)
    requires c !in s
    ensures !Contains(s, [c])
  {
    forall i | 0 <= i <= |s| ensures !OccursAt(s, [c], i) {
      if i + 1 <= |s| {
        assert s[i..i + 1] == [s[i]] && s[i] in s;
      }
    }
  }

  /** Python `s.find(t)`: the first index at which `t` occurs, with None for -1. */
  function Find(s: string, t: string): (r: Option<nat>)
    ensures r.Some? ==> OccursAt(s, t, r.value) && forall j :: 0 <= j < r.value ==> !OccursAt(s, t, j)
    ensures r.None? <==> !Contains(s, t)
  {
    FindFrom(s, t, 0)
  }

  function FindFrom(s: string, t: string, i: nat): (r: Option<nat>)
    requires forall j :: 0 <= j < i ==> !OccursAt(s, t, j)
    ensures r.Some? ==> OccursAt(s, t, r.value) && forall j :: 0 <= j < r.value ==> !OccursAt(s, t, j)
    ensures r.None? ==> forall j :: 0 <= j ==> !OccursAt(s, t, j)
    decreases |s| + 1 - i
  {
    if i + |t| > |s| then None
    else if s[i..i + |t|] == t then Some(i)
    else FindFrom(s, t, i + 1)
  }

  /** Python `sep.join(parts)`. */
  function Join(parts: seq<string>, sep: string): string
  {
    if |parts| == 0 then ""
    else if |parts| == 1 then parts[0]
    else parts[0] + sep + Join(parts[1..], sep)
  }

  /** Python `s.split(c)` for a one-character separator: never empty. */
  function Split(s: string, c: char): (r: seq<string>)
    ensures |r| >= 1
    ensures forall k :: 0 <= k < |r| ==> c !in r[k]
    decreases |s|
  {
    match IndexOf(s, c)
    case None => [s]
    case Some(i) => [s[..i]] + Split(s[i + 1..], c)
  }

  /** Splitting undoes joining when no part contains the separator. */
  lemma {:induction false} SplitJoin(parts: seq<string>, c: char)
    requires |parts| >= 1
    requires forall k :: 0 <= k < |parts| ==> c !in parts[k]
    ensures Split(Join(parts, [c]), c) == parts
    decreases |parts|
  {
    var p := parts[0];
    if |parts| == 1 {
      assert IndexOf(p, c).None?;
    } else {
      var rest := Join(parts[1..], [c]);
      var s := p + [c] + rest;
      assert Join(parts, [c]) == s;
      assert IndexOf(s, c) == Some(|p|) by {
        assert s == p + ([c] + rest);
        IndexOfPrefix(p, c, [c] + rest);
      }
      assert s[..|p|] == p;
      assert s[|p| + 1..] == rest;
      SplitJoin(parts[1..], c);
    }
  }

  lemma {:induction false} IndexOfPrefix(p: string, c: char, t: string)
    requires c !in p && |t| > 0 && t[0] == c
    ensures IndexOf(p + t, c) == Some(|p|)
    decreases |p|
  {
    if |p| > 0 {
      assert (p + t)[1..] == p[1..] + t;
      IndexOfPrefix(p[1..], c, t);
    }
  }

  /** Joining undoes splitting. */
  lemma {:induction false} JoinSplit(s: string, c: char)
    ensures Join(Split(s, c), [c]) == s
    decreases |s|
  {
    match IndexOf(s, c)
    case None =>
    case Some(i) =>
      var rest := Split(s[i + 1..], c);
      JoinSplit(s[i + 1..], c);
      JoinCons(s[..i], rest, [c]);
      assert s == s[..i] + [c] + s[i + 1..];
  }

  /** Joining a part in front of a non-empty list puts the separator between. */
  lemma JoinCons(head: string, rest: seq<string>, sep: string)
    requires |rest| >= 1
    ensures Join([head] + rest, sep) == head + sep + Join(rest, sep)
  {
    assert ([head] + rest)[1..] == rest;
  }

  // ---------------------------------------------------------------------------
  // Ordering: Python compares strings code point by code point.

  /** `a <= b` in Python's string order. */
  predicate LessEq(a: string, b: string)
    decreases |a|
  {
    |a| == 0 || (|b| > 0 && (a[0] < b[0] || (a[0] == b[0] && LessEq(a[1..], b[1..]))))
  }

  lemma {:induction false} LessEqTotal(a: string, b: string)
    ensures LessEq(a, b) || LessEq(b, a)
    decreases |a|
  {
    if |a| > 0 && |b| > 0 && a[0] == b[0] {
      LessEqTotal(a[1..], b[1..]);
    }
  }

  lemma {:induction false} LessEqAntisymmetric(a: string, b: string)
    requires LessEq(a, b) && LessEq(b, a)
    ensures a == b
    decreases |a|
  {
    if |a| > 0 {
      LessEqAntisymmetric(a[1..], b[1..]);
      assert a == [a[0]] + a[1..];
      assert b == [b[0]] + b[1..];
    }
  }

  lemma {:induction false} LessEqTransitive(a: string, b: string, c: string)
    requires LessEq(a, b) && LessEq(b, c)
    ensures LessEq(a, c)
    decreases |a|
  {
    if |a| > 0 && a[0] == b[0] && b[0] == c[0] {
      LessEqTransitive(a[1..], b[1..], c[1..]);
    }
  }

  /** The strings of `r` are strictly increasing (so also distinct). */
  predicate StrictlySorted(r: seq<string>) {
    forall i, j :: 0 <= i < j < |r| ==> LessEq(r[i], r[j]) && r[i] != r[j]
  }

  /** Every non-empty set of strings has a least element. */
  lemma {:induction false} LeastExists(s: set<string>) returns (m: string)
    requires s != {}
    ensures m in s && forall x :: x in s ==> LessEq(m, x)
    decreases |s|
  {
    var x :| x in s;
    if s == {x} {
      m := x;
      assert LessEq(x, x) by { LessEqTotal(x, x); }
    } else {
      var m' := LeastExists(s - {x});
      LessEqTotal(x, m');
      if LessEq(x, m') {
        m := x;
        forall y | y in s ensures LessEq(m, y) {
          if y != x { LessEqTransitive(x, m', y); } else { LessEqTotal(x, x); }
        }
      } else {
        m := m';
      }
    }
  }

  /** Python `sorted(s)` for a set of strings. */
  method Sorted(s: set<string>) returns (r: seq<string>)
    ensures StrictlySorted(r)
    ensures forall x :: x in r <==> x in s
    ensures |r| == |s|
  {
    r := [];
    var rest := s;
    while rest != {}
      invariant StrictlySorted(r)
      invariant forall x :: x in s <==> x in r || x in rest
      invariant forall x :: x in r ==> x !in rest
      invariant forall i, y :: 0 <= i < |r| && y in rest ==> LessEq(r[i], y)
      invariant |r| + |rest| == |s|
      decreases |rest|
    {
      ghost var least := LeastExists(rest);
      var m :| m in rest && forall x :: x in rest ==> LessEq(m, x);
      forall i | 0 <= i < |r| ensures LessEq(r[i], m) && r[i] != m {
      }
      r := r + [m];
      rest := rest - {m};
    }
  }
}

=== FILE: url_utils.dfy ===
/**
 * `URLBuilder` (core/url_utils.py): canonical, relative and Open Graph URLs, asset
 * path normalisation and the double-slash cleaner.
 *
 * `urllib.parse.urljoin` is library code and enters as the parameter `join`; the
 * lemmas that need its behaviour instantiate it with `Concat`, which is what it does
 * for a base ending in `/` and a plain relative path.
 */
module UrlUtils {
  import opened Wrappers
  import opened Strings

  /** `urljoin(base, rel)` for a base ending in a slash and a relative path without a
      scheme, query, fragment or dot segment. */
  function Concat(base: string, rel: string): string {
    base + rel
  }

  /** The constructor's `site_url.rstrip('/') + '/'`. */
  function SiteUrl(raw: string): (r: string)
    ensures EndsWith(r, "/") && (|r| == 1 || r[|r| - 2] != '/')
    ensures StartsWith(r, RStrip(raw, '/'))
  {
    RStrip(raw, '/') + "/"
  }

  /** A site URL as the constructor leaves it: exactly one trailing slash. */
  predicate IsSiteUrl(site: string) {
    EndsWith(site, "/") && (|site| == 1 || site[|site| - 2] != '/')
  }

  /** The extensions `_is_file_resource` recognises, in its order. */
  const FileExtensions: seq<string> := [
    ".xml", ".txt", ".json", ".js", ".css",
    ".png", ".jpg", ".jpeg", ".gif", ".webp", ".svg", ".ico",
    ".woff", ".woff2", ".ttf", ".eot",
    ".pdf", ".zip"]

  /** `_is_file_resource`: some listed extension ends the lower-cased path. */
  predicate IsFileResource(path: string) {
    exists k :: 0 <= k < |FileExtensions| && EndsWith(Lower(path), FileExtensions[k])
  }

  /** The loop `_is_file_resource` runs: the extensions are tried in order. */
  predicate EndsWithAny(s: string, exts: seq<string>)
    decreases |exts|
  {
    |exts| > 0 && (EndsWith(s, exts[0]) || EndsWithAny(s, exts[1..]))
  }

  /** The loop finds an extension exactly when one of the listed extensions ends the
      string. */
  lemma {:induction false} EndsWithAnyMeans(s: string, exts: seq<string>)
    ensures EndsWithAny(s, exts) <==> exists k :: 0 <= k < |exts| && EndsWith(s, exts[k])
    decreases |exts|
  {
    if |exts| > 0 {
      EndsWithAnyMeans(s, exts[1..]);
      if EndsWithAny(s, exts[1..]) {
        var k :| 0 <= k < |exts[1..]| && EndsWith(s, exts[1..][k]);
        assert EndsWith(s, exts[k + 1]);
      }
      if exists k :: 0 <= k < |exts| && EndsWith(s, exts[k]) {
        var k :| 0 <= k < |exts| && EndsWith(s, exts[k]);
        if k > 0 {
          assert exts[1..][k - 1] == exts[k];
        }
      }
    }
  }

  /** No listed extension contains a slash. */
  lemma ExtensionsHaveNoSlash(k: nat)
    requires k < |FileExtensions|
    ensures '/' !in FileExtensions[k]
  {
  }

  /** A string without a slash ends `u + "/" + w` exactly when it ends `w`. */
  lemma SuffixAfterSlash(u: string, w: string, e: string)
    requires '/' !in e
    ensures EndsWith(u + "/" + w, e) <==> EndsWith(w, e)
  {
    var s := u + "/" + w;
    if |e| <= |w| {
      assert s[|s| - |e|..] == w[|w| - |e|..];
    } else if |e| <= |s| {
      var j := |u| - (|s| - |e|);
      assert 0 <= j < |e|;
      assert s[|s| - |e|..][j] == s[|u|] == '/';
      assert e[j] != '/';
    }
  }

  /** Lower-casing keeps a slash and commutes with concatenation around it. */
  lemma LowerAroundSlash(x: string, q: string)
    ensures Lower(x + "/" + q) == Lower(x) + "/" + Lower(q)
  {
    assert LowerChar('/') == '/';
  }

  /** Whether a path is a file resource depends only on what follows its last slash. */
  lemma FileResourceAfterSlash(x: string, q: string)
    ensures IsFileResource(x + "/" + q) <==> IsFileResource("/" + q)
  {
    LowerAroundSlash(x, q);
    LowerAroundSlash([], q);
    assert [] + "/" + q == "/" + q;
    forall k | 0 <= k < |FileExtensions|
      ensures EndsWith(Lower(x + "/" + q), FileExtensions[k]) <==> EndsWith(Lower("/" + q), FileExtensions[k])
    {
      ExtensionsHaveNoSlash(k);
      SuffixAfterSlash(Lower(x), Lower(q), FileExtensions[k]);
      SuffixAfterSlash([], Lower(q), FileExtensions[k]);
    }
  }

  /** The clean-URL step both builders end with: add a slash unless the URL already
      ends with one or names a file resource. */
  function Slashed(url: string): (r: string)
    ensures EndsWith(r, "/") || IsFileResource(r)
    ensures r == url || r == url + "/"
    ensures StartsWith(url, "/") ==> StartsWith(r, "/")
  {
    if !EndsWith(url, "/") && !IsFileResource(url) then
      (if StartsWith(url, "/") then StartsWithExtend(url, "/", "/"); url + "/" else url + "/")
    else url
  }

  /** `'/' + path` unless the path is already rooted. */
  function RootedPath(p: string): (r: string)
    ensures StartsWith(r, "/")
    ensures StartsWith(p, "/") ==> r == p
    ensures !StartsWith(p, "/") ==> r == "/" + p
  {
    if StartsWith(p, "/") then p else PrefixOfConcat("/", p); "/" + p
  }

  /** The clean-URL step only looks at the part after the last slash. */
  lemma SlashedAfterSlash(x: string, q: string)
    ensures Slashed(x + "/" + q) == x + Slashed("/" + q)
  {
    FileResourceAfterSlash(x, q);
    var a, b := x + "/" + q, "/" + q;
    assert EndsWith(a, "/") <==> EndsWith(b, "/") by {
      assert a[|a| - 1] == b[|b| - 1];
    }
    assert a == x + b;
    assert a + "/" == x + (b + "/");
  }

  /**
   * `get_canonical_url`: the empty path, `/`, `index` and `index.html` give the site
   * URL; otherwise one trailing `.html` and all leading slashes are dropped, the rest
   * is joined to the site URL, and a slash is added unless the result already ends
   * with one or names a file resource.
   */
  function CanonicalUrl(site: string, pagePath: string, join: (string, string) -> string): (r: string)
    ensures IsHomePath(pagePath) ==> r == site
    ensures !IsHomePath(pagePath) ==> EndsWith(r, "/") || IsFileResource(r)
  {
    if IsHomePath(pagePath) then site
    else
      Slashed(join(site, LStrip(DropHtml(pagePath), '/')))
  }

  /** One trailing `.html` removed (`page_path[:-5]`). */
  function DropHtml(p: string): (r: string)
    ensures EndsWith(p, ".html") ==> r + ".html" == p
    ensures !EndsWith(p, ".html") ==> r == p
  {
    if EndsWith(p, ".html") then p[..|p| - 5] else p
  }

  /** `get_relative_url`: always rooted, and ending in a slash unless it names a file
      resource. */
  function RelativeUrl(pagePath: string): (r: string)
    ensures StartsWith(r, "/")
    ensures EndsWith(r, "/") || IsFileResource(r)
    ensures pagePath == "" || pagePath == "index" || pagePath == "index.html" ==> r == "/"
  {
    if pagePath == "" || pagePath == "index" || pagePath == "index.html" then "/"
    else
      Slashed(RootedPath(DropHtml(pagePath)))
  }

  /** Any other path gives the site URL joined with the path, one `.html` and all
      leading slashes dropped, with at most a slash added. */
  lemma CanonicalUrlJoins(site: string, pagePath: string, join: (string, string) -> string)
    requires !IsHomePath(pagePath)
    ensures var joined := join(site, LStrip(DropHtml(pagePath), '/'));
            CanonicalUrl(site, pagePath, join) == joined || CanonicalUrl(site, pagePath, join) == joined + "/"
  {
  }

  /** Any path but the home ones gives the path with one `.html` dropped, rooted, with
      at most a slash added. */
  lemma RelativeUrlRoots(pagePath: string)
    requires pagePath != "" && pagePath != "index" && pagePath != "index.html"
    ensures var rooted := RootedPath(DropHtml(pagePath));
            RelativeUrl(pagePath) == rooted || RelativeUrl(pagePath) == rooted + "/"
  {
  }

  /** The paths both builders send to the site root. */
  predicate IsHomePath(p: string) {
    p == "" || p == "/" || p == "index" || p == "index.html"
  }

  /** A legacy `.html` suffix does not change the canonical URL. */
  lemma CanonicalIgnoresSuffix(site: string, p: string, join: (string, string) -> string)
    requires !IsHomePath(p) && p != "index" && !EndsWith(p, ".html")
    ensures CanonicalUrl(site, p + ".html", join) == CanonicalUrl(site, p, join)
  {
    var h := p + ".html";
    assert h[..|p|] == p;
    assert !IsHomePath(h) by {
      assert |h| >= 5;
      assert |h| == 10 ==> h[..5] == p;
    }
    assert DropHtml(h) == p;
  }

  /** A single leading slash does not change the canonical URL. */
  lemma CanonicalIgnoresRoot(site: string, p: string, join: (string, string) -> string)
    requires !IsHomePath(p)
    ensures CanonicalUrl(site, "/" + p, join) == CanonicalUrl(site, p, join)
  {
    var h := "/" + p;
    assert !IsHomePath(h) by {
      assert h[0] == '/' && |h| > 1;
      assert |h| == 5 ==> h[0] != "index"[0];
      assert |h| == 10 ==> h[0] != "index.html"[0];
    }
    assert EndsWith(h, ".html") <==> EndsWith(p, ".html") by {
      assert |p| >= 5 ==> h[|h| - 5..] == p[|p| - 5..];
      assert |p| == 4 ==> h[0] != "."[0];
    }
    assert DropHtml(h) == "/" + DropHtml(p) by {
      if EndsWith(p, ".html") {
        assert h[..|h| - 5] == "/" + p[..|p| - 5];
      }
    }
    assert LStrip("/" + DropHtml(p), '/') == LStrip(DropHtml(p), '/');
  }

  /** For a page path with at most one leading slash, rooting the path with `.html`
      dropped is the same as putting one slash before it with all slashes stripped. */
  lemma RootedOnce(p: string)
    requires !StartsWith(p, "//")
    ensures RootedPath(DropHtml(p)) == "/" + LStrip(DropHtml(p), '/')
  {
    var d := DropHtml(p);
    if |d| > 0 && d[0] == '/' {
      assert LStrip(d, '/') == LStrip(d[1..], '/') == d[1..];
      assert d == "/" + d[1..];
    } else {
      assert LStrip(d, '/') == d;
    }
  }

  /**
   * A page name such as `about-us` or `games/golf`, with no slash at either end and
   * not naming a file resource, has the relative URL `/<name>/` and, with `urljoin`
   * concatenating, the canonical URL `<site><name>/`; its legacy `.html` form gives
   * the same URLs.
   */
  lemma PlainNameUrls(site: string, n: string)
    requires EndsWith(site, "/")
    requires n != "" && n != "index" && !StartsWith(n, "/") && !EndsWith(n, "/") && !EndsWith(n, ".html")
    requires !IsFileResource("/" + n)
    ensures RelativeUrl(n) == "/" + n + "/"
    ensures CanonicalUrl(site, n, Concat) == site + n + "/"
    ensures RelativeUrl(n + ".html") == "/" + n + "/"
    ensures CanonicalUrl(site, n + ".html", Concat) == site + n + "/"
  {
    LegacyFormDrops(n);
    PlainRelative(n);
    assert RelativeUrl(n + ".html") == RelativeUrl(n);
    assert ("/" + n + "/")[1..] == n + "/";
    CanonicalMatchesRelative(site, n);
    CanonicalMatchesRelative(site, n + ".html");
  }

  /** The `.html` form of a page name is not a home path and drops back to the name. */
  lemma LegacyFormDrops(n: string)
    requires n != "" && n != "index" && !StartsWith(n, "/")
    ensures var h := n + ".html";
            !IsHomePath(h) && h != "index" && !StartsWith(h, "//") && DropHtml(h) == n
  {
    var h := n + ".html";
    assert h[..|n|] == n && h[|h| - 5..] == ".html";
    assert h != "index.html" by {
      assert |h| == 10 ==> h[..5] == n;
    }
    assert !StartsWith(h, "//") by {
      assert h[0] == n[0];
    }
  }

  /** The relative URL of a page name. */
  lemma PlainRelative(n: string)
    requires n != "" && n != "index" && !StartsWith(n, "/") && !EndsWith(n, "/") && !EndsWith(n, ".html")
    requires !IsFileResource("/" + n)
    ensures RelativeUrl(n) == "/" + n + "/"
  {
    assert n != "index.html";
    assert DropHtml(n) == n && RootedPath(n) == "/" + n;
    var u := "/" + n;
    assert !EndsWith(u, "/") by {
      assert u[|u| - 1] == n[|n| - 1];
    }
  }

  /**
   * The canonical and relative URLs of a page name the same location: with `urljoin`
   * concatenating, the canonical URL is the site URL followed by the relative URL
   * without its leading slash, for every page path with at most one leading slash.
   */
  lemma CanonicalMatchesRelative(site: string, p: string)
    requires EndsWith(site, "/")
    requires !StartsWith(p, "//")
    ensures CanonicalUrl(site, p, Concat) == site + RelativeUrl(p)[1..]
  {
    if IsHomePath(p) {
      HomeMatches(site, p);
    } else {
      PageMatches(site, p);
    }
  }

  lemma HomeMatches(site: string, p: string)
    requires IsHomePath(p)
    ensures CanonicalUrl(site, p, Concat) == site + RelativeUrl(p)[1..]
  {
    assert RelativeUrl(p) == "/" by {
      if p == "/" {
        assert DropHtml(p) == "/" && RootedPath("/") == "/";
        assert EndsWith("/", "/");
      }
    }
    assert site + "/"[1..] == site;
  }

  lemma PageMatches(site: string, p: string)
    requires EndsWith(site, "/")
    requires !StartsWith(p, "//") && !IsHomePath(p)
    ensures CanonicalUrl(site, p, Concat) == site + RelativeUrl(p)[1..]
  {
    var q := LStrip(DropHtml(p), '/');
    RootedOnce(p);
    var x := site[..|site| - 1];
    assert site == x + "/";
    assert CanonicalUrl(site, p, Concat) == Slashed(x + "/" + q);
    SlashedAfterSlash(x, q);
    assert RelativeUrl(p) == Slashed("/" + q);
    DropSlash(x, Slashed("/" + q));
  }

  lemma DropSlash(x: string, t: string)
    requires StartsWith(t, "/")
    ensures x + t == (x + "/") + t[1..]
  {
    assert t == "/" + t[1..];
  }

  /** `get_og_image_url`: absolute and protocol-relative URLs are returned unchanged;
      any other path is rooted, has `//` collapsed once and is joined to the site URL. */
  function OgImageUrl(site: string, imagePath: string, join: (string, string) -> string): (r: string)
    ensures IsExternal(imagePath) ==> r == imagePath
  {
    if IsExternal(imagePath) then imagePath
    else
      var rooted := if StartsWith(imagePath, "/") then imagePath else "/" + imagePath;
      join(site, LStrip(Replace(rooted, "//", "/"), '/'))
  }

  predicate IsExternal(p: string) {
    StartsWith(p, "http://") || StartsWith(p, "https://") || StartsWith(p, "//")
  }

  /** With `urljoin` concatenating, a site-relative image path ends up under the site
      URL and adds no more characters than it had. */
  lemma OgImageUnderSite(site: string, imagePath: string)
    requires !IsExternal(imagePath)
    ensures StartsWith(OgImageUrl(site, imagePath, Concat), site)
    ensures |OgImageUrl(site, imagePath, Concat)| <= |site| + |imagePath|
  {
    var rooted := if StartsWith(imagePath, "/") then imagePath else "/" + imagePath;
    assert |rooted| <= |imagePath| + 1;
    ReplaceShrinks(rooted, "//", "/");
    ReplaceKeepsRoot(rooted);
    var x := LStrip(Replace(rooted, "//", "/"), '/');
    assert |x| <= |imagePath|;
    assert OgImageUrl(site, imagePath, Concat) == site + x;
    assert (site + x)[..|site|] == site;
  }

  /** Collapsing `//` keeps a leading slash. */
  lemma ReplaceKeepsRoot(s: string)
    requires StartsWith(s, "/")
    ensures StartsWith(Replace(s, "//", "/"), "/")
  {
    if |s| >= 2 && s[..2] == "//" {
      assert Replace(s, "//", "/") == "/" + Replace(s[2..], "//", "/");
    } else {
      assert Replace(s, "//", "/") == [s[0]] + Replace(s[1..], "//", "/");
    }
  }

  /** The four legacy prefixes `normalize_asset_path` rewrites, and their targets. */
  predicate LegacyAsset(p: string) {
    StartsWith(p, "img/") || StartsWith(p, "/img/") || StartsWith(p, "css/") || StartsWith(p, "js/")
  }

  /** The references `normalize_asset_path` leaves alone apart from the legacy prefixes. */
  predicate KeptAsset(p: string) {
    StartsWith(p, "/") || IsExternal(p) || StartsWith(p, "data:")
  }

  /**
   * `normalize_asset_path`: `img/`, `/img/`, `css/` and `js/` move under `/assets/`;
   * any other path is rooted unless it already is, or is an external or `data:` URL.
   */
  function NormalizeAssetPath(p: string): (r: string)
    ensures StartsWith(p, "img/") ==> r == "/assets/images/" + p[4..]
    ensures StartsWith(p, "/img/") ==> r == "/assets/images/" + p[5..]
    ensures StartsWith(p, "css/") ==> r == "/assets/css/" + p[4..]
    ensures StartsWith(p, "js/") ==> r == "/assets/js/" + p[3..]
    ensures !LegacyAsset(p) && KeptAsset(p) ==> r == p
    ensures !LegacyAsset(p) && !KeptAsset(p) ==> r == "/" + p
    ensures KeptAsset(r)
  {
    if StartsWith(p, "img/") then assert p[..4][0] == 'i'; Rooted("/assets/images/", p[4..])
    else if StartsWith(p, "/img/") then assert p[..4][0] == '/'; Rooted("/assets/images/", p[5..])
    else if StartsWith(p, "css/") then assert p[..4][0] == 'c'; Rooted("/assets/css/", p[4..])
    else if StartsWith(p, "js/") then assert p[..3][0] == 'j'; Rooted("/assets/js/", p[3..])
    else if !KeptAsset(p) then Rooted("/", p)
    else p
  }

  /** A rooted prefix followed by the rest of the path. */
  function Rooted(prefix: string, rest: string): (r: string)
    requires StartsWith(prefix, "/")
    ensures r == prefix + rest && StartsWith(r, "/")
  {
    assert (prefix + rest)[..1] == prefix[..1];
    prefix + rest
  }

  /** A rooted path whose second character is not `i` has no legacy prefix. */
  lemma RootedNotLegacy(r: string)
    requires |r| >= 2 && r[0] == '/' && r[1] != 'i'
    ensures !LegacyAsset(r) && KeptAsset(r)
  {
    assert r[..1] == "/";
    assert !StartsWith(r, "img/") by { assert |r| < 4 || r[..4][0] == '/'; }
    assert !StartsWith(r, "css/") by { assert |r| < 4 || r[..4][0] == '/'; }
    assert !StartsWith(r, "js/") by { assert |r| < 3 || r[..3][0] == '/'; }
    assert !StartsWith(r, "/img/") by { assert |r| < 5 || r[..5][1] != 'i'; }
  }

  /** Normalising an asset path twice is the same as normalising it once. */
  lemma NormalizeIdempotent(p: string)
    ensures NormalizeAssetPath(NormalizeAssetPath(p)) == NormalizeAssetPath(p)
  {
    var r := NormalizeAssetPath(p);
    if LegacyAsset(p) {
      assert r[..8] == "/assets/";
      RootedNotLegacy(r);
    } else if !KeptAsset(p) {
      assert r == "/" + p;
      assert !StartsWith(r, "/img/") by {
        assert |r| < 5 || r[1..5] == p[..4];
      }
      assert !StartsWith(r, "img/") && !StartsWith(r, "css/") && !StartsWith(r, "js/") by {
        assert r[0] == '/';
        assert |r| < 3 || r[..3][0] == '/';
        assert |r| < 4 || r[..4][0] == '/';
      }
    }
  }

  /**
   * `clean_double_slashes`: when the URL holds `://`, everything up to and including
   * its first occurrence is kept and `//` is collapsed in the rest; otherwise `//` is
   * collapsed throughout.
   */
  function CleanDoubleSlashes(url: string): (r: string)
    ensures |r| <= |url|
    ensures Find(url, "://").Some? ==> StartsWith(r, url[..Find(url, "://").value + 3])
    ensures !Contains(url, "//") ==> r == url
  {
    match Find(url, "://")
    case Some(i) =>
      var rest := url[i + 3..];
      ReplaceShrinks(rest, "//", "/");
      SchemeHoldsDoubleSlash(url, i);
      PrefixOfConcat(url[..i] + "://", Replace(rest, "//", "/"));
      assert url[..i] + "://" == url[..i + 3];
      url[..i] + "://" + Replace(rest, "//", "/")
    case None =>
      ReplaceShrinks(url, "//", "/");
      CollapseAbsent(url);
      Replace(url, "//", "/")
  }

  lemma SchemeHoldsDoubleSlash(url: string, i: nat)
    requires OccursAt(url, "://", i)
    ensures Contains(url, "//")
  {
    assert url[i + 1..i + 3] == "//";
    assert OccursAt(url, "//", i + 1);
  }

  lemma CollapseAbsent(s: string)
    ensures !Contains(s, "//") ==> Replace(s, "//", "/") == s
  {
    if !Contains(s, "//") {
      ReplaceAbsent(s, "//", "/");
    }
  }

  /** When only the scheme separator holds a double slash, cleaning changes nothing. */
  lemma CleanKeepsWellFormedUrl(url: string, i: nat)
    requires Find(url, "://") == Some(i)
    requires !Contains(url[i + 3..], "//")
    ensures CleanDoubleSlashes(url) == url
  {
    ReplaceAbsent(url[i + 3..], "//", "/");
    assert url == url[..i] + "://" + url[i + 3..];
  }

  /** One `get_sitemap_url` entry; `lastmod` is the build date, passed in. */
  datatype SitemapUrl = SitemapUrl(loc: string, lastmod: string, changefreq: string, priority: string)

  /** `get_sitemap_url` with its defaults `0.5` and `monthly` supplied by the caller. */
  function SitemapEntry(site: string, pagePath: string, priority: string, changefreq: string,
                        today: string, join: (string, string) -> string): (r: SitemapUrl)
    ensures r.loc == CanonicalUrl(site, pagePath, join)
    ensures r.priority == priority && r.changefreq == changefreq && r.lastmod == today
  {
    SitemapUrl(CanonicalUrl(site, pagePath, join), today, changefreq, priority)
  }
}

=== FILE: wrappers.dfy ===
/** Option and Result types shared by every module of the model. */
module Wrappers {

  datatype Option<+T> = None | Some(value: T)
  {
    /** The carried value, or `default` when there is none (Python's `x or default`
        for values that are falsy exactly when absent). */
    function UnwrapOr(default: T): (r: T)
      ensures this.Some? ==> r == this.value
      ensures this.None? ==> r == default
    {
      match this
      case None => default
      case Some(v) => v
    }
  }

  /** The error kinds that the modelled Python code raises or reports. */
  datatype Error =
    | KeyError(key: string)
    | ValueError(reason: string)
    | OSError(path: string)
    | TypeError(reason: string)
    | AttributeError(reason: string)
    | IndexError(reason: string)

  datatype Result<+T> = Ok(value: T) | Err(error: Error)
  {
    predicate IsFailure() { Err? }
  }
}
